=== FILE: README.md ===
# Market-analysis agent core, in Dafny

This project models the decision logic at the core of a market-analysis
backend. The backend is a FastAPI service that runs families of async
"agents" over market data and folds their verdicts into one recommendation.
Only the pure logic is modelled; the network, Redis, pandas and the clock
are inputs. The logic falls into five groups:

- **Provider resilience.**
  - The per-service circuit breaker (`CircuitBreaker`).
  - The exponential-backoff retry decorators and the rate-limit classifier (`Retry`).
  - Ordered provider fallback with breaker gating (`Providers`).
- **Orchestration and scoring.**
  - The dependency-ordered category schedule, the dependency graph, the weighted composite verdict and the category retry loop (`Orchestrator`).
  - The category metadata, weights and validation (`Categories`).
  - The brain's weighted aggregation, verdict bands and smoothing window (`Brain`).
- **Validators and small state machines.**
  - The deployment-readiness validator and free-port scan (`Readiness`).
  - The component monitor (`SystemMonitor`), the metrics collector (`MetricsCollector`) and event tracking (`Tracker`).
  - The symbol validators (`Validation`) and the monitoring configuration lookups (`MonitoringConfig`).
- **Caching policy.**
  - The agent decorator (`Decorators`).
  - The Redis helpers and the data-provider cache (`CacheUtils`).
  - The agent base class (`AgentBase`) and the shared response shape (`Responses`).
- **Threshold classifiers.**
  - The stochastic oscillator (`Stochastic`), momentum (`Momentum`) and earnings surprise (`Earnings`).
  - Quantitative valuation screening (`ValuationScreen`) and the RSI helpers (`TechnicalUtils`).
  - The factor score (`FactorScore`) and the alert engine (`AlertEngine`).
  - The backtest's cash/shares machine (`Strategy`).

Numbers are Dafny `real`s: exact, with no rounding and no NaN. Some float
behaviour decides a branch in the source: NaN from a short window, an
infinite relative strength, a division by zero. Each of these is written out
as an explicit case.

A call that may raise returns `Attempt<T>`. That is either `Returned(value)`
or `Raised(message)`, carrying the message Python would give.

State the source mutates in place is passed in and returned explicitly:
histories, caches and breaker states.

Each module lives in its own file. `Common` holds the shared vocabulary.

## Model

| member | source | states |
|---|---|---|
| CircuitBreaker.CheckCircuit | backend/utils/circuit_breaker.py:17-28 | an unknown service is registered closed and allowed; a call is allowed exactly when the circuit is closed or its timeout has run out; a refusal changes nothing; a reopening closes the circuit with a zero count |
| CircuitBreaker.RecordFailure | backend/utils/circuit_breaker.py:30-39 | the count rises by exactly one, the failure time becomes now, and the circuit opens once the count reaches the threshold, otherwise keeping its old state |
| CircuitBreaker.FailuresOpenAtThreshold | backend/utils/circuit_breaker.py:5-39 | from a fresh breaker, k failures leave a count of k, the 60-second default timeout, and an open circuit exactly when k has reached the threshold |
| CircuitBreaker.OpenCircuitWaitsForTimeout | backend/utils/circuit_breaker.py:17-39 | an opened circuit refuses, unchanged, while at most `reset_timeout` seconds have passed since the last failure, then lets one check through and closes with a zero count |
| CircuitBreaker.BelowThresholdStaysClosed | backend/utils/circuit_breaker.py:17-39 | below the threshold every check goes through and leaves the count as it was |
| Retry.RunFrom | backend/utils/retry_utils.py:41-72 | from a state with some failures: at least one more run and no more than the budget allows, the outcome is the last run's, every earlier run raised a retryable error, and each retry is announced with its number and preceded by its sleep |
| Retry.Run | backend/utils/retry_utils.py:11-76 | between 1 and max_retries + 1 runs; a success is returned at once; a non-retryable error or the error of run max_retries + 1 is re-raised; `on_retry` gets 1, 2, … and each sleep is the capped (jittered) current delay (also lines 78-144) |
| Retry.FirstSuccessReturned | backend/utils/retry_utils.py:41-50 | the first success within the budget is what the call returns, after exactly that many runs |
| Retry.AllFailuresExhaustBudget | backend/utils/retry_utils.py:45-50 | when every run fails retryably, the function runs max_retries + 1 times, the last error is re-raised and `on_retry` sees 1 … max_retries |
| Retry.DelayClosedForm | backend/utils/retry_utils.py:39-72 | capped, the delay after n failures equals the cap applied to base_delay · factor^n when the factor is at least 1 |
| Retry.NoJitterSchedule | backend/utils/retry_utils.py:57-72 | without jitter the sleep before retry k is min(max_delay, base_delay · factor^(k-1)) |
| Retry.NoJitterNonDecreasing | backend/utils/retry_utils.py:57-72 | without jitter and with factor at least 1 the sleeps never shrink and never exceed max_delay |
| Retry.DelayNonNegative | backend/utils/retry_utils.py:39-72 | the delay stays non-negative when the base, cap and factor are |
| Retry.JitterBounds | backend/utils/retry_utils.py:53-56 | with a jitter factor in [0.8, 1.2] each sleep lies in [0, max_delay] and between the capped 0.8 and 1.2 multiples of the current delay |
| Retry.ContainsFrom | backend/utils/retry_utils.py:169 | true exactly when the indicator occurs at or after the given position |
| Retry.Contains | backend/utils/retry_utils.py:169-173 | true exactly when the indicator is a substring of the message |
| Retry.IsRateLimitError | backend/utils/retry_utils.py:146-176 | true exactly when the lower-cased message contains one of the six indicators; the separate 429 test never changes the answer |
| Providers.ProviderOrderComplete | backend/data/providers/unified_provider.py:29-52 | the fallback order lists each of the five providers exactly once, and each provider's breaker has a positive threshold (5 for the web scraper, 3 otherwise) and recovery timeout (600 s or 300 s) |
| Providers.ExecuteWithMonitoring | backend/data/providers/unified_provider.py:54-77 | a breaker that is not closed refuses with "`<provider>` circuit breaker is open" and neither runs the operation nor records anything; otherwise the operation's outcome passes through with exactly one bookkeeping call, a success exactly after a success |
| Providers.Present | backend/data/providers/unified_provider.py:85-87 | the providers kept are exactly those of the order that have an operation |
| Providers.Walk | backend/data/providers/unified_provider.py:85-99 | only providers with an operation are tried; on success the last one tried answered, with its value; one error per failed provider, each for a provider that did not succeed |
| Providers.FetchWithFallback | backend/data/providers/unified_provider.py:79-103 | returns exactly when the loop found a value, that value; otherwise "All providers failed for `<operation>`: " followed by the errors joined with ", " |
| Providers.WalkTriesPresentInOrder | backend/data/providers/unified_provider.py:85-99 | the providers tried are a prefix of those with an operation, in the fixed order, and all of them when none answers |
| Providers.WalkErrorEntries | backend/data/providers/unified_provider.py:97-98 | each error entry reads "`<provider>`: `<message>`" for the provider tried at that position, with the breaker refusal or the operation's own error |
| Providers.LogMatchesCons | backend/data/providers/unified_provider.py:61-77 | one more provider tried in front adds its bookkeeping call in front, and only when its breaker is closed |
| Providers.WalkBreakerLog | backend/data/providers/unified_provider.py:61-99 | the breaker is called once per provider tried with a closed breaker, in order, matching its outcome |
| Providers.WalkFindsFirstSuccess | backend/data/providers/unified_provider.py:85-99 | a value is found exactly when some provider in the order succeeds, and it is the first such provider's value |
| Providers.AllFailErrorsFollowOrder | backend/data/providers/unified_provider.py:97-103 | when every provider fails, every provider with an operation is tried and contributes one error, in the fixed order |
| Providers.GetProvider | backend/data/providers/base_provider.py:98-129 | finds the four registered providers by name and raises "Provider `<name>` not found. Available providers: [...]" for anything else |
| Providers.GetProviderByName | backend/data/providers/base_provider.py:117-129 | each registered provider is found under its own name; the web scraper is not registered |
| Providers.FallbackLoop | backend/data/providers/base_provider.py:154-165 | the fallbacks are tried in their configured order, stopping at the first success; all are tried on failure, and each failure leaves "`<name>`: `<message>`" in order |
| Providers.ExecuteWithFallback | backend/data/providers/base_provider.py:131-170 | a primary success is returned without touching any fallback; otherwise the fallbacks are tried in order and, if all fail, the message aggregates only their errors |
| Providers.PrimaryErrorNotReported | backend/data/providers/base_provider.py:150-170 | with no fallback configured a failing primary gives a message with an empty error list: its own error is logged, never reported |
| Providers.ExecuteWithResilience | backend/data/providers/base_provider.py:172-221 | a breaker that refuses raises "Circuit breaker open for `<name>`" before any run; otherwise it runs exactly as many times as the retry loop: every run before the last failed, the last gave the outcome, which is returned or re-raised, and a final failure means all max_retries + 1 runs were spent; there is one bookkeeping call per run, matching that run's outcome |
| Providers.ResilienceRecordsOneSuccess | backend/data/providers/base_provider.py:201-215 | a success is recorded exactly once, as the last bookkeeping call, and only when the call as a whole succeeds |
| Orchestrator.Visit | backend/core/orchestrator.py:145-151 | a visit only grows the visited set and only appends to the order |
| Orchestrator.VisitAll | backend/core/orchestrator.py:149-154 | a loop of visits only grows the visited set and only appends to the order |
| Orchestrator.ExecutionOrder | backend/core/orchestrator.py:140-155 | the order lists no category twice and contains every requested category |
| Orchestrator.VisitExtends | backend/core/orchestrator.py:145-151 | a visit appends each newly visited name exactly once, only names reached from its root, and visits all their dependencies |
| Orchestrator.VisitAllExtends | backend/core/orchestrator.py:149-154 | a loop of visits appends each newly visited name exactly once, only names reached from the roots, with all their dependencies visited |
| Orchestrator.ExecutionOrderContents | backend/core/orchestrator.py:140-155 | no repeats, every requested category present, closed under dependencies, and nothing that is neither requested nor a dependency of something listed |
| Orchestrator.VisitOrdersDependencies | backend/core/orchestrator.py:145-151 | on a ranked (acyclic) graph a visit keeps every dependency ahead of its dependent |
| Orchestrator.VisitAllOrdersDependencies | backend/core/orchestrator.py:149-154 | on a ranked graph a loop of visits keeps every dependency ahead of its dependent |
| Orchestrator.ExecutionOrderRespectsDependencies | backend/core/orchestrator.py:140-155 | with an acyclic graph every dependency is scheduled before its dependent |
| Orchestrator.EmptyGraphKeepsRequestOrder | backend/core/orchestrator.py:140-155 | with no dependency graph (the state after a failed `initialize`) the order is the request with repeats removed, each at its first position |
| Orchestrator.FirstOccurrences | backend/core/orchestrator.py:146-148 | no repeats, only unseen requested names, and every unseen requested name |
| Orchestrator.ResolvedFromNames | backend/core/orchestrator.py:163-176 | every resolved value is the value of one of the dependency names, and there are no more values than names |
| Orchestrator.ResolveName | backend/core/orchestrator.py:165-176 | a name yields one value exactly when it is an enum member name, and that member's value |
| Orchestrator.UnknownNameDropped | backend/core/orchestrator.py:170-176 | a name that is no enum member is dropped and leaves the rest as it was |
| Orchestrator.ResolveConcat | backend/core/orchestrator.py:170-176 | each dependency name is resolved on its own: resolving two lists one after the other gives the two resolutions one after the other |
| Orchestrator.KnownNamesResolve | backend/core/orchestrator.py:164-169 | names that all resolve map one for one, in order, onto their members' values |
| Orchestrator.DependencyValues | backend/core/orchestrator.py:162-179 | raises exactly for the members without metadata |
| Orchestrator.GraphOver | backend/core/orchestrator.py:157-180 | raises exactly when some member walked has no metadata |
| Orchestrator.BuildDependencyGraphAsWritten | backend/core/orchestrator.py:157-180 | as written, building the graph over all eleven members always raises |
| Orchestrator.BuildDependencyGraph | backend/core/orchestrator.py:157-180 | the corrected graph maps every enum value to its resolved dependency values and has no other keys |
| Orchestrator.ValuesDistinct | backend/core/orchestrator.py:160-179 | enum values are one-to-one, so no category overwrites another's graph entry |
| Orchestrator.DependencyGraphRanked | backend/core/orchestrator.py:157-180 | the corrected graph is acyclic: each dependency ranks strictly below its dependent |
| Orchestrator.CategoryScores | backend/core/orchestrator.py:226-231 | each score is the confidence of some agent without an error; none exactly when no such agent has a confidence |
| Orchestrator.Contributions | backend/core/orchestrator.py:219-244 | nothing contributes exactly when every category is skipped, and every contribution has a positive weight |
| Orchestrator.Band | backend/core/orchestrator.py:253-261 | STRONG_BUY above 0.7, BUY in (0.5, 0.7], HOLD in (0.3, 0.5], SELL at or below 0.3, each exactly on its band |
| Orchestrator.BandMonotone | backend/core/orchestrator.py:253-261 | a higher composite never gives a lower band |
| Orchestrator.GenerateCompositeVerdict | backend/core/orchestrator.py:211-278 | a failed weight lookup gives the ERROR verdict with its message; INSUFFICIENT_DATA exactly when nothing contributes; otherwise the band of the composite, with the contributions listed |
| Orchestrator.WeightedSumBounds | backend/core/orchestrator.py:251 | scores in [lo, hi] under non-negative weights bound the weighted sum by lo and hi times the total weight |
| Orchestrator.ContributionScoresBounded | backend/core/orchestrator.py:233-239 | a contributing category's score is the mean of its agents' confidences, so it stays within their bounds |
| Orchestrator.ScoredIsWeightedMean | backend/core/orchestrator.py:246-251 | a scored verdict has positive total weight and its confidence is the weighted mean of the contributing scores |
| Orchestrator.CompositeWithinBounds | backend/core/orchestrator.py:219-251 | when every agent confidence lies in [lo, hi] so does the composite |
| Orchestrator.FailedCategoryIgnored | backend/core/orchestrator.py:221-223 | a category that failed outright, with an error and no results, changes nothing when removed |
| Orchestrator.ContributionOf | backend/core/orchestrator.py:221-244 | one category adds one contribution, of positive weight, exactly when it has results or no error, some scores and a positive weight; otherwise nothing |
| Orchestrator.ContributionsConcat | backend/core/orchestrator.py:219-244 | each category is scored on its own: the contributions of two result lists one after the other are the two lists' contributions one after the other |
| Orchestrator.GenerateCompositeVerdictAsWritten | backend/core/orchestrator.py:213-275 | as written, every call ends in the ERROR verdict because `get_category_weights` does not exist |
| Orchestrator.CategoryWeights | backend/core/orchestrator.py:214-236 | the intended weight table maps each metadata category's value to its weight and has no entry for the other two |
| Orchestrator.CompositeVerdictCorrected | backend/core/orchestrator.py:211-270 | with the intended weights the verdict is never ERROR, and INSUFFICIENT_DATA exactly when no category contributes |
| Orchestrator.UnweightedCategoriesExcluded | backend/core/orchestrator.py:236-242 | STEALTH and AUTOMATION never contribute under the intended weights |
| Orchestrator.RetryFrom | backend/core/orchestrator.py:125-138 | from a given iteration on: at most the remaining budget of calls, all but the last failed, a failure only when the budget is spent, and sleeps of attempt + 1 seconds between calls |
| Orchestrator.ExecuteCategoryWithRetry | backend/core/orchestrator.py:121-138 | no call at all for a non-positive budget; otherwise at most max_retries calls, the first success returned at once, the last error re-raised, and the k-th sleep lasting k + 1 seconds |
| Orchestrator.RetryStopsAtFirstSuccess | backend/core/orchestrator.py:125-130 | the first successful call within the budget decides the run and ends it |
| Orchestrator.RetryTotalSleep | backend/core/orchestrator.py:136 | a run of a calls sleeps a(a - 1)/2 seconds in total |
| Orchestrator.DefaultCategories | backend/core/orchestrator.py:207-209 | every enum value, once each, in definition order |
| Categories.FromName | backend/agents/categories.py:8-19 | a member found by name carries that name |
| Categories.FromValue | backend/agents/categories.py:8-19 | a member found by value carries that value |
| Categories.NameAndValueRoundTrip | backend/agents/categories.py:8-19 | every member is found again by its own name and by its own value |
| Categories.RoundTripAll | backend/agents/categories.py:8-19 | names and values are each one-to-one over all eleven members |
| Categories.AllCategoriesComplete | backend/agents/categories.py:8-19 | the enum iteration order lists every member |
| Categories.MetadataOf | backend/agents/categories.py:32-91 | the metadata lookup raises `KeyError` exactly for STEALTH and AUTOMATION, with Python's message |
| Categories.GetCategoryWeight | backend/agents/categories.py:225-227 | raises exactly for the two members without metadata; every other weight lies in (0, 0.25] |
| Categories.GetDependencies | backend/agents/categories.py:233-235 | raises exactly for the two members without metadata; every returned name is an enum member name |
| Categories.DependencyNamesResolve | backend/agents/categories.py:54-89 | every dependency name in the metadata resolves to an enum member |
| Categories.MetadataCategoriesComplete | backend/agents/categories.py:32-91 | the nine listed members are exactly those with metadata |
| Categories.MetadataWeightsSumToOne | backend/agents/categories.py:32-91 | the nine metadata weights sum to exactly 1.0 |
| Categories.DependenciesRankBelow | backend/agents/categories.py:54-89 | each dependency ranks strictly below its dependent, so the metadata dependency graph has no cycle |
| Categories.RequiredAmong | backend/agents/categories.py:231 | the comprehension raises exactly when some member of the list has no metadata; otherwise it keeps exactly the listed members flagged required |
| Categories.GetRequiredCategories | backend/agents/categories.py:229-231 | as written, the comprehension over every enum member always raises |
| Categories.GetRequiredCategoriesRaises | backend/agents/categories.py:229-231 | the error is the `KeyError` for STEALTH, the first member without metadata |
| Categories.RequiredCategories | backend/agents/categories.py:229-231 | the corrected comprehension returns a member exactly when it has metadata flagged required |
| Categories.RequiredAreTheFour | backend/agents/categories.py:33-66 | the required members are exactly VALUATION, TECHNICAL, MARKET and RISK |
| Categories.RequiredAmongIsFilter | backend/agents/categories.py:231 | over members that all have metadata, the comprehension's loop equals the filter on the required flag |
| Categories.ValidateCategoryResult | backend/agents/categories.py:210-223 | no results is invalid before any lookup; otherwise it raises exactly for members without metadata, and a required category needs at least half of its registered agents |
| Categories.RequiredThresholds | backend/agents/categories.py:94-138 | the bars are 7 of 13 valuation, 5 of 10 technical, 3 of 5 market and 2 of 4 risk agents, with one fewer rejected (also lines 218-222) |
| Categories.GetCategoryAgents | backend/agents/categories.py:179-192 | every module that has a `run` contributes it, nothing else is included, and no more entries than modules |
| Categories.ExecuteCategoryAsWritten | backend/agents/categories.py:194-208 | as written, it raises `NameError` exactly when some agent raises; otherwise it agrees with the intended result |
| Categories.ExecuteCategory | backend/agents/categories.py:194-208 | the intended result keeps exactly the truthy results of agents that returned, and only those |
| Categories.ExecuteCategoryInOrder | backend/agents/categories.py:199-208 | the intended result has one entry per agent that returned a truthy result, in registry order: the value of the agent at index i sits at the position counting the kept agents before it |
| Categories.ExecuteCategoryIgnoresFailures | backend/agents/categories.py:202-207 | dropping a failing agent from the list changes nothing in the intended result |
| Brain.WeightOf | backend/brain.py:50 | an unlisted category weighs 0.0; a listed one weighs exactly its table entry |
| Brain.WeightTablesSumToOne | backend/brain.py:6-23 | both regime tables list the same seven categories and each sums to exactly 1.0 |
| Brain.Divisor | backend/brain.py:37 | the divisor is the confidence total exactly when that total is positive, and 1.0 otherwise |
| Brain.CategoryScore | backend/brain.py:34-39 | for numeric results, the category score times a positive confidence total gives the score-confidence product sum; with a total that is not positive it is the product sum itself |
| Brain.ProductSumBounds | backend/brain.py:35-38 | with non-negative confidences and scores in [lo, hi], the score-confidence product sum lies between lo and hi times the confidence total |
| Brain.CategoryScoreIsWeightedMean | backend/brain.py:34-39 | a category score with positive confidence total lies between the lowest and highest agent score (it is a confidence-weighted mean) |
| Brain.ZeroConfidenceScoresZero | backend/brain.py:36-38 | when every confidence is zero or missing the divisor falls back to 1.0 and the category scores 0 |
| Brain.AgentsOf | backend/brain.py:42 | an absent category reads as the empty list; a present category reads as the agent list of its first entry |
| Brain.VolatilityReading | backend/brain.py:42-43 | there is a reading exactly when some risk agent is named `volatility_agent`, and the reading is the value of the first such agent (`vol_list[0]`) |
| Brain.RegimeWeights | backend/brain.py:41-47 | the high-volatility table is chosen exactly when a volatility value is present and exceeds the threshold; otherwise the low-volatility table |
| Brain.FinalScore | backend/brain.py:50 | categories the table does not list add nothing, and a single category contributes its table weight times its score |
| Brain.FinalScoreConcat | backend/brain.py:50 | the final score is additive: the score of two groups of categories together is the sum of their scores |
| Brain.UnweightedCategoryIgnored | backend/brain.py:50 | inserting a category the weight table does not list leaves the final score unchanged |
| Brain.MarketAndIntelligenceIgnored | backend/brain.py:6-50 | market and intelligence results never move the final score under either regime |
| Brain.Push | backend/brain.py:25-53 | the window grows by one until it holds `window` values and then keeps exactly the most recent ones |
| Brain.AggregateScores | backend/brain.py:27-56 | an explicit `None` score or confidence raises TypeError before the window changes; otherwise the final weighted score is pushed onto the bounded window (`Push`), the result is the mean of the new window, and an empty window (`maxlen` 0) raises the division by zero |
| Brain.AggregateKeepsRecentFinals | backend/brain.py:25-54 | a call on a window holding the last `window` final scores leaves the last `window` final scores including its own |
| Brain.PushKeepsRecent | backend/brain.py:25-53 | pushing onto the last `window` values gives the last `window` values of the extended stream |
| Brain.ReplayIsRecentFinals | backend/brain.py:25-53 | after any sequence of calls the window holds exactly the last `window` final scores |
| Brain.SmoothedWithinWindow | backend/brain.py:53-54 | for numeric results, the smoothed score lies between the smallest and largest final score in the window |
| Brain.MakeVerdict | backend/brain.py:58-70 | each verdict holds exactly on its score band: >= 0.7, [0.5, 0.7), [0.3, 0.5), [0.1, 0.3), below 0.1 |
| Brain.MakeVerdictMonotone | backend/brain.py:58-70 | a higher score never gives a lower verdict |
| Readiness.FindCategory | app.py:96 | finds the first category with the name, or reports that none has it |
| Readiness.AddCheck | app.py:95-101 | a new name opens a category at the end holding just this check; an existing name gets the check appended to its first category, with nothing else changed |
| Readiness.ChecksOfAbsent | app.py:95-101 | a category no check named is left with no checks |
| Readiness.GroupedNew | app.py:97-100 | a check under a new category opens that category and keeps the grouping of the earlier checks |
| Readiness.GroupedExisting | app.py:96-100 | a check under an existing category extends that category's checks and keeps the grouping |
| Readiness.FoldGroupsChecks | app.py:95-176 | over any run of checks, each category is opened once and holds exactly the checks recorded under its name, in call order |
| Readiness.RecommendationPerFailure | app.py:107-172 | exactly one recommendation per failed check that carries one, in call order |
| Readiness.FoldOutcome | app.py:92 | `all_passed` ends true exactly when every blocking check passed, and the recommendations are those of the failed checks (also lines 107-176) |
| Readiness.Finalize | app.py:179-180 | each category passes exactly when all of its checks passed; names and checks are kept |
| Readiness.AllPassed | app.py:180 | true exactly when every check passed |
| Readiness.PerformReadinessValidation | app.py:82-186 | with the thresholds readable (the corrected half): ready exactly when every blocking check passed; the recommendations are those of the failed checks; each category holds exactly its checks, in order, and passes exactly when they all passed |
| Readiness.PerformReadinessValidationAsWritten | app.py:72-158 | as written the validator raises AttributeError exactly when some check compares a metric with a `THRESHOLD_*` class attribute, naming the first such attribute read; otherwise it returns the corrected report |
| Readiness.AsWrittenRaisesOnLatency | app.py:105-108 | an average latency of 500 ms alone makes the validator raise, where the corrected one records a passing "Avg Latency" check |
| Readiness.FinalizeKeepsGrouping | app.py:179-180 | the final loop changes only the pass flags, so the grouping survives it |
| Readiness.MissingGroupBlocks | app.py:115-176 | a missing metrics group records a failing "available" check and readiness is lost |
| Readiness.BlockingPassAppend | app.py:92 | the blocking checks of two runs all pass exactly when those of each run do (also lines 108-176) |
| Readiness.OperationalBlockingIgnoresAuth | app.py:141-143 | the blocking outcome of the operational group does not depend on the auth-failure count |
| Readiness.EveryFailureAccounted | app.py:107-176 | every failed blocking check either appends a recommendation or is a missing-group placeholder |
| Readiness.AuthFailuresNeverBlock | app.py:141-143 | changing the auth-failure count never changes readiness: the check is informational |
| Readiness.EffectiveStart | app.py:275-277 | the start port is always in [1024, 65535], and an in-range request is kept |
| Readiness.FindFreePort | app.py:273-284 | returns the first port not in use in [start, min(start + attempts, 65536)), and none exactly when every port there is in use |
| SystemMonitor.NewMonitor | backend/utils/system_monitor.py:7-37 | a new monitor has no components and its two status copies agree |
| SystemMonitor.RegisterComponent | backend/utils/system_monitor.py:12-16 | the name joins the components; a new name starts "initializing" in both copies; a known name leaves the monitor unchanged; no other entry changes |
| SystemMonitor.UpdateComponentStatus | backend/utils/system_monitor.py:20-29 | an unregistered name changes nothing; a registered one gets the status and the update time in both copies; no other entry changes and no name is added |
| SystemMonitor.IsReady | backend/utils/system_monitor.py:39-47 | ready exactly when every registered component is "healthy", reporting each component's status |
| SystemMonitor.RunKeepsSynced | backend/utils/system_monitor.py:12-29 | any series of registrations and updates keeps the two status copies equal, and the names are the initial ones plus those registered |
| SystemMonitor.EmptyMonitorReady | backend/utils/system_monitor.py:41-43 | with nothing registered the monitor is ready |
| SystemMonitor.RegisterIdempotent | backend/utils/system_monitor.py:14 | registering a name twice is the same as registering it once; the second call keeps the first time stamp |
| SystemMonitor.NewComponentNotReady | backend/utils/system_monitor.py:15-43 | a newly registered component keeps the monitor from being ready, and reporting it healthy restores readiness |
| MetricsCollector.RecordCategoryExecution | backend/utils/metrics_collector.py:16-28 | the category's count rises by one and its errors by one exactly on an error; other categories, response times and cache counters are unchanged |
| MetricsCollector.Sizes | backend/utils/metrics_collector.py:28 | one recorded size per execution |
| MetricsCollector.StatsSummarizeExecutions | backend/utils/metrics_collector.py:16-28 | from a category's first execution on, `count` is the number of executions, `errors` the number with an error, and `avg_size` the arithmetic mean of all result sizes |
| MetricsCollector.RecordResponseTime | backend/utils/metrics_collector.py:30-33 | the window never exceeds 1000 samples, ends with the new sample, and nothing else changes |
| MetricsCollector.ResponseTimesKeepRecent | backend/utils/metrics_collector.py:30-33 | after any series of samples the window is exactly the last 1000 ever recorded, oldest first |
| MetricsCollector.RecordCacheEvent | backend/utils/metrics_collector.py:35-39 | exactly one of the two counters rises by one, the hit counter exactly on a hit |
| MetricsCollector.CacheHitRatio | backend/utils/metrics_collector.py:46 | the ratio lies in [0, 1], is 0 with no events or no hits, and is 1 exactly when there are hits and no misses |
| MetricsCollector.CacheEventMovesRatio | backend/utils/metrics_collector.py:35-46 | a hit never lowers the ratio and a miss never raises it |
| MetricsCollector.AvgResponseTime | backend/utils/metrics_collector.py:44 | 0 for an empty window, otherwise the value whose product with the window size is the window's sum |
| MetricsCollector.AvgResponseTimeWithin | backend/utils/metrics_collector.py:44 | the average lies within any bounds of the samples in the window |
| Tracker.NewEvent | backend/monitor/tracker.py:84-101 | a missing or zero start time is replaced by the clock; a new event has no end time or duration and status "success" |
| Tracker.AddToEventHistory | backend/monitor/tracker.py:179-186 | the event ends the history, which never exceeds 1000 entries and is only trimmed once full |
| Tracker.Complete | backend/monitor/tracker.py:103-161 | an unfinished event gets the end time and its duration, a finished one keeps both; the status is replaced, the extra metadata overrides and extends the old, and the event is appended to the history |
| Tracker.CompleteTwiceKeepsTiming | backend/monitor/tracker.py:105-107 | completing an event again never changes its end time or duration |
| Tracker.HistoryKeepsRecent | backend/monitor/tracker.py:179-186 | the history always holds the last 1000 events ever recorded, oldest first |
| Tracker.Insert | backend/monitor/tracker.py:285 | inserting into a newest-first list keeps it newest first and adds exactly the one event |
| Tracker.SortNewestFirst | backend/monitor/tracker.py:285 | the events sorted newest first are a permutation of the input |
| Tracker.Filtered | backend/monitor/tracker.py:276-282 | exactly the events of the history matching each filter that is given and non-empty |
| Tracker.GetEventHistory | backend/monitor/tracker.py:270-288 | only matching history events, newest first, each at most as often as it matches; exactly min(limit, matches) of them for a non-negative limit, and for a negative limit that many fewer than the matches (Python slicing); no match left out is newer than one returned |
| Tracker.GetEventHistoryComplete | backend/monitor/tracker.py:276-288 | with a limit of at least the history's size every matching event is returned |
| Tracker.IncrementActiveUsers | backend/monitor/tracker.py:325-327 | the gauge goes up by one |
| Tracker.DecrementActiveUsers | backend/monitor/tracker.py:330-334 | a positive gauge goes down by one, any other is left alone, so it never turns negative |
| Tracker.ActiveUsersNeverNegative | backend/monitor/tracker.py:325-334 | from a non-negative count no series of increments and decrements goes below zero |
| Validation.StripLeft | backend/utils/validation.py:33 | removes exactly the leading whitespace: a suffix of the input that starts with a non-space, preceded only by whitespace |
| Validation.StripRight | backend/utils/validation.py:33 | removes exactly the trailing whitespace: a prefix of the input that ends with a non-space, followed only by whitespace |
| Validation.StripEmptyIffBlank | backend/utils/validation.py:33 | `symbol.strip()` is empty exactly when the symbol is all whitespace (or empty) |
| Validation.ValidateSymbols | backend/utils/validation.py:31-36 | no error exactly when every symbol is a non-blank string and none repeats; the non-empty-strings error exactly when some symbol is not a non-blank string, checked before uniqueness |
| Validation.BlankSymbolRejected | backend/utils/validation.py:33-34 | a whitespace-only symbol is refused with the non-empty-strings error, whatever the other symbols are |
| Validation.ValidateInput | backend/utils/validation.py:6-28 | the call goes through exactly when the symbols argument is a list with between min and max entries; "Symbols must be a list" exactly when it is missing or not a list |
| Validation.SymbolsArg | backend/utils/validation.py:13 | the second positional argument when there are two or more, else the `symbols` keyword if given |
| Validation.PositionalWins | backend/utils/validation.py:13 | with a positional symbol list the keyword arguments never change the outcome |
| MonitoringConfig.GetMetricThreshold | backend/monitoring/config.py:13-56 | a configured metric gets its configured threshold, any other gets 0.0, and no threshold is negative |
| MonitoringConfig.TierFrom | backend/monitoring/config.py:64-66 | "unknown" exactly when no tier from the given position on lists the provider; otherwise a tier that lists it |
| MonitoringConfig.GetProviderTier | backend/monitoring/config.py:62-67 | "unknown" exactly when no tier lists the provider; otherwise the name of a tier that lists it |
| MonitoringConfig.IsPrimaryProvider | backend/monitoring/config.py:58-60 | a provider is primary exactly when it is alpha_vantage or polygon |
| MonitoringConfig.TiersDisjoint | backend/monitoring/config.py:19-23 | no provider sits in two tiers, so the tier lookup is unambiguous |
| MonitoringConfig.PrimaryIffPrimaryTier | backend/monitoring/config.py:58-67 | a provider is primary exactly when its tier is "primary" |
| MonitoringConfig.FallbackOrderFollowsTiers | backend/monitoring/config.py:19-67 | every provider of the unified fallback order has a tier, and the tiers never improve along that order |
| MonitoringConfig.ShouldAlert | backend/monitoring/config.py:24-74 | an alert fires exactly when it is configured and the value reaches its threshold |
| MonitoringConfig.GetAlertChannels | backend/monitoring/config.py:24-80 | an unknown alert has no channels; a configured one has its configured channels, which always include slack |
| MonitoringConfig.FiringAlertHasChannel | backend/monitoring/config.py:69-80 | an alert that fires always has at least one channel to go to |
| Decorators.TrackerStatus | backend/agents/decorators.py:83-87 | `success` exactly for a cacheable verdict, `no_data` exactly for NO_DATA, `error` for everything else |
| Decorators.ReportedSymbol | backend/agents/decorators.py:89-99 | the tracker symbol is the argument when the result has no `symbol` key; otherwise the tracker is told exactly when that entry is a non-empty string, and then it is that string |
| Decorators.Failure | backend/agents/decorators.py:110-139 | the error response carries the symbol and the message, nothing is cached, and the tracker is told `error` exactly when the symbol is non-empty |
| Decorators.StandardAgentExecution | backend/agents/decorators.py:25-170 | no symbol gives the None-symbol error response without running; a decodable hit is returned as is; a failed read or a raising agent gives the error response; a None result passes through with no side effect; only cacheable results are written under `"agent_name:symbol"` |
| Decorators.CachedIffTrackedSuccess | backend/agents/decorators.py:69-96 | a fresh result is cached exactly when the tracker is told it succeeded |
| Decorators.CachedResultServedLater | backend/agents/decorators.py:47-73 | what one call caches is returned by a later call for the same symbol without running the agent |
| Decorators.ErrorsNeverCached | backend/agents/decorators.py:71-121 | error responses are never cacheable |
| CacheUtils.GetCache | backend/utils/cache_utils.py:29-40 | a miss without a client, on a read error, or for an absent or empty entry; otherwise the decoded value, or the raw text when it does not decode |
| CacheUtils.SetCache | backend/utils/cache_utils.py:42-48 | without a client nothing changes; otherwise only `key` is written, with JSON for dicts and lists and `str()` for the rest |
| CacheUtils.ContainerRoundTrip | backend/utils/cache_utils.py:35-45 | a stored dict or list reads back as itself |
| CacheUtils.EmptyStringReadsAsMiss | backend/utils/cache_utils.py:33-45 | a stored empty string reads back as a miss, not as the empty string |
| CacheUtils.KeywordParts | backend/utils/cache_utils.py:54 | one `k=v` part per keyword argument, in call order |
| CacheUtils.ProviderCacheKey | backend/utils/cache_utils.py:54-55 | the key starts with `data_provider:` and the function name, and is exactly that without arguments |
| CacheUtils.CacheDataProvider | backend/utils/cache_utils.py:53-63 | a cached non-None value is returned without running the function; otherwise the function's outcome is returned and a non-None result is written under the key |
| CacheUtils.SecondCallHitsCache | backend/utils/cache_utils.py:53-63 | after a call returns a dict or list, the same call is answered from the cache and the function does not run again |
| CacheUtils.NoneNeverCached | backend/utils/cache_utils.py:61-62 | a `None` result leaves the cache untouched |
| CacheUtils.NoClientAlwaysCalls | backend/utils/cache_utils.py:29-63 | without a client every call runs the function and nothing is cached |
| AgentBase.UpdateLatency | backend/agents/base/__init__.py:81-84 | the new average times the call count equals the old average over the previous calls plus the new latency; counters untouched |
| AgentBase.Execute | backend/agents/base/__init__.py:18-63 | with the cache assigned (the corrected half): a cache hit is returned without running `_execute`; a failed cache read or a raising `_execute` counts one error and gives the error response; undecodable or missing entries run the agent; only non-empty results whose verdict is not ERROR/NO_DATA/None are written, under `"ClassName:symbol"` |
| AgentBase.ExecuteAsWritten | backend/agents/base/__init__.py:11-25 | as written `execute` raises AttributeError for the missing `initialize` exactly when `cache` is still `None`, before anything is counted; with `cache` assigned it is the corrected template method |
| AgentBase.FreshAgentNeverCounts | backend/agents/base/__init__.py:11-25 | as written every call on a freshly constructed agent raises and its metrics stay at zero, while the corrected template method counts every call |
| AgentBase.CacheSetAgrees | backend/agents/base/__init__.py:18-63 | with `cache` assigned from outside, any series of calls leaves the same metrics as the corrected template method |
| AgentBase.ValidateResult | backend/agents/base/__init__.py:106-109 | a result passes exactly when the keys symbol, verdict, confidence and value are all present, whatever their values |
| AgentBase.Next | backend/agents/base/__init__.py:25-84 | one more execution adds one call, at most one error, and folds the latency into the running average |
| AgentBase.MetricsSummarizeCalls | backend/agents/base/__init__.py:16-84 | from fresh metrics, `calls` is the number of executions, `errors` never exceeds it, and `avg_latency` is the arithmetic mean of all recorded latencies |
| AgentBase.RegimeMultiplier | backend/agents/base/__init__.py:124-125 | the multiplier lies in [0.7, 1.2] and is 1.0 for every regime other than BULL, BEAR, VOLATILE |
| AgentBase.AdjustForMarketRegime | backend/agents/base/__init__.py:122-125 | the adjusted score stays between 0.7 and 1.2 times the score |
| AgentBase.RegimeDirection | backend/agents/base/__init__.py:124-125 | a positive score rises exactly under BULL and falls exactly under BEAR or VOLATILE |
| AgentBase.ErrorResponsesValid | backend/agents/base/__init__.py:70-109 | every error response the base class builds passes its own `validate_result` check |
| Responses.ErrorResponse | backend/agents/decorators.py:144-152 | an error response has verdict ERROR, confidence 0.0, no value, the error message, the agent's name and the caller's symbol |
| Responses.SymbolKey | backend/agents/decorators.py:39 | the key is the owner, one colon, then the symbol, and both parts can be read back from it |
| Responses.SymbolKeyInjective | backend/agents/decorators.py:39 | distinct symbols of the same owner never share a cache key |
| Stochastic.Thresholds | backend/agents/technical/stochastic_oscillator_agent.py:147-176 | the bands always lie in [5, 40] and [60, 95] with oversold below overbought; at factor 1.0 overbought stays 80 and oversold is 25, 15 or 20 for BULL, BEAR or other regimes |
| Stochastic.VolatilityWidensBands | backend/agents/technical/stochastic_oscillator_agent.py:164-173 | above factor 1.0 a higher volatility never raises the oversold band nor lowers the overbought one |
| Stochastic.RegimeIgnoredUnderVolatility | backend/agents/technical/stochastic_oscillator_agent.py:152-169 | away from factor 1.0 the volatility formula overwrites the regime's shift, so the regime does not move the bands |
| Stochastic.Crossover | backend/agents/technical/stochastic_oscillator_agent.py:179-210 | a bullish cross yields a BUY or bullish HOLD verdict with strength in [0.55, 1], a bearish cross a SELL or bearish HOLD with strength in [0, 0.45], no cross HOLD_NEUTRAL at 0.5; the oversold and overbought cross verdicts occur exactly within 10 of their band |
| Stochastic.CrossesExclusive | backend/agents/technical/stochastic_oscillator_agent.py:185-199 | the bullish and bearish cross conditions never hold together |
| Stochastic.CalibratedConfidence | backend/agents/technical/stochastic_oscillator_agent.py:213-226 | the confidence stays in [0, 1]; neutral strength or another regime leave it alone; BULL strengthens a buy and BEAR a sell; BULL softens a sell toward 0.5 without crossing it |
| Stochastic.Execute | backend/agents/technical/stochastic_oscillator_agent.py:55-270 | a raising fetch gives ERROR with its message; no frame, an empty frame (no rows or no columns) or too few rows give NO_DATA; a frame without high/low/close gives ERROR "Missing OHLC columns."; a signal comes exactly from a usable frame, with the regime's bands, value %K − %D, the crossover verdict, score equal to the crossover's base strength and confidence equal to that strength calibrated by the regime |
| Stochastic.ColumnlessFrameIsNoData | backend/agents/technical/stochastic_oscillator_agent.py:89-104 | a frame with rows but no columns is empty, so the agent reports NO_DATA, not missing columns |
| Stochastic.RequiredDataPoints | backend/agents/technical/stochastic_oscillator_agent.py:83 | the row count leaves the last two rows at or past the first row where the chained %K, smoothing and %D windows give a value |
| Stochastic.CacheKey | backend/agents/technical/stochastic_oscillator_agent.py:279-282 | the key is the agent name, the symbol, then the `k=v` parameters in name order, separated by ':' |
| Stochastic.Run | backend/agents/technical/stochastic_oscillator_agent.py:16-53 | a raising cache `get` escapes; a decoded cached entry is returned without running; otherwise `_execute` decides, the result is written exactly when a client exists and the frame gave a real signal, and a raising `set` then escapes |
| Stochastic.CachedSignalServedLater | backend/agents/technical/stochastic_oscillator_agent.py:28-51 | a signal one run writes is returned as is by a later run that reads it back, with no new write |
| Stochastic.InsertByName | backend/agents/technical/stochastic_oscillator_agent.py:281 | inserting into a name-sorted list keeps it sorted and adds exactly the one pair |
| Stochastic.SortByName | backend/agents/technical/stochastic_oscillator_agent.py:281 | `sorted(kwargs.items())` is sorted by name and a permutation of the arguments |
| Stochastic.SortedUnique | backend/agents/technical/stochastic_oscillator_agent.py:281 | two name-sorted lists with the same pairs are equal, so the sorted order is unique |
| Stochastic.CacheKeyOrderIndependent | backend/agents/technical/stochastic_oscillator_agent.py:279-282 | the order in which keyword arguments are passed does not change the cache key |
| Stochastic.DefaultKwargsSorted | backend/agents/technical/stochastic_oscillator_agent.py:31 | the key lists the parameters as d_period, k_period, smoothing (also lines 281) |
| Momentum.MaxLookback | backend/agents/technical/momentum_agent.py:77 | `max(lookback_periods)` is one of the periods and at least every period |
| Momentum.RequiredYears | backend/agents/technical/momentum_agent.py:77-78 | for a non-negative lookback, the number of years fetched is the least whose 252-day total exceeds the lookback |
| Momentum.PeriodReturn | backend/agents/technical/momentum_agent.py:115-131 | a return exists exactly when `iloc[-1 - period]` is in range, not NaN and positive and the latest price is not NaN; it is latest over past minus one |
| Momentum.Distinct | backend/agents/technical/momentum_agent.py:117-124 | the returns dict keeps each period once: no repeats and the same set of periods |
| Momentum.ValidReturns | backend/agents/technical/momentum_agent.py:134 | at most one valid return per period |
| Momentum.ValidReturnsSound | backend/agents/technical/momentum_agent.py:117-134 | a value is among the valid returns exactly when some period yields it |
| Momentum.ValidReturnsCount | backend/agents/technical/momentum_agent.py:117-134 | one valid return per period whose past price is usable, no more and no fewer |
| Momentum.SomeValidReturn | backend/agents/technical/momentum_agent.py:117-136 | collapsing repeated periods loses nothing: there is something to average exactly when some configured period has a usable past price |
| Momentum.Band | backend/agents/technical/momentum_agent.py:145-167 | each of the five verdicts holds exactly on its band of the average (strong thresholds first, then the ±0.0001 neutral tolerance), with confidences 0.8, 0.6 and 0.4, and the value is the average in percent |
| Momentum.BandMonotone | backend/agents/technical/momentum_agent.py:145-167 | with the strong thresholds outside the neutral band, a higher average never earns a more bearish verdict |
| Momentum.Run | backend/agents/technical/momentum_agent.py:61-192 | NO_DATA without periods, without a series, or when the series is not longer than the longest lookback; otherwise a verdict exactly when some period has a usable return, and then the band of the mean of the valid returns |
| Momentum.NaNLatestGivesNoData | backend/agents/technical/momentum_agent.py:115-151 | a NaN latest price makes every return NaN, so the verdict is NO_DATA |
| Earnings.LatestReport | backend/agents/event/earnings_surprise_agent.py:79-96 | none exactly when no report has both EPS fields present and parseable; otherwise the first such report |
| Earnings.SurprisePct | backend/agents/event/earnings_surprise_agent.py:134 | positive exactly on a beat, negative exactly on a miss, and the surprise times the absolute estimate is 100 times the difference |
| Earnings.Classify | backend/agents/event/earnings_surprise_agent.py:106-146 | a near-zero estimate gives a verdict from the sign of the actual with no value; otherwise POSITIVE exactly above the threshold, NEGATIVE exactly below its negative, IN_LINE at 0.5, other confidences in [0.6, 0.95], and a raise exactly for a zero threshold with a nonzero surprise |
| Earnings.PositiveConfidenceMonotone | backend/agents/event/earnings_surprise_agent.py:137-140 | a larger beat stays a positive surprise and never lowers its confidence |
| Earnings.RunAsWritten | backend/agents/event/earnings_surprise_agent.py:55-57 | as written, every run raises before fetching: `NameError` for `MagicMock` when the settings object has a `.get`, else that lookup's own `AttributeError` |
| Earnings.AsWrittenLosesVerdict | backend/agents/event/earnings_surprise_agent.py:55-57 | a calendar with a usable report makes the as-written run raise while the intended run reaches a verdict (also lines 79-146) |
| Earnings.Run | backend/agents/event/earnings_surprise_agent.py:55-161 | a fetch error gives ERROR; no data gives NO_DATA; NO_RECENT_EARNINGS exactly when no report is usable; otherwise the result is the classification of the first usable report under the configured threshold, or the default 5.0 when none is configured |
| Earnings.DefaultThresholdClassifies | backend/agents/event/earnings_surprise_agent.py:58 | with the default threshold a usable report always yields one of the three surprise verdicts (also lines 79-146) |
| ValuationScreen.Insert | backend/agents/valuation/utils.py:20 | inserting into a sorted list keeps it sorted and adds exactly the one value |
| ValuationScreen.Sort | backend/agents/valuation/utils.py:20 | `sorted` yields a sorted permutation of its input |
| ValuationScreen.InsertCountBelow | backend/agents/valuation/utils.py:20-21 | inserting adds one to the count below v exactly when the inserted value is below v |
| ValuationScreen.SortCountBelow | backend/agents/valuation/utils.py:20-21 | sorting does not change how many values lie below v |
| ValuationScreen.CountBelowAppend | backend/agents/valuation/utils.py:20 | appending the value itself does not change the count below it |
| ValuationScreen.IndexOf | backend/agents/valuation/utils.py:21 | the first position holding the value |
| ValuationScreen.IndexOfSorted | backend/agents/valuation/utils.py:21 | in a sorted list the first occurrence of v sits after exactly the values below v |
| ValuationScreen.AllAtLeast | backend/agents/valuation/utils.py:21 | no value lies below a lower bound of the list |
| ValuationScreen.PercentileRank | backend/agents/valuation/utils.py:20-21 | the rank is the number of peers strictly below the value over the peer count plus one, so it lies in [0, 1) |
| ValuationScreen.SquaredDeviations | backend/agents/valuation/utils.py:33 | one squared deviation from the mean per peer |
| ValuationScreen.SampleVariance | backend/agents/valuation/utils.py:33 | the sample variance is non-negative, and 0 for fewer than two peers |
| ValuationScreen.ZBand | backend/agents/valuation/utils.py:36-45 | each of the five bands exactly: STRONG_UNDERVALUE at or below the strong lower bound; UNDERVALUE above it and at or below the mild lower bound; FAIR_VALUE strictly between the mild bounds; OVERVALUE from the mild upper bound to below the strong upper bound; STRONG_OVERVALUE at or above every bound |
| ValuationScreen.ScreenQuantitative | backend/agents/valuation/utils.py:6-49 | given σ ≥ 0 with σ² the sample variance: no value or no peers give NO_DATA; percentile mode ranks the value among the peers, gives UNDERVALUE at or below the lower percentile, OVERVALUE at or above the upper one, FAIR_VALUE strictly between them, with confidence abs(rank − 0.5) · 200; otherwise the z-score is (value − mean)/σ, or 0 when σ is 0, banded, with confidence min(50 · abs(z), 100); confidence always in [0, 100] |
| ValuationScreen.IdenticalPeersAreFair | backend/agents/valuation/utils.py:32-46 | peers that all agree have no spread, so the z-score is 0 and the verdict FAIR_VALUE with confidence 0 |
| ValuationScreen.BelowAllPeersRanksZero | backend/agents/valuation/utils.py:20-21 | a value at or below every peer ranks 0 |
| TechnicalUtils.NormalizeRsi | backend/agents/technical/utils.py:43-48 | the score lies in [0, 1]: 1 at or below 30, 0 at or above 70, and (70 − rsi)/40 between |
| TechnicalUtils.NormalizeRsiMonotone | backend/agents/technical/utils.py:43-48 | a higher RSI never gives a higher score |
| TechnicalUtils.Deltas | backend/agents/technical/utils.py:10 | one change per consecutive pair of prices, each the later price minus the earlier |
| TechnicalUtils.Gains | backend/agents/technical/utils.py:11 | each gain is the change when it is positive and 0 otherwise |
| TechnicalUtils.Losses | backend/agents/technical/utils.py:12 | each loss is the negated change when it is negative and 0 otherwise |
| TechnicalUtils.RsiFromAverages | backend/agents/technical/utils.py:15-16 | the RSI lies in [0, 100], is 100 with no average loss, and otherwise satisfies rsi · (gain + loss) = 100 · gain |
| TechnicalUtils.RsiIdentity | backend/agents/technical/utils.py:15-16 | 100 − 100/(1 + g/l) lies in [0, 100] and equals 100 · g/(g + l) |
| TechnicalUtils.WindowRsi | backend/agents/technical/utils.py:11-16 | the RSI of any window of changes lies in [0, 100] |
| TechnicalUtils.ComputeRsi | backend/agents/technical/utils.py:9-17 | fewer than two prices raise IndexError; up to `period` prices give NaN; otherwise the RSI of the last `period` changes, within [0, 100] |
| TechnicalUtils.WindowAt | backend/agents/technical/utils.py:13-14 | the rolling window's last entry covers exactly the last `period` changes |
| TechnicalUtils.NoLossWindow | backend/agents/technical/utils.py:15-16 | a window with no fall has RSI 100 |
| TechnicalUtils.NoGainWindow | backend/agents/technical/utils.py:15-16 | a window with no rise that ends in a fall has RSI 0 |
| TechnicalUtils.RisingPricesRsi100 | backend/agents/technical/utils.py:9-17 | prices that never fall have RSI 100 |
| TechnicalUtils.FallingPricesRsi0 | backend/agents/technical/utils.py:9-17 | prices that never rise and fall at the end have RSI 0 |
| FactorScore.RegimeWeights | backend/agents/intelligence/factor_score_agent.py:56-62 | every table's weights are non-negative and sum to 1.0; an unknown regime gets the NEUTRAL table |
| FactorScore.FactorAgents | backend/agents/intelligence/factor_score_agent.py:64-90 | every factor draws on at least one agent, so its mean is always defined |
| FactorScore.ConfidenceOf | backend/agents/intelligence/factor_score_agent.py:67-88 | a missing agent or key reads 0.0, a present value reads as itself, and only an explicit `None` is undefined |
| FactorScore.Confidences | backend/agents/intelligence/factor_score_agent.py:66-68 | defined exactly when every agent's confidence is, and then one entry per agent, in order |
| FactorScore.FactorMean | backend/agents/intelligence/factor_score_agent.py:64-90 | defined exactly when all its confidences are, and then their arithmetic mean |
| FactorScore.FactorMeanInUnit | backend/agents/intelligence/factor_score_agent.py:64-90 | with confidences in [0, 1] every factor mean lies in [0, 1] |
| FactorScore.Band | backend/agents/intelligence/factor_score_agent.py:28-36 | STRONG above 0.7 with 0.9, GOOD in (0.5, 0.7] with 0.7, WEAK at or below 0.5 with 0.5, each exactly on its band |
| FactorScore.Execute | backend/agents/intelligence/factor_score_agent.py:9-54 | fails exactly when some factor meets a `None` confidence; otherwise the band of the regime-weighted sum of the four factor means |
| FactorScore.WeightedSumInUnit | backend/agents/intelligence/factor_score_agent.py:24-26 | a weighted sum of unit scores under non-negative weights summing to 1 stays in [0, 1] |
| FactorScore.ScoreInUnit | backend/agents/intelligence/factor_score_agent.py:9-54 | with confidences in [0, 1] the factor score is in [0, 1] |
| FactorScore.NoOutputsIsWeak | backend/agents/intelligence/factor_score_agent.py:9-90 | with no agent outputs every factor is 0 and the verdict is WEAK_FACTORS with confidence 0.5 under any regime |
| FactorScore.AbsentFactorIsZero | backend/agents/intelligence/factor_score_agent.py:64-90 | a factor none of whose agents reported scores 0 |
| AlertEngine.Ma50 | backend/agents/automation/alert_engine_agent.py:24-28 | the mean of the last 50 prices when there are 50, else the mean of all prices |
| AlertEngine.EpsGrowth | backend/agents/automation/alert_engine_agent.py:32-36 | none with fewer than two points or a zero previous EPS; otherwise the change over abs(previous), positive exactly when EPS rose |
| AlertEngine.Alerts | backend/agents/automation/alert_engine_agent.py:47-55 | at most four alerts |
| AlertEngine.AlertsInOrder | backend/agents/automation/alert_engine_agent.py:47-55 | the alerts are exactly the firing checks, each at most once, in the fixed check order |
| AlertEngine.Judge | backend/agents/automation/alert_engine_agent.py:58-74 | ALERT exactly when some alert fired, else NO_ALERT; the value is the alert count and the confidence is a quarter of it, within [0, 1] |
| AlertEngine.Run | backend/agents/automation/alert_engine_agent.py:13-79 | a cache hit is returned without looking at the feeds; an undecodable entry or an empty price list raises; otherwise the judged alerts are returned and always cached |
| AlertEngine.SecondRunServedFromCache | backend/agents/automation/alert_engine_agent.py:15-77 | a second run on the same symbol returns the first run's result whatever the feeds say by then |
| AlertEngine.MeanBelowStrictMax | backend/agents/automation/alert_engine_agent.py:27-48 | the mean of a window lies below its last value when that value exceeds all others |
| AlertEngine.NewHighFiresAboveMa | backend/agents/automation/alert_engine_agent.py:24-49 | with fewer than 50 prices, a last price above all earlier ones raises the "Above 50DMA" alert |
| Strategy.Trade | backend/backtesting/strategy.py:19-27 | a BUY with cash converts all of it to shares worth that cash at the price, and raises ZeroDivisionError exactly at price 0; a SELL with shares converts all of them to cash; anything else leaves the position alone; an all-cash or all-shares position stays so |
| Strategy.TradeKeepsValue | backend/backtesting/strategy.py:22-29 | a trade at the entry's price does not change the value of an all-cash or all-shares position at that price |
| Strategy.Walk | backend/backtesting/strategy.py:18-31 | nonzero prices never raise; an all-cash or all-shares start stays so; one equity point per entry, carrying its date; the last point is the final position at the last price, which becomes `last_price` |
| Strategy.ApplyStrategy | backend/backtesting/strategy.py:3-41 | an empty list raises KeyError on the missing `value` column; with nonzero prices the curve has one point per entry and the final value equals the last point |
| Strategy.CurveMarksBeforeTrade | backend/backtesting/strategy.py:22-30 | the first point is the starting position's value at the first price: trading at the price moves no value |
| Strategy.CurveMarksPrefix | backend/backtesting/strategy.py:18-31 | point k is the position after the first k + 1 entries marked at entry k's price |
| Strategy.ConstantPriceKeepsValue | backend/backtesting/strategy.py:18-31 | at a constant nonzero price every point and the final position are worth what the start was worth |
| Strategy.ConstantPriceEndsWithCapital | backend/backtesting/strategy.py:12-41 | a backtest at a constant nonzero price ends with the capital it started with |
| Strategy.NoBuyStaysInCash | backend/backtesting/strategy.py:14-30 | without a BUY the position never leaves cash and every point is the starting cash |
| Strategy.PctChange | backend/backtesting/strategy.py:5 | the first return is 0; after a nonzero value the return times that value is the change; after a zero value the return is finite exactly when the value stays 0 |
| Strategy.ApplyStrategyAsWritten | backend/backtesting/strategy.py:8-34 | as written a completed backtest is lost to NameError exactly when its returns spread, and otherwise agrees with the corrected one |
| Strategy.AsWrittenRaisesWhenValueMoves | backend/backtesting/strategy.py:5-8 | as written any backtest whose positive equity changes at all raises NameError |
| Strategy.AsWrittenLosesDoubling | backend/backtesting/strategy.py:8-41 | buying at 10 and marking at 20 turns 100 into 200, yet as written the call raises |
| Strategy.ConstantPriceAsWrittenSucceeds | backend/backtesting/strategy.py:5-8 | a run at a constant nonzero price has a flat curve and completes even as written |

## Left out

- Network fetchers, scrapers and the agents' `_fetch_*` helpers: these are I/O. Their outcomes are inputs to the model.
- Redis, Prometheus, psutil and logging calls: these are I/O. Cache contents, metric counters and resource readings are passed in as values.
- Rounding of reported numbers (`round(x, 2)` and similar) is not modelled anywhere. Values are exact reals.
- Cache expiry (`ex=` on Redis writes): expiry is enforced by Redis and the clock, so a cache entry is either present or absent.
- `analyze_symbol`, `initialize`, `_get_cached_analysis` and `_cache_analysis` in the orchestrator are not modelled. They are async gathering and caching plumbing around the modelled schedule and verdict.
- `compute_atr` in the technical utilities is not modelled, because it is a pandas exponentially weighted mean.
- The `tracker` print in backend/agents/valuation/utils.py:51-53: it is console output.
- ValuationScreen.ScreenQuantitative: the standard deviation is an input, required to be non-negative with its square equal to the sample variance. The square root itself is not computed.
- MetricsCollector: the p95 response time (a numpy percentile) and `uptime_seconds` (the clock) are not modelled.
- `setup_metrics_reporting` in backend/monitoring/config.py is not modelled, because it starts an exporter and does I/O.
- The AgentBase hooks that call out to external data (`get_market_context` and similar) are not modelled. Only the caching and error-wrapping policy is.
- Strategy.ApplyStrategy: the Sharpe ratio and maximum drawdown that `calculate_metrics` reports are not computed. The model only decides whether it raises.
- Strategy.ApplyStrategyAsWritten: the NameError is decided on unrounded curve values. The source rounds each value to cents first, so a spread of under half a cent is treated differently.
- backend/config/settings.py is not part of this model. Settings values appear as constants or parameters.
- Decorators.StandardAgentExecution: backend/utils/cache_utils.py defines no `get_redis_client`, so importing backend/agents/decorators.py (line 7) raises ImportError. The model describes the decorator as if the import succeeded.
- AgentBase.Execute: importing backend/agents/base/__init__.py raises ImportError at line 5 for the same missing `get_redis_client`. The model describes the class as if the import succeeded.
- AlertEngine.Run: importing backend/agents/automation/alert_engine_agent.py raises ImportError at line 6 for the same missing `get_redis_client`. The model describes the agent as if the import succeeded.
- FactorScore.Execute: backend/agents/base/category_bases.py uses `List[float]` at line 71 without importing `List`. Its class body therefore raises NameError on Python versions that evaluate annotations eagerly (up to 3.13), and factor_score_agent.py imports that module. It also inherits the ImportError of backend/agents/base/__init__.py. The model describes the agent as if both imports succeeded. When a confidence is `None`, the failure's text is fixed at "unsupported operand type(s) for +: 'NoneType' and 'float'". `np.mean` sums the object array left to right and names the two operands where it first meets the `None`: `[0.7, None, 0.0]` gives 'float' and 'NoneType', and two `None`s in a row give 'NoneType' and 'NoneType'. That message is not reproduced.
- Earnings.RunAsWritten: which exception escapes depends on the class of `settings.agent_settings`, defined in backend/config/settings.py, which is not part of this model. Python looks up `.get` before it evaluates `MagicMock()`. Other agents read `agent_settings` by attribute (momentum_agent.py:62), so the lookup may well raise AttributeError first. The model takes that error as a parameter.
- Brain.AggregateScores: an explicit `None` score or confidence raises TypeError, but the model does not reproduce its message, which names the other operand's type. Other non-numeric values are not modelled. `category_results` is a dict, so the model assumes each category appears once.
- Tracker.Complete: `to_dict()` stores the event's own metadata dict, and `complete()` updates that dict in place. History entries recorded earlier therefore see later updates. `metadata or {}` also shares the caller's dict, which `track_request` later mutates. The model treats metadata as an immutable map from strings to strings, so it has neither this aliasing nor non-string values.
- CircuitBreaker: backend/utils/circuit_breaker.py has only the open and closed states, with no half-open probe. Once the reset timeout has passed, the next check closes the circuit.
- Agent results are cached in Redis with an `ex` expiry. There is no stale-cache fallback in the code.
- The readiness validator's display strings (`value`, `threshold`, `details`) are not modelled. Only each check's status and the overall verdict are.
- Locks, task groups and other concurrency in the managers are not modelled. Each operation is modelled as one atomic step.
- The providers call `is_closed()`, `allow_request()`, `record_success()` and `record_failure()` on their breakers, but the only breaker class, backend/utils/circuit_breaker.py:12-39, defines just `__init__(failure_threshold)`, `check_circuit(service)` and `record_failure(service)`. The provider methods are modelled as their authors call them: the breaker's answer is an input and the bookkeeping calls are an output log.
- Providers.ExecuteWithMonitoring: `UnifiedDataProvider` cannot be constructed. It leaves `fetch_quote`, `search_symbols` and `fetch_company_info` abstract (base_provider.py:59-86), so instantiating it raises TypeError. Its `__init__` would also raise TypeError, both through `BaseDataProvider.__init__` and at unified_provider.py:30-44, by passing `name` and `recovery_timeout` to `CircuitBreaker`. On a constructed object, `is_closed()` and `record_success()` would raise AttributeError, and `record_failure()` would lack its `service` argument. The model describes the method as if the breaker had the API it calls.
- Providers.FetchWithFallback: it is a method of the same `UnifiedDataProvider`, so the construction TypeErrors above apply. The model describes the loop on a provider that could be built.
- Providers.ExecuteWithResilience: `BaseDataProvider.__init__` (base_provider.py:29-33) passes `name` and `recovery_timeout` to `CircuitBreaker`, which accepts neither, so every provider's construction raises TypeError. On a constructed object, `allow_request()` and `record_success()` would raise AttributeError and `record_failure()` would lack `service`. The model takes the breaker's answer as an input and records the calls as its authors intended.
- Providers.ExecuteWithFallback: a method of `BaseDataProvider`, so the same construction TypeError applies to every provider it could run on. The model describes the fallback logic on providers that could be built.
- Providers.GetProvider: the four registered provider classes live in modules that are not part of this model. If, as subclasses of `BaseDataProvider`, they reach its `__init__`, then `providers[provider_name]()` at base_provider.py:129 raises TypeError. The model returns the provider chosen by name and keeps the "not found" ValueError for other names.
- Test files are not modelled.

## Findings

| source | as written | input that shows it | evidently intended | confidence | as-written member | corrected member |
|---|---|---|---|---|---|---|
| backend/core/orchestrator.py:214,272-275 | calls `CategoryManager.get_category_weights`, which does not exist; the AttributeError is caught, so the composite verdict is always ERROR | any category results | weight each category by its metadata weight | high; not executed | Orchestrator.GenerateCompositeVerdictAsWritten | Orchestrator.CompositeVerdictCorrected |
| backend/core/orchestrator.py:157-180 | builds the dependency graph over every category, and `get_dependencies` raises KeyError for STEALTH, which has no metadata | building the graph at all | give a category without metadata no dependencies, so every category can still be scheduled | high; not executed | Orchestrator.BuildDependencyGraphAsWritten | Orchestrator.BuildDependencyGraph |
| backend/agents/categories.py:206-207 | the except branch logs through `logger`, which categories.py never imports, so an agent's exception escapes as NameError | any agent that raises | log and skip the failing agent | high; not executed | Categories.ExecuteCategoryAsWritten | Categories.ExecuteCategory |
| backend/agents/categories.py:229-231 | the comprehension reads `CATEGORY_METADATA[cat]` for every category and raises KeyError at STEALTH | calling it at all | return the required categories VALUATION, TECHNICAL, MARKET and RISK | high; not executed | Categories.GetRequiredCategories | Categories.RequiredCategories |
| backend/agents/event/earnings_surprise_agent.py:57 | the fallback argument `MagicMock()` of `.get` is evaluated eagerly, but MagicMock is never imported, so every run raises (NameError, or AttributeError first if the settings object has no `.get`) and the agent returns its error verdict | any symbol | use the fetched earnings data | high; not executed | Earnings.RunAsWritten | Earnings.Run |
| backend/backtesting/strategy.py:8 | `sqrt(252)` is used but `sqrt` is never imported, so `calculate_metrics` raises NameError whenever the daily returns are not all zero | BUY at 10, then HOLD at 20, with capital 100 | `math.sqrt(252)` | high; not executed | Strategy.ApplyStrategyAsWritten | Strategy.ApplyStrategy |
| app.py:72-79 | the thresholds are annotated attributes of a pydantic model, so they become fields and leave the class namespace; every `cls.THRESHOLD_*` read in the validator raises AttributeError out of the constructor | performance metrics with an average latency of 500 ms | make the thresholds class constants (`ClassVar`) so the checks can read them | high; not executed | Readiness.PerformReadinessValidationAsWritten | Readiness.PerformReadinessValidation |
| backend/agents/base/__init__.py:21-22 | `__init__` leaves `cache` as `None`, and `execute` then calls `self.initialize()`, which no agent class defines; the AttributeError escapes before any counting | any call on a freshly constructed agent | connect the cache before the first call | high; not executed | AgentBase.ExecuteAsWritten | AgentBase.Execute |

=== FILE: agent_base.dfy ===
/** The template method and helpers of `AgentBase` in
    backend/agents/base/__init__.py: call and error counters, the running
    average latency, the cache policy under `"ClassName:symbol"`, the regime
    multiplier and the result-shape check.

    The cache lookup, the agent's `_execute` outcome and the measured
    latency are inputs. */
module AgentBase {
  import opened Common
  import opened Responses

  datatype AgentMetrics = AgentMetrics(calls: nat, errors: nat, avgLatency: real)

  const InitialMetrics := AgentMetrics(0, 0, 0.0)

  /** `_update_latency`, after `calls` was already incremented. */
  function UpdateLatency(m: AgentMetrics, latency: real): (r: AgentMetrics)
    requires m.calls > 0
    ensures r.calls == m.calls && r.errors == m.errors
    ensures r.avgLatency * (m.calls as real) == m.avgLatency * ((m.calls - 1) as real) + latency
  {
    m.(avgLatency := RunningAverage(m.avgLatency, m.calls - 1, latency))
  }

  /** The average of `n` samples `avg` updated with one more sample `x`. */
  function RunningAverage(avg: real, n: nat, x: real): real
  {
    (avg * (n as real) + x) / ((n + 1) as real)
  }

  datatype Execution = Execution(returned: Option<AgentOutput>, ran: bool, cacheWrite: Option<(string, AgentOutput)>, metrics: AgentMetrics)

  /** `execute(symbol)` of an agent of class `className`. */
  function Execute(m: AgentMetrics, className: string, symbol: string, read: CacheRead<AgentOutput>,
                   run: Attempt<Option<AgentOutput>>, latency: real): (e: Execution)
    ensures e.metrics.calls == m.calls + 1
    ensures e.metrics.errors == m.errors + (if read.ReadFailed? || (e.ran && run.Raised?) then 1 else 0)
    ensures read.Hit? ==> !e.ran && e.returned == Some(read.cached) && e.cacheWrite.None?
    ensures read.ReadFailed? ==> !e.ran && e.returned == Some(ErrorResponse(Val(symbol), read.error, className))
    ensures read.Miss? || read.Undecodable? <==> e.ran
    ensures e.ran && run.Raised? ==> e.returned == Some(ErrorResponse(Val(symbol), run.error, className)) && e.cacheWrite.None?
    ensures e.ran && run.Returned? ==> e.returned == run.value
    ensures e.cacheWrite.Some? <==> e.ran && run.Returned? && run.value.Some? && Cacheable(run.value.value)
    ensures e.cacheWrite.Some? ==> e.cacheWrite.value == (SymbolKey(className, symbol), run.value.value)
  {
    var counted := m.(calls := m.calls + 1);
    var key := SymbolKey(className, symbol);
    match read
    case ReadFailed(error) =>
      Execution(Some(ErrorResponse(Val(symbol), error, className)), false, None,
                UpdateLatency(counted.(errors := m.errors + 1), latency))
    case Hit(cached) => Execution(Some(cached), false, None, UpdateLatency(counted, latency))
    case _ =>
      match run
      case Raised(error) =>
        Execution(Some(ErrorResponse(Val(symbol), error, className)), true, None,
                  UpdateLatency(counted.(errors := m.errors + 1), latency))
      case Returned(res) =>
        Execution(res, true,
                  if res.Some? && Cacheable(res.value) then Some((key, res.value)) else None,
                  UpdateLatency(counted, latency))
  }

  /** One call: its cache lookup, its `_execute` outcome and its latency. */
  datatype Call = Call(read: CacheRead<AgentOutput>, run: Attempt<Option<AgentOutput>>, latency: real)

  /** The metrics after one more execution. */
  function Next(m: AgentMetrics, className: string, symbol: string, c: Call): (r: AgentMetrics)
    ensures r.calls == m.calls + 1 && r.errors <= m.errors + 1
    ensures r.avgLatency == RunningAverage(m.avgLatency, m.calls, c.latency)
  {
    Execute(m, className, symbol, c.read, c.run, c.latency).metrics
  }

  function ExecuteAll(m: AgentMetrics, className: string, symbol: string, calls: seq<Call>): AgentMetrics
  {
    if |calls| == 0 then m
    else Next(ExecuteAll(m, className, symbol, calls[..|calls| - 1]), className, symbol, calls[|calls| - 1])
  }

  /** The latency of each call, in call order: a helper that names what
      `MetricsSummarizeCalls` averages. */
  function Latencies(calls: seq<Call>): (r: seq<real>)
    ensures |r| == |calls|
  {
    if |calls| == 0 then [] else Latencies(calls[..|calls| - 1]) + [calls[|calls| - 1].latency]
  }

  /** From fresh metrics, `calls` counts the executions, `errors` never exceeds
      it, and `avg_latency` is the mean of every latency recorded. */
  lemma {:induction false} MetricsSummarizeCalls(className: string, symbol: string, calls: seq<Call>)
    requires |calls| > 0
    ensures var m := ExecuteAll(InitialMetrics, className, symbol, calls);
      m.calls == |calls| && m.errors <= m.calls && m.avgLatency == Mean(Latencies(calls))
  {
    var init := calls[..|calls| - 1];
    var c := calls[|calls| - 1];
    var m := ExecuteAll(InitialMetrics, className, symbol, init);
    assert ExecuteAll(InitialMetrics, className, symbol, calls) == Next(m, className, symbol, c);
    assert Latencies(calls) == Latencies(init) + [c.latency];
    if |init| == 0 {
      assert m == InitialMetrics;
    } else {
      MetricsSummarizeCalls(className, symbol, init);
    }
    AverageStep(m.avgLatency, Latencies(init), c.latency);
  }

  /** The running average of the recorded latencies extended by one is their mean. */
  lemma AverageStep(avg: real, recorded: seq<real>, x: real)
    requires |recorded| > 0 ==> avg == Mean(recorded)
    ensures RunningAverage(avg, |recorded|, x) == Mean(recorded + [x])
  {
    RunningMeanStep(recorded, avg, x);
  }

  // ---------------------------------------------------------------------------
  // As written: `execute` calls an `initialize` that no agent class defines
  // ---------------------------------------------------------------------------

  /** The message of the AttributeError from `self.initialize()`. */
  function NoInitialize(className: string): string
  {
    "'" + className + "' object has no attribute 'initialize'"
  }

  /** `execute` as written. `__init__` leaves `cache` as `None`, and the first
      statement calls `self.initialize()`, which neither `AgentBase` nor its
      subclasses define. The AttributeError comes before `calls` is incremented
      and outside the try/finally, so it escapes and nothing is counted.
      `cacheSet` says whether code outside the class assigned `cache`; only then
      does the intended template method run. */
  function ExecuteAsWritten(m: AgentMetrics, cacheSet: bool, className: string, symbol: string, c: Call): (r: Attempt<Execution>)
    ensures r.Raised? <==> !cacheSet
    ensures r.Raised? ==> r.error == NoInitialize(className)
    ensures r.Returned? ==> r.value == Execute(m, className, symbol, c.read, c.run, c.latency)
  {
    if !cacheSet then Raised(NoInitialize(className))
    else Returned(Execute(m, className, symbol, c.read, c.run, c.latency))
  }

  /** The metrics after a series of calls as written: a call that raises leaves
      them as they were. */
  function ExecuteAllAsWritten(m: AgentMetrics, cacheSet: bool, className: string, symbol: string, calls: seq<Call>): AgentMetrics
  {
    if |calls| == 0 then m
    else
      var before := ExecuteAllAsWritten(m, cacheSet, className, symbol, calls[..|calls| - 1]);
      match ExecuteAsWritten(before, cacheSet, className, symbol, calls[|calls| - 1])
      case Raised(_) => before
      case Returned(e) => e.metrics
  }

  /** A freshly constructed agent never gets past `initialize`: every call raises
      and its metrics stay at zero, where the intended template method counts
      each call. */
  lemma {:induction false} FreshAgentNeverCounts(className: string, symbol: string, calls: seq<Call>)
    ensures ExecuteAllAsWritten(InitialMetrics, false, className, symbol, calls) == InitialMetrics
    ensures forall i :: 0 <= i < |calls| ==> ExecuteAsWritten(InitialMetrics, false, className, symbol, calls[i]).Raised?
    ensures |calls| > 0 ==> ExecuteAll(InitialMetrics, className, symbol, calls).calls == |calls|
  {
    if |calls| > 0 {
      FreshAgentNeverCounts(className, symbol, calls[..|calls| - 1]);
      MetricsSummarizeCalls(className, symbol, calls);
    }
  }

  /** With `cache` assigned from outside, the as-written template method is the
      intended one. */
  lemma {:induction false} CacheSetAgrees(m: AgentMetrics, className: string, symbol: string, calls: seq<Call>)
    ensures ExecuteAllAsWritten(m, true, className, symbol, calls) == ExecuteAll(m, className, symbol, calls)
  {
    if |calls| > 0 {
      CacheSetAgrees(m, className, symbol, calls[..|calls| - 1]);
    }
  }

  /** `regime_multipliers.get(regime, 1.0)`. */
  function RegimeMultiplier(regime: string): (k: real)
    ensures 0.7 <= k <= 1.2
    ensures regime != "BULL" && regime != "BEAR" && regime != "VOLATILE" ==> k == 1.0
  {
    if regime == "BULL" then 1.2
    else if regime == "BEAR" then 0.8
    else if regime == "NEUTRAL" then 1.0
    else if regime == "VOLATILE" then 0.7
    else 1.0
  }

  /** `adjust_for_market_regime`: the score scaled by the regime's multiplier. */
  function AdjustForMarketRegime(score: real, regime: string): (r: real)
    ensures score >= 0.0 ==> 0.7 * score <= r <= 1.2 * score
    ensures score <= 0.0 ==> 1.2 * score <= r <= 0.7 * score
  {
    score * RegimeMultiplier(regime)
  }

  /** Only BULL raises a positive score and only BEAR and VOLATILE lower it. */
  lemma RegimeDirection(score: real, regime: string)
    requires score > 0.0
    ensures AdjustForMarketRegime(score, regime) > score <==> regime == "BULL"
    ensures AdjustForMarketRegime(score, regime) < score <==> regime == "BEAR" || regime == "VOLATILE"
  {
  }

  /** The keys `validate_result` requires. */
  const RequiredKeys: set<string> := {"symbol", "verdict", "confidence", "value"}

  /** `validate_result`: the four keys are present (a `None` value counts). */
  predicate ValidateResult(r: AgentOutput): (b: bool)
    ensures b <==> RequiredKeys <= Keys(r)
  {
    !r.symbol.Missing? && !r.verdict.Missing? && !r.confidence.Missing? && !r.value.Missing?
  }

  /** Every error response this class builds passes its own shape check. */
  lemma ErrorResponsesValid(symbol: string, error: string, className: string)
    ensures ValidateResult(ErrorResponse(Val(symbol), error, className))
  {
  }
}

=== FILE: alert_engine.dfy ===
/** The alert engine agent (backend/agents/automation/alert_engine_agent.py):
    four independent checks on price, EPS growth, earnings date and corporate
    actions, counted into a verdict. The fetches and the two sub-agents are
    inputs; the Redis client is the cache state passed in, and rounding of
    the reported numbers is not modelled. */
module AlertEngine {
  import opened Common

  const AgentName := "alert_engine_agent"
  const MaWindow := 50

  datatype Alert = AboveMa | EpsJump | EarningsSoon | CorporateActions

  /** The text the agent reports for each alert. */
  function Message(a: Alert): string
  {
    match a
    case AboveMa => "Above 50DMA"
    case EpsJump => "EPS QoQ >10%"
    case EarningsSoon => "Earnings within 7d"
    case CorporateActions => "Corporate Actions"
  }

  /** The alerts, in the order the agent checks them. */
  const AlertOrder: seq<Alert> := [AboveMa, EpsJump, EarningsSoon, CorporateActions]

  datatype AlertResult = AlertResult(verdict: string, confidence: real, value: nat, alerts: seq<Alert>,
                                     ma50: real, epsGrowth: Option<real>, earningsIn: Option<int>)

  /** What the cache read returned: nothing (or an empty string), a stored
      result, or text that is not JSON (json.loads raises). */
  datatype Cached = NoEntry | Stored(result: AlertResult) | Corrupt

  /** The inputs the agent fetches: the price list, the EPS series, the
      earnings agent's `days_to_event` and the corporate actions count. */
  datatype Feeds = Feeds(prices: seq<real>, eps: seq<real>, daysToEarnings: Option<int>, actions: nat)

  /** `rolling(50).mean().iloc[-1]` when there are 50 prices, else the mean
      of all of them. */
  function Ma50(prices: seq<real>): (ma: real)
    requires |prices| > 0
    ensures |prices| >= MaWindow ==> ma == Mean(prices[|prices| - MaWindow..])
    ensures |prices| < MaWindow ==> ma == Mean(prices)
  {
    if |prices| >= MaWindow then Mean(prices[|prices| - MaWindow..]) else Mean(prices)
  }

  /** Quarter-on-quarter EPS growth: none with fewer than two points or a
      zero prior quarter. */
  function EpsGrowth(eps: seq<real>): (g: Option<real>)
    ensures g.None? <==> |eps| < 2 || eps[|eps| - 2] == 0.0
    ensures g.Some? ==> g.value * Abs(eps[|eps| - 2]) == eps[|eps| - 1] - eps[|eps| - 2]
    ensures g.Some? ==> (g.value > 0.0 <==> eps[|eps| - 1] > eps[|eps| - 2])
  {
    if |eps| >= 2 && eps[|eps| - 2] != 0.0 then
      Some((eps[|eps| - 1] - eps[|eps| - 2]) / Abs(eps[|eps| - 2]))
    else None
  }

  /** Whether one alert fires. */
  predicate Fires(alert: Alert, f: Feeds)
    requires |f.prices| > 0
  {
    match alert
    case AboveMa => f.prices[|f.prices| - 1] > Ma50(f.prices)
    case EpsJump => EpsGrowth(f.eps).Some? && EpsGrowth(f.eps).value > 0.1
    case EarningsSoon => f.daysToEarnings.Some? && f.daysToEarnings.value <= 7
    case CorporateActions => f.actions > 0
  }

  /** The alerts list the agent builds. */
  function Alerts(f: Feeds): (alerts: seq<Alert>)
    requires |f.prices| > 0
    ensures |alerts| <= 4
  {
    var s1: seq<Alert> := if Fires(AboveMa, f) then [AboveMa] else [];
    var s2 := s1 + (if Fires(EpsJump, f) then [EpsJump] else []);
    var s3 := s2 + (if Fires(EarningsSoon, f) then [EarningsSoon] else []);
    s3 + (if Fires(CorporateActions, f) then [CorporateActions] else [])
  }

  /** The alerts are exactly the firing checks, in the fixed check order. */
  lemma AlertsInOrder(f: Feeds)
    requires |f.prices| > 0
    ensures Alerts(f) == Filter(AlertOrder, (a: Alert) => Fires(a, f))
  {
    var keep := (a: Alert) => Fires(a, f);
    FilterAlertOrder(keep);
    assert keep(AboveMa) == Fires(AboveMa, f) && keep(EpsJump) == Fires(EpsJump, f);
    assert keep(EarningsSoon) == Fires(EarningsSoon, f) && keep(CorporateActions) == Fires(CorporateActions, f);
  }

  /** Filtering the check order keeps each alert in its place. */
  lemma FilterAlertOrder(keep: Alert -> bool)
    ensures Filter(AlertOrder, keep) ==
              (if keep(AboveMa) then [AboveMa] else []) + (if keep(EpsJump) then [EpsJump] else [])
              + (if keep(EarningsSoon) then [EarningsSoon] else [])
              + (if keep(CorporateActions) then [CorporateActions] else [])
  {
    FilterFour(AboveMa, EpsJump, EarningsSoon, CorporateActions, keep);
  }

  function Kept<T>(x: T, keep: T -> bool): (r: seq<T>)
    ensures |r| <= 1
  {
    if keep(x) then [x] else []
  }

  lemma FilterFour<T>(a: T, b: T, c: T, d: T, keep: T -> bool)
    ensures Filter([a, b, c, d], keep) == Kept(a, keep) + Kept(b, keep) + Kept(c, keep) + Kept(d, keep)
  {
    assert [a, b, c, d][1..] == [b, c, d];
    assert [b, c, d][1..] == [c, d];
    assert [c, d][1..] == [d];
    assert [d][1..] == [];
    var x, y, z, w := Kept(a, keep), Kept(b, keep), Kept(c, keep), Kept(d, keep);
    assert Filter([d], keep) == w;
    assert Filter([c, d], keep) == z + w;
    assert Filter([b, c, d], keep) == y + (z + w);
    assert Filter([a, b, c, d], keep) == x + (y + (z + w));
    ConcatAssoc(y, z, w);
    ConcatAssoc(x, y + z, w);
    ConcatAssoc(x, y, z);
  }

  lemma ConcatAssoc<T>(x: seq<T>, y: seq<T>, z: seq<T>)
    ensures x + (y + z) == x + y + z
  {
  }

  /** Verdict, confidence and value for a list of alerts. */
  function Judge(alerts: seq<Alert>, ma50: real, f: Feeds): (r: AlertResult)
    requires |alerts| <= 4
    ensures r.verdict == "ALERT" <==> |alerts| > 0
    ensures r.verdict != "ALERT" ==> r.verdict == "NO_ALERT"
    ensures r.value == |alerts| && r.alerts == alerts
    ensures r.confidence * 4.0 == |alerts| as real && 0.0 <= r.confidence <= 1.0
  {
    AlertResult(if |alerts| > 0 then "ALERT" else "NO_ALERT", Min((|alerts| as real) / 4.0, 1.0), |alerts|,
                alerts, ma50, EpsGrowth(f.eps), f.daysToEarnings)
  }

  /** What `run` returns and what it writes to the cache. */
  datatype Served = Served(outcome: Attempt<AlertResult>, cacheWrite: Option<AlertResult>)

  /** `run(symbol)`: a cache hit is returned without looking at the feeds;
      otherwise the result is computed and always cached. An empty price
      list raises at `prices[-1]`. */
  function Run(cached: Cached, f: Feeds): (s: Served)
    ensures cached.Stored? ==> s == Served(Returned(cached.result), None)
    ensures cached.Corrupt? ==> s.outcome.Raised? && s.cacheWrite.None?
    ensures cached.NoEntry? && |f.prices| == 0 ==> s.outcome.Raised? && s.cacheWrite.None?
    ensures cached.NoEntry? && |f.prices| > 0 ==>
              s.outcome == Returned(Judge(Alerts(f), Ma50(f.prices), f)) && s.cacheWrite == Some(s.outcome.value)
  {
    match cached
    case Stored(r) => Served(Returned(r), None)
    case Corrupt => Served(Raised("Expecting value: line 1 column 1 (char 0)"), None)
    case NoEntry =>
      if |f.prices| == 0 then Served(Raised("list index out of range"), None)
      else
        var r := Judge(Alerts(f), Ma50(f.prices), f);
        Served(Returned(r), Some(r))
  }

  /** A second run on the same symbol is served from the first run's cache
      entry, whatever the feeds say by then. */
  lemma SecondRunServedFromCache(f1: Feeds, f2: Feeds)
    requires |f1.prices| > 0
    ensures var first := Run(NoEntry, f1);
            Run(Stored(first.cacheWrite.value), f2).outcome == first.outcome
  {
  }

  lemma SumAtMost(s: seq<real>, hi: real)
    requires forall i :: 0 <= i < |s| ==> s[i] <= hi
    ensures Sum(s) <= (|s| as real) * hi
  {
    if |s| > 0 {
      SumAtMost(s[..|s| - 1], hi);
    }
  }

  /** The mean of a window is below its last element when that element is
      strictly above all the others. */
  lemma MeanBelowStrictMax(w: seq<real>)
    requires |w| >= 2 && forall i :: 0 <= i < |w| - 1 ==> w[i] < w[|w| - 1]
    ensures Mean(w) < w[|w| - 1]
  {
    var init := w[..|w| - 1];
    var top := w[|w| - 1];
    var m := MaxOf(init);
    assert m < top;
    SumAtMost(init, m);
    assert w == init + [top];
    SumAppend(init, top);
    var n := |init| as real;
    var nm, nt := n * m, n * top;
    ScaledStrict(n, m, top, nm, nt);
    assert Sum(w) < nt + top;
    QuotientBelow(Sum(w), n, top, nt);
  }

  lemma ScaledStrict(n: real, a: real, b: real, na: real, nb: real)
    requires n > 0.0 && a < b && na == n * a && nb == n * b
    ensures na < nb
  {
  }

  /** `x < n·t + t` gives `x / (n + 1) < t`. */
  lemma QuotientBelow(x: real, n: real, t: real, nt: real)
    requires n > 0.0 && nt == n * t && x < nt + t
    ensures x / (n + 1.0) < t
  {
    assert nt + t == (n + 1.0) * t;
  }

  function MaxOf(s: seq<real>): (m: real)
    requires |s| > 0
    ensures m in s && forall i :: 0 <= i < |s| ==> s[i] <= m
  {
    if |s| == 1 then s[0]
    else
      var rest := MaxOf(s[1..]);
      assert forall i :: 1 <= i < |s| ==> s[i] == s[1..][i - 1];
      if s[0] >= rest then s[0] else rest
  }

  /** A fresh high above every other price of a short history raises the
      moving-average alert. */
  lemma NewHighFiresAboveMa(f: Feeds)
    requires 2 <= |f.prices| < MaWindow
    requires forall i :: 0 <= i < |f.prices| - 1 ==> f.prices[i] < f.prices[|f.prices| - 1]
    ensures AboveMa in Alerts(f)
  {
    MeanBelowStrictMax(f.prices);
  }
}

=== FILE: brain.dfy ===
/** The score aggregation of backend/brain.py: per-category
    confidence-weighted scores, a volatility regime that picks one of two
    weight tables, a weighted sum over categories, and a moving average over
    the last `brain_smoothing_window` results.

    The module-level `deque` is the explicit `history` argument and result;
    `settings.vol_threshold` and `settings.brain_smoothing_window` are
    parameters. */
module Brain {
  import opened Common
  import Responses

  /** A weight table, in the order its dict literal lists the keys. */
  type WeightTable = seq<(string, real)>

  const HighVolWeights: WeightTable :=
    [("valuation", 0.25), ("technical", 0.10), ("sentiment", 0.05), ("esg", 0.10),
     ("risk", 0.30), ("event", 0.10), ("macro", 0.10)]

  const LowVolWeights: WeightTable :=
    [("valuation", 0.20), ("technical", 0.25), ("sentiment", 0.10), ("esg", 0.10),
     ("risk", 0.10), ("event", 0.10), ("macro", 0.15)]

  /** `weights.get(cat, 0.0)`. */
  function WeightOf(table: WeightTable, cat: string): (r: real)
    ensures (forall i :: 0 <= i < |table| ==> table[i].0 != cat) ==> r == 0.0
    ensures (exists i :: 0 <= i < |table| && table[i].0 == cat) ==> exists i :: 0 <= i < |table| && table[i] == (cat, r)
  {
    if |table| == 0 then 0.0
    else if table[0].0 == cat then table[0].1
    else
      assert forall i :: 1 <= i < |table| ==> table[1..][i - 1] == table[i];
      WeightOf(table[1..], cat)
  }

  function TableTotal(table: WeightTable): real
  {
    if |table| == 0 then 0.0 else table[0].1 + TableTotal(table[1..])
  }

  /** Both tables list the same seven categories once each, and each table's
      weights sum to exactly 1.0. */
  lemma WeightTablesSumToOne()
    ensures TableTotal(HighVolWeights) == 1.0
    ensures TableTotal(LowVolWeights) == 1.0
    ensures |HighVolWeights| == |LowVolWeights| == 7
    ensures forall i :: 0 <= i < 7 ==> HighVolWeights[i].0 == LowVolWeights[i].0
    ensures forall i, j :: 0 <= i < j < 7 ==> HighVolWeights[i].0 != HighVolWeights[j].0
  {
    HighVolTotal();
    LowVolTotal();
  }

  lemma HighVolTotal()
    ensures TableTotal(HighVolWeights) == 1.0
  {
  }

  lemma LowVolTotal()
    ensures TableTotal(LowVolWeights) == 1.0
  {
  }

  // ---------------------------------------------------------------------------
  // Category scores
  // ---------------------------------------------------------------------------

  /** One agent result dict: the keys the aggregation reads. `score` and
      `confidence` may be missing, `None` or a number; for `agent_name` and
      `value`, read with a bare `r.get(key)`, a missing key and `None` are
      the same `None`. */
  datatype AgentScore = AgentScore(
    agentName: Option<string>,
    score: Responses.Entry<real>,
    confidence: Responses.Entry<real>,
    value: Option<real>)

  /** `r.get(key, 0.0)` for a numeric key that is missing or holds a number. */
  function OrZero(x: Responses.Entry<real>): real
  {
    if x.Val? then x.v else 0.0
  }

  /** Neither the score nor the confidence of the result is an explicit `None`. */
  predicate Numeric(a: AgentScore)
  {
    !a.score.Null? && !a.confidence.Null?
  }

  /** Every agent of the category reports numbers: an explicit `None` makes
      `sum(confs)` or `s * c` raise. */
  predicate Defined(agents: seq<AgentScore>)
  {
    forall i :: 0 <= i < |agents| ==> Numeric(agents[i])
  }

  /** The `TypeError` of arithmetic on `None`; its message, which names the
      type of the other operand, is not modelled. */
  const NoneArithmetic := "TypeError: unsupported operand type(s) for NoneType"

  /** `sum(confs)`. */
  function ConfidenceSum(agents: seq<AgentScore>): real
  {
    if |agents| == 0 then 0.0 else OrZero(agents[0].confidence) + ConfidenceSum(agents[1..])
  }

  /** `sum(s * c for s, c in zip(scores, confs))`. */
  function ProductSum(agents: seq<AgentScore>): real
  {
    if |agents| == 0 then 0.0
    else OrZero(agents[0].score) * OrZero(agents[0].confidence) + ProductSum(agents[1..])
  }

  /** The divisor: the confidence total, or 1.0 when that total is not positive. */
  function Divisor(agents: seq<AgentScore>): (r: real)
    ensures r > 0.0
    ensures ConfidenceSum(agents) > 0.0 ==> r == ConfidenceSum(agents)
    ensures ConfidenceSum(agents) <= 0.0 ==> r == 1.0
  {
    if ConfidenceSum(agents) > 0.0 then ConfidenceSum(agents) else 1.0
  }

  /** One step of the first loop of `aggregate_scores`: a category's score,
      for agents that report numbers. It is the product sum spread over the
      confidence total, or the bare product sum when that total is not positive. */
  function CategoryScore(agents: seq<AgentScore>): (r: real)
    ensures ConfidenceSum(agents) > 0.0 ==> r * ConfidenceSum(agents) == ProductSum(agents)
    ensures ConfidenceSum(agents) <= 0.0 ==> r == ProductSum(agents)
  {
    ProductSum(agents) / Divisor(agents)
  }

  /** Every agent reports a non-negative confidence, and a score in [lo, hi]. */
  ghost predicate ScoresBetween(agents: seq<AgentScore>, lo: real, hi: real)
  {
    forall i :: 0 <= i < |agents| ==> 0.0 <= OrZero(agents[i].confidence) && lo <= OrZero(agents[i].score) <= hi
  }

  lemma ScaleBetween(s: real, c: real, lo: real, hi: real)
    requires 0.0 <= c && lo <= s <= hi
    ensures lo * c <= s * c <= hi * c
  {
  }

  /** Adding one agent with score `sc` and confidence `cf` to sums `p` and
      `c` that keep the bounds gives sums `sum` and `total` that keep them. */
  lemma StepBetween(sc: real, cf: real, c: real, p: real, lo: real, hi: real, total: real, sum: real)
    requires 0.0 <= cf && lo <= sc <= hi
    requires lo * c <= p <= hi * c
    requires total == cf + c && sum == sc * cf + p
    ensures lo * total <= sum <= hi * total
  {
    ScaleBetween(sc, cf, lo, hi);
    assert lo * total == lo * cf + lo * c;
    assert hi * total == hi * cf + hi * c;
  }

  lemma {:induction false} ProductSumBounds(agents: seq<AgentScore>, lo: real, hi: real)
    requires ScoresBetween(agents, lo, hi)
    ensures lo * ConfidenceSum(agents) <= ProductSum(agents) <= hi * ConfidenceSum(agents)
    ensures 0.0 <= ConfidenceSum(agents)
  {
    if |agents| > 0 {
      assert ScoresBetween(agents[1..], lo, hi) by {
        forall i | 0 <= i < |agents[1..]|
          ensures 0.0 <= OrZero(agents[1..][i].confidence) && lo <= OrZero(agents[1..][i].score) <= hi
        {
          assert agents[1..][i] == agents[i + 1];
        }
      }
      ProductSumBounds(agents[1..], lo, hi);
      assert 0.0 <= OrZero(agents[0].confidence) && lo <= OrZero(agents[0].score) <= hi;
      StepBetween(OrZero(agents[0].score), OrZero(agents[0].confidence),
                  ConfidenceSum(agents[1..]), ProductSum(agents[1..]), lo, hi,
                  ConfidenceSum(agents), ProductSum(agents));
    }
  }

  lemma QuotientBetween(p: real, t: real, m: real, lo: real, hi: real)
    requires t > 0.0 && lo * t <= p <= hi * t && m == p / t
    ensures lo <= m <= hi
  {
  }

  /** The category score is the confidence-weighted mean of the agent
      scores: with non-negative confidences of positive total, it lies
      between the lowest and highest score. */
  lemma CategoryScoreIsWeightedMean(agents: seq<AgentScore>, lo: real, hi: real)
    requires ScoresBetween(agents, lo, hi) && ConfidenceSum(agents) > 0.0
    ensures lo <= CategoryScore(agents) <= hi
  {
    ProductSumBounds(agents, lo, hi);
    QuotientBetween(ProductSum(agents), ConfidenceSum(agents), CategoryScore(agents), lo, hi);
  }

  /** With every confidence zero or missing, the divisor falls back to 1.0
      and the category scores 0. */
  lemma {:induction false} ZeroConfidenceScoresZero(agents: seq<AgentScore>)
    requires forall i :: 0 <= i < |agents| ==> OrZero(agents[i].confidence) == 0.0
    ensures Divisor(agents) == 1.0
    ensures CategoryScore(agents) == 0.0
  {
    if |agents| > 0 {
      assert forall i :: 0 <= i < |agents[1..]| ==> agents[1..][i] == agents[i + 1];
      ZeroConfidenceScoresZero(agents[1..]);
    }
  }

  // ---------------------------------------------------------------------------
  // Regime and final aggregation
  // ---------------------------------------------------------------------------

  /** `category_results`: category names with their agent results, in dict order. */
  type CategoryResults = seq<(string, seq<AgentScore>)>

  /** `category_results.get(cat, [])`. */
  function AgentsOf(results: CategoryResults, cat: string): (r: seq<AgentScore>)
    ensures (forall i :: 0 <= i < |results| ==> results[i].0 != cat) ==> r == []
    ensures forall i :: 0 <= i < |results| && results[i].0 == cat && (forall j :: 0 <= j < i ==> results[j].0 != cat)
                  ==> r == results[i].1
  {
    if |results| == 0 then []
    else if results[0].0 == cat then results[0].1
    else
      assert forall i :: 1 <= i < |results| ==> results[1..][i - 1] == results[i];
      AgentsOf(results[1..], cat)
  }

  /** `vol_list[0] if vol_list else None`: the `value` of the first risk
      agent named `volatility_agent`. */
  function VolatilityReading(riskAgents: seq<AgentScore>): (r: Option<Option<real>>)
    ensures r.None? <==> forall i :: 0 <= i < |riskAgents| ==> riskAgents[i].agentName != Some("volatility_agent")
    ensures r.Some? ==>
      exists i :: 0 <= i < |riskAgents| && riskAgents[i].agentName == Some("volatility_agent") && riskAgents[i].value == r.value
    ensures forall i :: 0 <= i < |riskAgents| && riskAgents[i].agentName == Some("volatility_agent")
                  && (forall j :: 0 <= j < i ==> riskAgents[j].agentName != Some("volatility_agent"))
                  ==> r == Some(riskAgents[i].value)
  {
    if |riskAgents| == 0 then None
    else if riskAgents[0].agentName == Some("volatility_agent") then Some(riskAgents[0].value)
    else
      assert forall i :: 1 <= i < |riskAgents| ==> riskAgents[1..][i - 1] == riskAgents[i];
      VolatilityReading(riskAgents[1..])
  }

  /** The regime choice: the high-volatility table exactly when a volatility
      value is present and exceeds the threshold. */
  function RegimeWeights(results: CategoryResults, volThreshold: real): (r: WeightTable)
    ensures r == HighVolWeights || r == LowVolWeights
    ensures r == HighVolWeights <==>
      (var v := VolatilityReading(AgentsOf(results, "risk"));
       v.Some? && v.value.Some? && v.value.value > volThreshold)
  {
    assert HighVolWeights != LowVolWeights by {
      assert HighVolWeights[0].1 != LowVolWeights[0].1;
    }
    var v := VolatilityReading(AgentsOf(results, "risk"));
    if v.Some? && v.value.Some? && v.value.value > volThreshold then HighVolWeights else LowVolWeights
  }

  /** Every category's agents report numbers, so the first loop completes. */
  predicate AllDefined(results: CategoryResults)
  {
    forall i :: 0 <= i < |results| ==> Defined(results[i].1)
  }

  /** The table lists the category. */
  predicate Listed(table: WeightTable, cat: string)
  {
    exists j :: 0 <= j < |table| && table[j].0 == cat
  }

  /** `sum(weights.get(cat, 0.0) * cat_score.get(cat, 0.0) for cat in cat_score)`:
      nothing the table leaves out counts, and a single category counts
      with its weight times its score. */
  function FinalScore(results: CategoryResults, table: WeightTable): (r: real)
    ensures (forall i :: 0 <= i < |results| ==> !Listed(table, results[i].0)) ==> r == 0.0
    ensures |results| == 1 ==> r == WeightOf(table, results[0].0) * CategoryScore(results[0].1)
  {
    if |results| == 0 then 0.0
    else
      assert forall i :: 1 <= i < |results| ==> results[1..][i - 1] == results[i];
      Weighted(table, results[0]) + FinalScore(results[1..], table)
  }

  /** The final score adds up category by category. */
  lemma {:induction false} FinalScoreConcat(a: CategoryResults, b: CategoryResults, table: WeightTable)
    ensures FinalScore(a + b, table) == FinalScore(a, table) + FinalScore(b, table)
  {
    if |a| > 0 {
      FinalScoreConcat(a[1..], b, table);
      assert (a + b)[0] == a[0] && (a + b)[1..] == a[1..] + b;
    } else {
      assert a + b == b;
    }
  }

  /** One term of that sum: the category's weight times its score. */
  function Weighted(table: WeightTable, entry: (string, seq<AgentScore>)): real
  {
    WeightOf(table, entry.0) * CategoryScore(entry.1)
  }

  /** A category the table does not list contributes nothing. */
  lemma UnlistedWeighsZero(table: WeightTable, entry: (string, seq<AgentScore>))
    requires forall i :: 0 <= i < |table| ==> table[i].0 != entry.0
    ensures Weighted(table, entry) == 0.0
  {
  }

  /** A category the weight table does not list adds nothing to the final score. */
  lemma {:induction false} UnweightedCategoryIgnored(before: CategoryResults, cat: string, agents: seq<AgentScore>,
                                                    after: CategoryResults, table: WeightTable)
    requires forall i :: 0 <= i < |table| ==> table[i].0 != cat
    ensures FinalScore(before + [(cat, agents)] + after, table) == FinalScore(before + after, table)
  {
    if |before| == 0 {
      assert before + [(cat, agents)] + after == [(cat, agents)] + after;
      assert ([(cat, agents)] + after)[1..] == after;
      assert before + after == after;
      UnlistedWeighsZero(table, (cat, agents));
    } else {
      UnweightedCategoryIgnored(before[1..], cat, agents, after, table);
      assert (before + [(cat, agents)] + after)[1..] == before[1..] + [(cat, agents)] + after;
      assert (before + after)[1..] == before[1..] + after;
    }
  }

  /** Market and intelligence results never move the brain's score: neither
      weight table lists them. */
  lemma MarketAndIntelligenceIgnored(before: CategoryResults, agents: seq<AgentScore>, after: CategoryResults, volThreshold: real)
    ensures var t := RegimeWeights(before + [("market", agents)] + after, volThreshold);
      FinalScore(before + [("market", agents)] + after, t) == FinalScore(before + after, t)
    ensures var t := RegimeWeights(before + [("intelligence", agents)] + after, volThreshold);
      FinalScore(before + [("intelligence", agents)] + after, t) == FinalScore(before + after, t)
  {
    var t := RegimeWeights(before + [("market", agents)] + after, volThreshold);
    Unlisted(t, "market");
    UnweightedCategoryIgnored(before, "market", agents, after, t);
    var u := RegimeWeights(before + [("intelligence", agents)] + after, volThreshold);
    Unlisted(u, "intelligence");
    UnweightedCategoryIgnored(before, "intelligence", agents, after, u);
  }

  /** Neither weight table lists market or intelligence. */
  lemma Unlisted(table: WeightTable, name: string)
    requires table == HighVolWeights || table == LowVolWeights
    requires name == "market" || name == "intelligence"
    ensures forall i :: 0 <= i < |table| ==> table[i].0 != name
  {
  }

  // ---------------------------------------------------------------------------
  // Temporal smoothing
  // ---------------------------------------------------------------------------

  /** The outcome of `aggregate_scores`: the smoothed score (or the
      exception raised) and the new window. */
  datatype Aggregated = Aggregated(smoothed: Attempt<real>, history: seq<real>)

  /** `_history_window.append(final)` on a `deque(maxlen=window)`. */
  function Push(history: seq<real>, x: real, window: nat): (r: seq<real>)
    ensures |r| == if |history| + 1 <= window then |history| + 1 else window
    ensures r == (history + [x])[|history| + 1 - |r|..]
  {
    LastN(history + [x], window)
  }

  /** `aggregate_scores(category_results)` with the current window contents. */
  function AggregateScores(history: seq<real>, results: CategoryResults, volThreshold: real, window: nat): (r: Aggregated)
    requires |history| <= window
    ensures |r.history| <= window
    // an explicit None score or confidence raises in the first loop, before the window is touched
    ensures !AllDefined(results) ==> r == Aggregated(Raised(NoneArithmetic), history)
    // otherwise the final score is appended to the bounded window
    ensures AllDefined(results) ==> r.history == Push(history, FinalScore(results, RegimeWeights(results, volThreshold)), window)
    ensures AllDefined(results) && window > 0 ==>
      |r.history| > 0 && r.history[|r.history| - 1] == FinalScore(results, RegimeWeights(results, volThreshold))
      && r.smoothed == Returned(Mean(r.history))
    ensures AllDefined(results) && window == 0 ==> r == Aggregated(Raised("division by zero"), [])
  {
    if !AllDefined(results) then Aggregated(Raised(NoneArithmetic), history)
    else
      var final := FinalScore(results, RegimeWeights(results, volThreshold));
      var h := Push(history, final, window);
      if |h| == 0 then Aggregated(Raised("division by zero"), h)
      else Aggregated(Returned(Mean(h)), h)
  }

  /** A call on a window holding the last `window` final scores so far leaves
      the last `window` final scores including its own. */
  lemma AggregateKeepsRecentFinals(finals: seq<real>, results: CategoryResults, volThreshold: real, window: nat)
    requires AllDefined(results)
    ensures AggregateScores(LastN(finals, window), results, volThreshold, window).history
      == LastN(finals + [FinalScore(results, RegimeWeights(results, volThreshold))], window)
  {
    PushKeepsRecent(finals, FinalScore(results, RegimeWeights(results, volThreshold)), window);
  }

  /** Successive pushes keep exactly the last `window` values ever pushed. */
  lemma PushKeepsRecent(all: seq<real>, x: real, window: nat)
    ensures Push(LastN(all, window), x, window) == LastN(all + [x], window)
  {
    LastNAppend(all, x, window);
  }

  /** A series of calls leaves in the window the last `window` final scores. */
  function Replay(finals: seq<real>, window: nat): seq<real>
  {
    if |finals| == 0 then [] else Push(Replay(finals[..|finals| - 1], window), finals[|finals| - 1], window)
  }

  lemma {:induction false} ReplayIsRecentFinals(finals: seq<real>, window: nat)
    ensures Replay(finals, window) == LastN(finals, window)
  {
    if |finals| > 0 {
      var init := finals[..|finals| - 1];
      ReplayIsRecentFinals(init, window);
      PushKeepsRecent(init, finals[|finals| - 1], window);
      assert init + [finals[|finals| - 1]] == finals;
    }
  }

  /** The smoothed score lies between the smallest and largest final score in the window. */
  lemma SmoothedWithinWindow(history: seq<real>, results: CategoryResults, volThreshold: real, window: nat, lo: real, hi: real)
    requires |history| <= window && window > 0 && AllDefined(results)
    requires forall i :: 0 <= i < |history| ==> lo <= history[i] <= hi
    requires lo <= FinalScore(results, RegimeWeights(results, volThreshold)) <= hi
    ensures var r := AggregateScores(history, results, volThreshold, window);
      r.smoothed.Returned? && lo <= r.smoothed.value <= hi
  {
    var r := AggregateScores(history, results, volThreshold, window);
    var final := FinalScore(results, RegimeWeights(results, volThreshold));
    var full := history + [final];
    assert forall i :: 0 <= i < |full| ==> lo <= full[i] <= hi;
    SuffixWithin(full, |full| - |r.history|, lo, hi);
    MeanBounds(r.history, lo, hi);
  }

  lemma SuffixWithin(s: seq<real>, k: nat, lo: real, hi: real)
    requires k <= |s| && forall i :: 0 <= i < |s| ==> lo <= s[i] <= hi
    ensures forall i :: 0 <= i < |s[k..]| ==> lo <= s[k..][i] <= hi
  {
    forall i | 0 <= i < |s[k..]|
      ensures lo <= s[k..][i] <= hi
    {
      assert s[k..][i] == s[k + i];
    }
  }

  // ---------------------------------------------------------------------------
  // Verdict
  // ---------------------------------------------------------------------------

  /** `make_verdict(score)`. */
  function MakeVerdict(score: real): (r: string)
    ensures r == "STRONG_BUY" <==> score >= 0.7
    ensures r == "BUY" <==> 0.5 <= score < 0.7
    ensures r == "HOLD" <==> 0.3 <= score < 0.5
    ensures r == "AVOID" <==> 0.1 <= score < 0.3
    ensures r == "STRONG_AVOID" <==> score < 0.1
  {
    if score >= 0.7 then "STRONG_BUY"
    else if score >= 0.5 then "BUY"
    else if score >= 0.3 then "HOLD"
    else if score >= 0.1 then "AVOID"
    else "STRONG_AVOID"
  }

  /** The rank of a verdict from STRONG_AVOID (0) to STRONG_BUY (4). */
  function VerdictLevel(v: string): nat
  {
    if v == "STRONG_BUY" then 4 else if v == "BUY" then 3 else if v == "HOLD" then 2 else if v == "AVOID" then 1 else 0
  }

  /** A higher score never gives a lower verdict. */
  lemma MakeVerdictMonotone(x: real, y: real)
    requires x <= y
    ensures VerdictLevel(MakeVerdict(x)) <= VerdictLevel(MakeVerdict(y))
  {
  }
}

=== FILE: cache_utils.dfy ===
/** The Redis helpers of backend/utils/cache_utils.py and the
    `cache_data_provider` decorator.

    A Python value is either `None`, a dict or list (stored as its JSON
    text), or anything else (stored as `str(value)`). `json.loads` is the
    `loads` parameter, whose `None` is a `JSONDecodeError`. Expiry (`ex=ttl`)
    is not modelled: stored entries do not expire. */
module CacheUtils {
  import opened Common

  datatype Value = PyNone | Container(doc: string) | Scalar(text: string)

  /** No client, a client whose every call raises, or a working store. */
  datatype Client = NoClient | Down | Up(store: map<string, string>)

  /** What `set_cache` writes: JSON for dicts and lists, `str()` otherwise. */
  function Serialize(v: Value): string
  {
    match v
    case Container(doc) => doc
    case Scalar(text) => text
    case PyNone => "None"
  }

  /** `get_cache`: a miss without a client, on an error, or for an empty or
      absent entry; otherwise the decoded value, or the raw text if it does
      not decode. */
  function GetCache(client: Client, key: string, loads: string -> Option<Value>): (r: Value)
    ensures !client.Up? ==> r == PyNone
    ensures client.Up? && (key !in client.store || client.store[key] == "") ==> r == PyNone
    ensures client.Up? && key in client.store && client.store[key] != "" ==>
      r == (if loads(client.store[key]).Some? then loads(client.store[key]).value else Scalar(client.store[key]))
  {
    match client
    case Up(store) =>
      if key !in store || store[key] == "" then PyNone
      else (match loads(store[key])
        case Some(v) => v
        case None => Scalar(store[key]))
    case _ => PyNone
  }

  /** `set_cache`: a no-op without a working client. */
  function SetCache(client: Client, key: string, value: Value): (r: Client)
    ensures !client.Up? ==> r == client
    ensures client.Up? ==> r.Up? && r.store.Keys == client.store.Keys + {key} && r.store[key] == Serialize(value)
    ensures client.Up? ==> forall k :: k in client.store && k != key ==> r.store[k] == client.store[k]
  {
    match client
    case Up(store) => Up(store[key := Serialize(value)])
    case _ => client
  }

  /** A stored dict or list reads back as itself. */
  lemma ContainerRoundTrip(store: map<string, string>, key: string, doc: string, loads: string -> Option<Value>)
    requires doc != "" && loads(doc) == Some(Container(doc))
    ensures GetCache(SetCache(Up(store), key, Container(doc)), key, loads) == Container(doc)
  {
  }

  /** A stored empty string reads back as a miss. */
  lemma EmptyStringReadsAsMiss(store: map<string, string>, key: string, loads: string -> Option<Value>)
    ensures GetCache(SetCache(Up(store), key, Scalar("")), key, loads) == PyNone
  {
  }

  /** `f"{k}={v}"` for each keyword argument, in call order. */
  function KeywordParts(kwargs: seq<(string, string)>): (r: seq<string>)
    ensures |r| == |kwargs|
    ensures forall i :: 0 <= i < |r| ==> r[i] == kwargs[i].0 + "=" + kwargs[i].1
  {
    if |kwargs| == 0 then [] else [kwargs[0].0 + "=" + kwargs[0].1] + KeywordParts(kwargs[1..])
  }

  const KeyPrefix := "data_provider:"

  /** The key of `cache_data_provider`: the prefix, then the function name, the
      positional arguments and the keyword arguments, joined by ':'. */
  function ProviderCacheKey(funcName: string, args: seq<string>, kwargs: seq<(string, string)>): (k: string)
    ensures |k| >= |KeyPrefix| + |funcName| && k[..|KeyPrefix| + |funcName|] == KeyPrefix + funcName
    ensures |args| + |kwargs| == 0 ==> k == KeyPrefix + funcName
  {
    KeyPrefix + Join([funcName] + args + KeywordParts(kwargs), ":")
  }

  /** The result of one decorated call and the cache afterwards. */
  datatype ProviderCall = ProviderCall(result: Attempt<Value>, client: Client, called: bool)

  /** The wrapper of `cache_data_provider`; `call` is the outcome of running the
      wrapped function, whose exception propagates. */
  function CacheDataProvider(client: Client, funcName: string, args: seq<string>, kwargs: seq<(string, string)>,
                             call: Attempt<Value>, loads: string -> Option<Value>): (r: ProviderCall)
    ensures var cached := GetCache(client, ProviderCacheKey(funcName, args, kwargs), loads);
      (cached != PyNone ==> r == ProviderCall(Returned(cached), client, false))
      && (cached == PyNone ==> r.called && r.result == call)
    ensures r.called && call.Returned? && call.value != PyNone ==>
      r.client == SetCache(client, ProviderCacheKey(funcName, args, kwargs), call.value)
    ensures !(r.called && call.Returned? && call.value != PyNone) ==> r.client == client
  {
    var key := ProviderCacheKey(funcName, args, kwargs);
    var cached := GetCache(client, key, loads);
    if cached != PyNone then ProviderCall(Returned(cached), client, false)
    else match call
      case Raised(_) => ProviderCall(call, client, true)
      case Returned(v) => ProviderCall(call, if v != PyNone then SetCache(client, key, v) else client, true)
  }

  /** After a call returns a dict or list, the same call is answered from the
      cache with that value and the function is not run again. */
  lemma SecondCallHitsCache(store: map<string, string>, funcName: string, args: seq<string>, kwargs: seq<(string, string)>,
                            doc: string, later: Attempt<Value>, loads: string -> Option<Value>)
    requires doc != "" && loads(doc) == Some(Container(doc))
    requires GetCache(Up(store), ProviderCacheKey(funcName, args, kwargs), loads) == PyNone
    ensures var first := CacheDataProvider(Up(store), funcName, args, kwargs, Returned(Container(doc)), loads);
      var second := CacheDataProvider(first.client, funcName, args, kwargs, later, loads);
      first.called && !second.called && second.result == Returned(Container(doc))
  {
    ContainerRoundTrip(store, ProviderCacheKey(funcName, args, kwargs), doc, loads);
  }

  /** A `None` result is never written to the cache. */
  lemma NoneNeverCached(client: Client, funcName: string, args: seq<string>, kwargs: seq<(string, string)>,
                        loads: string -> Option<Value>)
    ensures CacheDataProvider(client, funcName, args, kwargs, Returned(PyNone), loads).client == client
  {
  }

  /** Without a client every call runs the function. */
  lemma NoClientAlwaysCalls(funcName: string, args: seq<string>, kwargs: seq<(string, string)>,
                            call: Attempt<Value>, loads: string -> Option<Value>)
    ensures var r := CacheDataProvider(NoClient, funcName, args, kwargs, call, loads);
      r.called && r.result == call && r.client == NoClient
  {
  }
}

=== FILE: categories.dfy ===
/** Category metadata, the agent registry and the category-level helpers of
    backend/agents/categories.py.

    `CATEGORY_METADATA` covers nine of the eleven enum members: a lookup
    for STEALTH or AUTOMATION raises `KeyError`, which the model returns as
    `Raised` with the message Python would give. */
module Categories {
  import opened Common

  datatype CategoryType =
    Valuation | Technical | Market | Sentiment | Risk | Macro | Event | Esg | Intelligence | Stealth | Automation

  /** The members in definition order, which is the order `for c in CategoryType` visits them. */
  const AllCategories: seq<CategoryType> :=
    [Valuation, Technical, Market, Sentiment, Risk, Macro, Event, Esg, Intelligence, Stealth, Automation]

  /** `category.value`. */
  function Value(c: CategoryType): string
  {
    match c
    case Valuation => "valuation"
    case Technical => "technical"
    case Market => "market"
    case Sentiment => "sentiment"
    case Risk => "risk"
    case Macro => "macro"
    case Event => "event"
    case Esg => "esg"
    case Intelligence => "intelligence"
    case Stealth => "stealth"
    case Automation => "automation"
  }

  /** `category.name`. */
  function EnumName(c: CategoryType): string
  {
    match c
    case Valuation => "VALUATION"
    case Technical => "TECHNICAL"
    case Market => "MARKET"
    case Sentiment => "SENTIMENT"
    case Risk => "RISK"
    case Macro => "MACRO"
    case Event => "EVENT"
    case Esg => "ESG"
    case Intelligence => "INTELLIGENCE"
    case Stealth => "STEALTH"
    case Automation => "AUTOMATION"
  }

  /** `CategoryType[name]`; `None` where Python raises `KeyError`. */
  function FromName(name: string): (r: Option<CategoryType>)
    ensures r.Some? ==> EnumName(r.value) == name
  {
    if name == "VALUATION" then Some(Valuation)
    else if name == "TECHNICAL" then Some(Technical)
    else if name == "MARKET" then Some(Market)
    else if name == "SENTIMENT" then Some(Sentiment)
    else if name == "RISK" then Some(Risk)
    else if name == "MACRO" then Some(Macro)
    else if name == "EVENT" then Some(Event)
    else if name == "ESG" then Some(Esg)
    else if name == "INTELLIGENCE" then Some(Intelligence)
    else if name == "STEALTH" then Some(Stealth)
    else if name == "AUTOMATION" then Some(Automation)
    else None
  }

  /** `CategoryType(value)`; `None` where Python raises `ValueError`. */
  function FromValue(value: string): (r: Option<CategoryType>)
    ensures r.Some? ==> Value(r.value) == value
  {
    if value == "valuation" then Some(Valuation)
    else if value == "technical" then Some(Technical)
    else if value == "market" then Some(Market)
    else if value == "sentiment" then Some(Sentiment)
    else if value == "risk" then Some(Risk)
    else if value == "macro" then Some(Macro)
    else if value == "event" then Some(Event)
    else if value == "esg" then Some(Esg)
    else if value == "intelligence" then Some(Intelligence)
    else if value == "stealth" then Some(Stealth)
    else if value == "automation" then Some(Automation)
    else None
  }

  /** Names and values are each one-to-one, so looking a member up by its
      own name or value finds it again. */
  lemma NameAndValueRoundTrip(c: CategoryType)
    ensures FromName(EnumName(c)) == Some(c)
    ensures FromValue(Value(c)) == Some(c)
  {
  }

  lemma RoundTripAll()
    ensures forall c: CategoryType :: FromName(EnumName(c)) == Some(c) && FromValue(Value(c)) == Some(c)
  {
    forall c: CategoryType
      ensures FromName(EnumName(c)) == Some(c) && FromValue(Value(c)) == Some(c)
    {
      NameAndValueRoundTrip(c);
    }
  }

  lemma AllCategoriesComplete()
    ensures forall c: CategoryType :: c in AllCategories
  {
    forall c: CategoryType
      ensures c in AllCategories
    {
      match c
      case Valuation => assert AllCategories[0] == c;
      case Technical => assert AllCategories[1] == c;
      case Market => assert AllCategories[2] == c;
      case Sentiment => assert AllCategories[3] == c;
      case Risk => assert AllCategories[4] == c;
      case Macro => assert AllCategories[5] == c;
      case Event => assert AllCategories[6] == c;
      case Esg => assert AllCategories[7] == c;
      case Intelligence => assert AllCategories[8] == c;
      case Stealth => assert AllCategories[9] == c;
      case Automation => assert AllCategories[10] == c;
    }
  }

  /** `CategoryMetadata`; `dependencies` holds enum member names. */
  datatype CategoryMetadata = CategoryMetadata(
    name: string,
    weight: real,
    description: string,
    required: bool,
    dependencies: seq<string>)

  /** `CATEGORY_METADATA[category]`, `None` for the two members it leaves out. */
  function Metadata(c: CategoryType): Option<CategoryMetadata>
  {
    match c
    case Valuation => Some(CategoryMetadata("Valuation", 0.25, "Fundamental valuation metrics", true, []))
    case Technical => Some(CategoryMetadata("Technical", 0.20, "Technical analysis indicators", true, []))
    case Market => Some(CategoryMetadata("Market", 0.15, "Market regime and conditions", true, []))
    case Sentiment => Some(CategoryMetadata("Sentiment", 0.10, "Market sentiment analysis", false, ["MARKET"]))
    case Risk => Some(CategoryMetadata("Risk", 0.10, "Risk metrics and analysis", true, ["MARKET", "TECHNICAL"]))
    case Macro => Some(CategoryMetadata("Macro", 0.05, "Macroeconomic indicators", false, []))
    case Event => Some(CategoryMetadata("Event", 0.05, "Corporate events and actions", false, []))
    case Esg => Some(CategoryMetadata("ESG", 0.05, "Environmental, Social, Governance", false, []))
    case Intelligence => Some(CategoryMetadata("Intelligence", 0.05, "AI-powered analysis", false, ["VALUATION", "TECHNICAL", "SENTIMENT"]))
    case Stealth => None
    case Automation => None
  }

  /** `_agent_registry[category]`: module names of the category's agents. */
  function Registry(c: CategoryType): seq<string>
  {
    match c
    case Valuation => ["pe_ratio_agent", "peg_ratio_agent", "price_to_sales_agent", "pfcf_ratio_agent",
                       "pb_ratio_agent", "ev_ebitda_agent", "book_to_market_agent", "earnings_yield_agent",
                       "dcf_agent", "reverse_dcf_agent", "intrinsic_composite_agent", "price_target_agent",
                       "dividend_yield_agent"]
    case Technical => ["rsi_agent", "macd_agent", "moving_average_agent", "bollinger_agent", "adx_agent",
                       "trend_strength_agent", "ma_crossover_agent", "volume_spike_agent", "stochastic_agent",
                       "supertrend_agent"]
    case Market => ["market_regime_agent", "volatility_agent", "liquidity_agent", "correlation_agent", "momentum_agent"]
    case Sentiment => ["news_sentiment_agent", "social_sentiment_agent", "nlp_topic_agent"]
    case Risk => ["beta_agent", "var_agent", "risk_core_agent", "portfolio_risk_agent"]
    case Macro => ["interest_rate_agent", "inflation_agent", "gdp_growth_agent"]
    case Event => ["earnings_agent", "corporate_actions_agent", "share_buyback_agent"]
    case Esg => ["environmental_agent", "social_agent", "governance_agent", "composite_esg_agent"]
    case Intelligence => ["composite_valuation_agent", "target_price_agent", "theme_match_agent",
                          "peer_compare_agent", "factor_score_agent", "ask_alpha_agent", "ask_adam_agent"]
    case Stealth => ["zerodha_agent", "trendlyne_agent", "tradingview_agent", "tickertape_agent",
                     "stockedge_agent", "moneycontrol_agent"]
    case Automation => ["bulk_portfolio_agent", "auto_watchlist_agent", "alert_engine_agent"]
  }

  /** `str(KeyError(category))`: the enum member's repr. */
  function KeyErrorMessage(c: CategoryType): string
  {
    "<CategoryType." + EnumName(c) + ": '" + Value(c) + "'>"
  }

  /** `CATEGORY_METADATA[category]` as a lookup that may raise. */
  function MetadataOf(c: CategoryType): (r: Attempt<CategoryMetadata>)
    ensures r.Raised? <==> c == Stealth || c == Automation
    ensures r.Raised? ==> r.error == KeyErrorMessage(c)
    ensures r.Returned? ==> Metadata(c) == Some(r.value)
  {
    match Metadata(c)
    case Some(m) => Returned(m)
    case None => Raised(KeyErrorMessage(c))
  }

  /** `get_category_weight(category)`. */
  function GetCategoryWeight(c: CategoryType): (r: Attempt<real>)
    ensures r.Raised? <==> c == Stealth || c == Automation
    ensures r.Returned? ==> 0.0 < r.value <= 0.25
  {
    match MetadataOf(c)
    case Returned(m) => Returned(m.weight)
    case Raised(e) => Raised(e)
  }

  /** `get_dependencies(category)`: enum member names. */
  function GetDependencies(c: CategoryType): (r: Attempt<seq<string>>)
    ensures r.Raised? <==> c == Stealth || c == Automation
    ensures r.Returned? ==> forall i :: 0 <= i < |r.value| ==> FromName(r.value[i]).Some?
  {
    DependencyNamesResolve(c);
    match MetadataOf(c)
    case Returned(m) => Returned(m.dependencies)
    case Raised(e) => Raised(e)
  }

  /** Every dependency name in the metadata is the name of an enum member. */
  lemma DependencyNamesResolve(c: CategoryType)
    ensures Metadata(c).Some? ==>
      forall i :: 0 <= i < |Metadata(c).value.dependencies| ==> FromName(Metadata(c).value.dependencies[i]).Some?
  {
    NameAndValueRoundTrip(Market);
    NameAndValueRoundTrip(Technical);
    NameAndValueRoundTrip(Valuation);
    NameAndValueRoundTrip(Sentiment);
  }

  /** The sum of the metadata weights over `cs`, or the KeyError of the first
      member without metadata. */
  function WeightSum(cs: seq<CategoryType>): Attempt<real>
  {
    if |cs| == 0 then Returned(0.0)
    else match GetCategoryWeight(cs[0])
      case Raised(e) => Raised(e)
      case Returned(w) =>
        match WeightSum(cs[1..])
        case Raised(e) => Raised(e)
        case Returned(s) => Returned(w + s)
  }

  /** The members that have metadata. */
  const MetadataCategories: seq<CategoryType> :=
    [Valuation, Technical, Market, Sentiment, Risk, Macro, Event, Esg, Intelligence]

  lemma MetadataCategoriesComplete()
    ensures forall c: CategoryType :: c in MetadataCategories <==> Metadata(c).Some?
  {
  }

  /** The nine metadata weights sum to exactly 1.0, and the nine members listed
      are exactly those with metadata. */
  lemma MetadataWeightsSumToOne()
    ensures WeightSum(MetadataCategories) == Returned(1.0)
    ensures forall c: CategoryType :: c in MetadataCategories <==> Metadata(c).Some?
  {
  }

  /** The position of a member in dependency order: every dependency of a
      member has a smaller rank. */
  function Rank(c: CategoryType): nat
  {
    match c
    case Sentiment => 1
    case Risk => 1
    case Intelligence => 2
    case _ => 0
  }

  /** The metadata dependency graph is acyclic: each dependency ranks strictly
      below its dependent, so no chain of dependencies can return to its start. */
  lemma DependenciesRankBelow(c: CategoryType, i: nat)
    requires Metadata(c).Some? && i < |Metadata(c).value.dependencies|
    ensures FromName(Metadata(c).value.dependencies[i]).Some?
    ensures Rank(FromName(Metadata(c).value.dependencies[i]).value) < Rank(c)
  {
    DependencyNamesResolve(c);
    NameAndValueRoundTrip(Market);
    NameAndValueRoundTrip(Technical);
    NameAndValueRoundTrip(Valuation);
    NameAndValueRoundTrip(Sentiment);
  }

  /** The required flag of every member in `cs`, in order, stopping with the
      KeyError of the first member without metadata. */
  function RequiredAmong(cs: seq<CategoryType>): (r: Attempt<seq<CategoryType>>)
    ensures r.Raised? <==> exists i :: 0 <= i < |cs| && Metadata(cs[i]).None?
    ensures r.Returned? ==> forall c :: c in r.value <==> c in cs && Metadata(c).value.required
  {
    if |cs| == 0 then Returned([])
    else match MetadataOf(cs[0])
      case Raised(e) => Raised(e)
      case Returned(m) =>
        match RequiredAmong(cs[1..])
        case Raised(e) =>
          assert forall i :: 0 <= i < |cs[1..]| ==> cs[1..][i] == cs[i + 1];
          Raised(e)
        case Returned(rest) =>
          assert forall i :: 0 < i < |cs| ==> cs[i] == cs[1..][i - 1];
          Returned(if m.required then [cs[0]] + rest else rest)
  }

  /** `get_required_categories()` as written: it walks every enum member, so the
      lookup for STEALTH raises before anything is returned. */
  function GetRequiredCategories(): (r: Attempt<seq<CategoryType>>)
    ensures r.Raised?
  {
    assert Metadata(AllCategories[9]).None?;
    RequiredAmong(AllCategories)
  }

  lemma GetRequiredCategoriesRaises()
    ensures GetRequiredCategories() == Raised(KeyErrorMessage(Stealth))
  {
  }

  /** The member has metadata and it is flagged as required. */
  predicate IsRequired(c: CategoryType)
  {
    Metadata(c).Some? && Metadata(c).value.required
  }

  /** `get_required_categories()` over the members that have metadata. */
  function RequiredCategories(): (r: seq<CategoryType>)
    ensures forall c: CategoryType :: c in r <==> IsRequired(c)
  {
    MetadataCategoriesComplete();
    Filter(MetadataCategories, IsRequired)
  }

  /** The required categories are VALUATION, TECHNICAL, MARKET and RISK. */
  lemma RequiredAreTheFour(c: CategoryType)
    ensures IsRequired(c) <==> c == Valuation || c == Technical || c == Market || c == Risk
  {
  }

  /** Where every member has metadata, the loop of `get_required_categories`
      returns what the intended filter returns. */
  lemma {:induction false} RequiredAmongIsFilter(cs: seq<CategoryType>)
    requires forall i :: 0 <= i < |cs| ==> Metadata(cs[i]).Some?
    ensures RequiredAmong(cs) == Returned(Filter(cs, IsRequired))
  {
    if |cs| > 0 {
      RequiredAmongIsFilter(cs[1..]);
    }
  }

  /** `validate_category_result(category, results)`, given `len(results)`. */
  function ValidateCategoryResult(c: CategoryType, resultCount: nat): (r: Attempt<bool>)
    // an empty result list is invalid before the metadata is looked up
    ensures resultCount == 0 ==> r == Returned(false)
    ensures resultCount > 0 ==> (r.Raised? <==> Metadata(c).None?)
    // a required category needs at least half of its registered agents
    ensures r.Returned? && resultCount > 0 ==>
      (r.value <==> !Metadata(c).value.required || 2 * resultCount >= |Registry(c)|)
  {
    if resultCount == 0 then Returned(false)
    else match MetadataOf(c)
      case Raised(e) => Raised(e)
      case Returned(m) =>
        Returned(!(m.required && (resultCount as real) < (|Registry(c)| as real) * 0.5))
  }

  /** For the four required categories the bar is 7 of 13 valuation agents,
      5 of 10 technical, 3 of 5 market and 2 of 4 risk agents. */
  lemma RequiredThresholds()
    ensures ValidateCategoryResult(Valuation, 6) == Returned(false) && ValidateCategoryResult(Valuation, 7) == Returned(true)
    ensures ValidateCategoryResult(Technical, 4) == Returned(false) && ValidateCategoryResult(Technical, 5) == Returned(true)
    ensures ValidateCategoryResult(Market, 2) == Returned(false) && ValidateCategoryResult(Market, 3) == Returned(true)
    ensures ValidateCategoryResult(Risk, 1) == Returned(false) && ValidateCategoryResult(Risk, 2) == Returned(true)
  {
  }

  // ---------------------------------------------------------------------------
  // Running a category's agents
  // ---------------------------------------------------------------------------

  /** What importing one registered agent module gave: an `ImportError`, a
      module without `run`, or a `run` whose call has the given outcome. */
  datatype AgentModule<R> = ImportFails | NoRun | HasRun(outcome: Attempt<R>)

  /** `get_category_agents(category)`: the outcomes of the `run` functions
      found, in registry order; modules that fail to import or lack `run`
      are skipped. */
  function GetCategoryAgents<R>(modules: seq<AgentModule<R>>): (r: seq<Attempt<R>>)
    ensures |r| <= |modules|
    ensures forall i :: 0 <= i < |modules| && modules[i].HasRun? ==> modules[i].outcome in r
    ensures forall i :: 0 <= i < |r| ==> HasRun(r[i]) in modules
  {
    if |modules| == 0 then []
    else if modules[0].HasRun? then [modules[0].outcome] + GetCategoryAgents(modules[1..])
    else GetCategoryAgents(modules[1..])
  }

  /** The message of the `NameError` raised when the handler reaches the
      undefined `logger`. */
  const LoggerNameError := "name 'logger' is not defined"

  /** `execute_category` as written: the handler for a failing agent refers to
      `logger`, which categories.py never defines, so the first agent exception
      escapes as a `NameError` instead of being swallowed. */
  function ExecuteCategoryAsWritten<R>(agents: seq<Attempt<R>>, truthy: R -> bool): (r: Attempt<seq<R>>)
    ensures r.Raised? <==> exists i :: 0 <= i < |agents| && agents[i].Raised?
    ensures r.Raised? ==> r.error == LoggerNameError
    ensures r.Returned? ==> r.value == ExecuteCategory(agents, truthy)
  {
    if |agents| == 0 then Returned([])
    else match agents[0]
      case Raised(_) => Raised(LoggerNameError)
      case Returned(v) =>
        match ExecuteCategoryAsWritten(agents[1..], truthy)
        case Raised(e) =>
          assert forall i :: 0 <= i < |agents[1..]| ==> agents[1..][i] == agents[i + 1];
          Raised(e)
        case Returned(rest) =>
          assert forall i :: 0 < i < |agents| ==> agents[i] == agents[1..][i - 1];
          Returned(if truthy(v) then [v] + rest else rest)
  }

  /** `execute_category` as its handler intends: failing agents are logged and
      skipped, falsy results are dropped, and the rest keep registry order. */
  function ExecuteCategory<R>(agents: seq<Attempt<R>>, truthy: R -> bool): (r: seq<R>)
    ensures |r| <= |agents|
    ensures forall i :: 0 <= i < |r| ==> truthy(r[i]) && Returned(r[i]) in agents
    ensures forall i :: 0 <= i < |agents| && agents[i].Returned? && truthy(agents[i].value) ==> agents[i].value in r
  {
    if |agents| == 0 then []
    else match agents[0]
      case Raised(_) => ExecuteCategory(agents[1..], truthy)
      case Returned(v) => if truthy(v) then [v] + ExecuteCategory(agents[1..], truthy) else ExecuteCategory(agents[1..], truthy)
  }

  /** The agent returned a truthy result, which `execute_category` keeps. */
  predicate Kept<R>(a: Attempt<R>, truthy: R -> bool)
  {
    a.Returned? && truthy(a.value)
  }

  /** How many agents of the list returned a truthy result. */
  function KeptCount<R>(agents: seq<Attempt<R>>, truthy: R -> bool): nat
  {
    if |agents| == 0 then 0 else (if Kept(agents[0], truthy) then 1 else 0) + KeptCount(agents[1..], truthy)
  }

  /** The intended results are exactly the kept values in registry order: as
      many as there are kept agents, and the value of the agent at index `i`
      sits after the values kept before it. */
  lemma {:induction false} ExecuteCategoryInOrder<R>(agents: seq<Attempt<R>>, truthy: R -> bool)
    ensures |ExecuteCategory(agents, truthy)| == KeptCount(agents, truthy)
    ensures forall i :: 0 <= i < |agents| && Kept(agents[i], truthy) ==>
      KeptCount(agents[..i], truthy) < |ExecuteCategory(agents, truthy)|
      && ExecuteCategory(agents, truthy)[KeptCount(agents[..i], truthy)] == agents[i].value
  {
    if |agents| > 0 {
      var r, rest := ExecuteCategory(agents, truthy), ExecuteCategory(agents[1..], truthy);
      var k0 := if Kept(agents[0], truthy) then 1 else 0;
      ExecuteCategoryInOrder(agents[1..], truthy);
      ExecuteCategoryStep(agents, truthy);
      assert r == (if k0 == 1 then [agents[0].value] else []) + rest;
      forall i | 0 <= i < |agents| && Kept(agents[i], truthy)
        ensures KeptCount(agents[..i], truthy) < |r| && r[KeptCount(agents[..i], truthy)] == agents[i].value
      {
        if i == 0 {
          assert agents[..0] == [];
        } else {
          assert agents[..i][1..] == agents[1..][..i - 1];
          assert KeptCount(agents[..i], truthy) == k0 + KeptCount(agents[1..][..i - 1], truthy);
          assert agents[1..][i - 1] == agents[i];
        }
      }
    }
  }

  /** A failing agent leaves no trace in the intended results: dropping it
      changes nothing. */
  lemma {:induction false} ExecuteCategoryIgnoresFailures<R>(before: seq<Attempt<R>>, error: string, after: seq<Attempt<R>>, truthy: R -> bool)
    ensures ExecuteCategory(before + [Raised(error)] + after, truthy) == ExecuteCategory(before + after, truthy)
  {
    var all, kept := before + [Raised(error)] + after, before + after;
    if |before| == 0 {
      assert all == [Raised(error)] + after && all[1..] == after && kept == after;
      ExecuteCategoryStep(all, truthy);
    } else {
      ExecuteCategoryIgnoresFailures(before[1..], error, after, truthy);
      assert all[0] == before[0] && all[1..] == before[1..] + [Raised(error)] + after;
      assert kept[0] == before[0] && kept[1..] == before[1..] + after;
      ExecuteCategoryStep(all, truthy);
      ExecuteCategoryStep(kept, truthy);
    }
  }

  /** One step of `ExecuteCategory`. */
  lemma ExecuteCategoryStep<R>(agents: seq<Attempt<R>>, truthy: R -> bool)
    requires |agents| > 0
    ensures ExecuteCategory(agents, truthy) ==
      if agents[0].Returned? && truthy(agents[0].value) then [agents[0].value] + ExecuteCategory(agents[1..], truthy)
      else ExecuteCategory(agents[1..], truthy)
  {
  }
}

=== FILE: circuit_breaker.dfy ===
/** The per-service circuit breaker of backend/utils/circuit_breaker.py.

    The breaker keeps one `CircuitState` per service name. `time.time()` is
    the explicit `now` parameter of every operation that reads the clock. */
module CircuitBreaker {

  /** The dataclass `CircuitState` with its defaults. */
  datatype CircuitState = CircuitState(
    isOpen: bool,
    failureCount: nat,
    lastFailure: real,
    resetTimeout: real)

  /** The state a service gets the first time it is mentioned. */
  const FreshState := CircuitState(false, 0, 0.0, 60.0)

  /** `CircuitBreaker(failure_threshold)`: the circuits and the threshold. */
  datatype Breaker = Breaker(circuits: map<string, CircuitState>, threshold: int)

  function NewBreaker(threshold: int): Breaker
  {
    Breaker(map[], threshold)
  }

  /** The state the breaker holds or would create for `service`. */
  function StateOf(b: Breaker, service: string): CircuitState
  {
    if service in b.circuits then b.circuits[service] else FreshState
  }

  /** Result of `check_circuit`: whether the call may go through, and the new breaker. */
  datatype Checked = Checked(allowed: bool, breaker: Breaker)

  /** The timeout of an open circuit has run out at time `now`. */
  predicate TimedOut(st: CircuitState, now: real)
  {
    now - st.lastFailure > st.resetTimeout
  }

  /** `check_circuit(service)`. An open circuit whose timeout has run out is
      closed again with a zero count; otherwise an open circuit refuses. */
  function CheckCircuit(b: Breaker, service: string, now: real): (r: Checked)
    ensures service in r.breaker.circuits
    // an unknown service is registered with a fresh closed state and is allowed
    ensures service !in b.circuits ==> r.allowed && r.breaker.circuits[service] == FreshState
    // the call is allowed exactly when the circuit is closed or its timeout has run out
    ensures r.allowed <==> !StateOf(b, service).isOpen || TimedOut(StateOf(b, service), now)
    // a refusal changes nothing
    ensures !r.allowed ==> r.breaker == b
    // a reopening closes the circuit, zeroes the count and keeps the rest
    ensures StateOf(b, service).isOpen && r.allowed ==>
      r.breaker.circuits[service] == StateOf(b, service).(isOpen := false, failureCount := 0)
    // afterwards the service is registered and the circuit is closed iff it was allowed
    ensures r.breaker.circuits[service].isOpen <==> !r.allowed
    // other services and the threshold are untouched
    ensures r.breaker.threshold == b.threshold
    ensures r.breaker.circuits.Keys == b.circuits.Keys + {service}
    ensures forall s :: s in b.circuits && s != service ==> r.breaker.circuits[s] == b.circuits[s]
  {
    var st := StateOf(b, service);
    var b1 := b.(circuits := b.circuits[service := st]);
    if st.isOpen then
      if TimedOut(st, now) then
        Checked(true, b.(circuits := b.circuits[service := st.(isOpen := false, failureCount := 0)]))
      else
        Checked(false, b)
    else
      Checked(true, b1)
  }

  /** `record_failure(service)`. */
  function RecordFailure(b: Breaker, service: string, now: real): (r: Breaker)
    ensures service in r.circuits
    // the count rises by exactly one and the failure time becomes `now`
    ensures r.circuits[service].failureCount == StateOf(b, service).failureCount + 1
    ensures r.circuits[service].lastFailure == now
    ensures r.circuits[service].resetTimeout == StateOf(b, service).resetTimeout
    // the circuit opens once the count reaches the threshold; below it, it keeps its old state
    ensures r.circuits[service].failureCount >= b.threshold ==> r.circuits[service].isOpen
    ensures r.circuits[service].failureCount < b.threshold ==>
      r.circuits[service].isOpen == StateOf(b, service).isOpen
    // other services and the threshold are untouched
    ensures r.threshold == b.threshold
    ensures r.circuits.Keys == b.circuits.Keys + {service}
    ensures forall s :: s in b.circuits && s != service ==> r.circuits[s] == b.circuits[s]
  {
    var st := StateOf(b, service);
    var count := st.failureCount + 1;
    var nowOpen := if count >= b.threshold then true else st.isOpen;
    b.(circuits := b.circuits[service := st.(failureCount := count, lastFailure := now, isOpen := nowOpen)])
  }

  /** `k` failures of `service` recorded at time `now`. */
  function RecordFailures(b: Breaker, service: string, k: nat, now: real): Breaker
  {
    if k == 0 then b else RecordFailure(RecordFailures(b, service, k - 1, now), service, now)
  }

  /** From a fresh breaker, `k` failures leave a count of `k` and an open circuit
      exactly when `k` has reached the threshold. */
  lemma {:induction false} FailuresOpenAtThreshold(threshold: int, service: string, k: nat, now: real)
    ensures var b := RecordFailures(NewBreaker(threshold), service, k, now);
      b.threshold == threshold
      && b.circuits.Keys <= {service}
      && (k > 0 ==>
            b.circuits[service].failureCount == k
            && b.circuits[service].lastFailure == now
            && b.circuits[service].resetTimeout == 60.0
            && (b.circuits[service].isOpen <==> k >= threshold))
  {
    if k > 0 {
      FailuresOpenAtThreshold(threshold, service, k - 1, now);
      var prev := RecordFailures(NewBreaker(threshold), service, k - 1, now);
      var cur := RecordFailures(NewBreaker(threshold), service, k, now);
      assert cur == RecordFailure(prev, service, now);
    }
  }

  /** Once open, the circuit refuses while no more than `reset_timeout` seconds
      have passed since the last failure, and then lets one check through, which
      closes it with a zero count. */
  lemma OpenCircuitWaitsForTimeout(threshold: int, service: string, k: nat, t: real, later: real)
    requires k > 0 && k >= threshold
    ensures var b := RecordFailures(NewBreaker(threshold), service, k, t);
      var c := CheckCircuit(b, service, later);
      (later - t <= 60.0 ==> !c.allowed && c.breaker == b)
      && (later - t > 60.0 ==>
            c.allowed
            && !c.breaker.circuits[service].isOpen
            && c.breaker.circuits[service].failureCount == 0)
  {
    FailuresOpenAtThreshold(threshold, service, k, t);
  }

  /** Below the threshold every check goes through and leaves the count alone. */
  lemma BelowThresholdStaysClosed(threshold: int, service: string, k: nat, t: real, later: real)
    requires 0 < k < threshold
    ensures var b := RecordFailures(NewBreaker(threshold), service, k, t);
      var c := CheckCircuit(b, service, later);
      c.allowed && c.breaker.circuits[service].failureCount == k
  {
    FailuresOpenAtThreshold(threshold, service, k, t);
  }
}

=== FILE: common.dfy ===
/** Shared vocabulary of the model: optional values, the outcome of a call
    that may raise, and small functions over sequences of reals and strings. */
module Common {

  /** Python's `None` or a value. */
  datatype Option<T> = None | Some(value: T)

  /** The outcome of one call into code that may raise: the value it returned,
      or the message of the exception it raised. */
  datatype Attempt<T> = Returned(value: T) | Raised(error: string)

  // ---------------------------------------------------------------------------
  // Sums and means over real sequences
  // ---------------------------------------------------------------------------

  /** Sum of a sequence, peeled from the end so that appending one sample is one unfolding. */
  function Sum(s: seq<real>): real
  {
    if |s| == 0 then 0.0 else Sum(s[..|s| - 1]) + s[|s| - 1]
  }

  /** Arithmetic mean (numpy.mean / statistics.mean) of a non-empty sequence. */
  function Mean(s: seq<real>): real
    requires |s| > 0
  {
    Sum(s) / (|s| as real)
  }

  lemma SumAppend(s: seq<real>, x: real)
    ensures Sum(s + [x]) == Sum(s) + x
  {
    assert (s + [x])[..|s + [x]| - 1] == s;
  }

  /** The running-average update `(avg·n + x)/(n + 1)` turns the mean of `n`
      samples into the mean of the `n + 1` samples with `x` appended. */
  lemma RunningMeanStep(s: seq<real>, avg: real, x: real)
    requires |s| > 0 ==> avg == Mean(s)
    ensures (avg * (|s| as real) + x) / ((|s| + 1) as real) == Mean(s + [x])
  {
    SumAppend(s, x);
    if |s| > 0 {
      var n := |s| as real;
      assert avg * n == Sum(s);
    }
  }

  /** Every element at least `lo` and at most `hi` bounds the sum by `|s|·lo` and `|s|·hi`. */
  lemma {:induction false} SumBounds(s: seq<real>, lo: real, hi: real)
    requires forall i :: 0 <= i < |s| ==> lo <= s[i] <= hi
    ensures (|s| as real) * lo <= Sum(s) <= (|s| as real) * hi
  {
    if |s| > 0 {
      SumBounds(s[..|s| - 1], lo, hi);
    }
  }

  /** The mean lies between any common lower and upper bound of the samples. */
  lemma MeanBounds(s: seq<real>, lo: real, hi: real)
    requires |s| > 0
    requires forall i :: 0 <= i < |s| ==> lo <= s[i] <= hi
    ensures lo <= Mean(s) <= hi
  {
    SumBounds(s, lo, hi);
    var n := |s| as real;
    assert n * lo <= Sum(s) <= n * hi;
    assert Sum(s) / n >= lo by {
      assert Sum(s) >= n * lo;
    }
    assert Sum(s) / n <= hi by {
      assert Sum(s) <= n * hi;
    }
  }

  lemma {:induction false} SumNonNegative(s: seq<real>)
    requires forall i :: 0 <= i < |s| ==> 0.0 <= s[i]
    ensures 0.0 <= Sum(s)
  {
    if |s| > 0 {
      SumNonNegative(s[..|s| - 1]);
    }
  }

  function Min(a: real, b: real): real { if a <= b then a else b }
  function Max(a: real, b: real): real { if a >= b then a else b }
  function Abs(x: real): real { if x < 0.0 then -x else x }

  // ---------------------------------------------------------------------------
  // Sequences
  // ---------------------------------------------------------------------------

  /** No element occurs twice. */
  predicate NoDuplicates<T(==)>(s: seq<T>)
  {
    forall i, j :: 0 <= i < j < |s| ==> s[i] != s[j]
  }

  /** The elements of `s` that satisfy `keep`, in order (a list comprehension with a condition). */
  function Filter<T>(s: seq<T>, keep: T -> bool): (r: seq<T>)
    ensures |r| <= |s|
    ensures forall i :: 0 <= i < |r| ==> keep(r[i]) && r[i] in s
    ensures forall i :: 0 <= i < |s| && keep(s[i]) ==> s[i] in r
  {
    if |s| == 0 then []
    else if keep(s[0]) then [s[0]] + Filter(s[1..], keep)
    else Filter(s[1..], keep)
  }

  lemma FilterAppend<T>(a: seq<T>, b: seq<T>, keep: T -> bool)
    ensures Filter(a + b, keep) == Filter(a, keep) + Filter(b, keep)
  {
    if |a| > 0 {
      assert (a + b)[1..] == a[1..] + b;
      FilterAppend(a[1..], b, keep);
    } else {
      assert a + b == b;
    }
  }

  /** The concatenation of `f(x)` over the elements `x` of `s`, in order (a
      nested loop that appends zero or more items per element). */
  function FlatMap<T, U>(s: seq<T>, f: T -> seq<U>): seq<U>
  {
    if |s| == 0 then [] else f(s[0]) + FlatMap(s[1..], f)
  }

  lemma {:induction false} FlatMapAppend<T, U>(a: seq<T>, b: seq<T>, f: T -> seq<U>)
    ensures FlatMap(a + b, f) == FlatMap(a, f) + FlatMap(b, f)
  {
    if |a| > 0 {
      assert (a + b)[0] == a[0] && (a + b)[1..] == a[1..] + b;
      FlatMapAppend(a[1..], b, f);
      assert f(a[0]) + (FlatMap(a[1..], f) + FlatMap(b, f)) == (f(a[0]) + FlatMap(a[1..], f)) + FlatMap(b, f);
    } else {
      assert a + b == b;
    }
  }

  /** `FlatMap` is empty exactly when every element maps to nothing; otherwise
      its head comes from the first element that maps to something. */
  lemma {:induction false} FlatMapHead<T, U>(s: seq<T>, f: T -> seq<U>)
    ensures |FlatMap(s, f)| == 0 <==> forall i :: 0 <= i < |s| ==> |f(s[i])| == 0
    ensures |FlatMap(s, f)| > 0 ==>
      exists i :: 0 <= i < |s| && |f(s[i])| > 0 && FlatMap(s, f)[0] == f(s[i])[0]
        && forall j :: 0 <= j < i ==> |f(s[j])| == 0
  {
    if |s| > 0 {
      FlatMapHead(s[1..], f);
      if |f(s[0])| == 0 && |FlatMap(s[1..], f)| > 0 {
        var i :| 0 <= i < |s[1..]| && |f(s[1..][i])| > 0 && FlatMap(s[1..], f)[0] == f(s[1..][i])[0]
          && forall j :: 0 <= j < i ==> |f(s[1..][j])| == 0;
        assert forall j :: 0 <= j < i + 1 ==> |f(s[j])| == 0 by {
          forall j | 0 <= j < i + 1 ensures |f(s[j])| == 0 {
            if j > 0 { assert s[j] == s[1..][j - 1]; }
          }
        }
        assert s[i + 1] == s[1..][i];
      }
      if |f(s[0])| == 0 && |FlatMap(s[1..], f)| == 0 {
        forall i | 0 <= i < |s| ensures |f(s[i])| == 0 {
          if i > 0 { assert s[i] == s[1..][i - 1]; }
        }
      }
    }
  }

  /** Concatenation regroups: `x + (a + b)` is `(x + a) + b`. */
  lemma Regroup<T>(whole: seq<T>, prefix: seq<T>, x: seq<T>, a: seq<T>, b: seq<T>)
    requires whole == x + (a + b) && prefix == x + a
    ensures whole == prefix + b
  {
  }

  /** `s[i]` with Python's negative indexing; `None` where Python raises IndexError. */
  function PyAt<T>(s: seq<T>, i: int): (r: Option<T>)
    ensures r.Some? <==> -|s| <= i < |s|
    ensures 0 <= i < |s| ==> r == Some(s[i])
    ensures -|s| <= i < 0 ==> r == Some(s[|s| + i])
  {
    if 0 <= i < |s| then Some(s[i])
    else if -|s| <= i < 0 then Some(s[|s| + i])
    else None
  }

  /** `s[-n:]` in Python for `n >= 0`: the last `n` elements, or all of them. */
  function LastN<T>(s: seq<T>, n: nat): (r: seq<T>)
    ensures |r| == if |s| <= n then |s| else n
    ensures r == s[|s| - |r|..]
  {
    if |s| <= n then s else s[|s| - n..]
  }

  /** Trimming to the last `n` before or after appending one element keeps the same window. */
  lemma LastNAppend<T>(s: seq<T>, x: T, n: nat)
    ensures LastN(LastN(s, n) + [x], n) == LastN(s + [x], n)
  {
    var h := LastN(s, n);
    var full := s + [x];
    assert h + [x] == full[|full| - |h| - 1..];
  }

  /** `s[:limit]` in Python for any integer `limit` (a negative limit drops from the end). */
  function PyPrefix<T>(s: seq<T>, limit: int): (r: seq<T>)
    ensures limit >= 0 ==> |r| == if limit <= |s| then limit else |s|
    ensures limit < 0 ==> |r| == if |s| + limit >= 0 then |s| + limit else 0
    ensures r == s[..|r|]
  {
    if limit >= 0 then (if limit <= |s| then s[..limit] else s)
    else if |s| + limit >= 0 then s[..|s| + limit]
    else []
  }

  // ---------------------------------------------------------------------------
  // Strings
  // ---------------------------------------------------------------------------

  /** `sep.join(parts)`. */
  function Join(parts: seq<string>, sep: string): string
  {
    if |parts| == 0 then ""
    else if |parts| == 1 then parts[0]
    else parts[0] + sep + Join(parts[1..], sep)
  }

  /** `sub` occurs in `s` starting at index `i`. */
  predicate OccursAt(sub: string, s: string, i: int)
  {
    0 <= i <= |s| - |sub| && s[i..i + |sub|] == sub
  }

  /** `sub in s` for strings. */
  ghost predicate IsSubstring(sub: string, s: string)
  {
    exists i :: OccursAt(sub, s, i)
  }

  /** `str.lower()` restricted to the ASCII letters. */
  function LowerChar(c: char): char
  {
    if 'A' <= c <= 'Z' then (c as int - 'A' as int + 'a' as int) as char else c
  }

  function Lower(s: string): (r: string)
    ensures |r| == |s|
    ensures forall i :: 0 <= i < |s| ==> r[i] == LowerChar(s[i])
  {
    if |s| == 0 then "" else [LowerChar(s[0])] + Lower(s[1..])
  }

  lemma LowerIdempotent(s: string)
    ensures Lower(Lower(s)) == Lower(s)
  {
  }

  function DigitChar(d: nat): char
    requires d < 10
  {
    ('0' as int + d) as char
  }

  /** `str(n)` for a natural number. */
  function NatToString(n: nat): (r: string)
    ensures |r| >= 1
    ensures forall i :: 0 <= i < |r| ==> '0' <= r[i] <= '9'
  {
    if n < 10 then [DigitChar(n)] else NatToString(n / 10) + [DigitChar(n % 10)]
  }

  /** `str(n)` for an integer. */
  function IntToString(n: int): string
  {
    if n < 0 then "-" + NatToString(-n) else NatToString(n)
  }
}

=== FILE: decorators.dfy ===
/** The `standard_agent_execution` decorator of backend/agents/decorators.py:
    argument check, cache lookup under `"agent_name:symbol"`, execution, cache
    write for valid verdicts, tracker update and error wrapping.

    The cache read, the agent's own outcome and the tracker are inputs and
    outputs: the decorator's result records which cache write and which
    tracker update it asks for. Failures of those two are logged and
    swallowed in the source, so they do not change the result. */
module Decorators {
  import opened Common
  import opened Responses

  datatype TrackerUpdate = TrackerUpdate(category: string, agentName: string, symbol: string, status: string, result: AgentOutput)

  datatype Execution = Execution(
    returned: Option<AgentOutput>,
    ran: bool,
    cacheWrite: Option<(string, AgentOutput)>,
    tracker: Option<TrackerUpdate>)

  const MissingSymbolError := "Agent called without symbol argument."

  /** The tracker status of a result: success for a cacheable verdict,
      no_data for NO_DATA, error otherwise. */
  function TrackerStatus(r: AgentOutput): (s: string)
    ensures s == "success" <==> Cacheable(r)
    ensures s == "no_data" <==> r.verdict == Val("NO_DATA")
    ensures s == "error" <==> !Cacheable(r) && r.verdict != Val("NO_DATA")
  {
    if Cacheable(r) then "success"
    else if r.verdict == Val("NO_DATA") then "no_data"
    else "error"
  }

  /** The symbol reported to the tracker: the result's own `symbol` entry when
      it has one (a `None` there counts as empty), else the argument. */
  function ReportedSymbol(r: AgentOutput, symbol: string): (s: string)
    ensures "symbol" !in Keys(r) ==> s == symbol
    ensures "symbol" in Keys(r) ==> (s != "" <==> r.symbol.Val? && r.symbol.v != "")
    ensures s != "" ==> s == symbol || (r.symbol.Val? && s == r.symbol.v)
  {
    match r.symbol
    case Missing => symbol
    case Null => ""
    case Val(s) => s
  }

  /** The error path: an error response, and a tracker update when the symbol is non-empty. */
  function Failure(agentName: string, category: string, symbol: string, error: string): (e: Execution)
    ensures e.returned == Some(ErrorResponse(Val(symbol), error, agentName)) && e.cacheWrite.None?
    ensures e.tracker.Some? <==> symbol != ""
    ensures e.tracker.Some? ==> e.tracker.value.status == "error" && e.tracker.value.symbol == symbol
  {
    var response := ErrorResponse(Val(symbol), error, agentName);
    Execution(Some(response), false, None,
              if symbol != "" then Some(TrackerUpdate(category, agentName, symbol, "error", response)) else None)
  }

  /** One call of the decorated agent with positional arguments `args`; `read`
      is the cache lookup and `run` the outcome of the agent itself. */
  function StandardAgentExecution(agentName: string, category: string, args: seq<string>,
                                  read: CacheRead<AgentOutput>, run: Attempt<Option<AgentOutput>>): (e: Execution)
    // no symbol: an error response with a None symbol, and the agent never runs
    ensures |args| == 0 ==>
      e == Execution(Some(ErrorResponse(Null, MissingSymbolError, agentName)), false, None, None)
    // a decodable hit is returned as is
    ensures |args| > 0 && read.Hit? ==> e == Execution(Some(read.cached), false, None, None)
    // a failed read is an error response for the symbol
    ensures |args| > 0 && read.ReadFailed? ==> !e.ran && e.returned == Some(ErrorResponse(Val(args[0]), read.error, agentName))
    ensures |args| > 0 && (read.Miss? || read.Undecodable?) ==> e.ran
    ensures e.ran && run.Raised? ==> e.returned == Some(ErrorResponse(Val(args[0]), run.error, agentName)) && e.cacheWrite.None?
    // a None result is passed through with no side effect
    ensures e.ran && run == Returned(None) ==> e == Execution(None, true, None, None)
    // an actual result: returned as is, cached exactly when its verdict is valid
    ensures e.ran && run.Returned? && run.value.Some? ==>
      var res := run.value.value;
      e.returned == Some(res)
      && (e.cacheWrite.Some? <==> Cacheable(res))
      && (e.cacheWrite.Some? ==> e.cacheWrite.value == (SymbolKey(agentName, args[0]), res))
      && (e.tracker.Some? <==> ReportedSymbol(res, args[0]) != "")
      && (e.tracker.Some? ==> e.tracker.value.status == TrackerStatus(res) && e.tracker.value.result == res)
  {
    if |args| == 0 then Execution(Some(ErrorResponse(Null, MissingSymbolError, agentName)), false, None, None)
    else
      var symbol := args[0];
      var key := SymbolKey(agentName, symbol);
      match read
      case ReadFailed(error) => Failure(agentName, category, symbol, error)
      case Hit(cached) => Execution(Some(cached), false, None, None)
      case _ =>
        match run
        case Raised(error) => Failure(agentName, category, symbol, error).(ran := true)
        case Returned(None) => Execution(None, true, None, None)
        case Returned(Some(res)) =>
          var reported := ReportedSymbol(res, symbol);
          Execution(Some(res), true,
                    if Cacheable(res) then Some((key, res)) else None,
                    if reported != "" then Some(TrackerUpdate(category, agentName, reported, TrackerStatus(res), res)) else None)
  }

  /** A result is cached exactly when the tracker is told it succeeded. */
  lemma CachedIffTrackedSuccess(agentName: string, category: string, args: seq<string>,
                                read: CacheRead<AgentOutput>, res: AgentOutput)
    requires |args| > 0 && (read.Miss? || read.Undecodable?)
    requires ReportedSymbol(res, args[0]) != ""
    ensures var e := StandardAgentExecution(agentName, category, args, read, Returned(Some(res)));
      e.cacheWrite.Some? <==> e.tracker.value.status == "success"
  {
  }

  /** Whatever the decorator caches, a later call for the same symbol that
      reads it back returns it without running the agent. */
  lemma CachedResultServedLater(agentName: string, category: string, args: seq<string>, read: CacheRead<AgentOutput>,
                                res: AgentOutput, later: Attempt<Option<AgentOutput>>)
    requires |args| > 0 && (read.Miss? || read.Undecodable?) && Cacheable(res)
    ensures var first := StandardAgentExecution(agentName, category, args, read, Returned(Some(res)));
      var second := StandardAgentExecution(agentName, category, args, Hit(first.cacheWrite.value.1), later);
      second.returned == Some(res) && !second.ran
  {
  }

  /** Error responses are never cached. */
  lemma ErrorsNeverCached(symbol: Entry<string>, error: string, agentName: string)
    ensures !Cacheable(ErrorResponse(symbol, error, agentName))
  {
  }
}

=== FILE: earnings.dfy ===
/** The earnings surprise agent (backend/agents/event/earnings_surprise_agent.py):
    picking the latest usable report, the surprise percentage and the
    verdict/confidence bands. The calendar fetch is an input; rounding of the
    reported numbers is not modelled. */
module Earnings {
  import opened Common

  const DefaultThreshold := 5.0
  const NearZero := 0.000001

  /** One EPS field of a calendar entry: missing or `None`, present but
      rejected by `float()`, or a number. */
  datatype Eps = NullEps | Unparseable | Num(v: real)

  datatype Report = Report(actualEps: Eps, estimatedEps: Eps)

  datatype Outcome = Outcome(verdict: string, confidence: real, value: Option<real>)

  /** Both fields parse. */
  predicate Usable(r: Report)
  {
    r.actualEps.Num? && r.estimatedEps.Num?
  }

  /** The first usable report: entries with a missing field are passed over,
      and so are those whose fields `float()` rejects. */
  function LatestReport(reports: seq<Report>): (r: Option<Report>)
    ensures r.None? <==> forall i :: 0 <= i < |reports| ==> !Usable(reports[i])
    ensures r.Some? ==> exists i :: 0 <= i < |reports| && reports[i] == r.value && FirstUsable(reports, i)
  {
    if |reports| == 0 then None
    else if Usable(reports[0]) then
      assert FirstUsable(reports, 0);
      Some(reports[0])
    else
      var rest := LatestReport(reports[1..]);
      assert forall i :: 1 <= i < |reports| ==> reports[i] == reports[1..][i - 1];
      if rest.Some? then
        assert exists i :: 0 <= i < |reports| && reports[i] == rest.value && FirstUsable(reports, i) by {
          var j :| 0 <= j < |reports[1..]| && reports[1..][j] == rest.value && FirstUsable(reports[1..], j);
          assert FirstUsable(reports, j + 1);
        }
        rest
      else rest
  }

  /** `i` is the first usable report. */
  ghost predicate FirstUsable(reports: seq<Report>, i: int)
  {
    0 <= i < |reports| && Usable(reports[i]) && forall k :: 0 <= k < i ==> !Usable(reports[k])
  }

  /** `((actual − estimated) / |estimated|) · 100`. */
  function SurprisePct(actual: real, estimated: real): (s: real)
    requires estimated != 0.0
    ensures s > 0.0 <==> actual > estimated
    ensures s < 0.0 <==> actual < estimated
    ensures s * Abs(estimated) == (actual - estimated) * 100.0
  {
    ((actual - estimated) / Abs(estimated)) * 100.0
  }

  /** The verdict for one report; dividing by a zero threshold raises. */
  function Classify(actual: real, estimated: real, threshold: real): (o: Attempt<Outcome>)
    ensures Abs(estimated) < NearZero ==> o.Returned? && o.value.value.None?
    ensures Abs(estimated) < NearZero ==>
              o.value.verdict == (if actual > NearZero then "POSITIVE_SURPRISE" else if actual < -NearZero then "NEGATIVE_SURPRISE" else "IN_LINE")
    ensures Abs(estimated) >= NearZero ==> (o.Raised? <==> threshold == 0.0 && actual != estimated)
    ensures Abs(estimated) >= NearZero && o.Returned? ==> o.value.value == Some(SurprisePct(actual, estimated))
    ensures Abs(estimated) >= NearZero && o.Returned? ==>
              (o.value.verdict == "POSITIVE_SURPRISE" <==> SurprisePct(actual, estimated) > threshold)
    ensures Abs(estimated) >= NearZero && o.Returned? ==>
              (o.value.verdict == "NEGATIVE_SURPRISE" <==> SurprisePct(actual, estimated) <= threshold && SurprisePct(actual, estimated) < -threshold)
    ensures o.Returned? && o.value.verdict == "IN_LINE" ==> o.value.confidence == 0.5
    ensures threshold > 0.0 && o.Returned? && o.value.verdict != "IN_LINE" ==> 0.6 <= o.value.confidence <= 0.95
  {
    if Abs(estimated) < NearZero then
      if actual > NearZero then Returned(Outcome("POSITIVE_SURPRISE", 0.6, None))
      else if actual < -NearZero then Returned(Outcome("NEGATIVE_SURPRISE", 0.6, None))
      else Returned(Outcome("IN_LINE", 0.5, None))
    else
      var s := SurprisePct(actual, estimated);
      if s > threshold then
        if threshold == 0.0 then Raised("float division by zero")
        else Returned(Outcome("POSITIVE_SURPRISE", Min(0.95, 0.6 + s / (threshold * 5.0)), Some(s)))
      else if s < -threshold then
        if threshold == 0.0 then Raised("float division by zero")
        else Returned(Outcome("NEGATIVE_SURPRISE", Min(0.95, 0.6 + Abs(s) / (threshold * 5.0)), Some(s)))
      else Returned(Outcome("IN_LINE", 0.5, Some(s)))
  }

  /** A larger beat never lowers the confidence of a positive surprise. */
  lemma PositiveConfidenceMonotone(actual1: real, actual2: real, estimated: real, threshold: real)
    requires Abs(estimated) >= NearZero && threshold > 0.0
    requires SurprisePct(actual1, estimated) > threshold && actual1 <= actual2
    ensures Classify(actual2, estimated, threshold).value.verdict == "POSITIVE_SURPRISE"
    ensures Classify(actual1, estimated, threshold).value.confidence <= Classify(actual2, estimated, threshold).value.confidence
  {
    var e := Abs(estimated);
    var s1 := SurprisePct(actual1, estimated);
    var s2 := SurprisePct(actual2, estimated);
    assert s1 * e <= s2 * e;
    assert s1 <= s2;
    assert s1 / (threshold * 5.0) <= s2 / (threshold * 5.0);
  }

  /** The message of the `NameError` for the never-imported `MagicMock`. */
  const MagicMockError := "name 'MagicMock' is not defined"

  /** `run` as written. Python evaluates the callee `settings.agent_settings.get`
      first and then its default argument `MagicMock()`, which the module never
      imports, so every run raises before the fetch. `getError` is the
      `AttributeError` raised when the settings object has no `.get` (its
      class lives in settings.py, which is not part of this model), `None`
      when it has one. */
  function RunAsWritten(fetch: Attempt<Option<seq<Report>>>, configuredThreshold: Option<real>,
                        getError: Option<string>): (o: Attempt<Outcome>)
    ensures o.Raised?
    ensures getError.Some? ==> o.error == getError.value
    ensures getError.None? ==> o.error == MagicMockError
  {
    match getError
    case Some(e) => Raised(e)
    case None => Raised(MagicMockError)
  }

  /** A calendar with a usable report: as written the run raises, as
      intended it reaches a verdict. */
  lemma AsWrittenLosesVerdict(reports: seq<Report>, i: int, getError: Option<string>)
    requires 0 <= i < |reports| && Usable(reports[i])
    ensures RunAsWritten(Returned(Some(reports)), None, getError).Raised?
    ensures Run(Returned(Some(reports)), None).Returned?
  {
    DefaultThresholdClassifies(reports, i);
  }

  /** `run` as evidently intended: the threshold comes from the settings,
      5.0 when they have none. `fetch` is the outcome of
      `fetch_earnings_calendar`, `None` standing for an empty result. */
  function Run(fetch: Attempt<Option<seq<Report>>>, configuredThreshold: Option<real>): (o: Attempt<Outcome>)
    ensures fetch.Raised? ==> o == Returned(Outcome("ERROR", 0.0, None))
    ensures fetch.Returned? && (fetch.value.None? || |fetch.value.value| == 0) ==> o == Returned(Outcome("NO_DATA", 0.0, None))
    ensures fetch.Returned? && fetch.value.Some? && |fetch.value.value| > 0 ==>
              (o == Returned(Outcome("NO_RECENT_EARNINGS", 0.0, None)) <==> forall i :: 0 <= i < |fetch.value.value| ==> !Usable(fetch.value.value[i]))
    ensures o.Returned? && o.value.verdict in {"POSITIVE_SURPRISE", "NEGATIVE_SURPRISE", "IN_LINE"} ==>
              exists i :: FirstUsable(fetch.value.value, i) && Judges(fetch.value.value[i], configuredThreshold, o)
    ensures fetch.Returned? && fetch.value.Some? ==>
              forall i :: FirstUsable(fetch.value.value, i) ==> Judges(fetch.value.value[i], configuredThreshold, o)
  {
    match fetch
    case Raised(_) => Returned(Outcome("ERROR", 0.0, None))
    case Returned(None) => Returned(Outcome("NO_DATA", 0.0, None))
    case Returned(Some(reports)) =>
      if |reports| == 0 then Returned(Outcome("NO_DATA", 0.0, None))
      else match LatestReport(reports)
        case None => Returned(Outcome("NO_RECENT_EARNINGS", 0.0, None))
        case Some(r) =>
          var o := Classify(r.actualEps.v, r.estimatedEps.v, Threshold(configuredThreshold));
          assert Judges(r, configuredThreshold, o);
          o
  }

  function Threshold(configured: Option<real>): real
  {
    if configured.Some? then configured.value else DefaultThreshold
  }

  /** The result is the classification of report `r`. */
  ghost predicate Judges(r: Report, configuredThreshold: Option<real>, o: Attempt<Outcome>)
  {
    Usable(r) && o == Classify(r.actualEps.v, r.estimatedEps.v, Threshold(configuredThreshold))
  }

  /** With the default threshold, a usable report always yields a verdict. */
  lemma DefaultThresholdClassifies(reports: seq<Report>, i: int)
    requires 0 <= i < |reports| && Usable(reports[i])
    ensures Run(Returned(Some(reports)), None).Returned?
    ensures Run(Returned(Some(reports)), None).value.verdict in {"POSITIVE_SURPRISE", "NEGATIVE_SURPRISE", "IN_LINE"}
  {
  }
}

=== FILE: factor_score.dfy ===
/** The factor score agent (backend/agents/intelligence/factor_score_agent.py):
    four factor means over other agents' confidences, combined with
    regime-dependent weights into one score and a verdict band. */
module FactorScore {
  import opened Common
  import opened Responses

  datatype Factor = Value | MomentumFactor | Quality | Growth

  /** The factors in the order the source sums them. */
  const Factors: seq<Factor> := [Value, MomentumFactor, Quality, Growth]

  datatype Weights = Weights(value: real, momentum: real, quality: real, growth: real)

  function WeightOf(w: Weights, f: Factor): real
  {
    match f
    case Value => w.value
    case MomentumFactor => w.momentum
    case Quality => w.quality
    case Growth => w.growth
  }

  const BullWeights := Weights(0.2, 0.4, 0.2, 0.2)
  const BearWeights := Weights(0.4, 0.2, 0.3, 0.1)
  const NeutralWeights := Weights(0.3, 0.3, 0.2, 0.2)

  /** `_get_regime_weights`: an unknown regime gets the NEUTRAL weights. */
  function RegimeWeights(regime: string): (w: Weights)
    ensures w.value + w.momentum + w.quality + w.growth == 1.0
    ensures w.value >= 0.0 && w.momentum >= 0.0 && w.quality >= 0.0 && w.growth >= 0.0
    ensures regime != "BULL" && regime != "BEAR" ==> w == NeutralWeights
  {
    if regime == "BULL" then BullWeights else if regime == "BEAR" then BearWeights else NeutralWeights
  }

  /** The agents whose confidences make up each factor. */
  function FactorAgents(f: Factor): (agents: seq<string>)
    ensures |agents| > 0
  {
    match f
    case Value => ["pe_ratio_agent", "peg_ratio_agent", "pb_ratio_agent"]
    case MomentumFactor => ["rsi_agent", "macd_agent", "momentum_agent"]
    case Quality => ["risk_core_agent", "liquidity_agent"]
    case Growth => ["earnings_yield_agent", "peg_ratio_agent"]
  }

  /** `outputs.get(agent, {}).get("confidence", 0.0)`: a missing agent or a
      missing key counts as 0.0; an explicit `None` stays `None`. */
  function ConfidenceOf(outputs: map<string, AgentOutput>, agent: string): (c: Option<real>)
    ensures agent !in outputs || outputs[agent].confidence.Missing? ==> c == Some(0.0)
    ensures agent in outputs && outputs[agent].confidence.Val? ==> c == Some(outputs[agent].confidence.v)
    ensures c.None? <==> agent in outputs && outputs[agent].confidence.Null?
  {
    if agent !in outputs then Some(0.0)
    else match outputs[agent].confidence
      case Missing => Some(0.0)
      case Null => None
      case Val(v) => Some(v)
  }

  /** The confidences of a list of agents; `None` as soon as one is `None`
      (numpy cannot average it and raises TypeError). */
  function Confidences(outputs: map<string, AgentOutput>, agents: seq<string>): (r: Option<seq<real>>)
    ensures r.Some? <==> forall i :: 0 <= i < |agents| ==> ConfidenceOf(outputs, agents[i]).Some?
    ensures r.Some? ==> |r.value| == |agents| && forall i :: 0 <= i < |agents| ==> r.value[i] == ConfidenceOf(outputs, agents[i]).value
  {
    if |agents| == 0 then Some([])
    else
      var init := Confidences(outputs, agents[..|agents| - 1]);
      var last := ConfidenceOf(outputs, agents[|agents| - 1]);
      if init.Some? && last.Some? then Some(init.value + [last.value]) else None
  }

  /** One factor's score: the mean of its agents' confidences. */
  function FactorMean(outputs: map<string, AgentOutput>, f: Factor): (m: Option<real>)
    ensures m.Some? <==> Confidences(outputs, FactorAgents(f)).Some?
    ensures m.Some? ==> m.value == Mean(Confidences(outputs, FactorAgents(f)).value)
  {
    var c := Confidences(outputs, FactorAgents(f));
    if c.Some? then Some(Mean(c.value)) else None
  }

  /** Confidences in [0, 1], as agents report them. */
  predicate UnitConfidences(outputs: map<string, AgentOutput>)
  {
    forall a :: a in outputs && outputs[a].confidence.Val? ==> 0.0 <= outputs[a].confidence.v <= 1.0
  }

  /** With unit confidences every factor mean lies in [0, 1]. */
  lemma FactorMeanInUnit(outputs: map<string, AgentOutput>, f: Factor)
    requires UnitConfidences(outputs) && FactorMean(outputs, f).Some?
    ensures 0.0 <= FactorMean(outputs, f).value <= 1.0
  {
    var c := Confidences(outputs, FactorAgents(f)).value;
    forall i | 0 <= i < |c|
      ensures 0.0 <= c[i] <= 1.0
    {
      assert c[i] == ConfidenceOf(outputs, FactorAgents(f)[i]).value;
    }
    MeanBounds(c, 0.0, 1.0);
  }

  datatype Result = Scored(verdict: string, confidence: real, score: real) | Failed(error: string)

  /** The verdict band of a factor score. */
  function Band(score: real): (r: Result)
    ensures r.Scored? && r.score == score
    ensures r.verdict == "STRONG_FACTORS" <==> score > 0.7
    ensures r.verdict == "GOOD_FACTORS" <==> 0.5 < score <= 0.7
    ensures r.verdict == "WEAK_FACTORS" <==> score <= 0.5
    ensures r.confidence == (if score > 0.7 then 0.9 else if score > 0.5 then 0.7 else 0.5)
  {
    if score > 0.7 then Scored("STRONG_FACTORS", 0.9, score)
    else if score > 0.5 then Scored("GOOD_FACTORS", 0.7, score)
    else Scored("WEAK_FACTORS", 0.5, score)
  }

  /** No factor's agents reported a `None` confidence. */
  predicate AllFactorsDefined(outputs: map<string, AgentOutput>)
  {
    FactorMean(outputs, Value).Some? && FactorMean(outputs, MomentumFactor).Some?
    && FactorMean(outputs, Quality).Some? && FactorMean(outputs, Growth).Some?
  }

  /** The weighted sum of the four factor means under weights `w`. */
  function Combined(outputs: map<string, AgentOutput>, w: Weights): real
    requires AllFactorsDefined(outputs)
  {
    FactorMean(outputs, Value).value * w.value + FactorMean(outputs, MomentumFactor).value * w.momentum
    + FactorMean(outputs, Quality).value * w.quality + FactorMean(outputs, Growth).value * w.growth
  }

  /** `_execute`: `regime` is the market context's regime ("NEUTRAL" when it
      has none). A `None` confidence makes `np.mean` raise TypeError; the
      failure carries one fixed message, not numpy's, which names the two
      operands where the left-to-right sum first meets the `None`. */
  function Execute(outputs: map<string, AgentOutput>, regime: string): (r: Result)
    ensures r.Failed? <==> !AllFactorsDefined(outputs)
    ensures r.Scored? ==> r == Band(Combined(outputs, RegimeWeights(regime)))
  {
    if !AllFactorsDefined(outputs) then
      Failed("unsupported operand type(s) for +: 'NoneType' and 'float'")
    else
      Band(Combined(outputs, RegimeWeights(regime)))
  }

  /** A weighted sum of unit scores with weights summing to 1 stays in [0, 1]. */
  lemma WeightedSumInUnit(v: real, m: real, q: real, g: real, wv: real, wm: real, wq: real, wg: real)
    requires 0.0 <= v <= 1.0 && 0.0 <= m <= 1.0 && 0.0 <= q <= 1.0 && 0.0 <= g <= 1.0
    requires wv >= 0.0 && wm >= 0.0 && wq >= 0.0 && wg >= 0.0 && wv + wm + wq + wg == 1.0
    ensures 0.0 <= v * wv + m * wm + q * wq + g * wg <= 1.0
  {
    var a, b, c, d := v * wv, m * wm, q * wq, g * wg;
    ScaledUnit(v, wv, a);
    ScaledUnit(m, wm, b);
    ScaledUnit(q, wq, c);
    ScaledUnit(g, wg, d);
    SumOfBounded(a, b, c, d, wv, wm, wq, wg);
  }

  lemma ScaledUnit(x: real, w: real, p: real)
    requires 0.0 <= x <= 1.0 && w >= 0.0 && p == x * w
    ensures 0.0 <= p <= w
  {
  }

  lemma SumOfBounded(a: real, b: real, c: real, d: real, wa: real, wb: real, wc: real, wd: real)
    requires 0.0 <= a <= wa && 0.0 <= b <= wb && 0.0 <= c <= wc && 0.0 <= d <= wd
    requires wa + wb + wc + wd == 1.0
    ensures 0.0 <= a + b + c + d <= 1.0
  {
  }

  /** With unit confidences the factor score is in [0, 1]. */
  lemma ScoreInUnit(outputs: map<string, AgentOutput>, regime: string)
    requires UnitConfidences(outputs) && Execute(outputs, regime).Scored?
    ensures 0.0 <= Execute(outputs, regime).score <= 1.0
  {
    FactorMeanInUnit(outputs, Value);
    FactorMeanInUnit(outputs, MomentumFactor);
    FactorMeanInUnit(outputs, Quality);
    FactorMeanInUnit(outputs, Growth);
    var w := RegimeWeights(regime);
    WeightedSumInUnit(FactorMean(outputs, Value).value, FactorMean(outputs, MomentumFactor).value,
                      FactorMean(outputs, Quality).value, FactorMean(outputs, Growth).value,
                      w.value, w.momentum, w.quality, w.growth);
  }

  /** With no agent outputs at all every factor is 0 and the verdict is weak. */
  lemma NoOutputsIsWeak(regime: string)
    ensures Execute(map[], regime) == Scored("WEAK_FACTORS", 0.5, 0.0)
  {
    AbsentFactorIsZero(Value);
    AbsentFactorIsZero(MomentumFactor);
    AbsentFactorIsZero(Quality);
    AbsentFactorIsZero(Growth);
  }

  lemma AbsentFactorIsZero(f: Factor)
    ensures FactorMean(map[], f) == Some(0.0)
  {
    var c := Confidences(map[], FactorAgents(f)).value;
    assert forall i :: 0 <= i < |c| ==> c[i] == 0.0;
    MeanBounds(c, 0.0, 0.0);
  }
}

=== FILE: metrics_collector.dfy ===
/** The in-memory metrics collector of backend/utils/metrics_collector.py:
    per-category execution counts, a bounded window of response times and
    cache hit/miss counters. `datetime.now()` is a parameter. */
module MetricsCollector {
  import opened Common

  datatype CategoryStats = CategoryStats(count: nat, errors: nat, avgSize: real)

  datatype Collector = Collector(
    categoryExecutions: map<string, CategoryStats>,
    responseTimes: seq<real>,
    cacheHits: nat,
    cacheMisses: nat,
    startTime: real)

  /** `response_times` keeps this many of the most recent samples. */
  const ResponseWindow: nat := 1000

  function NewCollector(now: real): Collector
  {
    Collector(map[], [], 0, 0, now)
  }

  /** `record_category_execution`. */
  function RecordCategoryExecution(c: Collector, category: string, resultSize: int, hadError: bool): (r: Collector)
    ensures category in r.categoryExecutions
    ensures var before := if category in c.categoryExecutions then c.categoryExecutions[category] else CategoryStats(0, 0, 0.0);
      var after := r.categoryExecutions[category];
      after.count == before.count + 1
      && after.errors == before.errors + (if hadError then 1 else 0)
    ensures forall k :: k in c.categoryExecutions && k != category ==> k in r.categoryExecutions && r.categoryExecutions[k] == c.categoryExecutions[k]
    ensures r.categoryExecutions.Keys == c.categoryExecutions.Keys + {category}
    ensures r.responseTimes == c.responseTimes && r.cacheHits == c.cacheHits && r.cacheMisses == c.cacheMisses
  {
    var stats := if category in c.categoryExecutions then c.categoryExecutions[category] else CategoryStats(0, 0, 0.0);
    var count := stats.count + 1;
    var errors := if hadError then stats.errors + 1 else stats.errors;
    var avg := (stats.avgSize * ((count - 1) as real) + resultSize as real) / (count as real);
    c.(categoryExecutions := c.categoryExecutions[category := CategoryStats(count, errors, avg)])
  }

  /** One recorded execution: its result size and whether it had an error. */
  datatype Execution = Execution(resultSize: int, hadError: bool)

  function RecordAll(c: Collector, category: string, execs: seq<Execution>): Collector
  {
    if |execs| == 0 then c
    else RecordCategoryExecution(RecordAll(c, category, execs[..|execs| - 1]), category,
                                 execs[|execs| - 1].resultSize, execs[|execs| - 1].hadError)
  }

  function Sizes(execs: seq<Execution>): (r: seq<real>)
    ensures |r| == |execs|
  {
    if |execs| == 0 then [] else Sizes(execs[..|execs| - 1]) + [execs[|execs| - 1].resultSize as real]
  }

  function ErrorCount(execs: seq<Execution>): nat
  {
    if |execs| == 0 then 0 else ErrorCount(execs[..|execs| - 1]) + (if execs[|execs| - 1].hadError then 1 else 0)
  }

  /** From a category's first execution on, `count` is the number of executions,
      `errors` the number that had an error (so never more than `count`), and
      `avg_size` the arithmetic mean of all result sizes. */
  lemma {:induction false} StatsSummarizeExecutions(c: Collector, category: string, execs: seq<Execution>)
    requires category !in c.categoryExecutions
    requires |execs| > 0
    ensures var st := RecordAll(c, category, execs).categoryExecutions[category];
      st.count == |execs| && st.errors == ErrorCount(execs) && st.errors <= st.count
      && st.avgSize == Mean(Sizes(execs))
  {
    var init := execs[..|execs| - 1];
    var e := execs[|execs| - 1];
    if |init| == 0 {
      assert Sizes(execs) == [e.resultSize as real];
      RunningMeanStep([], 0.0, e.resultSize as real);
    } else {
      StatsSummarizeExecutions(c, category, init);
      var st := RecordAll(c, category, init).categoryExecutions[category];
      RunningMeanStep(Sizes(init), st.avgSize, e.resultSize as real);
    }
  }

  /** `record_response_time`: append, then keep the last 1000. */
  function RecordResponseTime(c: Collector, duration: real): (r: Collector)
    ensures |r.responseTimes| <= ResponseWindow
    ensures |r.responseTimes| > 0 && r.responseTimes[|r.responseTimes| - 1] == duration
    ensures r.categoryExecutions == c.categoryExecutions && r.cacheHits == c.cacheHits && r.cacheMisses == c.cacheMisses
  {
    var times := c.responseTimes + [duration];
    c.(responseTimes := if |times| > ResponseWindow then times[|times| - ResponseWindow..] else times)
  }

  function RecordResponseTimes(c: Collector, durations: seq<real>): Collector
  {
    if |durations| == 0 then c
    else RecordResponseTime(RecordResponseTimes(c, durations[..|durations| - 1]), durations[|durations| - 1])
  }

  /** The window always holds the most recent samples ever recorded, oldest first. */
  lemma {:induction false} ResponseTimesKeepRecent(c: Collector, durations: seq<real>)
    requires |c.responseTimes| <= ResponseWindow
    ensures RecordResponseTimes(c, durations).responseTimes == LastN(c.responseTimes + durations, ResponseWindow)
  {
    if |durations| == 0 {
      assert c.responseTimes + durations == c.responseTimes;
    } else {
      var init := durations[..|durations| - 1];
      var x := durations[|durations| - 1];
      ResponseTimesKeepRecent(c, init);
      LastNAppend(c.responseTimes + init, x, ResponseWindow);
      assert c.responseTimes + init + [x] == c.responseTimes + durations;
    }
  }

  /** `record_cache_event`. */
  function RecordCacheEvent(c: Collector, hit: bool): (r: Collector)
    ensures r.cacheHits + r.cacheMisses == c.cacheHits + c.cacheMisses + 1
    ensures hit <==> r.cacheHits == c.cacheHits + 1
    ensures !hit <==> r.cacheMisses == c.cacheMisses + 1
    ensures r.categoryExecutions == c.categoryExecutions && r.responseTimes == c.responseTimes
  {
    if hit then c.(cacheHits := c.cacheHits + 1) else c.(cacheMisses := c.cacheMisses + 1)
  }

  /** The `cache_hit_ratio` of `get_metrics`. */
  function CacheHitRatio(c: Collector): (r: real)
    ensures 0.0 <= r <= 1.0
    ensures c.cacheHits + c.cacheMisses == 0 ==> r == 0.0
    ensures r == 1.0 <==> c.cacheHits > 0 && c.cacheMisses == 0
    ensures r == 0.0 <==> c.cacheHits == 0
  {
    var total := c.cacheHits + c.cacheMisses;
    if total > 0 then (c.cacheHits as real) / (total as real) else 0.0
  }

  /** `a/b <= c/d` for positive denominators when `a·d <= c·b`. */
  lemma QuotientOrder(a: real, b: real, c: real, d: real)
    requires b > 0.0 && d > 0.0
    requires a * d <= c * b
    ensures a / b <= c / d
  {
    assert a / b == (a * d) / (b * d);
    assert c / d == (c * b) / (b * d);
  }

  /** A hit never lowers the ratio and a miss never raises it. */
  lemma CacheEventMovesRatio(c: Collector)
    ensures CacheHitRatio(RecordCacheEvent(c, true)) >= CacheHitRatio(c)
    ensures CacheHitRatio(RecordCacheEvent(c, false)) <= CacheHitRatio(c)
  {
    var h := c.cacheHits as real;
    var t := (c.cacheHits + c.cacheMisses) as real;
    if t > 0.0 {
      assert h <= t;
      QuotientOrder(h, t, h + 1.0, t + 1.0);
      QuotientOrder(h, t + 1.0, h, t);
    }
  }

  /** The `avg_response_time` of `get_metrics`: the mean of the window, or 0. */
  function AvgResponseTime(c: Collector): (r: real)
    ensures |c.responseTimes| == 0 ==> r == 0.0
    ensures |c.responseTimes| > 0 ==> r * (|c.responseTimes| as real) == Sum(c.responseTimes)
  {
    if |c.responseTimes| > 0 then Mean(c.responseTimes) else 0.0
  }

  /** The average lies within any bounds of the samples in the window. */
  lemma AvgResponseTimeWithin(c: Collector, lo: real, hi: real)
    requires |c.responseTimes| > 0
    requires forall i :: 0 <= i < |c.responseTimes| ==> lo <= c.responseTimes[i] <= hi
    ensures lo <= AvgResponseTime(c) <= hi
  {
    MeanBounds(c.responseTimes, lo, hi);
  }
}

=== FILE: momentum.dfy ===
/** The technical momentum agent (backend/agents/technical/momentum_agent.py):
    returns over the configured lookback periods, their average and the
    verdict bands. Prices are a pandas Series given as a sequence, `None`
    standing for NaN; fetch failures are the decorator's business and are
    modelled in Decorators. Rounding of the reported numbers is not modelled. */
module Momentum {
  import opened Common

  const NeutralTolerance := 0.0001

  /** `agent_settings.momentum`. */
  datatype Settings = Settings(lookbackPeriods: seq<int>, strongPositive: real, strongNegative: real)

  datatype Outcome = Outcome(verdict: string, confidence: real, value: Option<real>)

  function NoData(): Outcome { Outcome("NO_DATA", 0.0, None) }

  /** `max(lookback_periods)`. */
  function MaxLookback(periods: seq<int>): (m: int)
    requires |periods| > 0
    ensures m in periods && forall i :: 0 <= i < |periods| ==> periods[i] <= m
  {
    if |periods| == 1 then periods[0]
    else
      var longestAfter := MaxLookback(periods[1..]);
      assert forall i :: 1 <= i < |periods| ==> periods[i] == periods[1..][i - 1];
      if periods[0] < longestAfter then longestAfter else periods[0]
  }

  /** `int(max_lookback / 252) + 1`, Python's int() truncating toward zero. */
  function RequiredYears(maxLookback: int): (years: int)
    ensures maxLookback >= 0 ==> years * 252 > maxLookback && (years - 1) * 252 <= maxLookback
  {
    (if maxLookback >= 0 then maxLookback / 252 else -((-maxLookback) / 252)) + 1
  }

  // ---------------------------------------------------------------------------
  // Period returns
  // ---------------------------------------------------------------------------

  /** The fractional return over `period` days: `iloc[-1 - period]` is the
      past price; a missing index, a NaN or a non-positive past price gives
      none, and so does a NaN latest price (the return is NaN and dropped). */
  function PeriodReturn(prices: seq<Option<real>>, period: int): (r: Option<real>)
    requires |prices| > 0
    ensures r.Some? <==> PyAt(prices, -1 - period).Some? && PyAt(prices, -1 - period).value.Some?
                         && PyAt(prices, -1 - period).value.value > 0.0 && prices[|prices| - 1].Some?
    ensures r.Some? ==> r.value == prices[|prices| - 1].value / PyAt(prices, -1 - period).value.value - 1.0
  {
    var latest := prices[|prices| - 1];
    var at: Option<Option<real>> := PyAt(prices, -1 - period);
    if at.Some? && at.value.Some? && at.value.value > 0.0 && latest.Some? then
      Some(latest.value / at.value.value - 1.0)
    else None
  }

  /** The periods in order of first occurrence: the returns dict is keyed by
      `f"{period}d"`, so a repeated period keeps its first slot. */
  function Distinct(periods: seq<int>): (r: seq<int>)
    ensures NoDuplicates(r)
    ensures forall p :: p in r <==> p in periods
  {
    if |periods| == 0 then []
    else
      var rest := Distinct(periods[..|periods| - 1]);
      if periods[|periods| - 1] in rest then rest else rest + [periods[|periods| - 1]]
  }

  /** The valid returns, in the order of the periods. */
  function ValidReturns(prices: seq<Option<real>>, periods: seq<int>): (r: seq<real>)
    requires |prices| > 0
    ensures |r| <= |periods|
  {
    if |periods| == 0 then []
    else
      var rest := ValidReturns(prices, periods[..|periods| - 1]);
      match PeriodReturn(prices, periods[|periods| - 1])
      case Some(x) => rest + [x]
      case None => rest
  }

  /** A value is among the valid returns exactly when some period yields it. */
  lemma {:induction false} ValidReturnsSound(prices: seq<Option<real>>, periods: seq<int>, x: real)
    requires |prices| > 0
    ensures x in ValidReturns(prices, periods) <==> exists i :: 0 <= i < |periods| && PeriodReturn(prices, periods[i]) == Some(x)
  {
    if |periods| > 0 {
      var init := periods[..|periods| - 1];
      ValidReturnsSound(prices, init, x);
      assert forall i :: 0 <= i < |init| ==> init[i] == periods[i];
      if exists i :: 0 <= i < |periods| && PeriodReturn(prices, periods[i]) == Some(x) {
        var i :| 0 <= i < |periods| && PeriodReturn(prices, periods[i]) == Some(x);
        if i < |init| {
          assert PeriodReturn(prices, init[i]) == Some(x);
        }
      }
    }
  }

  /** With no repeated periods, no past price is dropped: one return per
      period whose past price is usable. */
  lemma {:induction false} ValidReturnsCount(prices: seq<Option<real>>, periods: seq<int>)
    requires |prices| > 0
    ensures |ValidReturns(prices, periods)| == |Filter(periods, (p: int) => PeriodReturn(prices, p).Some?)|
  {
    if |periods| > 0 {
      var init := periods[..|periods| - 1];
      var last := periods[|periods| - 1];
      ValidReturnsCount(prices, init);
      assert periods == init + [last];
      FilterAppend(init, [last], (p: int) => PeriodReturn(prices, p).Some?);
    }
  }

  /** Dropping repeated periods loses no return: something is left to
      average exactly when some configured period has a usable past price. */
  lemma SomeValidReturn(prices: seq<Option<real>>, periods: seq<int>)
    requires |prices| > 0
    ensures |ValidReturns(prices, Distinct(periods))| > 0 <==>
              exists i :: 0 <= i < |periods| && PeriodReturn(prices, periods[i]).Some?
  {
    var d := Distinct(periods);
    var valid := ValidReturns(prices, d);
    if |valid| > 0 {
      ValidReturnsSound(prices, d, valid[0]);
      var j :| 0 <= j < |d| && PeriodReturn(prices, d[j]) == Some(valid[0]);
      assert d[j] in periods;
      var i :| 0 <= i < |periods| && periods[i] == d[j];
    }
    if exists i :: 0 <= i < |periods| && PeriodReturn(prices, periods[i]).Some? {
      var i :| 0 <= i < |periods| && PeriodReturn(prices, periods[i]).Some?;
      assert periods[i] in d;
      var j :| 0 <= j < |d| && d[j] == periods[i];
      ValidReturnsSound(prices, d, PeriodReturn(prices, periods[i]).value);
    }
  }

  // ---------------------------------------------------------------------------
  // Verdict
  // ---------------------------------------------------------------------------

  /** The verdict band of an average return. */
  function Band(average: real, s: Settings): (o: Outcome)
    ensures o.value == Some(average * 100.0) && o != NoData()
    ensures o.verdict == "STRONG_POSITIVE_MOMENTUM" <==> average > s.strongPositive
    ensures o.verdict == "STRONG_NEGATIVE_MOMENTUM" <==> average <= s.strongPositive && average < s.strongNegative
    ensures o.verdict == "POSITIVE_MOMENTUM" <==>
              average <= s.strongPositive && average >= s.strongNegative && average > NeutralTolerance
    ensures o.verdict == "NEGATIVE_MOMENTUM" <==>
              average <= s.strongPositive && average >= s.strongNegative && average < -NeutralTolerance
    ensures o.verdict == "NEUTRAL_MOMENTUM" <==>
              average <= s.strongPositive && average >= s.strongNegative && -NeutralTolerance <= average <= NeutralTolerance
    ensures o.confidence == (if o.verdict == "STRONG_POSITIVE_MOMENTUM" || o.verdict == "STRONG_NEGATIVE_MOMENTUM" then 0.8
                             else if o.verdict == "NEUTRAL_MOMENTUM" then 0.4 else 0.6)
  {
    if average > s.strongPositive then Outcome("STRONG_POSITIVE_MOMENTUM", 0.8, Some(average * 100.0))
    else if average < s.strongNegative then Outcome("STRONG_NEGATIVE_MOMENTUM", 0.8, Some(average * 100.0))
    else if average > NeutralTolerance then Outcome("POSITIVE_MOMENTUM", 0.6, Some(average * 100.0))
    else if average < -NeutralTolerance then Outcome("NEGATIVE_MOMENTUM", 0.6, Some(average * 100.0))
    else Outcome("NEUTRAL_MOMENTUM", 0.4, Some(average * 100.0))
  }

  /** Bullishness of a verdict, from strong negative (-2) to strong positive (2). */
  function Rank(verdict: string): int
  {
    if verdict == "STRONG_POSITIVE_MOMENTUM" then 2
    else if verdict == "POSITIVE_MOMENTUM" then 1
    else if verdict == "NEGATIVE_MOMENTUM" then -1
    else if verdict == "STRONG_NEGATIVE_MOMENTUM" then -2
    else 0
  }

  /** With the strong thresholds outside the neutral band, a higher average
      never earns a more bearish verdict. */
  lemma BandMonotone(a1: real, a2: real, s: Settings)
    requires s.strongPositive >= NeutralTolerance && s.strongNegative <= -NeutralTolerance
    requires a1 <= a2
    ensures Rank(Band(a1, s).verdict) <= Rank(Band(a2, s).verdict)
  {
  }

  // ---------------------------------------------------------------------------
  // The agent
  // ---------------------------------------------------------------------------

  /** `run`: `prices` is the fetched series, `None` when it is missing or
      not a Series. */
  function Run(s: Settings, prices: Option<seq<Option<real>>>): (o: Outcome)
    ensures |s.lookbackPeriods| == 0 ==> o == NoData()
    ensures prices.None? || (prices.Some? && |prices.value| == 0) ==> o == NoData()
    ensures |s.lookbackPeriods| > 0 && prices.Some? && |prices.value| <= MaxLookback(s.lookbackPeriods) ==> o == NoData()
    ensures o.verdict != "NO_DATA" <==> Scored(s, prices)
    ensures o.verdict != "NO_DATA" ==>
              var valid := ValidReturns(prices.value, Distinct(s.lookbackPeriods));
              |valid| > 0 && o == Band(Mean(valid), s)
  {
    if |s.lookbackPeriods| == 0 then NoData()
    else match prices
      case None => NoData()
      case Some(p) =>
        if |p| == 0 || |p| <= MaxLookback(s.lookbackPeriods) then NoData()
        else
          var valid := ValidReturns(p, Distinct(s.lookbackPeriods));
          SomeValidReturn(p, s.lookbackPeriods);
          if |valid| == 0 then NoData() else Band(Mean(valid), s)
  }

  /** The agent reaches a verdict: periods configured, a series longer than
      the longest lookback, and at least one usable past price. */
  predicate Scored(s: Settings, prices: Option<seq<Option<real>>>)
  {
    |s.lookbackPeriods| > 0 && prices.Some? && |prices.value| > 0 && |prices.value| > MaxLookback(s.lookbackPeriods)
    && exists i :: 0 <= i < |s.lookbackPeriods| && PeriodReturn(prices.value, s.lookbackPeriods[i]).Some?
  }

  /** A NaN latest price leaves nothing to average. */
  lemma NaNLatestGivesNoData(s: Settings, prices: seq<Option<real>>)
    requires |prices| > 0 && prices[|prices| - 1].None?
    ensures Run(s, Some(prices)) == NoData()
  {
    assert forall p :: PeriodReturn(prices, p).None?;
  }
}

=== FILE: monitoring_config.dfy ===
/** The monitoring configuration lookups (backend/monitoring/config.py):
    provider tiers, alert rules and metric thresholds. Starting the metrics
    HTTP server is I/O and is not modelled. */
module MonitoringConfig {
  import opened Common
  import Providers

  /** `METRICS_CONFIG["providers"]`, in dict order. */
  const ProviderTiers: seq<(string, seq<string>)> := [
    ("primary", ["alpha_vantage", "polygon"]),
    ("secondary", ["yahoo_finance", "finnhub"]),
    ("fallback", ["web_scraper"])
  ]

  /** One entry of `METRICS_CONFIG["alerts"]`. */
  datatype AlertRule = AlertRule(threshold: real, window: nat, channels: seq<string>)

  function AlertRules(): map<string, AlertRule>
  {
    map["collection_failures" := AlertRule(5.0, 300, ["slack", "email"]),
        "quality_degradation" := AlertRule(0.3, 600, ["slack"])]
  }

  /** `METRICS_CONFIG["data_collection"]["thresholds"]`. */
  function MetricThresholds(): map<string, real>
  {
    map["collection_latency" := 30.0, "quality_minimum" := 0.5, "api_failure_rate" := 0.2]
  }

  /** `get_metric_threshold`: the configured value, 0.0 for an unknown metric. */
  function GetMetricThreshold(metricName: string): (t: real)
    ensures metricName in MetricThresholds() ==> t == MetricThresholds()[metricName]
    ensures metricName !in MetricThresholds() ==> t == 0.0
    ensures t >= 0.0
  {
    if metricName in MetricThresholds() then MetricThresholds()[metricName] else 0.0
  }

  /** The first tier, from position `from` on, whose list holds the provider. */
  function TierFrom(provider: string, from: nat): (t: string)
    requires from <= |ProviderTiers|
    ensures t == "unknown" <==> forall k :: from <= k < |ProviderTiers| ==> provider !in ProviderTiers[k].1
    ensures t != "unknown" ==> exists k :: from <= k < |ProviderTiers| && ProviderTiers[k].0 == t && provider in ProviderTiers[k].1
    decreases |ProviderTiers| - from
  {
    if from == |ProviderTiers| then "unknown"
    else if provider in ProviderTiers[from].1 then ProviderTiers[from].0
    else TierFrom(provider, from + 1)
  }

  /** `get_provider_tier`: the tier listing the provider, else "unknown". */
  function GetProviderTier(provider: string): (t: string)
    ensures t == "unknown" <==> forall k :: 0 <= k < |ProviderTiers| ==> provider !in ProviderTiers[k].1
    ensures t != "unknown" ==> exists k :: 0 <= k < |ProviderTiers| && ProviderTiers[k].0 == t && provider in ProviderTiers[k].1
  {
    TierFrom(provider, 0)
  }

  /** `is_primary_provider`. */
  function IsPrimaryProvider(provider: string): (b: bool)
    ensures b <==> provider == "alpha_vantage" || provider == "polygon"
  {
    provider in ProviderTiers[0].1
  }

  /** No provider sits in two tiers, so the tier lookup is unambiguous. */
  lemma TiersDisjoint(provider: string, i: int, j: int)
    requires 0 <= i < j < |ProviderTiers|
    ensures !(provider in ProviderTiers[i].1 && provider in ProviderTiers[j].1)
  {
  }

  /** A provider is primary exactly when its tier is "primary". */
  lemma PrimaryIffPrimaryTier(provider: string)
    ensures IsPrimaryProvider(provider) <==> GetProviderTier(provider) == "primary"
  {
    if GetProviderTier(provider) == "primary" {
      var k :| 0 <= k < |ProviderTiers| && ProviderTiers[k].0 == "primary" && provider in ProviderTiers[k].1;
      assert k == 0;
    }
  }

  /** Position of a tier in the hierarchy; "unknown" comes last. */
  function TierRank(tier: string): nat
  {
    if tier == "primary" then 0 else if tier == "secondary" then 1 else if tier == "fallback" then 2 else 3
  }

  /** The unified provider's fallback order never moves to a better tier:
      every provider it knows has a tier, and tiers never improve along it. */
  lemma FallbackOrderFollowsTiers(i: int, j: int)
    requires 0 <= i <= j < |Providers.ProviderOrder|
    ensures GetProviderTier(Providers.Name(Providers.ProviderOrder[i])) != "unknown"
    ensures TierRank(GetProviderTier(Providers.Name(Providers.ProviderOrder[i])))
         <= TierRank(GetProviderTier(Providers.Name(Providers.ProviderOrder[j])))
  {
  }

  /** `should_alert`: a configured alert fires at or above its threshold. */
  function ShouldAlert(metricName: string, value: real): (b: bool)
    ensures b <==> metricName in AlertRules() && value >= AlertRules()[metricName].threshold
  {
    if metricName in AlertRules() then value >= AlertRules()[metricName].threshold else false
  }

  /** `get_alert_channels`: the configured channels, [] for an unknown alert. */
  function GetAlertChannels(alertType: string): (channels: seq<string>)
    ensures alertType !in AlertRules() ==> channels == []
    ensures alertType in AlertRules() ==> channels == AlertRules()[alertType].channels && "slack" in channels
  {
    if alertType in AlertRules() then AlertRules()[alertType].channels else []
  }

  /** An alert that can fire always has somewhere to go. */
  lemma FiringAlertHasChannel(metricName: string, value: real)
    requires ShouldAlert(metricName, value)
    ensures |GetAlertChannels(metricName)| > 0
  {
  }
}

=== FILE: orchestrator.dfy ===
/** The scheduling and scoring logic of `SystemOrchestrator` in
    backend/core/orchestrator.py: the dependency-ordered execution of
    categories, the dependency graph built from the category metadata, the
    weighted composite verdict and the per-category retry loop.

    Categories are identified by their enum values (`"valuation"`, ...), as
    in the source; the dependency graph maps a value to the values it needs. */
module Orchestrator {
  import opened Common
  import Categories

  // ---------------------------------------------------------------------------
  // Execution order: depth-first post-order over the dependency graph
  // ---------------------------------------------------------------------------

  /** `self.category_dependencies.get(category, [])`. */
  function DepsOf(deps: map<string, seq<string>>, c: string): seq<string>
  {
    if c in deps then deps[c] else []
  }

  /** The state shared by the nested `visit`: the `visited` set and the `order` list. */
  datatype Walk = Walk(visited: set<string>, order: seq<string>)

  /** `visit(category)`: mark it visited, visit its dependencies, then append it. */
  function Visit(deps: map<string, seq<string>>, c: string, visited: set<string>, order: seq<string>): (r: Walk)
    ensures visited <= r.visited
    ensures |order| <= |r.order| && r.order[..|order|] == order
    decreases deps.Keys - visited, 0, 0
  {
    if c in visited then Walk(visited, order)
    else if c !in deps then Walk(visited + {c}, order + [c])
    else
      var w := VisitAll(deps, deps[c], visited + {c}, order);
      Walk(w.visited, w.order + [c])
  }

  /** `for dep in ds: visit(dep)`. */
  function VisitAll(deps: map<string, seq<string>>, ds: seq<string>, visited: set<string>, order: seq<string>): (r: Walk)
    ensures visited <= r.visited
    ensures |order| <= |r.order| && r.order[..|order|] == order
    decreases deps.Keys - visited, 1, |ds|
  {
    if |ds| == 0 then Walk(visited, order)
    else
      var w := Visit(deps, ds[0], visited, order);
      VisitAll(deps, ds[1..], w.visited, w.order)
  }

  /** `_get_execution_order(categories)` over the dependency graph `deps`. */
  function ExecutionOrder(deps: map<string, seq<string>>, categories: seq<string>): (r: seq<string>)
    ensures NoDuplicates(r)
    ensures forall j :: 0 <= j < |categories| ==> categories[j] in r
  {
    VisitAllExtends(deps, categories, {}, []);
    VisitAll(deps, categories, {}, []).order
  }

  /** The accumulated order is duplicate-free and contains only visited names. */
  ghost predicate Consistent(visited: set<string>, order: seq<string>)
  {
    NoDuplicates(order) && forall i :: 0 <= i < |order| ==> order[i] in visited
  }

  /** `x` was reached from the roots: it is one of them or a dependency of a visited name. */
  ghost predicate Reached(deps: map<string, seq<string>>, roots: seq<string>, visited: set<string>, x: string)
  {
    x in roots || exists y :: y in visited && y in deps && x in deps[y]
  }

  /** What one `visit` or loop of visits adds: every newly visited name is
      appended exactly once, was reached from the roots, and has all its
      dependencies visited too. */
  ghost predicate Extends(deps: map<string, seq<string>>, roots: seq<string>, visited: set<string>, order: seq<string>, r: Walk)
  {
    Consistent(r.visited, r.order)
    && (forall i :: |order| <= i < |r.order| ==> r.order[i] !in visited)
    && (forall x :: x in r.visited && x !in visited ==> x in r.order)
    && (forall x :: x in r.visited && x !in visited ==> Reached(deps, roots, r.visited, x))
    && (forall x :: x in r.visited && x !in visited && x in deps ==>
          forall j :: 0 <= j < |deps[x]| ==> deps[x][j] in r.visited)
  }

  lemma {:induction false} VisitExtends(deps: map<string, seq<string>>, c: string, visited: set<string>, order: seq<string>)
    requires Consistent(visited, order)
    ensures Extends(deps, [c], visited, order, Visit(deps, c, visited, order))
    ensures c in Visit(deps, c, visited, order).visited
    decreases deps.Keys - visited, 0, 0
  {
    var r := Visit(deps, c, visited, order);
    if c in visited {
    } else if c !in deps {
      assert r.order == order + [c];
      assert r.order[|order|] == c;
      assert forall i :: 0 <= i < |order| ==> r.order[i] == order[i];
    } else {
      var v1 := visited + {c};
      var w := VisitAll(deps, deps[c], v1, order);
      VisitAllExtends(deps, deps[c], v1, order);
      assert r == Walk(w.visited, w.order + [c]);
      AppendParent(deps, c, visited, order, w, r);
    }
  }

  /** Appending `c` after the walk over its dependencies extends the walk by `c`. */
  lemma AppendParent(deps: map<string, seq<string>>, c: string, visited: set<string>, order: seq<string>, w: Walk, r: Walk)
    requires Consistent(visited, order) && c !in visited && c in deps
    requires visited + {c} <= w.visited && |order| <= |w.order| && w.order[..|order|] == order
    requires Extends(deps, deps[c], visited + {c}, order, w)
    requires forall j :: 0 <= j < |deps[c]| ==> deps[c][j] in w.visited
    requires r == Walk(w.visited, w.order + [c])
    ensures Extends(deps, [c], visited, order, r) && c in r.visited
  {
    assert c !in w.order by {
      forall i | 0 <= i < |w.order|
        ensures w.order[i] != c
      {
        if i < |order| {
          assert w.order[i] == order[i];
        }
      }
    }
    assert forall i :: 0 <= i < |w.order| ==> r.order[i] == w.order[i];
    assert r.order[|w.order|] == c;
    assert forall x :: x in w.order ==> x in r.order;
    forall x | x in r.visited && x !in visited
      ensures Reached(deps, [c], r.visited, x)
    {
      if x != c {
        assert Reached(deps, deps[c], w.visited, x);
        if x in deps[c] {
          assert c in r.visited && c in deps && x in deps[c];
        }
      }
    }
  }

  lemma {:induction false} VisitAllExtends(deps: map<string, seq<string>>, ds: seq<string>, visited: set<string>, order: seq<string>)
    requires Consistent(visited, order)
    ensures Extends(deps, ds, visited, order, VisitAll(deps, ds, visited, order))
    ensures forall j :: 0 <= j < |ds| ==> ds[j] in VisitAll(deps, ds, visited, order).visited
    decreases deps.Keys - visited, 1, |ds|
  {
    if |ds| > 0 {
      var w := Visit(deps, ds[0], visited, order);
      VisitExtends(deps, ds[0], visited, order);
      var r := VisitAll(deps, ds[1..], w.visited, w.order);
      VisitAllExtends(deps, ds[1..], w.visited, w.order);
      assert r == VisitAll(deps, ds, visited, order);
      ExtendsCompose(deps, ds, visited, order, w, r);
    }
  }

  /** A visit of `ds[0]` followed by the loop over `ds[1..]` extends the walk over `ds`. */
  lemma ExtendsCompose(deps: map<string, seq<string>>, ds: seq<string>, visited: set<string>, order: seq<string>, w: Walk, r: Walk)
    requires |ds| > 0
    requires visited <= w.visited && |order| <= |w.order| && w.order[..|order|] == order
    requires w.visited <= r.visited && |w.order| <= |r.order| && r.order[..|w.order|] == w.order
    requires Extends(deps, [ds[0]], visited, order, w) && ds[0] in w.visited
    requires Extends(deps, ds[1..], w.visited, w.order, r)
    requires forall j :: 0 <= j < |ds[1..]| ==> ds[1..][j] in r.visited
    ensures Extends(deps, ds, visited, order, r)
    ensures forall j :: 0 <= j < |ds| ==> ds[j] in r.visited
  {
    assert forall i :: 0 <= i < |w.order| ==> r.order[i] == w.order[i];
    assert forall x :: x in w.order ==> x in r.order;
    forall x | x in r.visited && x !in visited
      ensures Reached(deps, ds, r.visited, x)
    {
      if x in w.visited {
        assert Reached(deps, [ds[0]], w.visited, x);
      } else {
        assert Reached(deps, ds[1..], r.visited, x);
      }
    }
    forall j | 0 <= j < |ds|
      ensures ds[j] in r.visited
    {
      if j > 0 {
        assert ds[j] == ds[1..][j - 1];
      }
    }
  }

  /** The execution order lists no category twice, contains every requested
      category, is closed under dependencies, and contains nothing that is
      neither requested nor a dependency of something it contains. */
  lemma ExecutionOrderContents(deps: map<string, seq<string>>, categories: seq<string>)
    ensures var o := ExecutionOrder(deps, categories);
      NoDuplicates(o)
      && (forall j :: 0 <= j < |categories| ==> categories[j] in o)
      && (forall i :: 0 <= i < |o| && o[i] in deps ==> forall j :: 0 <= j < |deps[o[i]]| ==> deps[o[i]][j] in o)
      && (forall i :: 0 <= i < |o| ==>
            o[i] in categories || exists k :: 0 <= k < |o| && o[k] in deps && o[i] in deps[o[k]])
  {
    var r := VisitAll(deps, categories, {}, []);
    VisitAllExtends(deps, categories, {}, []);
    var o := r.order;
    forall i | 0 <= i < |o|
      ensures o[i] in categories || exists k :: 0 <= k < |o| && o[k] in deps && o[i] in deps[o[k]]
    {
      assert Reached(deps, categories, r.visited, o[i]);
      if o[i] !in categories {
        var y :| y in r.visited && y in deps && o[i] in deps[y];
        assert y in o;
        var k :| 0 <= k < |o| && o[k] == y;
      }
    }
  }

  /** Every dependency of a name in `order` already appears before it. */
  ghost predicate DependenciesFirst(deps: map<string, seq<string>>, order: seq<string>)
  {
    forall i :: 0 <= i < |order| && order[i] in deps ==>
      forall j :: 0 <= j < |deps[order[i]]| ==> deps[order[i]][j] in order[..i]
  }

  /** `rank` strictly decreases along every dependency edge, so the graph has no cycle. */
  ghost predicate RankedBy(deps: map<string, seq<string>>, rank: string -> nat)
  {
    forall k :: k in deps ==> forall j :: 0 <= j < |deps[k]| ==> rank(deps[k][j]) < rank(k)
  }

  /** Names visited but not yet appended: the `visit` calls still in progress. */
  ghost predicate InProgress(visited: set<string>, order: seq<string>, x: string)
  {
    x in visited && x !in order
  }

  lemma {:induction false} VisitOrdersDependencies(deps: map<string, seq<string>>, rank: string -> nat, c: string, visited: set<string>, order: seq<string>)
    requires Consistent(visited, order) && RankedBy(deps, rank) && DependenciesFirst(deps, order)
    requires forall x :: InProgress(visited, order, x) ==> rank(x) > rank(c)
    ensures DependenciesFirst(deps, Visit(deps, c, visited, order).order)
    ensures forall x :: InProgress(Visit(deps, c, visited, order).visited, Visit(deps, c, visited, order).order, x) ==>
      InProgress(visited, order, x)
    decreases deps.Keys - visited, 0, 0
  {
    var r := Visit(deps, c, visited, order);
    if c in visited {
    } else if c !in deps {
      assert r == Walk(visited + {c}, order + [c]);
      AppendLeafOrdered(deps, c, visited, order, r);
    } else {
      var v1 := visited + {c};
      var w := VisitAll(deps, deps[c], v1, order);
      VisitAllExtends(deps, deps[c], v1, order);
      VisitAllOrdersDependencies(deps, rank, deps[c], v1, order);
      VisitExtends(deps, c, visited, order);
      assert r == Walk(w.visited, w.order + [c]);
      AppendParentOrdered(deps, rank, c, visited, order, w, r);
    }
  }

  /** Appending a name without dependencies keeps every dependency ahead of
      its dependent and starts no new visit. */
  lemma AppendLeafOrdered(deps: map<string, seq<string>>, c: string, visited: set<string>, order: seq<string>, r: Walk)
    requires c !in deps && DependenciesFirst(deps, order)
    requires r == Walk(visited + {c}, order + [c])
    ensures DependenciesFirst(deps, r.order)
    ensures forall x :: InProgress(r.visited, r.order, x) ==> InProgress(visited, order, x)
  {
    assert forall i :: 0 <= i < |order| ==> r.order[..i] == order[..i];
    assert r.order[|order|] == c;
  }

  /** Appending `c` after the walk over its dependencies keeps every
      dependency ahead of its dependent and starts no new visit. */
  lemma AppendParentOrdered(deps: map<string, seq<string>>, rank: string -> nat, c: string, visited: set<string>, order: seq<string>, w: Walk, r: Walk)
    requires RankedBy(deps, rank) && forall x :: InProgress(visited, order, x) ==> rank(x) > rank(c)
    requires c !in visited && c in deps && c !in w.order
    requires Extends(deps, deps[c], visited + {c}, order, w)
    requires forall j :: 0 <= j < |deps[c]| ==> deps[c][j] in w.visited
    requires DependenciesFirst(deps, w.order)
    requires forall x :: InProgress(w.visited, w.order, x) ==> InProgress(visited + {c}, order, x)
    requires r == Walk(w.visited, w.order + [c])
    ensures DependenciesFirst(deps, r.order)
    ensures forall x :: InProgress(r.visited, r.order, x) ==> InProgress(visited, order, x)
  {
    assert r.order[..|w.order|] == w.order;
    forall j | 0 <= j < |deps[c]|
      ensures deps[c][j] in w.order
    {
      var d := deps[c][j];
      assert rank(d) < rank(c);
      assert d != c && !InProgress(visited, order, d);
      assert !InProgress(visited + {c}, order, d);
      assert !InProgress(w.visited, w.order, d);
    }
    forall i | 0 <= i < |w.order|
      ensures r.order[..i] == w.order[..i]
    {
    }
    assert r.order[|w.order|] == c;
    forall x | InProgress(r.visited, r.order, x)
      ensures InProgress(visited, order, x)
    {
      assert x !in w.order && x != c;
      assert InProgress(w.visited, w.order, x);
    }
  }

  lemma {:induction false} VisitAllOrdersDependencies(deps: map<string, seq<string>>, rank: string -> nat, ds: seq<string>, visited: set<string>, order: seq<string>)
    requires Consistent(visited, order) && RankedBy(deps, rank) && DependenciesFirst(deps, order)
    requires forall x, j :: InProgress(visited, order, x) && 0 <= j < |ds| ==> rank(x) > rank(ds[j])
    ensures DependenciesFirst(deps, VisitAll(deps, ds, visited, order).order)
    ensures forall x :: InProgress(VisitAll(deps, ds, visited, order).visited, VisitAll(deps, ds, visited, order).order, x) ==>
      InProgress(visited, order, x)
    decreases deps.Keys - visited, 1, |ds|
  {
    if |ds| > 0 {
      var w := Visit(deps, ds[0], visited, order);
      VisitExtends(deps, ds[0], visited, order);
      VisitOrdersDependencies(deps, rank, ds[0], visited, order);
      forall x, j | InProgress(w.visited, w.order, x) && 0 <= j < |ds[1..]|
        ensures rank(x) > rank(ds[1..][j])
      {
        assert ds[1..][j] == ds[j + 1];
      }
      VisitAllOrdersDependencies(deps, rank, ds[1..], w.visited, w.order);
    }
  }

  /** With an acyclic graph, every dependency is scheduled before its dependent. */
  lemma ExecutionOrderRespectsDependencies(deps: map<string, seq<string>>, rank: string -> nat, categories: seq<string>)
    requires RankedBy(deps, rank)
    ensures DependenciesFirst(deps, ExecutionOrder(deps, categories))
  {
    VisitAllOrdersDependencies(deps, rank, categories, {}, []);
  }

  /** With no dependency graph, the order is the requested list with repeats
      removed, each category at its first position. */
  lemma {:induction false} EmptyGraphKeepsRequestOrder(ds: seq<string>, visited: set<string>, order: seq<string>)
    ensures VisitAll(map[], ds, visited, order).order == order + FirstOccurrences(ds, visited)
    decreases |ds|
  {
    if |ds| > 0 {
      var w := Visit(map[], ds[0], visited, order);
      EmptyGraphKeepsRequestOrder(ds[1..], w.visited, w.order);
      if ds[0] !in visited {
        assert w.order == order + [ds[0]];
      }
    }
  }

  /** The elements of `ds` not in `seen`, first occurrences only, in order. */
  function FirstOccurrences(ds: seq<string>, seen: set<string>): (r: seq<string>)
    ensures NoDuplicates(r)
    ensures forall i :: 0 <= i < |r| ==> r[i] in ds && r[i] !in seen
    ensures forall j :: 0 <= j < |ds| && ds[j] !in seen ==> ds[j] in r
  {
    if |ds| == 0 then []
    else if ds[0] in seen then FirstOccurrences(ds[1..], seen)
    else
      var rest := FirstOccurrences(ds[1..], seen + {ds[0]});
      assert forall j :: 1 <= j < |ds| && ds[j] !in seen && ds[j] != ds[0] ==> ds[1..][j - 1] == ds[j];
      [ds[0]] + rest
  }

  // ---------------------------------------------------------------------------
  // The dependency graph
  // ---------------------------------------------------------------------------

  /** `name` is the name of the enum member whose value is `value`. */
  predicate ResolvesTo(name: string, value: string)
  {
    Categories.FromName(name).Some? && Categories.Value(Categories.FromName(name).value) == value
  }

  /** `value` is the value of one of the member names in `names`. */
  ghost predicate IsResolvedFrom(names: seq<string>, value: string)
  {
    exists j :: 0 <= j < |names| && ResolvesTo(names[j], value)
  }

  /** The inner loop of `_build_dependency_graph`: the enum values of the
      dependency names, skipping any name that is not an enum member. */
  function ResolveDependencyNames(names: seq<string>): seq<string>
  {
    FlatMap(names, ResolveName)
  }

  /** There are no more values than names, and every resolved value is the
      value of one of the names. */
  lemma {:induction false} ResolvedFromNames(names: seq<string>)
    ensures |ResolveDependencyNames(names)| <= |names|
    ensures forall i :: 0 <= i < |ResolveDependencyNames(names)| ==> IsResolvedFrom(names, ResolveDependencyNames(names)[i])
  {
    if |names| > 0 {
      ResolvedFromNames(names[1..]);
      ResolveStep(names);
      var head, rest := ResolveName(names[0]), ResolveDependencyNames(names[1..]);
      forall i | 0 <= i < |ResolveDependencyNames(names)|
        ensures IsResolvedFrom(names, ResolveDependencyNames(names)[i])
      {
        if i < |head| {
          assert ResolvesTo(names[0], head[i]);
        } else {
          var j :| 0 <= j < |names[1..]| && ResolvesTo(names[1..][j], rest[i - |head|]);
          assert names[1..][j] == names[j + 1];
        }
      }
    }
  }

  /** One step of that loop: the value of the named member, or nothing. */
  function ResolveName(name: string): (r: seq<string>)
    ensures |r| <= 1
    ensures |r| == 1 <==> Categories.FromName(name).Some?
    ensures forall i :: 0 <= i < |r| ==> ResolvesTo(name, r[i])
  {
    match Categories.FromName(name)
    case Some(c) => [Categories.Value(c)]
    case None => []
  }

  /** A name that is no enum member is dropped and leaves the rest as it was. */
  lemma UnknownNameDropped(before: seq<string>, name: string, after: seq<string>)
    requires Categories.FromName(name).None?
    ensures ResolveDependencyNames(before + [name] + after) ==
      ResolveDependencyNames(before) + ResolveDependencyNames(after)
  {
    ResolveConcat(before + [name], after);
    ResolveConcat(before, [name]);
    ResolveConcat(before, after);
    assert ResolveDependencyNames([name]) == [] by {
      ResolveStep([name]);
      assert [name][1..] == [];
    }
    assert ResolveDependencyNames(before) + [] == ResolveDependencyNames(before);
  }

  /** Resolving distributes over concatenation: the loop treats each name on its own. */
  lemma ResolveConcat(a: seq<string>, b: seq<string>)
    ensures ResolveDependencyNames(a + b) == ResolveDependencyNames(a) + ResolveDependencyNames(b)
  {
    FlatMapAppend(a, b, ResolveName);
  }

  /** One step of the resolving loop. */
  lemma ResolveStep(names: seq<string>)
    requires |names| > 0
    ensures ResolveDependencyNames(names) == ResolveName(names[0]) + ResolveDependencyNames(names[1..])
  {
  }


  /** Names that all resolve are mapped one for one onto their values. */
  lemma {:induction false} KnownNamesResolve(names: seq<string>)
    requires forall j :: 0 <= j < |names| ==> Categories.FromName(names[j]).Some?
    ensures |ResolveDependencyNames(names)| == |names|
    ensures forall j :: 0 <= j < |names| ==>
      ResolveDependencyNames(names)[j] == Categories.Value(Categories.FromName(names[j]).value)
  {
    if |names| > 0 {
      KnownNamesResolve(names[1..]);
      assert forall j :: 1 <= j < |names| ==> names[1..][j - 1] == names[j];
    }
  }

  /** The dependency values of one category, or the KeyError of its metadata lookup. */
  function DependencyValues(c: Categories.CategoryType): (r: Attempt<seq<string>>)
    ensures r.Raised? <==> Categories.Metadata(c).None?
  {
    match Categories.GetDependencies(c)
    case Returned(names) => Returned(ResolveDependencyNames(names))
    case Raised(e) => Raised(e)
  }

  /** The outer loop of `_build_dependency_graph` over `cs`. */
  function GraphOver(cs: seq<Categories.CategoryType>): (r: Attempt<map<string, seq<string>>>)
    ensures r.Raised? <==> exists i :: 0 <= i < |cs| && Categories.Metadata(cs[i]).None?
  {
    if |cs| == 0 then Returned(map[])
    else match GraphOver(cs[..|cs| - 1])
      case Raised(e) => Raised(e)
      case Returned(g) =>
        assert forall i :: 0 <= i < |cs| - 1 ==> cs[..|cs| - 1][i] == cs[i];
        match DependencyValues(cs[|cs| - 1])
        case Raised(e) => Raised(e)
        case Returned(vs) => Returned(g[Categories.Value(cs[|cs| - 1]) := vs])
  }

  /** `_build_dependency_graph()` as written: it walks all eleven members and
      the metadata lookup for STEALTH raises, so `initialize` fails and the
      orchestrator keeps its empty graph. */
  function BuildDependencyGraphAsWritten(): (r: Attempt<map<string, seq<string>>>)
    ensures r.Raised?
  {
    assert Categories.Metadata(Categories.AllCategories[9]).None?;
    GraphOver(Categories.AllCategories)
  }

  /** The dependencies `_build_dependency_graph` is meant to record for `c`:
      the resolved values, and none for a member without metadata. */
  function IntendedDependencies(c: Categories.CategoryType): seq<string>
  {
    match Categories.Metadata(c)
    case Some(m) => ResolveDependencyNames(m.dependencies)
    case None => []
  }

  /** `_build_dependency_graph()` with the missing metadata treated as no
      dependencies: every enum value maps to its resolved dependency values. */
  function BuildDependencyGraph(): (r: map<string, seq<string>>)
    ensures forall c: Categories.CategoryType :: Categories.Value(c) in r && r[Categories.Value(c)] == IntendedDependencies(c)
    ensures forall k :: k in r ==> Categories.FromValue(k).Some?
  {
    ValuesDistinct();
    map c: Categories.CategoryType | c in Categories.AllCategories :: Categories.Value(c) := IntendedDependencies(c)
  }

  lemma ValuesDistinct()
    ensures forall a: Categories.CategoryType, b: Categories.CategoryType :: Categories.Value(a) == Categories.Value(b) ==> a == b
    ensures forall c: Categories.CategoryType :: c in Categories.AllCategories
    ensures forall c: Categories.CategoryType :: Categories.FromValue(Categories.Value(c)) == Some(c)
  {
    Categories.RoundTripAll();
    Categories.AllCategoriesComplete();
  }

  /** The rank of a category value: the category's rank, 0 for other strings. */
  function ValueRank(v: string): nat
  {
    match Categories.FromValue(v)
    case Some(c) => Categories.Rank(c)
    case None => 0
  }

  /** The intended dependency graph is acyclic, so the execution order over it
      puts every dependency before its dependent. */
  lemma DependencyGraphRanked()
    ensures RankedBy(BuildDependencyGraph(), ValueRank)
  {
    var g := BuildDependencyGraph();
    forall k | k in g
      ensures forall j :: 0 <= j < |g[k]| ==> ValueRank(g[k][j]) < ValueRank(k)
    {
      var c := Categories.FromValue(k).value;
      assert g[k] == IntendedDependencies(c);
      forall j | 0 <= j < |g[k]|
        ensures ValueRank(g[k][j]) < ValueRank(k)
      {
        var m := Categories.Metadata(c).value;
        Categories.DependencyNamesResolve(c);
        KnownNamesResolve(m.dependencies);
        Categories.DependenciesRankBelow(c, j);
        var d := Categories.FromName(m.dependencies[j]).value;
        Categories.NameAndValueRoundTrip(d);
      }
    }
  }

  // ---------------------------------------------------------------------------
  // Composite verdict
  // ---------------------------------------------------------------------------

  /** One agent result: whether its `error` is truthy, and its `confidence` if present. */
  datatype AgentResult = AgentResult(hasError: bool, confidence: Option<real>)

  /** One entry of `results`: whether the category-level `error` is truthy, and its agent results. */
  datatype CategoryResult = CategoryResult(hasError: bool, results: seq<AgentResult>)

  /** A category that enters the composite: its mean score and its weight. */
  datatype Contribution = Contribution(category: string, score: real, weight: real)

  /** The returned dictionary: a scored verdict with its contributing
      categories, INSUFFICIENT_DATA, or ERROR with its reason. */
  datatype CompositeVerdict =
    | Scored(verdict: string, confidence: real, contributing: seq<Contribution>)
    | InsufficientData
    | Failed(reason: string)

  /** The confidences of the successful agents that report one. */
  function CategoryScores(agents: seq<AgentResult>): (r: seq<real>)
    ensures |r| <= |agents|
    ensures forall i :: 0 <= i < |r| ==> exists j :: 0 <= j < |agents| && !agents[j].hasError && agents[j].confidence == Some(r[i])
    ensures |r| == 0 <==> forall j :: 0 <= j < |agents| ==> agents[j].hasError || agents[j].confidence.None?
  {
    if |agents| == 0 then []
    else
      var rest := CategoryScores(agents[1..]);
      assert forall j :: 1 <= j < |agents| ==> agents[1..][j - 1] == agents[j];
      if !agents[0].hasError && agents[0].confidence.Some? then [agents[0].confidence.value] + rest else rest
  }

  /** `category_weights.get(category, 0.0)`. */
  function WeightOf(weights: map<string, real>, category: string): real
  {
    if category in weights then weights[category] else 0.0
  }

  /** The category enters the composite: not an execution failure without
      results, some agent confidence, and a positive weight. */
  predicate Contributes(weights: map<string, real>, entry: (string, CategoryResult))
  {
    !(entry.1.hasError && |entry.1.results| == 0)
    && |CategoryScores(entry.1.results)| > 0
    && WeightOf(weights, entry.0) > 0.0
  }

  /** The loop of `_generate_composite_verdict` over `results.items()`. */
  function Contributions(results: seq<(string, CategoryResult)>, weights: map<string, real>): (r: seq<Contribution>)
    ensures |r| <= |results|
    ensures |r| == 0 <==> forall i :: 0 <= i < |results| ==> !Contributes(weights, results[i])
    ensures forall i :: 0 <= i < |r| ==> r[i].weight > 0.0
  {
    if |results| == 0 then []
    else
      var rest := Contributions(results[1..], weights);
      assert forall i :: 1 <= i < |results| ==> results[1..][i - 1] == results[i];
      ContributionOf(results[0], weights) + rest
  }

  /** One iteration of that loop: a category with an error and no results,
      with no scores, or with no positive weight adds nothing. */
  function ContributionOf(entry: (string, CategoryResult), weights: map<string, real>): (r: seq<Contribution>)
    ensures |r| <= 1
    ensures |r| == 1 <==> Contributes(weights, entry)
    ensures forall i :: 0 <= i < |r| ==> r[i].weight > 0.0
  {
    var (name, data) := entry;
    if data.hasError && |data.results| == 0 then []
    else
      var scores := CategoryScores(data.results);
      if |scores| == 0 then []
      else
        var w := WeightOf(weights, name);
        if w > 0.0 then [Contribution(name, Mean(scores), w)] else []
  }

  function TotalWeight(cs: seq<Contribution>): real
  {
    if |cs| == 0 then 0.0 else cs[0].weight + TotalWeight(cs[1..])
  }

  /** `sum(s * w for s, w in zip(scores, weights))`. */
  function WeightedSum(cs: seq<Contribution>): real
  {
    if |cs| == 0 then 0.0 else cs[0].score * cs[0].weight + WeightedSum(cs[1..])
  }

  /** The verdict bands of the composite score. */
  function Band(score: real): (r: string)
    ensures r == "STRONG_BUY" <==> score > 0.7
    ensures r == "BUY" <==> 0.5 < score <= 0.7
    ensures r == "HOLD" <==> 0.3 < score <= 0.5
    ensures r == "SELL" <==> score <= 0.3
  {
    if score > 0.7 then "STRONG_BUY"
    else if score > 0.5 then "BUY"
    else if score > 0.3 then "HOLD"
    else "SELL"
  }

  /** The position of a band from SELL (0) to STRONG_BUY (3). */
  function BandLevel(verdict: string): nat
  {
    if verdict == "STRONG_BUY" then 3 else if verdict == "BUY" then 2 else if verdict == "HOLD" then 1 else 0
  }

  /** A higher composite never gives a lower band. */
  lemma BandMonotone(x: real, y: real)
    requires x <= y
    ensures BandLevel(Band(x)) <= BandLevel(Band(y))
  {
  }

  /** `_generate_composite_verdict(results)` given the outcome of the weight lookup. */
  function GenerateCompositeVerdict(results: seq<(string, CategoryResult)>, weights: Attempt<map<string, real>>): (r: CompositeVerdict)
    ensures weights.Raised? ==> r == Failed("Internal error: " + weights.error)
    ensures weights.Returned? ==> (r.InsufficientData? <==> |Contributions(results, weights.value)| == 0)
    ensures r.Scored? ==> r.contributing == Contributions(results, weights.value) && r.verdict == Band(r.confidence)
  {
    match weights
    case Raised(e) => Failed("Internal error: " + e)
    case Returned(ws) =>
      var cs := Contributions(results, ws);
      TotalWeightPositive(cs);
      if |cs| == 0 || TotalWeight(cs) == 0.0 then InsufficientData
      else
        var composite := WeightedSum(cs) / TotalWeight(cs);
        Scored(Band(composite), composite, cs)
  }

  lemma {:induction false} TotalWeightPositive(cs: seq<Contribution>)
    requires forall i :: 0 <= i < |cs| ==> cs[i].weight > 0.0
    ensures |cs| > 0 ==> TotalWeight(cs) > 0.0
    ensures |cs| == 0 ==> TotalWeight(cs) == 0.0
  {
    if |cs| > 0 {
      TotalWeightPositive(cs[1..]);
    }
  }

  lemma ScaleBelow(a: real, b: real, w: real)
    requires a <= b && w >= 0.0
    ensures a * w <= b * w
  {
  }

  /** Every score lies in [lo, hi] and no weight is negative. */
  ghost predicate ScoresWithin(cs: seq<Contribution>, lo: real, hi: real)
  {
    forall i :: 0 <= i < |cs| ==> lo <= cs[i].score <= hi && cs[i].weight >= 0.0
  }

  /** Scores between `lo` and `hi` bound the weighted sum by `lo` and `hi` times the total weight. */
  lemma {:induction false} WeightedSumBounds(cs: seq<Contribution>, lo: real, hi: real)
    requires ScoresWithin(cs, lo, hi)
    ensures lo * TotalWeight(cs) <= WeightedSum(cs) <= hi * TotalWeight(cs)
  {
    if |cs| > 0 {
      WeightedSumBounds(cs[1..], lo, hi);
      BoundsStep(lo, hi, cs[0].score, cs[0].weight, WeightedSum(cs[1..]), TotalWeight(cs[1..]), WeightedSum(cs), TotalWeight(cs));
    }
  }

  /** One contribution added to bounded sums keeps them bounded. */
  lemma BoundsStep(lo: real, hi: real, s: real, w: real, restSum: real, restTotal: real, sum: real, total: real)
    requires lo <= s <= hi && w >= 0.0
    requires lo * restTotal <= restSum <= hi * restTotal
    requires sum == s * w + restSum && total == w + restTotal
    ensures lo * total <= sum <= hi * total
  {
    ScaleBelow(lo, s, w);
    ScaleBelow(s, hi, w);
    assert lo * total == lo * w + lo * restTotal;
    assert hi * total == hi * w + hi * restTotal;
  }

  /** A contributing category's score is the mean of its agents' confidences,
      so it lies within their bounds. */
  lemma {:induction false} ContributionScoresBounded(results: seq<(string, CategoryResult)>, weights: map<string, real>, lo: real, hi: real)
    requires ConfidencesWithin(results, lo, hi)
    ensures ScoresWithin(Contributions(results, weights), lo, hi)
  {
    if |results| > 0 {
      ContributionScoresBounded(results[1..], weights, lo, hi);
      var data := results[0].1;
      var scores := CategoryScores(data.results);
      if |scores| > 0 {
        forall i | 0 <= i < |scores|
          ensures lo <= scores[i] <= hi
        {
          var j :| 0 <= j < |data.results| && !data.results[j].hasError && data.results[j].confidence == Some(scores[i]);
        }
        MeanBounds(scores, lo, hi);
      }
    }
  }

  lemma WeightedMeanBounds(s: real, t: real, m: real, lo: real, hi: real)
    requires t > 0.0 && lo * t <= s <= hi * t && m == s / t
    ensures lo <= m <= hi
  {
  }

  /** Every agent confidence reported in `results` lies in [lo, hi]. */
  ghost predicate ConfidencesWithin(results: seq<(string, CategoryResult)>, lo: real, hi: real)
  {
    forall i, j :: 0 <= i < |results| && 0 <= j < |results[i].1.results| && results[i].1.results[j].confidence.Some? ==>
      lo <= results[i].1.results[j].confidence.value <= hi
  }

  /** A scored verdict's confidence is the weighted mean of the contributing scores. */
  lemma ScoredIsWeightedMean(results: seq<(string, CategoryResult)>, weights: map<string, real>)
    ensures var r := GenerateCompositeVerdict(results, Returned(weights));
      var cs := Contributions(results, weights);
      r.Scored? ==> TotalWeight(cs) > 0.0 && r.confidence == WeightedSum(cs) / TotalWeight(cs)
  {
    var cs := Contributions(results, weights);
    TotalWeightPositive(cs);
    if |cs| > 0 {
      assert GenerateCompositeVerdict(results, Returned(weights)).confidence == WeightedSum(cs) / TotalWeight(cs);
    }
  }

  /** When every agent confidence lies in [lo, hi], so does the composite
      confidence: it is a weighted mean of category means. */
  lemma CompositeWithinBounds(results: seq<(string, CategoryResult)>, weights: map<string, real>, lo: real, hi: real)
    requires ConfidencesWithin(results, lo, hi)
    ensures var r := GenerateCompositeVerdict(results, Returned(weights));
      r.Scored? ==> lo <= r.confidence <= hi
  {
    var cs := Contributions(results, weights);
    var r := GenerateCompositeVerdict(results, Returned(weights));
    if r.Scored? {
      ScoredIsWeightedMean(results, weights);
      ContributionScoresBounded(results, weights, lo, hi);
      WeightedMeanWithin(cs, lo, hi);
    }
  }

  /** The weighted mean of scores in [lo, hi] lies in [lo, hi]. */
  lemma WeightedMeanWithin(cs: seq<Contribution>, lo: real, hi: real)
    requires ScoresWithin(cs, lo, hi) && TotalWeight(cs) > 0.0
    ensures lo <= WeightedSum(cs) / TotalWeight(cs) <= hi
  {
    WeightedSumBounds(cs, lo, hi);
    WeightedMeanBounds(WeightedSum(cs), TotalWeight(cs), WeightedSum(cs) / TotalWeight(cs), lo, hi);
  }

  /** A category whose execution failed outright (an error and no results)
      is skipped: removing it changes nothing. */
  lemma {:induction false} FailedCategoryIgnored(before: seq<(string, CategoryResult)>, name: string,
                                                after: seq<(string, CategoryResult)>, weights: map<string, real>)
    ensures Contributions(before + [(name, CategoryResult(true, []))] + after, weights) ==
      Contributions(before + after, weights)
  {
    var failed := (name, CategoryResult(true, []));
    ContributionsConcat(before + [failed], after, weights);
    ContributionsConcat(before, [failed], weights);
    ContributionsConcat(before, after, weights);
    assert Contributions([failed], weights) == [] by {
      ContributionsStep([failed], weights);
      assert [failed][1..] == [];
    }
    assert Contributions(before, weights) + [] == Contributions(before, weights);
  }

  /** The loop treats each category on its own. */
  lemma ContributionsConcat(a: seq<(string, CategoryResult)>, b: seq<(string, CategoryResult)>, weights: map<string, real>)
    ensures Contributions(a + b, weights) == Contributions(a, weights) + Contributions(b, weights)
  {
    ContributionsFlatMap(a + b, weights);
    ContributionsFlatMap(a, weights);
    ContributionsFlatMap(b, weights);
    FlatMapAppend(a, b, ContributionIn(weights));
  }

  /** `ContributionOf` with the weight table fixed. */
  function ContributionIn(weights: map<string, real>): ((string, CategoryResult)) -> seq<Contribution>
  {
    entry => ContributionOf(entry, weights)
  }

  /** The loop appends each category's own contribution, in order. */
  lemma {:induction false} ContributionsFlatMap(results: seq<(string, CategoryResult)>, weights: map<string, real>)
    ensures Contributions(results, weights) == FlatMap(results, ContributionIn(weights))
  {
    if |results| > 0 {
      ContributionsFlatMap(results[1..], weights);
      ContributionsStep(results, weights);
    }
  }

  /** One step of `Contributions`. */
  lemma ContributionsStep(results: seq<(string, CategoryResult)>, weights: map<string, real>)
    requires |results| > 0
    ensures Contributions(results, weights) == ContributionOf(results[0], weights) + Contributions(results[1..], weights)
  {
  }

  /** The `AttributeError` text for the missing `get_category_weights`. */
  const MissingWeightsMethod := "'CategoryManager' object has no attribute 'get_category_weights'"

  /** `_generate_composite_verdict` as written: `get_category_weights` does not
      exist on `CategoryManager`, so every call ends in the ERROR verdict. */
  function GenerateCompositeVerdictAsWritten(results: seq<(string, CategoryResult)>): (r: CompositeVerdict)
    ensures r == Failed("Internal error: " + MissingWeightsMethod)
  {
    GenerateCompositeVerdict(results, Raised(MissingWeightsMethod))
  }

  /** The weight table `get_category_weights` is meant to return: each
      metadata category's value mapped to its weight. */
  function CategoryWeights(): (r: map<string, real>)
    ensures forall c: Categories.CategoryType :: Categories.Metadata(c).Some? ==>
      Categories.Value(c) in r && r[Categories.Value(c)] == Categories.Metadata(c).value.weight
    ensures forall c: Categories.CategoryType :: Categories.Metadata(c).None? ==> Categories.Value(c) !in r
  {
    ValuesDistinct();
    Categories.MetadataCategoriesComplete();
    map c: Categories.CategoryType | c in Categories.MetadataCategories :: Categories.Value(c) := Categories.Metadata(c).value.weight
  }

  /** The composite verdict with the intended weight table. */
  function CompositeVerdictCorrected(results: seq<(string, CategoryResult)>): (r: CompositeVerdict)
    ensures !r.Failed?
    ensures r.InsufficientData? <==> forall i :: 0 <= i < |results| ==> !Contributes(CategoryWeights(), results[i])
  {
    GenerateCompositeVerdict(results, Returned(CategoryWeights()))
  }

  /** With the intended weights, a STEALTH or AUTOMATION category never
      contributes, since neither has a weight. */
  lemma UnweightedCategoriesExcluded(c: Categories.CategoryType, data: CategoryResult)
    requires Categories.Metadata(c).None?
    ensures !Contributes(CategoryWeights(), (Categories.Value(c), data))
  {
    assert Categories.Value(c) !in CategoryWeights();
  }

  // ---------------------------------------------------------------------------
  // Category retry
  // ---------------------------------------------------------------------------

  /** What `_execute_category_with_retry` did: its outcome, how many times it
      called `execute_category`, and the `asyncio.sleep` durations in order. */
  datatype CategoryRun<T> = CategoryRun(outcome: Attempt<T>, attempts: nat, sleeps: seq<real>)

  /** The retry loop from iteration `attempt` on; `call(i)` is the outcome of
      the call in iteration `i` and `empty` is the `[]` returned when the loop
      never runs. */
  function RetryFrom<T>(maxRetries: int, call: nat -> Attempt<T>, empty: T, attempt: nat): (r: CategoryRun<T>)
    requires attempt == 0 || attempt < maxRetries
    ensures maxRetries <= attempt ==> r == CategoryRun(Returned(empty), attempt, [])
    ensures attempt < maxRetries ==>
      attempt < r.attempts <= maxRetries
      && r.outcome == call(r.attempts - 1)
      && (forall i :: attempt <= i < r.attempts - 1 ==> call(i).Raised?)
      && (r.outcome.Raised? ==> r.attempts == maxRetries)
      && |r.sleeps| == r.attempts - 1 - attempt
      && (forall k :: 0 <= k < |r.sleeps| ==> r.sleeps[k] == (attempt + k + 1) as real)
    decreases maxRetries - attempt
  {
    if maxRetries <= attempt then CategoryRun(Returned(empty), attempt, [])
    else match call(attempt)
      case Returned(v) => CategoryRun(Returned(v), attempt + 1, [])
      case Raised(e) =>
        if attempt == maxRetries - 1 then CategoryRun(Raised(e), attempt + 1, [])
        else
          var rest := RetryFrom(maxRetries, call, empty, attempt + 1);
          CategoryRun(rest.outcome, rest.attempts, [(attempt + 1) as real] + rest.sleeps)
  }

  /** `_execute_category_with_retry(..., max_retries)`. */
  function ExecuteCategoryWithRetry<T>(maxRetries: int, call: nat -> Attempt<T>, empty: T): (r: CategoryRun<T>)
    // no iteration at all: the empty list, with no call
    ensures maxRetries <= 0 ==> r == CategoryRun(Returned(empty), 0, [])
    // at most max_retries calls; the first success is returned at once
    ensures maxRetries > 0 ==>
      1 <= r.attempts <= maxRetries
      && r.outcome == call(r.attempts - 1)
      && (forall i :: 0 <= i < r.attempts - 1 ==> call(i).Raised?)
      && (r.outcome.Raised? ==> r.attempts == maxRetries)
    // the i-th sleep (from 0) lasts i + 1 seconds, one between consecutive calls
    ensures |r.sleeps| == if r.attempts == 0 then 0 else r.attempts - 1
    ensures forall k :: 0 <= k < |r.sleeps| ==> r.sleeps[k] == (k + 1) as real
  {
    RetryFrom(maxRetries, call, empty, 0)
  }

  /** The first successful call within the budget decides the run. */
  lemma RetryStopsAtFirstSuccess<T>(maxRetries: int, call: nat -> Attempt<T>, empty: T, k: nat)
    requires k < maxRetries && call(k).Returned?
    requires forall i :: 0 <= i < k ==> call(i).Raised?
    ensures ExecuteCategoryWithRetry(maxRetries, call, empty).attempts == k + 1
    ensures ExecuteCategoryWithRetry(maxRetries, call, empty).outcome == call(k)
  {
  }

  /** `1 + 2 + ... + n`. */
  function Ramp(n: nat): (r: seq<real>)
    ensures |r| == n
    ensures forall k :: 0 <= k < n ==> r[k] == (k + 1) as real
  {
    if n == 0 then [] else Ramp(n - 1) + [n as real]
  }

  lemma {:induction false} RampSum(n: nat)
    ensures Sum(Ramp(n)) == (n * (n + 1) / 2) as real
  {
    if n > 0 {
      RampSum(n - 1);
      assert Ramp(n)[..n - 1] == Ramp(n - 1);
      assert (n * (n + 1) / 2) == ((n - 1) * n / 2) + n;
    }
  }

  /** A run of `a` calls sleeps `a(a-1)/2` seconds in total. */
  lemma RetryTotalSleep<T>(maxRetries: int, call: nat -> Attempt<T>, empty: T)
    ensures var r := ExecuteCategoryWithRetry(maxRetries, call, empty);
      r.attempts >= 1 ==> Sum(r.sleeps) == ((r.attempts - 1) * r.attempts / 2) as real
  {
    var r := ExecuteCategoryWithRetry(maxRetries, call, empty);
    if r.attempts >= 1 {
      assert r.sleeps == Ramp(r.attempts - 1);
      RampSum(r.attempts - 1);
    }
  }

  /** `_get_default_categories()`: every enum value in definition order. */
  function DefaultCategories(): (r: seq<string>)
    ensures |r| == |Categories.AllCategories|
    ensures forall i :: 0 <= i < |r| ==> r[i] == Categories.Value(Categories.AllCategories[i])
  {
    seq(|Categories.AllCategories|, i requires 0 <= i < |Categories.AllCategories| => Categories.Value(Categories.AllCategories[i]))
  }
}

=== FILE: providers.dfy ===
/** Provider fallback and breaker gating of
    backend/data/providers/unified_provider.py and
    backend/data/providers/base_provider.py.

    The providers call `is_closed()`, `allow_request()`, `record_success()`
    and `record_failure()` on a breaker object. The only breaker class in
    the code, backend/utils/circuit_breaker.py (module CircuitBreaker), has
    none of these except `record_failure(service)`, and its constructor
    takes only `failure_threshold`, so the providers' own construction of
    their breakers raises. The model describes the provider methods as
    their authors call them: the breaker's answer to `is_closed` /
    `allow_request` is an input, and the `record_*` calls are an output
    log. The network operations are their outcomes, given as inputs. */
module Providers {
  import opened Common
  import Retry

  datatype ProviderId = AlphaVantage | Polygon | YahooFinance | Finnhub | WebScraper

  function Name(p: ProviderId): string
  {
    match p
    case AlphaVantage => "alpha_vantage"
    case Polygon => "polygon"
    case YahooFinance => "yahoo_finance"
    case Finnhub => "finnhub"
    case WebScraper => "web_scraper"
  }

  /** `_provider_order`. */
  const ProviderOrder: seq<ProviderId> := [AlphaVantage, Polygon, YahooFinance, Finnhub, WebScraper]

  /** `failure_threshold` of the breaker built for each provider. */
  function BreakerThreshold(p: ProviderId): nat
  {
    if p == WebScraper then 5 else 3
  }

  /** `recovery_timeout` of the breaker built for each provider, in seconds. */
  function RecoveryTimeout(p: ProviderId): nat
  {
    if p == WebScraper then 600 else 300
  }

  /** The fixed order lists every provider exactly once, and each has a breaker
      with a positive threshold and timeout. */
  lemma ProviderOrderComplete(p: ProviderId)
    ensures p in ProviderOrder
    ensures NoDuplicates(ProviderOrder)
    ensures BreakerThreshold(p) > 0 && RecoveryTimeout(p) > 0
  {
  }

  /** A call to the breaker's bookkeeping. */
  datatype BreakerCall = RecordSuccess | RecordFailure

  /** The bookkeeping call that follows an invoked operation's outcome. */
  function BreakerCallFor<T>(a: Attempt<T>): BreakerCall
  {
    if a.Returned? then RecordSuccess else RecordFailure
  }

  /** What `execute_with_monitoring` did: its outcome, and the breaker call it
      made (none when the breaker was not closed). */
  datatype Monitored<T> = Monitored(outcome: Attempt<T>, breakerCalls: seq<BreakerCall>)

  function OpenMessage(p: ProviderId): string
  {
    Name(p) + " circuit breaker is open"
  }

  /** `execute_with_monitoring(provider, endpoint, operation)`. */
  function ExecuteWithMonitoring<T>(p: ProviderId, closed: bool, op: Attempt<T>): (r: Monitored<T>)
    // a breaker that is not closed refuses without running the operation or recording anything
    ensures !closed ==> r.outcome == Raised(OpenMessage(p)) && r.breakerCalls == []
    // otherwise the operation's own outcome is passed through (a failure is re-raised)
    ensures closed ==> r.outcome == op
    // and exactly one bookkeeping call matches it: a success after a success, a failure after a failure
    ensures closed ==> |r.breakerCalls| == 1 && (r.breakerCalls[0] == RecordSuccess <==> op.Returned?)
  {
    if !closed then Monitored(Raised(OpenMessage(p)), [])
    else Monitored(op, [BreakerCallFor(op)])
  }

  /** The message a provider's attempt contributes when it fails. */
  function FailureOf<T>(p: ProviderId, closed: bool, op: Attempt<T>): string
    requires !closed || op.Raised?
  {
    ExecuteWithMonitoring(p, closed, op).outcome.error
  }

  /** An entry of an error list: `f"{name}: {message}"`. */
  function ErrorEntry(name: string, message: string): string
  {
    name + ": " + message
  }

  /** The providers of `order` that have an operation, in order. */
  function Present<T>(order: seq<ProviderId>, ops: map<ProviderId, Attempt<T>>): (r: seq<ProviderId>)
    ensures forall i :: 0 <= i < |r| ==> r[i] in ops && r[i] in order
    ensures forall i :: 0 <= i < |order| && order[i] in ops ==> order[i] in r
  {
    if |order| == 0 then []
    else if order[0] in ops then [order[0]] + Present(order[1..], ops)
    else Present(order[1..], ops)
  }

  /** Provider `p` returns a value when tried. */
  ghost predicate Succeeds<T>(p: ProviderId, ops: map<ProviderId, Attempt<T>>, closed: ProviderId -> bool)
  {
    p in ops && closed(p) && ops[p].Returned?
  }

  /** What the fallback loop did: the value found, the providers it tried
      (those with an operation, up to and including the one that answered),
      the error list, and the breaker calls made, tagged with their provider. */
  datatype Fallback<T> = Fallback(
    value: Option<T>,
    attempted: seq<ProviderId>,
    errors: seq<string>,
    breakerLog: seq<(ProviderId, BreakerCall)>)

  /** The loop of `fetch_with_fallback` over `order`. */
  function Walk<T>(order: seq<ProviderId>, ops: map<ProviderId, Attempt<T>>, closed: ProviderId -> bool): (r: Fallback<T>)
    // only providers with an operation are tried
    ensures forall i :: 0 <= i < |r.attempted| ==> r.attempted[i] in ops
    // on success the last provider tried is the one that answered, with its value
    ensures r.value.Some? ==>
      |r.attempted| >= 1
      && Succeeds(r.attempted[|r.attempted| - 1], ops, closed)
      && r.value.value == ops[r.attempted[|r.attempted| - 1]].value
    // one error per failed provider
    ensures |r.errors| == |r.attempted| - (if r.value.Some? then 1 else 0)
    ensures forall i :: 0 <= i < |r.errors| ==> !Succeeds(r.attempted[i], ops, closed)
  {
    if |order| == 0 then Fallback(None, [], [], [])
    else
      var p := order[0];
      if p !in ops then Walk(order[1..], ops, closed)
      else
        var m := ExecuteWithMonitoring(p, closed(p), ops[p]);
        var log := if closed(p) then [(p, m.breakerCalls[0])] else [];
        match m.outcome
        case Returned(v) => Fallback(Some(v), [p], [], log)
        case Raised(e) =>
          var rest := Walk(order[1..], ops, closed);
          Fallback(rest.value, [p] + rest.attempted, [ErrorEntry(Name(p), e)] + rest.errors, log + rest.breakerLog)
  }

  /** `fetch_with_fallback(symbol, operation_name, operations)`. */
  function FetchWithFallback<T>(operationName: string, ops: map<ProviderId, Attempt<T>>, closed: ProviderId -> bool): (r: Attempt<T>)
    ensures r.Raised? ==>
      r.error == "All providers failed for " + operationName + ": " + Join(Walk(ProviderOrder, ops, closed).errors, ", ")
    ensures r.Returned? <==> Walk(ProviderOrder, ops, closed).value.Some?
    ensures r.Returned? ==> r.value == Walk(ProviderOrder, ops, closed).value.value
  {
    var w := Walk(ProviderOrder, ops, closed);
    match w.value
    case Some(v) => Returned(v)
    case None => Raised("All providers failed for " + operationName + ": " + Join(w.errors, ", "))
  }

  /** The providers tried are those of `order` with an operation, in order, up
      to the one that answered: all of them when none did. */
  lemma {:induction false} WalkTriesPresentInOrder<T>(order: seq<ProviderId>, ops: map<ProviderId, Attempt<T>>, closed: ProviderId -> bool)
    ensures var r := Walk(order, ops, closed);
      |r.attempted| <= |Present(order, ops)|
      && r.attempted == Present(order, ops)[..|r.attempted|]
      && (r.value.None? ==> r.attempted == Present(order, ops))
  {
    if |order| > 0 {
      WalkTriesPresentInOrder(order[1..], ops, closed);
      var r, rest := Walk(order, ops, closed), Walk(order[1..], ops, closed);
      var p := order[0];
      if p in ops {
        PresentStep(order, ops);
        WalkHead(order, ops, closed);
        if r.attempted == [p] && r.value.Some? {
          ConsPrefix(p, [], Present(order[1..], ops));
        } else {
          ConsPrefix(p, rest.attempted, Present(order[1..], ops));
        }
      } else {
        assert Present(order, ops) == Present(order[1..], ops);
        assert r == rest;
      }
    }
  }

  lemma PresentStep<T>(order: seq<ProviderId>, ops: map<ProviderId, Attempt<T>>)
    requires |order| > 0 && order[0] in ops
    ensures Present(order, ops) == [order[0]] + Present(order[1..], ops)
  {
  }

  /** A provider with an operation either answers and ends the walk, or fails
      and the walk goes on with the rest. */
  lemma WalkHead<T>(order: seq<ProviderId>, ops: map<ProviderId, Attempt<T>>, closed: ProviderId -> bool)
    requires |order| > 0 && order[0] in ops
    ensures var r, rest := Walk(order, ops, closed), Walk(order[1..], ops, closed);
      (r.attempted == [order[0]] && r.value.Some?)
      || (r.attempted == [order[0]] + rest.attempted && r.value == rest.value)
  {
  }

  /** Consing onto a prefix gives a prefix of the consed sequence. */
  lemma ConsPrefix<T>(p: T, a: seq<T>, s: seq<T>)
    requires |a| <= |s| && a == s[..|a|]
    ensures [p] + a == ([p] + s)[..|a| + 1]
  {
  }

  /** Each error entry is "provider: message" for the provider tried at the
      same position, the message being the breaker refusal or the operation's
      own error. */
  ghost predicate ErrorsDescribeFailures<T>(r: Fallback<T>, ops: map<ProviderId, Attempt<T>>, closed: ProviderId -> bool)
  {
    |r.errors| <= |r.attempted|
    && (forall i :: 0 <= i < |r.errors| ==> r.attempted[i] in ops && !Succeeds(r.attempted[i], ops, closed))
    && forall i :: 0 <= i < |r.errors| ==>
      r.errors[i] == ErrorEntry(Name(r.attempted[i]), FailureOf(r.attempted[i], closed(r.attempted[i]), ops[r.attempted[i]]))
  }

  lemma {:induction false} WalkErrorEntries<T>(order: seq<ProviderId>, ops: map<ProviderId, Attempt<T>>, closed: ProviderId -> bool)
    ensures ErrorsDescribeFailures(Walk(order, ops, closed), ops, closed)
  {
    if |order| > 0 {
      WalkErrorEntries(order[1..], ops, closed);
      var r := Walk(order, ops, closed);
      var rest := Walk(order[1..], ops, closed);
      var p := order[0];
      if p in ops && !Succeeds(p, ops, closed) {
        assert r.attempted == [p] + rest.attempted;
        assert r.errors == [ErrorEntry(Name(p), FailureOf(p, closed(p), ops[p]))] + rest.errors;
        forall i | 0 < i < |r.errors|
          ensures r.errors[i] == ErrorEntry(Name(r.attempted[i]), FailureOf(r.attempted[i], closed(r.attempted[i]), ops[r.attempted[i]]))
        {
          var q := rest.attempted[i - 1];
          assert r.errors[i] == rest.errors[i - 1] && r.attempted[i] == q;
        }
      } else if p !in ops {
        assert r == rest;
      } else {
        assert r.errors == [];
      }
    }
  }

  /** The breaker is called once for each provider tried whose breaker was
      closed, in order, each call matching that provider's outcome. */
  ghost predicate LogMatchesAttempts<T>(
    attempted: seq<ProviderId>, log: seq<(ProviderId, BreakerCall)>, ops: map<ProviderId, Attempt<T>>, closed: ProviderId -> bool)
  {
    var called := Filter(attempted, closed);
    |log| == |called|
    && forall i :: 0 <= i < |called| ==>
      called[i] in ops && log[i] == (called[i], BreakerCallFor(ops[called[i]]))
  }

  /** The entry for one more provider tried in front keeps the log matching. */
  lemma LogMatchesCons<T>(
    p: ProviderId, attempted: seq<ProviderId>, log: seq<(ProviderId, BreakerCall)>,
    ops: map<ProviderId, Attempt<T>>, closed: ProviderId -> bool)
    requires p in ops
    requires LogMatchesAttempts(attempted, log, ops, closed)
    ensures LogMatchesAttempts([p] + attempted,
      (if closed(p) then [(p, BreakerCallFor(ops[p]))] else []) + log, ops, closed)
  {
    assert ([p] + attempted)[1..] == attempted;
    if closed(p) {
      var called := Filter([p] + attempted, closed);
      assert called == [p] + Filter(attempted, closed);
      var full := [(p, BreakerCallFor(ops[p]))] + log;
      forall i | 0 <= i < |called|
        ensures called[i] in ops && full[i] == (called[i], BreakerCallFor(ops[called[i]]))
      {
        if i > 0 {
          assert full[i] == log[i - 1];
          assert called[i] == Filter(attempted, closed)[i - 1];
        }
      }
    } else {
      assert Filter([p] + attempted, closed) == Filter(attempted, closed);
      assert [] + log == log;
    }
  }

  lemma {:induction false} WalkBreakerLog<T>(order: seq<ProviderId>, ops: map<ProviderId, Attempt<T>>, closed: ProviderId -> bool)
    ensures LogMatchesAttempts(Walk(order, ops, closed).attempted, Walk(order, ops, closed).breakerLog, ops, closed)
  {
    if |order| > 0 {
      WalkBreakerLog(order[1..], ops, closed);
      var p := order[0];
      if p in ops {
        var rest := Walk(order[1..], ops, closed);
        LogMatchesCons(p, rest.attempted, rest.breakerLog, ops, closed);
        LogMatchesCons(p, [], [], ops, closed);
      }
    }
  }

  /** The loop answers exactly when some provider in the order succeeds, and
      then with the value of the first such provider: later providers are
      never reached. */
  lemma {:induction false} WalkFindsFirstSuccess<T>(order: seq<ProviderId>, ops: map<ProviderId, Attempt<T>>, closed: ProviderId -> bool)
    ensures Walk(order, ops, closed).value.Some? <==> exists i :: 0 <= i < |order| && Succeeds(order[i], ops, closed)
    ensures forall i ::
      (0 <= i < |order| && Succeeds(order[i], ops, closed)
       && (forall j :: 0 <= j < i ==> !Succeeds(order[j], ops, closed)))
      ==> Walk(order, ops, closed).value == Some(ops[order[i]].value)
  {
    if |order| > 0 {
      WalkFindsFirstSuccess(order[1..], ops, closed);
      var r := Walk(order, ops, closed);
      var rest := Walk(order[1..], ops, closed);
      if !Succeeds(order[0], ops, closed) {
        assert r.value == rest.value;
        forall i | 0 <= i < |order| && Succeeds(order[i], ops, closed)
          && (forall j :: 0 <= j < i ==> !Succeeds(order[j], ops, closed))
          ensures r.value == Some(ops[order[i]].value)
        {
          assert order[i] == order[1..][i - 1];
          assert forall j :: 0 <= j < i - 1 ==> order[1..][j] == order[j + 1];
        }
        if exists i :: 0 <= i < |order| && Succeeds(order[i], ops, closed) {
          var i :| 0 <= i < |order| && Succeeds(order[i], ops, closed);
          assert order[1..][i - 1] == order[i];
        }
        if rest.value.Some? {
          var i :| 0 <= i < |order[1..]| && Succeeds(order[1..][i], ops, closed);
          assert order[i + 1] == order[1..][i];
        }
      }
    }
  }

  /** When every provider fails, one error per provider with an operation is
      reported, in the fixed order; providers without one leave no entry. */
  lemma AllFailErrorsFollowOrder<T>(ops: map<ProviderId, Attempt<T>>, closed: ProviderId -> bool)
    requires forall p :: !Succeeds(p, ops, closed)
    ensures Walk(ProviderOrder, ops, closed).attempted == Present(ProviderOrder, ops)
    ensures |Walk(ProviderOrder, ops, closed).errors| == |Present(ProviderOrder, ops)|
  {
    WalkFindsFirstSuccess(ProviderOrder, ops, closed);
    WalkTriesPresentInOrder(ProviderOrder, ops, closed);
  }

  // ---------------------------------------------------------------------------
  // base_provider.py
  // ---------------------------------------------------------------------------

  /** `get_provider(provider_name)`: the four registered providers by name. */
  function GetProvider(providerName: string): (r: Attempt<ProviderId>)
    ensures r.Returned? ==> Name(r.value) == providerName && r.value != WebScraper
    ensures r.Raised? ==>
      r.error == "Provider " + providerName + " not found. Available providers: ['yahoo_finance', 'alpha_vantage', 'polygon', 'finnhub']"
  {
    if providerName == "yahoo_finance" then Returned(YahooFinance)
    else if providerName == "alpha_vantage" then Returned(AlphaVantage)
    else if providerName == "polygon" then Returned(Polygon)
    else if providerName == "finnhub" then Returned(Finnhub)
    else Raised("Provider " + providerName + " not found. Available providers: ['yahoo_finance', 'alpha_vantage', 'polygon', 'finnhub']")
  }

  /** Every registered provider is found under its own name, and the web
      scraper is not registered. */
  lemma GetProviderByName(p: ProviderId)
    ensures p != WebScraper ==> GetProvider(Name(p)) == Returned(p)
    ensures p == WebScraper ==> GetProvider(Name(p)).Raised?
  {
    match p
    case YahooFinance =>
    case AlphaVantage =>
      assert Name(p)[0] != "yahoo_finance"[0];
    case Polygon =>
      assert Name(p)[0] != "yahoo_finance"[0] && Name(p)[0] != "alpha_vantage"[0];
    case Finnhub =>
      assert Name(p)[0] != "yahoo_finance"[0] && Name(p)[0] != "alpha_vantage"[0] && Name(p)[0] != "polygon"[0];
    case WebScraper =>
      assert Name(p)[0] != "yahoo_finance"[0] && Name(p)[0] != "alpha_vantage"[0];
      assert Name(p)[0] != "polygon"[0] && Name(p)[0] != "finnhub"[0];
  }

  /** What `execute_with_fallback` did: its outcome, the fallback names it went
      through, and the errors it collected from them. */
  datatype BaseFallback<T> = BaseFallback(outcome: Attempt<T>, triedFallbacks: seq<string>, errors: seq<string>)

  /** The attempt on one fallback named `name`: looking the provider up may
      itself fail. */
  function TryFallback<T>(name: string, call: ProviderId -> Attempt<T>): Attempt<T>
  {
    match GetProvider(name)
    case Raised(e) => Raised(e)
    case Returned(p) => call(p)
  }

  /** The loop over `FALLBACK_PROVIDERS`; `attempt(name)` is the outcome of
      trying the fallback called `name`. */
  function FallbackLoop<T>(names: seq<string>, attempt: string -> Attempt<T>): (r: BaseFallback<T>)
    // names are tried in the configured order, stopping at the first success
    ensures |r.triedFallbacks| <= |names|
    ensures forall i :: 0 <= i < |r.triedFallbacks| ==> r.triedFallbacks[i] == names[i]
    ensures r.outcome.Returned? ==>
      |r.triedFallbacks| >= 1 && r.outcome == attempt(r.triedFallbacks[|r.triedFallbacks| - 1])
    ensures r.outcome.Raised? ==> |r.triedFallbacks| == |names|
    // one error per failed fallback, in order
    ensures |r.errors| == |r.triedFallbacks| - (if r.outcome.Returned? then 1 else 0)
    ensures forall i :: 0 <= i < |r.errors| ==>
      attempt(r.triedFallbacks[i]).Raised?
      && r.errors[i] == ErrorEntry(r.triedFallbacks[i], attempt(r.triedFallbacks[i]).error)
  {
    if |names| == 0 then BaseFallback(Raised(""), [], [])
    else
      match attempt(names[0])
      case Returned(v) => BaseFallback(Returned(v), [names[0]], [])
      case Raised(e) =>
        var rest := FallbackLoop(names[1..], attempt);
        BaseFallback(rest.outcome, [names[0]] + rest.triedFallbacks, [ErrorEntry(names[0], e)] + rest.errors)
  }

  /** Trying a fallback by name: `TryFallback` with the method fixed. */
  function FallbackAttempt<T>(call: ProviderId -> Attempt<T>): string -> Attempt<T>
  {
    name => TryFallback(name, call)
  }

  /** `execute_with_fallback(method_name)`: `primary` is the outcome of the
      method on this provider; `fallbacks` is `FALLBACK_PROVIDERS`. */
  function ExecuteWithFallback<T>(methodName: string, primary: Attempt<T>, fallbacks: seq<string>, call: ProviderId -> Attempt<T>): (r: BaseFallback<T>)
    // a primary success is returned at once, without touching any fallback
    ensures primary.Returned? ==> r == BaseFallback(primary, [], [])
    // otherwise the fallbacks are tried in order
    ensures primary.Raised? ==>
      |r.triedFallbacks| <= |fallbacks|
      && (forall i :: 0 <= i < |r.triedFallbacks| ==> r.triedFallbacks[i] == fallbacks[i])
    ensures primary.Raised? && r.outcome.Returned? ==>
      |r.triedFallbacks| >= 1 && r.outcome == FallbackAttempt(call)(r.triedFallbacks[|r.triedFallbacks| - 1])
    // the aggregated message lists the fallbacks' errors only; the primary's error is not among them
    ensures primary.Raised? && r.outcome.Raised? ==>
      |r.triedFallbacks| == |r.errors| == |fallbacks|
      && r.outcome.error == "All providers failed for " + methodName + ": " + Join(r.errors, ", ")
    ensures |r.errors| <= |r.triedFallbacks|
    ensures forall i :: 0 <= i < |r.errors| ==>
      FallbackAttempt(call)(r.triedFallbacks[i]).Raised?
      && r.errors[i] == ErrorEntry(r.triedFallbacks[i], FallbackAttempt(call)(r.triedFallbacks[i]).error)
  {
    if primary.Returned? then BaseFallback(primary, [], [])
    else
      var loop := FallbackLoop(fallbacks, FallbackAttempt(call));
      if loop.outcome.Returned? then loop
      else BaseFallback(Raised("All providers failed for " + methodName + ": " + Join(loop.errors, ", ")), loop.triedFallbacks, loop.errors)
  }

  /** With no fallback configured, a failing primary gives a message with an
      empty error list: the primary's own error is never reported. */
  lemma PrimaryErrorNotReported<T>(methodName: string, primaryError: string, call: ProviderId -> Attempt<T>)
    ensures ExecuteWithFallback(methodName, Attempt<T>.Raised(primaryError), [], call).outcome
      == Raised("All providers failed for " + methodName + ": ")
  {
  }

  /** What `execute_with_resilience(func)` did: the outcome and the calls it
      made to the breaker. */
  datatype Resilient<T> = Resilient(outcome: Attempt<T>, runs: nat, breakerCalls: seq<BreakerCall>)

  /** `[x] * n`. */
  function Repeat<T>(x: T, n: nat): (r: seq<T>)
    ensures |r| == n && forall i :: 0 <= i < n ==> r[i] == x
  {
    if n == 0 then [] else [x] + Repeat(x, n - 1)
  }

  /** `execute_with_resilience(func)` on the provider called `name`, with the
      breaker's `allow_request()` answer, the `MAX_RETRIES` / `RETRY_BACKOFF`
      settings folded into `cfg`, and the outcomes of successive runs of `func`. */
  function ExecuteWithResilience<T>(
    name: string,
    allowed: bool,
    cfg: Retry.RetryConfig,
    call: nat -> Attempt<T>,
    jitterFactor: nat -> real): (r: Resilient<T>)
    // a breaker that does not allow the request refuses before any run
    ensures !allowed ==> r == Resilient(Raised("Circuit breaker open for " + name), 0, [])
    // otherwise the retry loop's outcome is returned or re-raised
    ensures allowed ==> r.outcome == Retry.Run(cfg, call, _ => true, jitterFactor).outcome
    // the runs are exactly those of the retry loop: every run before the last failed, the last one
    // gave the outcome, and a final failure means the budget of max_retries + 1 runs was spent
    ensures allowed ==> r.runs == Retry.Run(cfg, call, _ => true, jitterFactor).calls
    ensures allowed ==> r.outcome == call(r.runs - 1) && forall i :: 0 <= i < r.runs - 1 ==> call(i).Raised?
    ensures allowed && r.outcome.Raised? ==> r.runs == (if cfg.maxRetries < 0 then 0 else cfg.maxRetries) + 1
    // every run has its bookkeeping call, in order: a failure for each failed run, a success for the one that returned
    ensures allowed ==> r.runs >= 1 && |r.breakerCalls| == r.runs
    ensures forall i :: 0 <= i < |r.breakerCalls| ==> r.breakerCalls[i] == BreakerCallFor(call(i))
  {
    if !allowed then Resilient(Raised("Circuit breaker open for " + name), 0, [])
    else
      var run := Retry.Run(cfg, call, _ => true, jitterFactor);
      var failures := if run.outcome.Returned? then run.calls - 1 else run.calls;
      var log := Repeat(RecordFailure, failures) + (if run.outcome.Returned? then [RecordSuccess] else []);
      Resilient(run.outcome, run.calls, log)
  }

  /** A success is recorded exactly once, as the last bookkeeping call, and only
      when the call as a whole succeeds. */
  lemma ResilienceRecordsOneSuccess<T>(
    name: string, allowed: bool, cfg: Retry.RetryConfig, call: nat -> Attempt<T>, jitterFactor: nat -> real, i: nat)
    requires i < |ExecuteWithResilience(name, allowed, cfg, call, jitterFactor).breakerCalls|
    ensures var r := ExecuteWithResilience(name, allowed, cfg, call, jitterFactor);
      r.breakerCalls[i] == RecordSuccess <==> r.outcome.Returned? && i == |r.breakerCalls| - 1
  {
    var run := Retry.Run(cfg, call, _ => true, jitterFactor);
    assert run.outcome == call(run.calls - 1);
  }
}

=== FILE: readiness.dfy ===
/** The deployment-readiness validator and the port scan of app.py.

    `perform_readiness_validation` is modelled in two stages: the inputs
    determine a list of `Step`s (one per `add_check` call, in call order),
    and the steps are folded into the summary, the recommendations and
    `overall_ready`. The display strings of `MetricCheck.value`,
    `threshold` and `details` are not modelled. */
module Readiness {
  import opened Common

  // ---------------------------------------------------------------------------
  // Inputs and thresholds
  // ---------------------------------------------------------------------------

  datatype PerformanceMetrics = PerformanceMetrics(
    avgLatencyMs: Option<real>,
    p95LatencyMs: Option<real>,
    requestsPerSecond: Option<real>,
    successRatePercent: Option<real>)

  datatype ResourceMetrics = ResourceMetrics(
    cpuUsagePercent: Option<real>,
    memoryUsagePercent: Option<real>,
    diskUsagePercent: Option<real>)

  datatype OperationalMetrics = OperationalMetrics(
    cacheHitRatio: Option<real>,
    errorRatePercent: Option<real>,
    authFailures: Option<int>)

  datatype TestStatus = TestStatus(
    unitTestsPassed: bool,
    integrationTestsPassed: bool,
    e2eTestsPassed: bool,
    coveragePercent: Option<real>,
    criticalPathsCovered: bool)

  datatype DependencyStatus = DependencyStatus(redisConnection: bool, primaryApiConnection: bool)

  /** The metric groups handed to the validator; `None` is a missing group. */
  datatype Inputs = Inputs(
    performance: Option<PerformanceMetrics>,
    resources: Option<ResourceMetrics>,
    operational: Option<OperationalMetrics>,
    testing: Option<TestStatus>,
    dependencies: Option<DependencyStatus>)

  const ThresholdAvgLatencyMs := 1000.0
  const ThresholdP95LatencyMs := 2500.0
  const ThresholdSuccessRatePercent := 99.0
  const ThresholdCpuUsagePercent := 80.0
  const ThresholdMemoryUsagePercent := 85.0
  const ThresholdCacheHitRatio := 0.70
  const ThresholdErrorRatePercent := 1.0
  const ThresholdCoveragePercent := 80.0
  const AuthFailureLimit := 100

  // ---------------------------------------------------------------------------
  // The checks the validator performs
  // ---------------------------------------------------------------------------

  /** One `add_check` call: its category and check name, whether it passed,
      whether a failure clears `all_passed`, and the recommendation a failure
      appends, if any. */
  datatype Step = Step(category: string, name: string, passed: bool, blocking: bool, recommendation: Option<string>)

  /** The failing check recorded for a missing metrics group. */
  function Unavailable(category: string, name: string): Step
  {
    Step(category, name, false, true, None)
  }

  /** A blocking check with the recommendation its failure appends. */
  function Blocking(category: string, name: string, passed: bool, recommendation: string): Step
  {
    Step(category, name, passed, true, Some(recommendation))
  }

  function PerformanceSteps(perf: Option<PerformanceMetrics>): seq<Step>
  {
    match perf
    case None => [Unavailable("Performance", "Metrics Available")]
    case Some(p) =>
      (if p.avgLatencyMs.Some?
       then [Blocking("Performance", "Avg Latency", p.avgLatencyMs.value <= ThresholdAvgLatencyMs,
                      "Investigate high average latency.")] else [])
      + (if p.p95LatencyMs.Some?
         then [Blocking("Performance", "P95 Latency", p.p95LatencyMs.value <= ThresholdP95LatencyMs,
                        "Investigate high P95 latency (tail latency).")] else [])
      + (if p.successRatePercent.Some?
         then [Blocking("Performance", "Success Rate", p.successRatePercent.value >= ThresholdSuccessRatePercent,
                        "Improve request success rate.")] else [])
  }

  function ResourceSteps(res: Option<ResourceMetrics>): seq<Step>
  {
    match res
    case None => [Unavailable("Resources", "Metrics Available")]
    case Some(r) =>
      (if r.cpuUsagePercent.Some?
       then [Blocking("Resources", "CPU Usage", r.cpuUsagePercent.value < ThresholdCpuUsagePercent,
                      "Optimize CPU usage or scale resources.")] else [])
      + (if r.memoryUsagePercent.Some?
         then [Blocking("Resources", "Memory Usage", r.memoryUsagePercent.value < ThresholdMemoryUsagePercent,
                        "Investigate memory leaks or optimize memory usage.")] else [])
  }

  /** The auth-failure check is informational: it is recorded but never blocks. */
  function AuthStep(failures: int): Step
  {
    Step("Operational", "Auth Failures", failures < AuthFailureLimit, false, None)
  }

  function OperationalSteps(ops: Option<OperationalMetrics>): seq<Step>
  {
    match ops
    case None => [Unavailable("Operational", "Metrics Available")]
    case Some(o) =>
      (if o.cacheHitRatio.Some?
       then [Blocking("Operational", "Cache Hit Ratio", o.cacheHitRatio.value >= ThresholdCacheHitRatio,
                      "Improve caching strategy.")] else [])
      + (if o.errorRatePercent.Some?
         then [Blocking("Operational", "Error Rate", o.errorRatePercent.value <= ThresholdErrorRatePercent,
                        "Investigate application errors.")] else [])
      + (if o.authFailures.Some? then [AuthStep(o.authFailures.value)] else [])
  }

  function TestingSteps(test: Option<TestStatus>): seq<Step>
  {
    match test
    case None => [Unavailable("Testing", "Status Available")]
    case Some(t) =>
      [Blocking("Testing", "Unit Tests", t.unitTestsPassed, "Fix failing unit tests."),
       Blocking("Testing", "Integration Tests", t.integrationTestsPassed, "Fix failing integration tests."),
       Blocking("Testing", "E2E Tests", t.e2eTestsPassed, "Fix failing E2E tests.")]
      + (if t.coveragePercent.Some?
         then [Blocking("Testing", "Test Coverage", t.coveragePercent.value >= ThresholdCoveragePercent,
                        "Increase test coverage.")] else [])
      + [Blocking("Testing", "Critical Paths Covered", t.criticalPathsCovered,
                  "Ensure critical paths are covered by tests.")]
  }

  function DependencySteps(deps: Option<DependencyStatus>): seq<Step>
  {
    match deps
    case None => [Unavailable("Dependencies", "Status Available")]
    case Some(d) =>
      [Blocking("Dependencies", "Redis Connection", d.redisConnection, "Check Redis service and connection."),
       Blocking("Dependencies", "Primary API Connection", d.primaryApiConnection,
                "Check connection to primary data API.")]
  }

  /** Every `add_check` call of the validator, in order. */
  function Steps(inputs: Inputs): seq<Step>
  {
    PerformanceSteps(inputs.performance) + ResourceSteps(inputs.resources) + OperationalSteps(inputs.operational)
    + TestingSteps(inputs.testing) + DependencySteps(inputs.dependencies)
  }

  // ---------------------------------------------------------------------------
  // The summary
  // ---------------------------------------------------------------------------

  datatype MetricCheck = MetricCheck(name: string, passed: bool)

  datatype CheckCategory = CheckCategory(categoryName: string, checks: seq<MetricCheck>, categoryPassed: bool)

  /** The position of the first category called `name`. */
  function FindCategory(cats: seq<CheckCategory>, name: string): (r: Option<nat>)
    ensures r.None? <==> forall i :: 0 <= i < |cats| ==> cats[i].categoryName != name
    ensures r.Some? ==> r.value < |cats| && cats[r.value].categoryName == name
    ensures r.Some? ==> forall i :: 0 <= i < r.value ==> cats[i].categoryName != name
  {
    if |cats| == 0 then None
    else if cats[0].categoryName == name then Some(0)
    else match FindCategory(cats[1..], name)
      case None => None
      case Some(k) => Some(k + 1)
  }

  /** `r` is `cats` with `check` appended to category `k`, which is called `name`. */
  ghost predicate Appended(cats: seq<CheckCategory>, name: string, check: MetricCheck, k: int, r: seq<CheckCategory>)
  {
    0 <= k < |cats| && cats[k].categoryName == name
    && r == cats[k := cats[k].(checks := cats[k].checks + [check])]
  }

  /** `add_check(category_list, cat_name, ...)`: append the check to the first
      category of that name, creating the category at the end if there is none. */
  function AddCheck(cats: seq<CheckCategory>, name: string, check: MetricCheck): (r: seq<CheckCategory>)
    ensures |r| == |cats| || |r| == |cats| + 1
    ensures |r| == |cats| + 1 <==> forall i :: 0 <= i < |cats| ==> cats[i].categoryName != name
    ensures |r| == |cats| + 1 ==> r == cats + [CheckCategory(name, [check], false)]
    ensures |r| == |cats| ==> exists k :: Appended(cats, name, check, k, r)
  {
    match FindCategory(cats, name)
    case None => cats + [CheckCategory(name, [check], false)]
    case Some(k) =>
      var r := cats[k := cats[k].(checks := cats[k].checks + [check])];
      assert Appended(cats, name, check, k, r);
      r
  }

  /** The validator's running state: `all_passed`, `checks_summary`, `recommendations`. */
  datatype Report = Report(overallReady: bool, checksSummary: seq<CheckCategory>, recommendations: seq<string>)

  /** A failure of `s` appends a recommendation. */
  predicate Recommends(s: Step)
  {
    s.blocking && !s.passed && s.recommendation.Some?
  }

  /** The effect of one step on the running state. */
  function Apply(r: Report, s: Step): Report
  {
    Report(
      r.overallReady && (s.passed || !s.blocking),
      AddCheck(r.checksSummary, s.category, MetricCheck(s.name, s.passed)),
      r.recommendations + (if Recommends(s) then [s.recommendation.value] else []))
  }

  /** The steps folded in order from the initial state. */
  function Fold(steps: seq<Step>): Report
  {
    if |steps| == 0 then Report(true, [], [])
    else Apply(Fold(steps[..|steps| - 1]), steps[|steps| - 1])
  }

  /** The recommendations the failed steps carry, in step order. */
  function RecommendationsOf(steps: seq<Step>): seq<string>
  {
    if |steps| == 0 then []
    else
      var s := steps[|steps| - 1];
      RecommendationsOf(steps[..|steps| - 1]) + (if Recommends(s) then [s.recommendation.value] else [])
  }

  /** The checks recorded under category `name`, in step order. */
  function ChecksOf(steps: seq<Step>, name: string): seq<MetricCheck>
  {
    if |steps| == 0 then []
    else
      var s := steps[|steps| - 1];
      ChecksOf(steps[..|steps| - 1], name) + (if s.category == name then [MetricCheck(s.name, s.passed)] else [])
  }

  /** No two categories share a name. */
  ghost predicate UniqueNames(cats: seq<CheckCategory>)
  {
    forall i, j :: 0 <= i < j < |cats| ==> cats[i].categoryName != cats[j].categoryName
  }

  /** Some category is called `name`. */
  ghost predicate Named(cats: seq<CheckCategory>, name: string)
  {
    exists k :: 0 <= k < |cats| && cats[k].categoryName == name
  }

  /** Every step's category is present. */
  ghost predicate Covers(steps: seq<Step>, cats: seq<CheckCategory>)
  {
    forall i :: 0 <= i < |steps| ==> Named(cats, steps[i].category)
  }

  /** Each category holds exactly the checks recorded under its name. */
  ghost predicate Holds(steps: seq<Step>, cats: seq<CheckCategory>)
  {
    forall k :: 0 <= k < |cats| ==> cats[k].checks == ChecksOf(steps, cats[k].categoryName)
  }

  /** Category names are unique, every step's category is present, and each
      category holds exactly the checks recorded under its name. */
  ghost predicate Grouped(steps: seq<Step>, cats: seq<CheckCategory>)
  {
    UniqueNames(cats) && Covers(steps, cats) && Holds(steps, cats)
  }

  lemma {:induction false} ChecksOfAbsent(steps: seq<Step>, name: string)
    requires forall i :: 0 <= i < |steps| ==> steps[i].category != name
    ensures ChecksOf(steps, name) == []
  {
    if |steps| > 0 {
      ChecksOfAbsent(steps[..|steps| - 1], name);
    }
  }

  /** A step whose category is new opens a category at the end. */
  lemma GroupedNew(init: seq<Step>, s: Step, cats: seq<CheckCategory>)
    requires Grouped(init, cats)
    requires forall i :: 0 <= i < |cats| ==> cats[i].categoryName != s.category
    ensures Grouped(init + [s], cats + [CheckCategory(s.category, [MetricCheck(s.name, s.passed)], false)])
  {
    var steps := init + [s];
    var r := cats + [CheckCategory(s.category, [MetricCheck(s.name, s.passed)], false)];
    assert steps[..|steps| - 1] == init;
    assert forall i :: 0 <= i < |init| ==> init[i].category != s.category by {
      forall i | 0 <= i < |init|
        ensures init[i].category != s.category
      {
        assert Named(cats, init[i].category);
      }
    }
    ChecksOfAbsent(init, s.category);
    forall i | 0 <= i < |steps|
      ensures Named(r, steps[i].category)
    {
      if i < |init| {
        assert steps[i] == init[i];
        assert Named(cats, init[i].category);
        var k :| 0 <= k < |cats| && cats[k].categoryName == init[i].category;
        assert r[k] == cats[k];
      } else {
        assert r[|cats|].categoryName == steps[i].category;
      }
    }
    forall k | 0 <= k < |r|
      ensures r[k].checks == ChecksOf(steps, r[k].categoryName)
    {
      if k < |cats| {
        assert r[k] == cats[k];
      }
    }
  }

  /** A step whose category exists extends that category's checks. */
  lemma GroupedExisting(init: seq<Step>, s: Step, cats: seq<CheckCategory>, k: int, r: seq<CheckCategory>)
    requires Grouped(init, cats)
    requires Appended(cats, s.category, MetricCheck(s.name, s.passed), k, r)
    ensures Grouped(init + [s], r)
  {
    var steps := init + [s];
    assert steps[..|steps| - 1] == init;
    forall i | 0 <= i < |steps|
      ensures Named(r, steps[i].category)
    {
      if i < |init| {
        assert steps[i] == init[i];
        assert Named(cats, init[i].category);
        var j :| 0 <= j < |cats| && cats[j].categoryName == init[i].category;
        assert r[j].categoryName == cats[j].categoryName;
      } else {
        assert r[k].categoryName == steps[i].category;
      }
    }
  }

  /** `add_check` creates each category once and appends checks in call order. */
  lemma {:induction false} FoldGroupsChecks(steps: seq<Step>)
    ensures Grouped(steps, Fold(steps).checksSummary)
  {
    if |steps| > 0 {
      var init := steps[..|steps| - 1];
      var s := steps[|steps| - 1];
      assert steps == init + [s];
      FoldGroupsChecks(init);
      var cats := Fold(init).checksSummary;
      var r := AddCheck(cats, s.category, MetricCheck(s.name, s.passed));
      if |r| == |cats| + 1 {
        GroupedNew(init, s, cats);
      } else {
        var k :| Appended(cats, s.category, MetricCheck(s.name, s.passed), k, r);
        GroupedExisting(init, s, cats, k, r);
      }
    }
  }

  /** Every blocking check of `steps` passed. */
  ghost predicate BlockingPass(steps: seq<Step>)
  {
    forall i :: 0 <= i < |steps| && steps[i].blocking ==> steps[i].passed
  }

  /** Exactly one recommendation per failed check that carries one, in step order. */
  lemma {:induction false} RecommendationPerFailure(steps: seq<Step>)
    ensures var failed := Filter(steps, Recommends);
      |RecommendationsOf(steps)| == |failed|
      && forall i :: 0 <= i < |failed| ==> RecommendationsOf(steps)[i] == failed[i].recommendation.value
  {
    if |steps| > 0 {
      var init := steps[..|steps| - 1];
      var s := steps[|steps| - 1];
      assert steps == init + [s];
      RecommendationPerFailure(init);
      FilterAppend(init, [s], Recommends);
      assert Filter([s], Recommends) == if Recommends(s) then [s] else [] by {
        assert [s][1..] == [];
      }
    }
  }

  /** `all_passed` ends true exactly when every blocking check passed, and the
      recommendations are those of the failed checks, in order. */
  lemma {:induction false} FoldOutcome(steps: seq<Step>)
    ensures Fold(steps).overallReady <==> BlockingPass(steps)
    ensures Fold(steps).recommendations == RecommendationsOf(steps)
  {
    if |steps| > 0 {
      var init := steps[..|steps| - 1];
      FoldOutcome(init);
      assert forall i :: 0 <= i < |init| ==> steps[i] == init[i];
    }
  }

  /** The final loop: each category passes exactly when all of its checks passed. */
  function Finalize(cats: seq<CheckCategory>): (r: seq<CheckCategory>)
    ensures |r| == |cats|
    ensures forall k :: 0 <= k < |r| ==>
      r[k].categoryName == cats[k].categoryName && r[k].checks == cats[k].checks
      && (r[k].categoryPassed <==> forall j :: 0 <= j < |cats[k].checks| ==> cats[k].checks[j].passed)
  {
    if |cats| == 0 then []
    else [cats[0].(categoryPassed := AllPassed(cats[0].checks))] + Finalize(cats[1..])
  }

  /** `all(check.passed for check in checks)`. */
  function AllPassed(checks: seq<MetricCheck>): (r: bool)
    ensures r <==> forall j :: 0 <= j < |checks| ==> checks[j].passed
  {
    if |checks| == 0 then true else checks[0].passed && AllPassed(checks[1..])
  }

  /** The report of a run of `add_check` calls followed by the final loop. */
  function ReportOf(steps: seq<Step>): (r: Report)
    ensures r.overallReady <==> BlockingPass(steps)
    ensures r.recommendations == RecommendationsOf(steps)
    ensures Grouped(steps, r.checksSummary)
    ensures forall k :: 0 <= k < |r.checksSummary| ==>
      (r.checksSummary[k].categoryPassed <==> AllPassed(r.checksSummary[k].checks))
  {
    var folded := Fold(steps);
    FoldOutcome(steps);
    FoldGroupsChecks(steps);
    var summary := Finalize(folded.checksSummary);
    FinalizeKeepsGrouping(steps, folded.checksSummary, summary);
    folded.(checksSummary := summary)
  }

  /** `perform_readiness_validation`. */
  function PerformReadinessValidation(inputs: Inputs): (r: Report)
    ensures r.overallReady <==> BlockingPass(Steps(inputs))
    ensures r.recommendations == RecommendationsOf(Steps(inputs))
    ensures Grouped(Steps(inputs), r.checksSummary)
    ensures forall k :: 0 <= k < |r.checksSummary| ==>
      (r.checksSummary[k].categoryPassed <==> AllPassed(r.checksSummary[k].checks))
  {
    ReportOf(Steps(inputs))
  }

  // ---------------------------------------------------------------------------
  // As written: the thresholds are model fields, not class attributes
  // ---------------------------------------------------------------------------

  /** The `THRESHOLD_*` attribute a check compares against, if any: the
      annotated class attributes of `DeploymentReadiness` (app.py:72-79). */
  function ThresholdRead(s: Step): (r: seq<string>)
    ensures |r| <= 1
    ensures |r| == 1 <==> s.blocking && s.name in ThresholdChecks
  {
    if !s.blocking then []
    else if s.name == "Avg Latency" then ["THRESHOLD_AVG_LATENCY_MS"]
    else if s.name == "P95 Latency" then ["THRESHOLD_P95_LATENCY_MS"]
    else if s.name == "Success Rate" then ["THRESHOLD_SUCCESS_RATE_PERCENT"]
    else if s.name == "CPU Usage" then ["THRESHOLD_CPU_USAGE_PERCENT"]
    else if s.name == "Memory Usage" then ["THRESHOLD_MEMORY_USAGE_PERCENT"]
    else if s.name == "Cache Hit Ratio" then ["THRESHOLD_CACHE_HIT_RATIO"]
    else if s.name == "Error Rate" then ["THRESHOLD_ERROR_RATE_PERCENT"]
    else if s.name == "Test Coverage" then ["THRESHOLD_COVERAGE_PERCENT"]
    else []
  }

  /** The checks that compare a metric with a `THRESHOLD_*` attribute. */
  const ThresholdChecks: set<string> := {"Avg Latency", "P95 Latency", "Success Rate", "CPU Usage",
    "Memory Usage", "Cache Hit Ratio", "Error Rate", "Test Coverage"}

  /** Some check reads a `THRESHOLD_*` attribute. */
  ghost predicate ReadsThreshold(steps: seq<Step>)
  {
    exists i :: 0 <= i < |steps| && |ThresholdRead(steps[i])| > 0
  }

  /** `error` is the AttributeError of the first attribute read. */
  ghost predicate FirstReadFails(steps: seq<Step>, error: string)
  {
    exists i :: 0 <= i < |steps| && |ThresholdRead(steps[i])| > 0
      && error == MissingAttribute(ThresholdRead(steps[i])[0])
      && forall j :: 0 <= j < i ==> |ThresholdRead(steps[j])| == 0
  }

  /** The message of the AttributeError raised by reading `cls.<name>`. */
  function MissingAttribute(name: string): string
  {
    "type object 'DeploymentReadiness' has no attribute '" + name + "'"
  }

  /** `perform_readiness_validation` as written. Annotated class attributes of a
      pydantic model become fields and leave the class namespace, so the first
      `cls.THRESHOLD_*` read raises AttributeError out of the constructor. The
      validator therefore raises exactly when some threshold-compared metric is
      present, and otherwise returns the intended report. */
  function PerformReadinessValidationAsWritten(inputs: Inputs): (r: Attempt<Report>)
    ensures r.Raised? <==> ReadsThreshold(Steps(inputs))
    ensures r.Raised? ==> FirstReadFails(Steps(inputs), r.error)
    ensures r.Returned? ==> r.value == PerformReadinessValidation(inputs)
  {
    var names := FlatMap(Steps(inputs), ThresholdRead);
    FlatMapHead(Steps(inputs), ThresholdRead);
    if |names| > 0 then Raised(MissingAttribute(names[0]))
    else Returned(PerformReadinessValidation(inputs))
  }

  /** A single average latency well inside its bound: as written the validator
      raises, where the intended validator records a passing "Avg Latency" check
      as its first step and returns a report. */
  lemma AsWrittenRaisesOnLatency(inputs: Inputs)
    requires inputs == Inputs(Some(PerformanceMetrics(Some(500.0), None, None, None)), None, None, None, None)
    ensures PerformReadinessValidationAsWritten(inputs) == Raised(MissingAttribute("THRESHOLD_AVG_LATENCY_MS"))
    ensures Steps(inputs)[0].name == "Avg Latency" && Steps(inputs)[0].passed
  {
    var first := Blocking("Performance", "Avg Latency", true, "Investigate high average latency.");
    var rest := ResourceSteps(None) + OperationalSteps(None) + TestingSteps(None) + DependencySteps(None);
    assert PerformanceSteps(inputs.performance) == [first];
    assert Steps(inputs) == [first] + rest;
    assert FlatMap(Steps(inputs), ThresholdRead) == ThresholdRead(first) + FlatMap(rest, ThresholdRead);
    assert ThresholdRead(first) == ["THRESHOLD_AVG_LATENCY_MS"];
  }

  /** The final loop changes only the pass flags, so the grouping survives it. */
  lemma FinalizeKeepsGrouping(steps: seq<Step>, cats: seq<CheckCategory>, r: seq<CheckCategory>)
    requires Grouped(steps, cats)
    requires |r| == |cats|
    requires forall k :: 0 <= k < |r| ==> r[k].categoryName == cats[k].categoryName && r[k].checks == cats[k].checks
    ensures Grouped(steps, r)
  {
    forall i | 0 <= i < |steps|
      ensures Named(r, steps[i].category)
    {
      assert Named(cats, steps[i].category);
      var k :| 0 <= k < |cats| && cats[k].categoryName == steps[i].category;
      assert r[k].categoryName == steps[i].category;
    }
  }

  // ---------------------------------------------------------------------------
  // Properties of the concrete validator
  // ---------------------------------------------------------------------------

  /** A missing metrics group records one failing check, and readiness is lost. */
  lemma MissingGroupBlocks(inputs: Inputs)
    requires inputs.performance.None? || inputs.resources.None? || inputs.operational.None?
      || inputs.testing.None? || inputs.dependencies.None?
    ensures !PerformReadinessValidation(inputs).overallReady
  {
    var p := PerformanceSteps(inputs.performance);
    var re := ResourceSteps(inputs.resources);
    var o := OperationalSteps(inputs.operational);
    var t := TestingSteps(inputs.testing);
    var d := DependencySteps(inputs.dependencies);
    assert Steps(inputs) == p + re + o + t + d;
    BlockingPassAppend(p + re + o + t, d);
    BlockingPassAppend(p + re + o, t);
    BlockingPassAppend(p + re, o);
    BlockingPassAppend(p, re);
    if inputs.performance.None? {
      assert p[0].blocking && !p[0].passed;
    } else if inputs.resources.None? {
      assert re[0].blocking && !re[0].passed;
    } else if inputs.operational.None? {
      assert o[0].blocking && !o[0].passed;
    } else if inputs.testing.None? {
      assert t[0].blocking && !t[0].passed;
    } else {
      assert d[0].blocking && !d[0].passed;
    }
  }

  lemma BlockingPassAppend(a: seq<Step>, b: seq<Step>)
    ensures BlockingPass(a + b) <==> BlockingPass(a) && BlockingPass(b)
  {
    if BlockingPass(a) && BlockingPass(b) {
      forall i | 0 <= i < |a + b| && (a + b)[i].blocking
        ensures (a + b)[i].passed
      {
        if i >= |a| {
          assert (a + b)[i] == b[i - |a|];
        }
      }
    }
    if BlockingPass(a + b) {
      forall i | 0 <= i < |a| && a[i].blocking
        ensures a[i].passed
      {
        assert (a + b)[i] == a[i];
      }
      forall i | 0 <= i < |b| && b[i].blocking
        ensures b[i].passed
      {
        assert (a + b)[|a| + i] == b[i];
      }
    }
  }

  /** The blocking checks of the operational group do not involve Auth Failures. */
  lemma OperationalBlockingIgnoresAuth(o: OperationalMetrics, failures: int)
    ensures BlockingPass(OperationalSteps(Some(o)))
      == BlockingPass(OperationalSteps(Some(o.(authFailures := Some(failures)))))
  {
    var core := (if o.cacheHitRatio.Some?
       then [Blocking("Operational", "Cache Hit Ratio", o.cacheHitRatio.value >= ThresholdCacheHitRatio,
                      "Improve caching strategy.")] else [])
      + (if o.errorRatePercent.Some?
         then [Blocking("Operational", "Error Rate", o.errorRatePercent.value <= ThresholdErrorRatePercent,
                        "Investigate application errors.")] else []);
    var auth := if o.authFailures.Some? then [AuthStep(o.authFailures.value)] else [];
    assert OperationalSteps(Some(o)) == core + auth;
    assert OperationalSteps(Some(o.(authFailures := Some(failures)))) == core + [AuthStep(failures)];
    BlockingPassAppend(core, auth);
    BlockingPassAppend(core, [AuthStep(failures)]);
  }

  /** Blocking checks without a recommendation are the failing placeholders of
      missing groups, and the only non-blocking check is Auth Failures. */
  predicate Accounted(s: Step)
  {
    (s.blocking && s.recommendation.None? ==> !s.passed && (s.name == "Metrics Available" || s.name == "Status Available"))
    && (!s.blocking ==> s.name == "Auth Failures")
  }

  ghost predicate AllAccounted(steps: seq<Step>)
  {
    forall i :: 0 <= i < |steps| ==> Accounted(steps[i])
  }

  lemma AllAccountedAppend(a: seq<Step>, b: seq<Step>)
    requires AllAccounted(a) && AllAccounted(b)
    ensures AllAccounted(a + b)
  {
    forall i | 0 <= i < |a + b|
      ensures Accounted((a + b)[i])
    {
      if i < |a| {
        assert (a + b)[i] == a[i];
      } else {
        assert (a + b)[i] == b[i - |a|];
      }
    }
  }

  lemma PerformanceAccounted(perf: Option<PerformanceMetrics>)
    ensures AllAccounted(PerformanceSteps(perf))
  {
  }

  lemma ResourcesAccounted(res: Option<ResourceMetrics>)
    ensures AllAccounted(ResourceSteps(res))
  {
  }

  lemma OperationalAccounted(ops: Option<OperationalMetrics>)
    ensures AllAccounted(OperationalSteps(ops))
  {
  }

  lemma TestingAccounted(test: Option<TestStatus>)
    ensures AllAccounted(TestingSteps(test))
  {
  }

  lemma DependenciesAccounted(deps: Option<DependencyStatus>)
    ensures AllAccounted(DependencySteps(deps))
  {
  }

  /** Every failed blocking check the validator performs appends a recommendation,
      except the placeholder check of a missing group. */
  lemma EveryFailureAccounted(inputs: Inputs)
    ensures AllAccounted(Steps(inputs))
  {
    var p := PerformanceSteps(inputs.performance);
    var re := ResourceSteps(inputs.resources);
    var o := OperationalSteps(inputs.operational);
    var t := TestingSteps(inputs.testing);
    var d := DependencySteps(inputs.dependencies);
    PerformanceAccounted(inputs.performance);
    ResourcesAccounted(inputs.resources);
    OperationalAccounted(inputs.operational);
    TestingAccounted(inputs.testing);
    DependenciesAccounted(inputs.dependencies);
    AllAccountedAppend(p, re);
    AllAccountedAppend(p + re, o);
    AllAccountedAppend(p + re + o, t);
    AllAccountedAppend(p + re + o + t, d);
  }

  /** The number of Auth Failures never changes readiness. */
  lemma AuthFailuresNeverBlock(inputs: Inputs, failures: int)
    requires inputs.operational.Some?
    ensures var other := inputs.(operational := Some(inputs.operational.value.(authFailures := Some(failures))));
      PerformReadinessValidation(other).overallReady == PerformReadinessValidation(inputs).overallReady
  {
    var other := inputs.(operational := Some(inputs.operational.value.(authFailures := Some(failures))));
    var pre := PerformanceSteps(inputs.performance) + ResourceSteps(inputs.resources);
    var post := TestingSteps(inputs.testing) + DependencySteps(inputs.dependencies);
    var o1 := OperationalSteps(inputs.operational);
    var o2 := OperationalSteps(other.operational);
    assert Steps(inputs) == pre + (o1 + post);
    assert Steps(other) == pre + (o2 + post);
    OperationalBlockingIgnoresAuth(inputs.operational.value, failures);
    BlockingPassAppend(pre, o1 + post);
    BlockingPassAppend(pre, o2 + post);
    BlockingPassAppend(o1, post);
    BlockingPassAppend(o2, post);
  }

  // ---------------------------------------------------------------------------
  // Free-port scan
  // ---------------------------------------------------------------------------

  /** The start port after the range check: out-of-range starts become 8501. */
  function EffectiveStart(startPort: int): (r: int)
    ensures 1024 <= r <= 65535
    ensures 1024 <= startPort <= 65535 ==> r == startPort
  {
    if startPort < 1024 || startPort > 65535 then 8501 else startPort
  }

  /** `find_free_port(start_port, max_attempts)`; `inUse(p)` is the answer
      `is_port_in_use(p)` gives for port `p`. */
  method FindFreePort(startPort: int, maxAttempts: int, inUse: int -> bool) returns (r: Option<int>)
    ensures var start := EffectiveStart(startPort);
      var stop := if start + maxAttempts < 65536 then start + maxAttempts else 65536;
      (r.Some? ==> start <= r.value < stop && !inUse(r.value)
                   && forall p :: start <= p < r.value ==> inUse(p))
      && (r.None? <==> forall p :: start <= p < stop ==> inUse(p))
  {
    var start := EffectiveStart(startPort);
    var stop := if start + maxAttempts < 65536 then start + maxAttempts else 65536;
    var port := start;
    while port < stop
      invariant start <= port
      invariant stop <= port ==> port == start || port == stop
      invariant forall p :: start <= p < port ==> inUse(p)
      decreases stop - port
    {
      if !inUse(port) {
        return Some(port);
      }
      port := port + 1;
    }
    return None;
  }
}

=== FILE: responses.dfy ===
/** The standard agent response dictionary (`symbol`, `verdict`,
    `confidence`, `value`, `error`, `agent_name`) and the outcome of reading
    a cached copy of it, shared by the agent decorator and the agent base
    class. */
module Responses {

  /** A dictionary entry: key absent, key present with `None`, or a value. */
  datatype Entry<T> = Missing | Null | Val(v: T)

  datatype AgentOutput = AgentOutput(
    symbol: Entry<string>,
    verdict: Entry<string>,
    confidence: Entry<real>,
    value: Entry<real>,
    error: Entry<string>,
    agentName: Entry<string>)

  /** The keys present in the dictionary. */
  function Keys(r: AgentOutput): set<string>
  {
    (if r.symbol.Missing? then {} else {"symbol"})
    + (if r.verdict.Missing? then {} else {"verdict"})
    + (if r.confidence.Missing? then {} else {"confidence"})
    + (if r.value.Missing? then {} else {"value"})
    + (if r.error.Missing? then {} else {"error"})
    + (if r.agentName.Missing? then {} else {"agent_name"})
  }

  /** The error response both the decorator and the base class build. */
  function ErrorResponse(symbol: Entry<string>, error: string, agentName: string): (r: AgentOutput)
    ensures r.verdict == Val("ERROR") && r.confidence == Val(0.0) && r.value == Null
    ensures r.error == Val(error) && r.agentName == Val(agentName) && r.symbol == symbol
  {
    AgentOutput(symbol, Val("ERROR"), Val(0.0), Null, Val(error), Val(agentName))
  }

  /** `result.get("verdict") not in ["ERROR", "NO_DATA", None]`: only such results are cached. */
  predicate Cacheable(r: AgentOutput)
  {
    r.verdict.Val? && r.verdict.v != "ERROR" && r.verdict.v != "NO_DATA"
  }

  /** What a cache lookup produced: the client or the read raised, nothing
      (or an empty string) was stored, the stored text did not decode, or a
      decoded result. */
  datatype CacheRead<T> = ReadFailed(error: string) | Miss | Undecodable | Hit(cached: T)

  /** The `"<owner>:<symbol>"` key both caches use. */
  function SymbolKey(owner: string, symbol: string): (k: string)
    ensures |k| == |owner| + 1 + |symbol|
    ensures k[..|owner|] == owner && k[|owner|] == ':' && k[|owner| + 1..] == symbol
  {
    owner + ":" + symbol
  }

  /** Distinct symbols of the same owner never share a key. */
  lemma SymbolKeyInjective(owner: string, a: string, b: string)
    requires SymbolKey(owner, a) == SymbolKey(owner, b)
    ensures a == b
  {
    assert a == SymbolKey(owner, a)[|owner| + 1..];
  }
}

=== FILE: retry.dfy ===
/** The retry decorators `async_retry` and `retry` and the classifier
    `is_rate_limit_error` of backend/utils/retry_utils.py.

    The two decorators run the same loop (one awaits, the other blocks), so
    one model covers both. The wrapped call is a function from the 0-based
    attempt number to its outcome; `random.uniform(0.8, 1.2)` is a function
    from the 1-based retry number to the factor drawn before that retry. */
module Retry {
  import opened Common

  /** The decorator's parameters. `retry_exceptions` becomes a predicate on
      the error message; its default `(Exception,)` is the predicate that
      holds everywhere. */
  datatype RetryConfig = RetryConfig(
    maxRetries: int,
    baseDelay: real,
    maxDelay: real,
    backoffFactor: real,
    jitter: bool)

  const DefaultConfig := RetryConfig(3, 1.0, 30.0, 2.0, true)

  /** What one decorated call did: its outcome, how many times the wrapped
      function ran, the sleeps between runs, and the retry numbers handed
      to `on_retry` (the callback is called exactly when it is given). */
  datatype RetryRun<T> = RetryRun(
    outcome: Attempt<T>,
    calls: nat,
    sleeps: seq<real>,
    notified: seq<nat>)

  /** The value of `delay` after `n` failures: `base_delay`, then multiplied by
      the factor and capped at `max_delay` after each failure. */
  function DelayAfter(cfg: RetryConfig, n: nat): real
  {
    if n == 0 then cfg.baseDelay
    else
      var grown := DelayAfter(cfg, n - 1) * cfg.backoffFactor;
      if grown <= cfg.maxDelay then grown else cfg.maxDelay
  }

  /** The sleep before retry number `k` (1-based): the current delay, scaled
      by the jitter factor when jitter is on, capped at `max_delay`. */
  function SleepBefore(cfg: RetryConfig, factor: real, k: nat): real
    requires k >= 1
  {
    CurrentDelay(cfg, DelayAfter(cfg, k - 1), factor)
  }

  /** `current_delay` computed from `delay` and the drawn jitter factor. */
  function CurrentDelay(cfg: RetryConfig, delay: real, factor: real): real
  {
    if cfg.jitter then Min(cfg.maxDelay, delay * factor) else Min(cfg.maxDelay, delay)
  }

  /** The loop of the wrapper from the state `retries` failures so far, with
      `delay` the current value of the local variable. */
  function RunFrom<T>(
    cfg: RetryConfig,
    call: nat -> Attempt<T>,
    retryable: string -> bool,
    jitterFactor: nat -> real,
    retries: nat,
    delay: real): (r: RetryRun<T>)
    requires delay == DelayAfter(cfg, retries)
    requires retries <= cfg.maxRetries || retries == 0
    decreases cfg.maxRetries - retries
    // the wrapped function ran at least once more, and at most up to the retry budget
    ensures retries < r.calls
    ensures r.calls <= (if cfg.maxRetries < retries then retries else cfg.maxRetries) + 1
    // the outcome is that of the last run, and every earlier run raised a retryable error
    ensures r.outcome == call(r.calls - 1)
    ensures forall i :: retries <= i < r.calls - 1 ==> call(i).Raised? && retryable(call(i).error)
    // a failure is returned only when the error was not retryable or the budget was spent
    ensures r.outcome.Raised? ==>
      !retryable(r.outcome.error) || r.calls == (if cfg.maxRetries < retries then retries else cfg.maxRetries) + 1
    // one sleep and one `on_retry` call before every further run, numbered from retries + 1
    ensures |r.sleeps| == |r.notified| == r.calls - 1 - retries
    ensures forall i :: 0 <= i < |r.notified| ==> r.notified[i] == retries + i + 1
    ensures forall i :: 0 <= i < |r.sleeps| ==> r.sleeps[i] == SleepBefore(cfg, jitterFactor(retries + i + 1), retries + i + 1)
  {
    match call(retries)
    case Returned(v) => RetryRun(Returned(v), retries + 1, [], [])
    case Raised(e) =>
      if !retryable(e) then RetryRun(Raised(e), retries + 1, [], [])
      else
        var next := retries + 1;
        if next > cfg.maxRetries then RetryRun(Raised(e), retries + 1, [], [])
        else
          var current := SleepBefore(cfg, jitterFactor(next), next);
          var rest := RunFrom(cfg, call, retryable, jitterFactor, next, Min(cfg.maxDelay, delay * cfg.backoffFactor));
          RetryRun(rest.outcome, rest.calls, [current] + rest.sleeps, [next] + rest.notified)
  }

  /** One call of the decorated function. */
  function Run<T>(
    cfg: RetryConfig,
    call: nat -> Attempt<T>,
    retryable: string -> bool,
    jitterFactor: nat -> real): (r: RetryRun<T>)
    // at least one and at most max_retries + 1 runs
    ensures 1 <= r.calls <= (if cfg.maxRetries < 0 then 0 else cfg.maxRetries) + 1
    // the first success is returned at once: nothing ran after it
    ensures r.outcome.Returned? ==> r.outcome == call(r.calls - 1)
    ensures forall i :: 0 <= i < r.calls - 1 ==> call(i).Raised? && retryable(call(i).error)
    // a failure re-raises the last error, which was not retryable or came from the last run the budget allows
    ensures r.outcome.Raised? ==> r.outcome == call(r.calls - 1)
    ensures r.outcome.Raised? ==>
      !retryable(r.outcome.error) || r.calls == (if cfg.maxRetries < 0 then 0 else cfg.maxRetries) + 1
    // `on_retry` sees 1, 2, ..., calls - 1, and each run after the first was preceded by a sleep
    ensures |r.sleeps| == |r.notified| == r.calls - 1
    ensures forall i :: 0 <= i < |r.notified| ==> r.notified[i] == i + 1
    ensures forall i :: 0 <= i < |r.sleeps| ==> r.sleeps[i] == SleepBefore(cfg, jitterFactor(i + 1), i + 1)
  {
    RunFrom(cfg, call, retryable, jitterFactor, 0, cfg.baseDelay)
  }

  /** The first success among the first max_retries + 1 runs is what the decorated call returns. */
  lemma FirstSuccessReturned<T>(
    cfg: RetryConfig, call: nat -> Attempt<T>, retryable: string -> bool, jitterFactor: nat -> real, k: nat)
    requires k <= cfg.maxRetries
    requires forall i :: 0 <= i < k ==> call(i).Raised? && retryable(call(i).error)
    requires call(k).Returned?
    ensures Run(cfg, call, retryable, jitterFactor).outcome == call(k)
    ensures Run(cfg, call, retryable, jitterFactor).calls == k + 1
  {
  }

  /** When every run raises a retryable error, the wrapped function runs
      exactly max_retries + 1 times and the last error is re-raised. */
  lemma AllFailuresExhaustBudget<T>(
    cfg: RetryConfig, call: nat -> Attempt<T>, retryable: string -> bool, jitterFactor: nat -> real)
    requires cfg.maxRetries >= 0
    requires forall i :: 0 <= i <= cfg.maxRetries ==> call(i).Raised? && retryable(call(i).error)
    ensures Run(cfg, call, retryable, jitterFactor).calls == cfg.maxRetries + 1
    ensures Run(cfg, call, retryable, jitterFactor).outcome == call(cfg.maxRetries)
    ensures Run(cfg, call, retryable, jitterFactor).notified == SeqFrom1(cfg.maxRetries)
  {
  }

  /** [1, 2, ..., n]. */
  function SeqFrom1(n: nat): (r: seq<nat>)
    ensures |r| == n
    ensures forall i :: 0 <= i < n ==> r[i] == i + 1
  {
    if n == 0 then [] else SeqFrom1(n - 1) + [n]
  }

  /** x · f^n, one multiplication per step. */
  function Grow(x: real, f: real, n: nat): real
  {
    if n == 0 then x else Grow(x, f, n - 1) * f
  }

  /** One capped step keeps two delays that agree under the cap in agreement. */
  lemma CappedStep(m: real, d: real, p: real, f: real)
    requires m >= 0.0 && f >= 1.0
    requires Min(m, d) == Min(m, p)
    ensures Min(m, d * f) == Min(m, p * f)
  {
    if d <= m && p <= m {
    } else if d <= m {
      MulAtLeast(d, f);
      MulAtLeast(p, f);
    } else {
      MulAtLeast(d, f);
      MulAtLeast(p, f);
    }
  }

  lemma MulAtLeast(x: real, f: real)
    requires x >= 0.0 && f >= 1.0
    ensures x * f >= x
  {
    assert x * f - x == x * (f - 1.0);
  }

  /** Capped by `max_delay`, the iterated delay agrees with the closed form
      min(max_delay, base_delay · factor^n). */
  lemma {:induction false} DelayClosedForm(cfg: RetryConfig, n: nat)
    requires cfg.backoffFactor >= 1.0 && cfg.maxDelay >= 0.0
    ensures Min(cfg.maxDelay, DelayAfter(cfg, n)) == Min(cfg.maxDelay, Grow(cfg.baseDelay, cfg.backoffFactor, n))
  {
    if n > 0 {
      DelayClosedForm(cfg, n - 1);
      ClosedFormStep(cfg, n);
    }
  }

  /** The inductive step of the closed form. */
  lemma ClosedFormStep(cfg: RetryConfig, n: nat)
    requires n > 0 && cfg.backoffFactor >= 1.0 && cfg.maxDelay >= 0.0
    requires Min(cfg.maxDelay, DelayAfter(cfg, n - 1)) == Min(cfg.maxDelay, Grow(cfg.baseDelay, cfg.backoffFactor, n - 1))
    ensures Min(cfg.maxDelay, DelayAfter(cfg, n)) == Min(cfg.maxDelay, Grow(cfg.baseDelay, cfg.backoffFactor, n))
  {
    var m, f := cfg.maxDelay, cfg.backoffFactor;
    var d, p := DelayAfter(cfg, n - 1), Grow(cfg.baseDelay, f, n - 1);
    DelayStep(cfg, n);
    GrowStep(cfg.baseDelay, f, n);
    CappedAgreement(m, f, d, p, DelayAfter(cfg, n), Grow(cfg.baseDelay, f, n));
  }

  /** The closed-form step over plain numbers: `dn` is `d` grown and capped,
      `gn` is `p` grown. */
  lemma CappedAgreement(m: real, f: real, d: real, p: real, dn: real, gn: real)
    requires m >= 0.0 && f >= 1.0 && Min(m, d) == Min(m, p)
    requires dn == (if d * f <= m then d * f else m) && gn == p * f
    ensures Min(m, dn) == Min(m, gn)
  {
    CappedStep(m, d, p, f);
  }

  lemma DelayStep(cfg: RetryConfig, n: nat)
    requires n > 0
    ensures var grown := DelayAfter(cfg, n - 1) * cfg.backoffFactor;
      DelayAfter(cfg, n) == if grown <= cfg.maxDelay then grown else cfg.maxDelay
  {
  }

  lemma GrowStep(x: real, f: real, n: nat)
    requires n > 0
    ensures Grow(x, f, n) == Grow(x, f, n - 1) * f
  {
  }

  /** Without jitter, the sleep before retry k is min(max_delay, base_delay · factor^(k-1)). */
  lemma NoJitterSchedule(cfg: RetryConfig, jitterFactor: nat -> real, k: nat)
    requires !cfg.jitter && k >= 1
    requires cfg.backoffFactor >= 1.0 && cfg.maxDelay >= 0.0
    ensures SleepBefore(cfg, jitterFactor(k), k) == Min(cfg.maxDelay, Grow(cfg.baseDelay, cfg.backoffFactor, k - 1))
  {
    DelayClosedForm(cfg, k - 1);
  }

  /** Without jitter and with factor ≥ 1, the sleeps never shrink and never exceed `max_delay`. */
  lemma NoJitterNonDecreasing(cfg: RetryConfig, jitterFactor: nat -> real, k: nat)
    requires !cfg.jitter && k >= 1
    requires cfg.backoffFactor >= 1.0 && cfg.baseDelay >= 0.0 && cfg.maxDelay >= 0.0
    ensures SleepBefore(cfg, jitterFactor(k), k) <= SleepBefore(cfg, jitterFactor(k + 1), k + 1) <= cfg.maxDelay
  {
    DelayNonNegative(cfg, k - 1);
    MulAtLeast(DelayAfter(cfg, k - 1), cfg.backoffFactor);
  }

  lemma {:induction false} DelayNonNegative(cfg: RetryConfig, n: nat)
    requires cfg.baseDelay >= 0.0 && cfg.maxDelay >= 0.0 && cfg.backoffFactor >= 0.0
    ensures DelayAfter(cfg, n) >= 0.0
  {
    if n > 0 {
      DelayNonNegative(cfg, n - 1);
      MulNonNegative(DelayAfter(cfg, n - 1), cfg.backoffFactor);
    }
  }

  lemma MulNonNegative(x: real, y: real)
    requires x >= 0.0 && y >= 0.0
    ensures x * y >= 0.0
  {
  }

  lemma MulMonotone(x: real, a: real, b: real)
    requires x >= 0.0 && a <= b
    ensures x * a <= x * b
  {
    MulNonNegative(x, b - a);
    assert x * b - x * a == x * (b - a);
  }

  /** The bounds of `random.uniform(0.8, 1.2)`. */
  const JitterLow: real := 0.8
  const JitterHigh: real := 1.2

  /** With jitter drawn from [0.8, 1.2], each sleep is within [0, max_delay]
      and between the capped 0.8 and 1.2 multiples of the current delay. */
  lemma JitterBounds(cfg: RetryConfig, jitterFactor: nat -> real, k: nat)
    requires cfg.jitter && k >= 1
    requires JitterLow <= jitterFactor(k) <= JitterHigh
    requires cfg.baseDelay >= 0.0 && cfg.maxDelay >= 0.0 && cfg.backoffFactor >= 0.0
    ensures 0.0 <= SleepBefore(cfg, jitterFactor(k), k) <= cfg.maxDelay
    ensures Min(cfg.maxDelay, DelayAfter(cfg, k - 1) * JitterLow) <= SleepBefore(cfg, jitterFactor(k), k)
    ensures SleepBefore(cfg, jitterFactor(k), k) <= Min(cfg.maxDelay, DelayAfter(cfg, k - 1) * JitterHigh)
  {
    var d, j := DelayAfter(cfg, k - 1), jitterFactor(k);
    DelayNonNegative(cfg, k - 1);
    JitteredSleep(cfg, j, k);
    assert CurrentDelay(cfg, d, j) == Min(cfg.maxDelay, d * j);
    JitteredWithin(cfg.maxDelay, d, j, JitterLow, JitterHigh);
  }

  lemma JitteredSleep(cfg: RetryConfig, factor: real, k: nat)
    requires cfg.jitter && k >= 1
    ensures SleepBefore(cfg, factor, k) == CurrentDelay(cfg, DelayAfter(cfg, k - 1), factor)
  {
  }

  /** A delay scaled by a factor in [lo, hi] and capped lies between the
      capped `lo` and `hi` multiples. */
  lemma JitteredWithin(m: real, d: real, j: real, lo: real, hi: real)
    requires m >= 0.0 && d >= 0.0 && 0.0 <= lo <= j <= hi
    ensures 0.0 <= Min(m, d * j) <= m
    ensures Min(m, d * lo) <= Min(m, d * j) <= Min(m, d * hi)
  {
    MulMonotone(d, lo, j);
    MulMonotone(d, j, hi);
    MulNonNegative(d, j);
    CapWithin(m, d * lo, d * j, d * hi);
  }

  /** Capping at `m >= 0` keeps a non-negative value in [0, m] and preserves order. */
  lemma CapWithin(m: real, a: real, b: real, c: real)
    requires m >= 0.0 && 0.0 <= b && a <= b <= c
    ensures 0.0 <= Min(m, b) <= m
    ensures Min(m, a) <= Min(m, b) <= Min(m, c)
  {
  }

  // ---------------------------------------------------------------------------
  // is_rate_limit_error
  // ---------------------------------------------------------------------------

  const RateLimitIndicators: seq<string> :=
    ["rate limit", "rate exceeded", "too many requests", "429", "throttle", "quota"]

  /** The message, lower-cased, contains one of the indicators. */
  ghost predicate MentionsRateLimit(message: string)
  {
    exists j :: 0 <= j < |RateLimitIndicators| && IsSubstring(RateLimitIndicators[j], Lower(message))
  }

  /** `sub in s`, searched from position `from`. */
  function ContainsFrom(sub: string, s: string, from: nat): (r: bool)
    decreases |s| - from
    ensures r <==> exists i :: from <= i && OccursAt(sub, s, i)
  {
    if from + |sub| > |s| then false
    else if s[from..from + |sub|] == sub then (assert OccursAt(sub, s, from); true)
    else ContainsFrom(sub, s, from + 1)
  }

  function Contains(sub: string, s: string): (r: bool)
    ensures r <==> IsSubstring(sub, s)
  {
    ContainsFrom(sub, s, 0)
  }

  /** `is_rate_limit_error(e)` on `str(e)`. The trailing second test for
      '429' repeats one of the indicators, so it never changes the answer. */
  method IsRateLimitError(message: string) returns (r: bool)
    ensures r <==> MentionsRateLimit(message)
  {
    var errMsg := Lower(message);
    var j := 0;
    while j < |RateLimitIndicators|
      invariant 0 <= j <= |RateLimitIndicators|
      invariant forall k :: 0 <= k < j ==> !IsSubstring(RateLimitIndicators[k], errMsg)
    {
      if Contains(RateLimitIndicators[j], errMsg) {
        assert IsSubstring(RateLimitIndicators[j], Lower(message));
        return true;
      }
      j := j + 1;
    }
    assert RateLimitIndicators[3] == "429";
    r := Contains("429", errMsg);
  }
}

=== FILE: stochastic.dfy ===
/** The decision logic of the stochastic oscillator agent
    (backend/agents/technical/stochastic_oscillator_agent.py): the
    data-length check, the adaptive oversold/overbought bands, the crossover
    verdicts, the regime-calibrated confidence and the cache key.

    The pandas rolling windows are inputs: the agent receives the last two
    values of the slow %K and %D series, `None` standing for NaN. Rounding of
    the reported numbers is not modelled. */
module Stochastic {
  import opened Common
  import Responses

  const AgentName := "stochastic_oscillator_agent"

  /** The first row index at which a chain of rolling windows, each with
      `min_periods` equal to its window, yields a value. */
  function FirstDefinedRow(windows: seq<int>): int
  {
    if |windows| == 0 then 0 else FirstDefinedRow(windows[..|windows| - 1]) + windows[|windows| - 1] - 1
  }

  /** `required_data_points`: just enough rows for the last two rows to lie at
      or past the first row where the slow %D (the %K window, then the
      smoothing, then the %D window) is defined. */
  function RequiredDataPoints(kPeriod: int, dPeriod: int, smoothing: int): (n: int)
    ensures n - 2 == FirstDefinedRow([kPeriod, smoothing, dPeriod])
  {
    assert [kPeriod, smoothing, dPeriod][..2] == [kPeriod, smoothing];
    assert [kPeriod, smoothing][..1] == [kPeriod] && [kPeriod][..0] == [];
    assert FirstDefinedRow([kPeriod]) == kPeriod - 1;
    assert FirstDefinedRow([kPeriod, smoothing]) == (kPeriod - 1) + (smoothing - 1);
    (kPeriod - 1) + (smoothing - 1) + (dPeriod - 1) + 2
  }

  // ---------------------------------------------------------------------------
  // Adaptive thresholds
  // ---------------------------------------------------------------------------

  const BaseOversold := 20.0
  const BaseOverbought := 80.0

  datatype Bands = Bands(oversold: real, overbought: real)

  function Clamp(lo: real, hi: real, x: real): real
  {
    Max(lo, Min(hi, x))
  }

  /** The oversold/overbought thresholds for a regime and a volatility factor.
      A factor other than 1.0 recomputes the oversold level from the base,
      so the regime shift applies only at factor 1.0. */
  function Thresholds(regime: string, volatilityFactor: real): (b: Bands)
    ensures 5.0 <= b.oversold <= 40.0 && 60.0 <= b.overbought <= 95.0
    ensures b.oversold < b.overbought
    ensures volatilityFactor == 1.0 ==> b.overbought == BaseOverbought
    ensures volatilityFactor == 1.0 ==>
              b.oversold == (if regime == "BULL" then 25.0 else if regime == "BEAR" then 15.0 else BaseOversold)
  {
    var shifted := if regime == "BULL" then BaseOversold + 5.0 else if regime == "BEAR" then BaseOversold - 5.0 else BaseOversold;
    var oversold := if volatilityFactor != 1.0 then BaseOversold * (1.0 - (volatilityFactor - 1.0) * 0.2) else shifted;
    var overbought := if volatilityFactor != 1.0 then BaseOverbought * (1.0 + (volatilityFactor - 1.0) * 0.2) else BaseOverbought;
    var lo := Clamp(5.0, 40.0, oversold);
    var hi := Min(95.0, Max(60.0, overbought));
    // the source's fallback when the clamped bands cross is never taken
    if lo >= hi then Bands(BaseOversold, BaseOverbought) else Bands(lo, hi)
  }

  /** Rising volatility widens the bands: a higher factor never raises the
      oversold level nor lowers the overbought level. */
  lemma VolatilityWidensBands(regime: string, v1: real, v2: real)
    requires 1.0 < v1 <= v2
    ensures Thresholds(regime, v2).oversold <= Thresholds(regime, v1).oversold
    ensures Thresholds(regime, v1).overbought <= Thresholds(regime, v2).overbought
  {
  }

  /** Away from factor 1.0 the regime does not move the bands. */
  lemma RegimeIgnoredUnderVolatility(regime: string, volatilityFactor: real)
    requires volatilityFactor != 1.0
    ensures Thresholds(regime, volatilityFactor) == Thresholds("NEUTRAL", volatilityFactor)
  {
  }

  // ---------------------------------------------------------------------------
  // Crossovers and confidence
  // ---------------------------------------------------------------------------

  predicate BullishCross(prevK: real, prevD: real, k: real, d: real)
  {
    prevK <= prevD && k > d
  }

  predicate BearishCross(prevK: real, prevD: real, k: real, d: real)
  {
    prevK >= prevD && k < d
  }

  datatype Call = Call(verdict: string, baseStrength: real)

  /** The verdict and base signal strength of the latest %K/%D pair. */
  function Crossover(prevK: real, prevD: real, k: real, d: real, bands: Bands): (c: Call)
    ensures BullishCross(prevK, prevD, k, d) ==>
      (c.verdict == "BUY_OVERSOLD_CROSS" || c.verdict == "BUY_CROSS_BELOW_50" || c.verdict == "HOLD_BULLISH_CROSS_UPPER")
      && 0.55 <= c.baseStrength <= 1.0
    ensures BearishCross(prevK, prevD, k, d) ==>
      (c.verdict == "SELL_OVERBOUGHT_CROSS" || c.verdict == "SELL_CROSS_ABOVE_50" || c.verdict == "HOLD_BEARISH_CROSS_LOWER")
      && 0.0 <= c.baseStrength <= 0.45
    ensures !BullishCross(prevK, prevD, k, d) && !BearishCross(prevK, prevD, k, d) ==>
      c == Call("HOLD_NEUTRAL", 0.5)
    ensures c.verdict == "BUY_OVERSOLD_CROSS" <==> BullishCross(prevK, prevD, k, d) && k < bands.oversold + 10.0
    ensures c.verdict == "SELL_OVERBOUGHT_CROSS" <==> BearishCross(prevK, prevD, k, d) && k > bands.overbought - 10.0
  {
    if BullishCross(prevK, prevD, k, d) then
      if k < bands.oversold + 10.0 then
        Call("BUY_OVERSOLD_CROSS", if k < bands.oversold then Min(1.0, 0.80 + 0.10) else 0.80)
      else if k < 50.0 then Call("BUY_CROSS_BELOW_50", 0.65)
      else Call("HOLD_BULLISH_CROSS_UPPER", 0.55)
    else if BearishCross(prevK, prevD, k, d) then
      if k > bands.overbought - 10.0 then
        Call("SELL_OVERBOUGHT_CROSS", if k > bands.overbought then Max(0.0, 0.20 - 0.10) else 0.20)
      else if k > 50.0 then Call("SELL_CROSS_ABOVE_50", 0.35)
      else Call("HOLD_BEARISH_CROSS_LOWER", 0.45)
    else Call("HOLD_NEUTRAL", 0.5)
  }

  /** The two crosses exclude each other. */
  lemma CrossesExclusive(prevK: real, prevD: real, k: real, d: real)
    ensures !(BullishCross(prevK, prevD, k, d) && BearishCross(prevK, prevD, k, d))
  {
  }

  /** The regime calibration: a BULL market strengthens buy signals and softens
      sell signals, a BEAR market the reverse. */
  function CalibratedConfidence(base: real, regime: string): (c: real)
    requires 0.0 <= base <= 1.0
    ensures 0.0 <= c <= 1.0
    ensures base == 0.5 || (regime != "BULL" && regime != "BEAR") ==> c == base
    ensures base > 0.5 && regime == "BULL" ==> c >= base
    ensures base < 0.5 && regime == "BEAR" ==> c <= base
    ensures base < 0.5 && regime == "BULL" ==> base <= c < 0.5
  {
    if base > 0.5 then
      if regime == "BULL" then Min(1.0, base + 0.1)
      else if regime == "BEAR" then base * 0.85
      else base
    else if base < 0.5 then
      if regime == "BEAR" then Max(0.0, base - 0.1)
      else if regime == "BULL" then base + (0.5 - base) * 0.15
      else base
    else base
  }

  // ---------------------------------------------------------------------------
  // The agent's result
  // ---------------------------------------------------------------------------

  /** What the agent learns from the fetched frame: its row count, its column
      labels, and the last two slow %K and %D values. */
  datatype Frame = Frame(rows: nat, columns: set<string>,
                         latestK: Option<real>, latestD: Option<real>, prevK: Option<real>, prevD: Option<real>)

  /** `df.empty`: pandas calls a frame empty when either axis has length 0. */
  predicate Empty(f: Frame)
  {
    f.rows == 0 || |f.columns| == 0
  }

  /** The high, low and close columns are all present. */
  predicate HasOhlc(f: Frame)
  {
    "high" in f.columns && "low" in f.columns && "close" in f.columns
  }

  datatype Outcome =
    | NoData(reason: string)
    | Failed(error: string)
    | Signal(verdict: string, confidence: real, value: real, score: real, bands: Bands)

  /** The frame is empty or has too few rows for the rolling windows. */
  predicate Short(fetch: Attempt<Option<Frame>>, required: int)
  {
    fetch.Returned? && fetch.value.Some? && (Empty(fetch.value.value) || fetch.value.value.rows < required)
  }

  /** Long enough, with the needed columns, and no NaN in the last two rows. */
  predicate Usable(fetch: Attempt<Option<Frame>>, required: int)
  {
    fetch.Returned? && fetch.value.Some? && !Short(fetch, required)
    && var f := fetch.value.value;
       HasOhlc(f) && f.latestK.Some? && f.latestD.Some? && f.prevK.Some? && f.prevD.Some?
  }

  /** The signal reports %K − %D, the crossover verdict of the frame, its base
      strength as the score, and that strength calibrated by the regime as the
      confidence. */
  predicate Reports(f: Frame, regime: string, r: Outcome)
    requires r.Signal?
  {
    f.latestK.Some? && f.latestD.Some? && f.prevK.Some? && f.prevD.Some?
    && var call := Crossover(f.prevK.value, f.prevD.value, f.latestK.value, f.latestD.value, r.bands);
       r.value == f.latestK.value - f.latestD.value
       && r.verdict == call.verdict
       && r.score == call.baseStrength
       && r.confidence == CalibratedConfidence(call.baseStrength, regime)
  }

  /** `_execute`: `fetch` is the outcome of `fetch_ohlcv_series`, `regime` and
      `volatilityFactor` the market context (defaults "UNKNOWN" and 1.0). */
  function Execute(fetch: Attempt<Option<Frame>>, kPeriod: int, dPeriod: int, smoothing: int,
                   regime: string, volatilityFactor: real): (r: Outcome)
    ensures fetch.Raised? ==> r == Failed(fetch.error)
    ensures fetch == Returned(None) ==> r.NoData?
    ensures Short(fetch, RequiredDataPoints(kPeriod, dPeriod, smoothing)) ==> r.NoData?
    ensures fetch.Returned? && r.Failed? <==>
              fetch.Returned? && fetch.value.Some? && !Short(fetch, RequiredDataPoints(kPeriod, dPeriod, smoothing))
              && !HasOhlc(fetch.value.value)
    ensures fetch.Returned? && r.Failed? ==> r.error == "Missing OHLC columns."
    ensures r.Signal? <==> Usable(fetch, RequiredDataPoints(kPeriod, dPeriod, smoothing))
    ensures r.Signal? ==> 0.0 <= r.confidence <= 1.0 && 0.0 <= r.score <= 1.0
    ensures r.Signal? ==> r.bands == Thresholds(regime, volatilityFactor)
    ensures r.Signal? ==> Reports(fetch.value.value, regime, r)
  {
    match fetch
    case Raised(e) => Failed(e)
    case Returned(None) => NoData("Insufficient OHLCV data")
    case Returned(Some(f)) =>
      if Empty(f) || f.rows < RequiredDataPoints(kPeriod, dPeriod, smoothing) then NoData("Insufficient OHLCV data")
      else if !HasOhlc(f) then Failed("Missing OHLC columns.")
      else if f.latestK.None? || f.latestD.None? || f.prevK.None? || f.prevD.None? then
        NoData("NaN values in K or D series after rolling, likely due to gaps in data.")
      else
        var bands := Thresholds(regime, volatilityFactor);
        var call := Crossover(f.prevK.value, f.prevD.value, f.latestK.value, f.latestD.value, bands);
        Signal(call.verdict, CalibratedConfidence(call.baseStrength, regime), f.latestK.value - f.latestD.value,
               call.baseStrength, bands)
  }

  /** A frame with rows but no columns at all is empty: the agent reports
      NO_DATA rather than missing columns. */
  lemma ColumnlessFrameIsNoData(rows: nat, kPeriod: int, dPeriod: int, smoothing: int, regime: string, volatilityFactor: real)
    ensures Execute(Returned(Some(Frame(rows, {}, None, None, None, None))), kPeriod, dPeriod, smoothing,
                    regime, volatilityFactor).NoData?
  {
  }

  /** What `execute` returns or raises, and whether it writes the result to
      the cache. */
  datatype Served = Served(result: Attempt<Outcome>, cacheWrite: bool)

  /** `execute`: with a cache client, `read` is the outcome of the cache `get`
      and its decoding, and `setError` the exception the cache `set` raises,
      if any; neither call is guarded, so their exceptions escape. A decoded
      entry is returned as is; otherwise `_execute` runs and only a real
      signal (not NO_DATA, not ERROR) is stored. */
  function Run(hasClient: bool, read: Responses.CacheRead<Outcome>, setError: Option<string>,
               fetch: Attempt<Option<Frame>>,
               kPeriod: int, dPeriod: int, smoothing: int, regime: string, volatilityFactor: real): (s: Served)
    ensures hasClient && read.ReadFailed? ==> s == Served(Raised(read.error), false)
    ensures hasClient && read.Hit? ==> s == Served(Returned(read.cached), false)
    ensures s.cacheWrite <==>
      hasClient && (read.Miss? || read.Undecodable?) && Usable(fetch, RequiredDataPoints(kPeriod, dPeriod, smoothing))
    ensures !hasClient || read.Miss? || read.Undecodable? ==>
      s.result == if s.cacheWrite && setError.Some? then Raised(setError.value)
                  else Returned(Execute(fetch, kPeriod, dPeriod, smoothing, regime, volatilityFactor))
  {
    if hasClient && read.ReadFailed? then Served(Raised(read.error), false)
    else if hasClient && read.Hit? then Served(Returned(read.cached), false)
    else
      var r := Execute(fetch, kPeriod, dPeriod, smoothing, regime, volatilityFactor);
      var write := hasClient && r.Signal?;
      Served(if write && setError.Some? then Raised(setError.value) else Returned(r), write)
  }

  /** A signal one run writes is what a later run reading it back returns,
      without running `_execute` or writing again. */
  lemma CachedSignalServedLater(fetch: Attempt<Option<Frame>>, kPeriod: int, dPeriod: int, smoothing: int,
                                regime: string, volatilityFactor: real, setError: Option<string>,
                                laterFetch: Attempt<Option<Frame>>)
    requires Run(true, Responses.Miss, None, fetch, kPeriod, dPeriod, smoothing, regime, volatilityFactor).cacheWrite
    ensures var first := Run(true, Responses.Miss, None, fetch, kPeriod, dPeriod, smoothing, regime, volatilityFactor);
      first.result.Returned?
      && Run(true, Responses.Hit(first.result.value), setError, laterFetch, kPeriod, dPeriod, smoothing, regime, volatilityFactor)
         == Served(first.result, false)
  {
  }

  // ---------------------------------------------------------------------------
  // Cache key
  // ---------------------------------------------------------------------------

  /** Python's string order: code point by code point, a proper prefix first. */
  predicate StrLess(a: string, b: string)
  {
    if |a| == 0 then |b| > 0
    else if |b| == 0 then false
    else a[0] < b[0] || (a[0] == b[0] && StrLess(a[1..], b[1..]))
  }

  lemma {:induction false} StrLessIrreflexive(a: string)
    ensures !StrLess(a, a)
  {
    if |a| > 0 {
      StrLessIrreflexive(a[1..]);
    }
  }

  lemma {:induction false} StrLessAsymmetric(a: string, b: string)
    requires StrLess(a, b)
    ensures !StrLess(b, a)
  {
    if |a| > 0 && |b| > 0 && a[0] == b[0] {
      StrLessAsymmetric(a[1..], b[1..]);
    }
  }

  lemma {:induction false} StrLessTotal(a: string, b: string)
    requires a != b
    ensures StrLess(a, b) || StrLess(b, a)
  {
    if |a| > 0 && |b| > 0 && a[0] == b[0] {
      assert a == [a[0]] + a[1..] && b == [b[0]] + b[1..];
      StrLessTotal(a[1..], b[1..]);
    }
  }

  lemma {:induction false} StrLessTransitive(a: string, b: string, c: string)
    requires StrLess(a, b) && StrLess(b, c)
    ensures StrLess(a, c)
  {
    if |a| > 0 && |b| > 0 && |c| > 0 && a[0] == b[0] && b[0] == c[0] {
      StrLessTransitive(a[1..], b[1..], c[1..]);
    }
  }

  type Kwargs = seq<(string, string)>

  /** Keyword names are unique, as in any Python call. */
  predicate UniqueNames(kw: Kwargs)
  {
    forall i, j :: 0 <= i < j < |kw| ==> kw[i].0 != kw[j].0
  }

  /** Strictly increasing names. */
  predicate SortedByName(kw: Kwargs)
  {
    forall i, j :: 0 <= i < j < |kw| ==> StrLess(kw[i].0, kw[j].0)
  }

  /** Putting a name before the first of a sorted list keeps it sorted. */
  lemma ConsSorted(y: (string, string), t: Kwargs)
    requires SortedByName(t) && (|t| > 0 ==> StrLess(y.0, t[0].0))
    ensures SortedByName([y] + t)
  {
    var u := [y] + t;
    forall i, j | 0 <= i < j < |u|
      ensures StrLess(u[i].0, u[j].0)
    {
      assert u[j] == t[j - 1];
      if i == 0 {
        if j > 1 {
          StrLessTransitive(y.0, t[0].0, t[j - 1].0);
        }
      } else {
        assert u[i] == t[i - 1];
      }
    }
  }

  /** Insert one keyword argument into a list sorted by name. */
  function InsertByName(x: (string, string), s: Kwargs): (r: Kwargs)
    requires SortedByName(s)
    requires forall i :: 0 <= i < |s| ==> s[i].0 != x.0
    ensures SortedByName(r)
    ensures multiset(r) == multiset(s) + multiset{x}
    ensures |r| == |s| + 1 && (r[0] == x || (|s| > 0 && r[0] == s[0]))
  {
    if |s| == 0 then [x]
    else if StrLess(x.0, s[0].0) then
      ConsSorted(x, s);
      [x] + s
    else
      StrLessTotal(x.0, s[0].0);
      assert forall i :: 0 <= i < |s[1..]| ==> s[1..][i] == s[i + 1];
      var rest := InsertByName(x, s[1..]);
      assert s == [s[0]] + s[1..];
      ConsSorted(s[0], rest);
      [s[0]] + rest
  }

  /** `sorted(kwargs.items())`. */
  function SortByName(kw: Kwargs): (r: Kwargs)
    requires UniqueNames(kw)
    ensures SortedByName(r)
    ensures multiset(r) == multiset(kw)
  {
    if |kw| == 0 then []
    else
      var rest := SortByName(kw[1..]);
      assert kw == [kw[0]] + kw[1..];
      assert forall i :: 0 <= i < |rest| ==> rest[i].0 != kw[0].0 by {
        forall i | 0 <= i < |rest|
          ensures rest[i].0 != kw[0].0
        {
          assert rest[i] in multiset(kw[1..]);
          var j :| 0 <= j < |kw[1..]| && kw[1..][j] == rest[i];
          assert kw[j + 1] == rest[i];
        }
      }
      InsertByName(kw[0], rest)
  }

  /** Two non-empty name-sorted lists with the same elements start alike. */
  lemma SortedHeadsEqual(a: Kwargs, b: Kwargs)
    requires SortedByName(a) && SortedByName(b)
    requires multiset(a) == multiset(b) && |a| > 0
    ensures |b| > 0 && a[0] == b[0]
  {
    assert a[0] in multiset(b);
    assert b[0] in multiset(a);
    var i :| 0 <= i < |b| && b[i] == a[0];
    var j :| 0 <= j < |a| && a[j] == b[0];
    if a[0] != b[0] {
      assert StrLess(a[0].0, a[j].0);
      assert StrLess(b[0].0, b[i].0);
      StrLessAsymmetric(a[0].0, b[0].0);
      assert false;
    }
  }

  lemma TailMultiset(s: Kwargs)
    requires |s| > 0
    ensures multiset(s[1..]) == multiset(s) - multiset{s[0]}
  {
    assert s == [s[0]] + s[1..];
  }

  /** Two name-sorted lists with the same elements are the same list. */
  lemma {:induction false} SortedUnique(a: Kwargs, b: Kwargs)
    requires SortedByName(a) && SortedByName(b)
    requires multiset(a) == multiset(b)
    ensures a == b
  {
    if |a| == 0 {
      assert |multiset(b)| == 0;
    } else {
      SortedHeadsEqual(a, b);
      TailMultiset(a);
      TailMultiset(b);
      SortedUnique(a[1..], b[1..]);
      assert a == [a[0]] + a[1..] && b == [b[0]] + b[1..];
    }
  }

  /** `"{k}={v}"` for each pair. */
  function Assignments(kw: Kwargs): (r: seq<string>)
    ensures |r| == |kw|
  {
    if |kw| == 0 then [] else [kw[0].0 + "=" + kw[0].1] + Assignments(kw[1..])
  }

  /** `_generate_cache_key(symbol, agent_outputs, **kwargs)`. */
  function CacheKey(name: string, symbol: string, kw: Kwargs): (k: string)
    requires UniqueNames(kw)
    ensures |k| >= |name| + |symbol| + 2 && k[..|name| + |symbol| + 2] == name + ":" + symbol + ":"
    ensures k[|name| + |symbol| + 2..] == Join(Assignments(SortByName(kw)), ":")
  {
    name + ":" + symbol + ":" + Join(Assignments(SortByName(kw)), ":")
  }

  /** The order in which the parameters are passed does not change the key. */
  lemma CacheKeyOrderIndependent(name: string, symbol: string, kw1: Kwargs, kw2: Kwargs)
    requires UniqueNames(kw1) && UniqueNames(kw2)
    requires multiset(kw1) == multiset(kw2)
    ensures CacheKey(name, symbol, kw1) == CacheKey(name, symbol, kw2)
  {
    SortedUnique(SortByName(kw1), SortByName(kw2));
  }

  /** The keyword arguments `execute` passes to the key, in call order. */
  function DefaultKwargs(): (kw: Kwargs)
    ensures UniqueNames(kw)
  {
    [("k_period", "14"), ("d_period", "3"), ("smoothing", "3")]
  }

  /** The key lists them as d_period, k_period, smoothing. */
  lemma DefaultKwargsSorted()
    ensures SortByName(DefaultKwargs()) == [("d_period", "3"), ("k_period", "14"), ("smoothing", "3")]
  {
    var sorted := [("d_period", "3"), ("k_period", "14"), ("smoothing", "3")];
    assert StrLess("d_period", "k_period");
    assert StrLess("k_period", "smoothing");
    assert StrLess("d_period", "smoothing");
    assert SortedByName(sorted);
    assert multiset(DefaultKwargs()) == multiset(sorted);
    SortedUnique(SortByName(DefaultKwargs()), sorted);
  }
}

=== FILE: strategy.dfy ===
/** The backtesting loop (backend/backtesting/strategy.py): a stream of
    verdicts drives an all-in/all-out position, one equity point per
    verdict. Rounding of the reported values is not modelled; of
    `calculate_metrics` only whether it raises is modelled, not the Sharpe
    ratio and drawdown it computes. */
module Strategy {
  import opened Common

  const DefaultCapital := 100000.0

  /** One verdict entry: its date, the price on that date and the verdict. */
  datatype Entry = Entry(date: string, price: real, verdict: string)

  /** The position: cash and shares held. */
  datatype Book = Book(cash: real, shares: real)

  /** One point of the equity curve. */
  datatype Point = Point(date: string, value: real)

  /** The position after the whole stream, the curve and the last price. */
  datatype Walked = Walked(curve: seq<Point>, book: Book, lastPrice: real)

  /** What `apply_strategy` reports (Sharpe ratio and drawdown left out). */
  datatype Backtest = Backtest(finalValue: real, curve: seq<Point>)

  /** The position marked at a price. */
  function Value(b: Book, price: real): real
  {
    b.cash + b.shares * price
  }

  /** All in cash or all in shares. */
  predicate Flat(b: Book)
  {
    b.cash == 0.0 || b.shares == 0.0
  }

  predicate Buys(e: Entry, b: Book)
  {
    e.verdict == "BUY" && b.cash > 0.0
  }

  predicate Sells(e: Entry, b: Book)
  {
    e.verdict == "SELL" && b.shares > 0.0
  }

  /** One step of the loop: BUY with cash converts all of it to shares (a
      zero price raises ZeroDivisionError), SELL with shares converts all of
      them to cash, anything else leaves the position alone. */
  function Trade(b: Book, e: Entry): (r: Attempt<Book>)
    ensures r.Raised? <==> Buys(e, b) && e.price == 0.0
    ensures r.Returned? && Buys(e, b) ==> r.value.cash == 0.0 && r.value.shares * e.price == b.cash
    ensures r.Returned? && Sells(e, b) && !Buys(e, b) ==> r.value == Book(b.shares * e.price, 0.0)
    ensures !Buys(e, b) && !Sells(e, b) ==> r == Returned(b)
    ensures r.Returned? ==> Flat(r.value) || r.value == b
  {
    if Buys(e, b) then
      if e.price == 0.0 then Raised("float division by zero")
      else Returned(Book(0.0, b.cash / e.price))
    else if Sells(e, b) then Returned(Book(b.shares * e.price, 0.0))
    else Returned(b)
  }

  /** A trade happens at the entry's price, so it does not change the value
      of a flat position at that price (a SELL overwrites the cash, so a
      position holding both would lose its cash). */
  lemma TradeKeepsValue(b: Book, e: Entry)
    requires Flat(b) && Trade(b, e).Returned?
    ensures Value(Trade(b, e).value, e.price) == Value(b, e.price)
  {
    if Buys(e, b) {
      var s := Trade(b, e).value.shares;
      assert s * e.price == b.cash;
    } else if Sells(e, b) {
      var c := b.shares * e.price;
      assert Trade(b, e).value == Book(c, 0.0);
      ZeroTimes(e.price);
    }
  }

  lemma ZeroTimes(p: real)
    ensures 0.0 * p == 0.0
  {
  }

  /** The `for entry in verdicts` loop from position `b`, with `last` the
      price seen before the first entry. */
  function Walk(es: seq<Entry>, b: Book, last: real): (r: Attempt<Walked>)
    ensures (forall i :: 0 <= i < |es| ==> es[i].price != 0.0) ==> r.Returned?
    ensures r.Returned? ==> |r.value.curve| == |es|
    ensures r.Returned? ==> forall i :: 0 <= i < |es| ==> r.value.curve[i].date == es[i].date
    ensures r.Returned? && |es| == 0 ==> r.value.book == b && r.value.lastPrice == last
    ensures r.Returned? && |es| > 0 ==> r.value.lastPrice == es[|es| - 1].price
    ensures r.Returned? && |es| > 0 ==>
              r.value.curve[|es| - 1].value == Value(r.value.book, r.value.lastPrice)
    ensures r.Returned? && Flat(b) ==> Flat(r.value.book)
    decreases |es|
  {
    if |es| == 0 then Returned(Walked([], b, last))
    else
      match Trade(b, es[0])
      case Raised(e) => Raised(e)
      case Returned(b1) =>
        TradeKeepsFlatOrSame(b, es[0]);
        match Walk(es[1..], b1, es[0].price)
        case Raised(e) => Raised(e)
        case Returned(w) =>
          Returned(Walked([Point(es[0].date, Value(b1, es[0].price))] + w.curve, w.book, w.lastPrice))
  }

  lemma TradeKeepsFlatOrSame(b: Book, e: Entry)
    requires Trade(b, e).Returned?
    ensures Flat(b) ==> Flat(Trade(b, e).value)
  {
  }

  /** `apply_strategy(verdicts, capital)`: the loop from all cash, then the
      final value at the last price. An empty stream raises KeyError in
      `calculate_metrics`, which reads the missing `value` column. */
  function ApplyStrategy(es: seq<Entry>, capital: real): (r: Attempt<Backtest>)
    ensures |es| == 0 ==> r.Raised?
    ensures |es| > 0 && (forall i :: 0 <= i < |es| ==> es[i].price != 0.0) ==> r.Returned?
    ensures r.Returned? ==> |r.value.curve| == |es| && r.value.finalValue == r.value.curve[|es| - 1].value
    ensures r.Returned? ==> forall i :: 0 <= i < |es| ==> r.value.curve[i].date == es[i].date
  {
    match Walk(es, Book(capital, 0.0), 0.0)
    case Raised(e) => Raised(e)
    case Returned(w) =>
      if |es| == 0 then Raised("'value'")
      else Returned(Backtest(Value(w.book, w.lastPrice), w.curve))
  }

  /** Every equity point marks the position after that entry's trade at
      that entry's price, which is the value the position had there before
      trading. */
  lemma {:induction false} CurveMarksBeforeTrade(es: seq<Entry>, b: Book, last: real)
    requires Flat(b) && |es| > 0 && Walk(es, b, last).Returned?
    ensures Walk(es, b, last).value.curve[0].value == Value(b, es[0].price)
  {
    TradeKeepsValue(b, es[0]);
  }

  /** Point `k` of the curve is the position after the first `k + 1`
      entries marked at entry `k`'s price. */
  lemma {:induction false} CurveMarksPrefix(es: seq<Entry>, b: Book, last: real, k: nat)
    requires k < |es| && Walk(es, b, last).Returned?
    ensures Walk(es[..k + 1], b, last).Returned?
    ensures Walk(es, b, last).value.curve[k].value == Value(Walk(es[..k + 1], b, last).value.book, es[k].price)
    decreases k
  {
    var b1 := Trade(b, es[0]).value;
    var w := Walk(es[1..], b1, es[0].price).value;
    assert es[..k + 1][0] == es[0];
    assert es[..k + 1][1..] == es[1..][..k];
    if k > 0 {
      CurveMarksPrefix(es[1..], b1, es[0].price, k - 1);
      assert Walk(es, b, last).value.curve[k] == w.curve[k - 1];
    }
  }

  /** At a constant nonzero price nothing is gained or lost: every point of
      the curve and the final position are worth what the start was worth. */
  lemma {:induction false} ConstantPriceKeepsValue(es: seq<Entry>, b: Book, last: real, p: real)
    requires Flat(b) && p != 0.0 && forall i :: 0 <= i < |es| ==> es[i].price == p
    ensures Walk(es, b, last).Returned?
    ensures forall i :: 0 <= i < |es| ==> Walk(es, b, last).value.curve[i].value == Value(b, p)
    ensures Value(Walk(es, b, last).value.book, p) == Value(b, p)
    decreases |es|
  {
    if |es| > 0 {
      var b1 := Trade(b, es[0]).value;
      TradeKeepsValue(b, es[0]);
      TradeKeepsFlatOrSame(b, es[0]);
      ConstantPriceKeepsValue(es[1..], b1, es[0].price, p);
      var w := Walk(es[1..], b1, es[0].price).value;
      assert Walk(es, b, last).value.curve == [Point(es[0].date, Value(b1, p))] + w.curve;
    }
  }

  /** Hence a backtest at a constant nonzero price ends with the capital it
      started with. */
  lemma ConstantPriceEndsWithCapital(es: seq<Entry>, capital: real, p: real)
    requires |es| > 0 && p != 0.0 && forall i :: 0 <= i < |es| ==> es[i].price == p
    ensures ApplyStrategy(es, capital).Returned? && ApplyStrategy(es, capital).value.finalValue == capital
  {
    ConstantPriceKeepsValue(es, Book(capital, 0.0), 0.0, p);
    ZeroTimes(p);
  }

  /** Without a BUY the position never leaves cash: every point is the
      starting cash. */
  lemma {:induction false} NoBuyStaysInCash(es: seq<Entry>, cash: real, last: real)
    requires forall i :: 0 <= i < |es| ==> es[i].verdict != "BUY"
    ensures Walk(es, Book(cash, 0.0), last).Returned?
    ensures Walk(es, Book(cash, 0.0), last).value.book == Book(cash, 0.0)
    ensures forall i :: 0 <= i < |es| ==> Walk(es, Book(cash, 0.0), last).value.curve[i].value == cash
    decreases |es|
  {
    if |es| > 0 {
      var b := Book(cash, 0.0);
      assert Trade(b, es[0]) == Returned(b);
      ZeroTimes(es[0].price);
      NoBuyStaysInCash(es[1..], cash, es[0].price);
      var w := Walk(es[1..], b, es[0].price).value;
      assert Walk(es, b, last).value.curve == [Point(es[0].date, cash)] + w.curve;
    }
  }

  // ---------------------------------------------------------------------------
  // calculate_metrics as written
  // ---------------------------------------------------------------------------

  /** `value.pct_change().fillna(0)` at point `i`: 0 at the first point and
      where 0/0 gives NaN; `None` for the infinite change out of a zero value. */
  function PctChange(curve: seq<Point>, i: nat): (r: Option<real>)
    requires i < |curve|
    ensures i == 0 ==> r == Some(0.0)
    ensures i > 0 && curve[i - 1].value != 0.0 ==>
              r.Some? && r.value * curve[i - 1].value == curve[i].value - curve[i - 1].value
    ensures i > 0 && curve[i - 1].value == 0.0 ==> (r.Some? <==> curve[i].value == 0.0)
  {
    if i == 0 then Some(0.0)
    else if curve[i - 1].value != 0.0 then Some(curve[i].value / curve[i - 1].value - 1.0)
    else if curve[i].value == 0.0 then Some(0.0)
    else None
  }

  /** `returns.std() > 0`: at least two returns (one gives NaN), all finite (an
      infinite one gives NaN, which compares false) and not all equal; the
      first is 0, so some later one is not. */
  predicate Spread(curve: seq<Point>)
  {
    |curve| >= 2
    && (forall i :: 0 <= i < |curve| ==> PctChange(curve, i).Some?)
    && exists i :: 0 < i < |curve| && PctChange(curve, i) != Some(0.0)
  }

  const SqrtNameError := "name 'sqrt' is not defined"

  /** `apply_strategy` as written: the Sharpe ratio of `calculate_metrics`
      calls `sqrt`, which the module never imports, whenever the returns
      spread. */
  function ApplyStrategyAsWritten(es: seq<Entry>, capital: real): (r: Attempt<Backtest>)
    // a run that returns agrees with the corrected backtest
    ensures r.Returned? ==> r == ApplyStrategy(es, capital)
    // a backtest that completes is lost exactly when its returns spread
    ensures ApplyStrategy(es, capital).Returned? ==>
              (r == Raised(SqrtNameError) <==> Spread(ApplyStrategy(es, capital).value.curve))
  {
    match ApplyStrategy(es, capital)
    case Raised(e) => Raised(e)
    case Returned(bt) => if Spread(bt.curve) then Raised(SqrtNameError) else Returned(bt)
  }

  /** As written, every backtest whose positive equity moves at all raises. */
  lemma AsWrittenRaisesWhenValueMoves(es: seq<Entry>, capital: real, i: nat)
    requires ApplyStrategy(es, capital).Returned?
    requires var c := ApplyStrategy(es, capital).value.curve;
      (forall j :: 0 <= j < |c| ==> c[j].value > 0.0) && 0 < i < |c| && c[i].value != c[i - 1].value
    ensures ApplyStrategyAsWritten(es, capital) == Raised(SqrtNameError)
  {
    var c := ApplyStrategy(es, capital).value.curve;
    var r := PctChange(c, i);
    assert r.value * c[i - 1].value != 0.0;
    assert Spread(c);
  }

  /** Buying at 10 and marking at 20 doubles the capital, yet as written the
      run raises instead of reporting it. */
  lemma AsWrittenLosesDoubling()
    ensures ApplyStrategy([Entry("d1", 10.0, "BUY"), Entry("d2", 20.0, "HOLD")], 100.0)
              == Returned(Backtest(200.0, [Point("d1", 100.0), Point("d2", 200.0)]))
    ensures ApplyStrategyAsWritten([Entry("d1", 10.0, "BUY"), Entry("d2", 20.0, "HOLD")], 100.0)
              == Raised(SqrtNameError)
  {
    var es := [Entry("d1", 10.0, "BUY"), Entry("d2", 20.0, "HOLD")];
    assert es[1..] == [Entry("d2", 20.0, "HOLD")];
    assert Trade(Book(100.0, 0.0), es[0]) == Returned(Book(0.0, 10.0));
    assert Trade(Book(0.0, 10.0), es[1]) == Returned(Book(0.0, 10.0));
    WalkStep(es, Book(100.0, 0.0), 0.0);
    WalkStep(es[1..], Book(0.0, 10.0), 10.0);
    assert es[1..][1..] == [];
    assert Walk([], Book(0.0, 10.0), 20.0) == Returned(Walked([], Book(0.0, 10.0), 20.0));
    assert Value(Book(0.0, 10.0), 20.0) == 200.0 && Value(Book(0.0, 10.0), 10.0) == 100.0;
    var w2 := Walked([Point("d2", 200.0)], Book(0.0, 10.0), 20.0);
    assert es[1..][0] == Entry("d2", 20.0, "HOLD");
    assert Trade(Book(0.0, 10.0), es[1..][0]) == Returned(Book(0.0, 10.0));
    assert [Point("d2", 200.0)] + [] == w2.curve;
    assert Walk(es[1..], Book(0.0, 10.0), 10.0) == Returned(w2);
    assert Walk(es, Book(100.0, 0.0), 0.0) == Returned(Walked([Point("d1", 100.0)] + w2.curve, w2.book, w2.lastPrice));
    assert [Point("d1", 100.0)] + w2.curve == [Point("d1", 100.0), Point("d2", 200.0)];
    AsWrittenRaisesWhenValueMoves(es, 100.0, 1);
  }

  /** One step of the loop: the entry's trade, its point, then the rest. */
  lemma WalkStep(es: seq<Entry>, b: Book, last: real)
    requires |es| > 0 && Trade(b, es[0]).Returned?
    ensures var b1 := Trade(b, es[0]).value;
      Walk(es, b, last) == match Walk(es[1..], b1, es[0].price)
        case Raised(e) => Raised(e)
        case Returned(w) => Returned(Walked([Point(es[0].date, Value(b1, es[0].price))] + w.curve, w.book, w.lastPrice))
  {
  }

  /** A run at a constant nonzero price has a flat curve, so even as written
      it completes. */
  lemma ConstantPriceAsWrittenSucceeds(es: seq<Entry>, capital: real, p: real)
    requires |es| > 0 && p != 0.0 && forall i :: 0 <= i < |es| ==> es[i].price == p
    ensures ApplyStrategyAsWritten(es, capital) == ApplyStrategy(es, capital)
    ensures ApplyStrategyAsWritten(es, capital).Returned?
  {
    ConstantPriceKeepsValue(es, Book(capital, 0.0), 0.0, p);
    ZeroTimes(p);
    var c := ApplyStrategy(es, capital).value.curve;
    forall i | 0 < i < |c|
      ensures PctChange(c, i) == Some(0.0)
    {
      assert c[i].value == c[i - 1].value;
    }
  }
}

=== FILE: system_monitor.dfy ===
/** The component readiness monitor of backend/utils/system_monitor.py.

    The monitor keeps each component's status twice: in `components` and in
    the `component_status` entry of its metrics. `datetime.now()` is the
    `now` parameter. */
module SystemMonitor {

  datatype Component = Component(status: string, lastUpdated: real)

  datatype Monitor = Monitor(components: map<string, Component>, componentStatus: map<string, string>, startTime: real)

  const Initializing := "initializing"
  const Healthy := "healthy"

  function NewMonitor(now: real): (m: Monitor)
    ensures Synced(m) && |m.components| == 0
  {
    Monitor(map[], map[], now)
  }

  /** The two copies of every status agree and cover the same names. */
  ghost predicate Synced(m: Monitor)
  {
    m.componentStatus.Keys == m.components.Keys
    && forall n :: n in m.components ==> m.componentStatus[n] == m.components[n].status
  }

  /** `register_component`: a new name starts "initializing"; a known name is left alone. */
  function RegisterComponent(m: Monitor, name: string, now: real): (r: Monitor)
    ensures r.components.Keys == m.components.Keys + {name}
    ensures name in m.components ==> r == m
    ensures name !in m.components ==> r.components[name].status == Initializing
    ensures forall n :: n in m.components ==> r.components[n] == m.components[n]
    ensures Synced(m) ==> Synced(r)
  {
    if name in m.components then m
    else m.(components := m.components[name := Component(Initializing, now)],
            componentStatus := m.componentStatus[name := Initializing])
  }

  /** `update_component_status`: only registered names change, and only their own entry. */
  function UpdateComponentStatus(m: Monitor, name: string, status: string, now: real): (r: Monitor)
    ensures r.components.Keys == m.components.Keys
    ensures name !in m.components ==> r == m
    ensures name in m.components ==> r.components[name].status == status && r.components[name].lastUpdated == now
    ensures forall n :: n in m.components && n != name ==> r.components[n] == m.components[n]
    ensures Synced(m) ==> Synced(r)
  {
    if name !in m.components then m
    else m.(components := m.components[name := Component(status, now)],
            componentStatus := m.componentStatus[name := status])
  }

  datatype Readiness = Readiness(ready: bool, components: map<string, string>)

  /** `is_ready`: ready when every registered component is healthy, with each component's status. */
  function IsReady(m: Monitor): (r: Readiness)
    ensures r.ready <==> forall n :: n in m.components ==> m.components[n].status == Healthy
    ensures r.components.Keys == m.components.Keys
    ensures forall n :: n in m.components ==> r.components[n] == m.components[n].status
  {
    Readiness(
      forall n :: n in m.components ==> m.components[n].status == Healthy,
      map n | n in m.components :: m.components[n].status)
  }

  /** One call on the monitor. */
  datatype Call = Register(name: string, at: real) | Update(name: string, status: string, at: real)

  function Step(m: Monitor, c: Call): Monitor
  {
    match c
    case Register(name, at) => RegisterComponent(m, name, at)
    case Update(name, status, at) => UpdateComponentStatus(m, name, status, at)
  }

  function Run(m: Monitor, calls: seq<Call>): Monitor
    decreases |calls|
  {
    if |calls| == 0 then m else Run(Step(m, calls[0]), calls[1..])
  }

  /** The names some call registers. */
  function Registered(calls: seq<Call>): set<string>
  {
    if |calls| == 0 then {}
    else (if calls[0].Register? then {calls[0].name} else {}) + Registered(calls[1..])
  }

  /** Any series of calls keeps the two status copies equal, and the registered
      names are exactly those of the start plus those some call registered. */
  lemma {:induction false} RunKeepsSynced(m: Monitor, calls: seq<Call>)
    requires Synced(m)
    ensures Synced(Run(m, calls))
    ensures Run(m, calls).components.Keys == m.components.Keys + Registered(calls)
    decreases |calls|
  {
    if |calls| > 0 {
      RunKeepsSynced(Step(m, calls[0]), calls[1..]);
    }
  }

  /** With nothing registered the monitor is ready. */
  lemma EmptyMonitorReady(now: real)
    ensures IsReady(NewMonitor(now)).ready
  {
  }

  /** Registering twice is the same as registering once. */
  lemma RegisterIdempotent(m: Monitor, name: string, t1: real, t2: real)
    ensures RegisterComponent(RegisterComponent(m, name, t1), name, t2) == RegisterComponent(m, name, t1)
  {
  }

  /** A newly registered component keeps the monitor from being ready until it reports healthy. */
  lemma NewComponentNotReady(m: Monitor, name: string, now: real)
    requires name !in m.components
    ensures !IsReady(RegisterComponent(m, name, now)).ready
    ensures IsReady(UpdateComponentStatus(RegisterComponent(m, name, now), name, Healthy, now)).ready
      == IsReady(m).ready
  {
    var r := RegisterComponent(m, name, now);
    assert r.components[name].status != Healthy;
    var u := UpdateComponentStatus(r, name, Healthy, now);
    if IsReady(m).ready {
      forall n | n in u.components
        ensures u.components[n].status == Healthy
      {
        if n != name {
          assert u.components[n] == m.components[n];
        }
      }
    } else {
      var bad :| bad in m.components && m.components[bad].status != Healthy;
      assert u.components[bad] == m.components[bad];
    }
  }
}

=== FILE: technical_utils.dfy ===
/** Helpers of the technical agents (backend/agents/technical/utils.py):
    the relative strength index of a price series and its normalisation to a
    buy score. Prices are finite floats; `None` stands for a NaN result. */
module TechnicalUtils {
  import opened Common

  const OversoldRsi := 30.0
  const OverboughtRsi := 70.0

  /** `normalize_rsi`: 1 at or below 30, 0 at or above 70, linear between. */
  function NormalizeRsi(rsi: real): (n: real)
    ensures 0.0 <= n <= 1.0
    ensures rsi <= OversoldRsi ==> n == 1.0
    ensures rsi >= OverboughtRsi ==> n == 0.0
    ensures OversoldRsi < rsi < OverboughtRsi ==> n * 40.0 == 70.0 - rsi
  {
    if rsi <= OversoldRsi then 1.0
    else if rsi >= OverboughtRsi then 0.0
    else (70.0 - rsi) / 40.0
  }

  /** A higher RSI never gives a higher score. */
  lemma NormalizeRsiMonotone(a: real, b: real)
    requires a <= b
    ensures NormalizeRsi(b) <= NormalizeRsi(a)
  {
  }

  // ---------------------------------------------------------------------------
  // compute_rsi
  // ---------------------------------------------------------------------------

  /** `series.diff().dropna()`. */
  function Deltas(prices: seq<real>): (d: seq<real>)
    ensures |d| == if |prices| == 0 then 0 else |prices| - 1
    ensures forall i :: 0 <= i < |d| ==> d[i] == prices[i + 1] - prices[i]
  {
    if |prices| <= 1 then [] else [prices[1] - prices[0]] + Deltas(prices[1..])
  }

  /** `delta.where(delta > 0, 0)`. */
  function Gains(d: seq<real>): (g: seq<real>)
    ensures |g| == |d| && forall i :: 0 <= i < |d| ==> g[i] == Max(d[i], 0.0)
  {
    if |d| == 0 then [] else [Max(d[0], 0.0)] + Gains(d[1..])
  }

  /** `-delta.where(delta < 0, 0)`. */
  function Losses(d: seq<real>): (l: seq<real>)
    ensures |l| == |d| && forall i :: 0 <= i < |d| ==> l[i] == Max(-d[i], 0.0)
  {
    if |d| == 0 then [] else [Max(-d[0], 0.0)] + Losses(d[1..])
  }

  /** `100 − 100/(1 + rs)`, with rs infinite (an RSI of 100) when the
      average loss is zero. */
  function RsiFromAverages(avgGain: real, avgLoss: real): (rsi: real)
    requires avgGain >= 0.0 && avgLoss >= 0.0
    ensures 0.0 <= rsi <= 100.0
    ensures avgLoss == 0.0 ==> rsi == 100.0
    ensures avgLoss > 0.0 ==> rsi * (avgGain + avgLoss) == 100.0 * avgGain
  {
    if avgLoss == 0.0 then 100.0
    else
      var rs := avgGain / avgLoss;
      RsiIdentity(avgGain, avgLoss);
      100.0 - 100.0 / (1.0 + rs)
  }

  /** `100 − 100/(1 + g/l)` is `100·g/(g + l)`, written without division. */
  lemma RsiIdentity(g: real, l: real)
    requires g >= 0.0 && l > 0.0
    ensures 0.0 <= 100.0 - 100.0 / (1.0 + g / l) <= 100.0
    ensures (100.0 - 100.0 / (1.0 + g / l)) * (g + l) == 100.0 * g
  {
    var q := g / l;
    assert q * l == g;
    assert q >= 0.0;
    var t := 100.0 / (1.0 + q);
    assert t * (1.0 + q) == 100.0;
    assert (1.0 + q) * l == g + l;
    calc {
      t * (g + l);
      == t * ((1.0 + q) * l);
      == (t * (1.0 + q)) * l;
      == 100.0 * l;
    }
    DivAtMost(100.0, 1.0 + q);
  }

  lemma DivAtMost(a: real, b: real)
    requires a > 0.0 && b >= 1.0
    ensures 0.0 < a / b <= a
  {
  }

  lemma MeanNonNegative(s: seq<real>)
    requires |s| > 0 && forall i :: 0 <= i < |s| ==> s[i] >= 0.0
    ensures Mean(s) >= 0.0
  {
    SumNonNegative(s);
  }

  /** The RSI of one window of price changes. */
  function WindowRsi(window: seq<real>): (rsi: real)
    requires |window| > 0
    ensures 0.0 <= rsi <= 100.0
  {
    var g := Gains(window);
    var l := Losses(window);
    MeanNonNegative(g);
    MeanNonNegative(l);
    RsiFromAverages(Mean(g), Mean(l))
  }

  /** `compute_rsi(series, period)`. With no price change at all `iloc[-1]`
      raises IndexError; with fewer changes than `period` the rolling means are
      NaN and so is the result. */
  function ComputeRsi(prices: seq<real>, period: int): (r: Attempt<Option<real>>)
    requires period >= 1
    ensures r.Raised? <==> |prices| <= 1
    ensures r == Returned(None) <==> 1 < |prices| <= period
    ensures r.Returned? && r.value.Some? ==> 0.0 <= r.value.value <= 100.0
    ensures r.Returned? && r.value.Some? ==> r.value.value == WindowRsi(LastN(Deltas(prices), period as nat))
  {
    var d := Deltas(prices);
    if |d| == 0 then Raised("single positional indexer is out-of-bounds")
    else if |d| < period then Returned(None)
    else Returned(Some(WindowRsi(LastN(d, period as nat))))
  }

  /** The last `period` changes of the series, by position. */
  lemma WindowAt(prices: seq<real>, period: int)
    requires period >= 1 && |prices| > period
    ensures var w := LastN(Deltas(prices), period as nat);
            |w| == period && forall i :: 0 <= i < |w| ==>
              w[i] == prices[|prices| - 1 - period + i + 1] - prices[|prices| - 1 - period + i]
  {
    var d := Deltas(prices);
    var w := LastN(d, period as nat);
    var off := |prices| - 1 - period;
    assert |d| == |prices| - 1 && |w| == period && w == d[off..];
    forall i | 0 <= i < |w|
      ensures w[i] == prices[off + i + 1] - prices[off + i]
    {
      assert w[i] == d[off + i];
    }
  }

  /** A window with no fall has the maximal RSI. */
  lemma NoLossWindow(w: seq<real>)
    requires |w| > 0 && forall i :: 0 <= i < |w| ==> w[i] >= 0.0
    ensures WindowRsi(w) == 100.0
  {
    var l := Losses(w);
    assert forall i :: 0 <= i < |l| ==> l[i] == 0.0;
    MeanBounds(l, 0.0, 0.0);
  }

  /** A window with no rise that ends in a fall has RSI 0. */
  lemma NoGainWindow(w: seq<real>)
    requires |w| > 0 && forall i :: 0 <= i < |w| ==> w[i] <= 0.0
    requires w[|w| - 1] < 0.0
    ensures WindowRsi(w) == 0.0
  {
    var g := Gains(w);
    var l := Losses(w);
    assert forall i :: 0 <= i < |g| ==> g[i] == 0.0;
    MeanBounds(g, 0.0, 0.0);
    MeanPositive(l);
  }

  /** Prices that never fell have the maximal RSI. */
  lemma RisingPricesRsi100(prices: seq<real>, period: int)
    requires period >= 1 && |prices| > period
    requires forall i :: 0 <= i < |prices| - 1 ==> prices[i] <= prices[i + 1]
    ensures ComputeRsi(prices, period) == Returned(Some(100.0))
  {
    WindowAt(prices, period);
    var w := LastN(Deltas(prices), period as nat);
    assert forall i :: 0 <= i < |w| ==> w[i] >= 0.0 by {
      forall i | 0 <= i < |w|
        ensures w[i] >= 0.0
      {
        var k := |prices| - 1 - period + i;
        assert prices[k] <= prices[k + 1];
      }
    }
    NoLossWindow(w);
  }

  /** Prices that never rose, and fell at the end, have RSI 0. */
  lemma FallingPricesRsi0(prices: seq<real>, period: int)
    requires period >= 1 && |prices| > period
    requires forall i :: 0 <= i < |prices| - 1 ==> prices[i] >= prices[i + 1]
    requires prices[|prices| - 1] < prices[|prices| - 2]
    ensures ComputeRsi(prices, period) == Returned(Some(0.0))
  {
    FallingWindow(prices, period);
    NoGainWindow(LastN(Deltas(prices), period as nat));
  }

  lemma FallingWindow(prices: seq<real>, period: int)
    requires period >= 1 && |prices| > period
    requires forall i :: 0 <= i < |prices| - 1 ==> prices[i] >= prices[i + 1]
    requires prices[|prices| - 1] < prices[|prices| - 2]
    ensures var w := LastN(Deltas(prices), period as nat);
            |w| > 0 && w[|w| - 1] < 0.0 && forall i :: 0 <= i < |w| ==> w[i] <= 0.0
  {
    WindowAt(prices, period);
    var w := LastN(Deltas(prices), period as nat);
    forall i | 0 <= i < |w|
      ensures w[i] <= 0.0
    {
      var k := |prices| - 1 - period + i;
      assert prices[k] >= prices[k + 1];
    }
    assert w[|w| - 1] == prices[|prices| - 1] - prices[|prices| - 2];
  }

  /** Non-negative samples with a positive last one have a positive mean. */
  lemma MeanPositive(s: seq<real>)
    requires |s| > 0 && forall i :: 0 <= i < |s| ==> s[i] >= 0.0
    requires s[|s| - 1] > 0.0
    ensures Mean(s) > 0.0
  {
    SumNonNegative(s[..|s| - 1]);
  }
}

=== FILE: tracker.dfy ===
/** Event tracking of backend/monitor/tracker.py: the `TrackingEvent`
    life cycle, the bounded module-level event history, its filtered query,
    and the active-user gauge.

    `time.time()` and `datetime.now()` are the `now` parameter; the ISO
    `timestamp` strings are represented by the clock reading they print, so
    that comparing them compares the readings. The module-level history is
    passed in and returned explicitly. */
module Tracker {
  import opened Common

  datatype Event = Event(
    eventType: string,
    eventName: string,
    startTime: real,
    endTime: Option<real>,
    duration: Option<real>,
    metadata: map<string, string>,
    status: string,
    timestamp: real)

  /** `_max_event_history`. */
  const MaxEventHistory: nat := 1000

  /** `TrackingEvent(...)`: a falsy start time (missing or 0) is replaced by the clock. */
  function NewEvent(eventType: string, eventName: string, startTime: Option<real>, metadata: map<string, string>, now: real): (e: Event)
    ensures e.startTime == (if startTime.Some? && startTime.value != 0.0 then startTime.value else now)
    ensures e.endTime.None? && e.duration.None? && e.status == "success"
  {
    Event(eventType, eventName,
          if startTime.Some? && startTime.value != 0.0 then startTime.value else now,
          None, None, metadata, "success", now)
  }

  /** `not self.end_time`: no end time yet, or an end time of 0. */
  predicate Unfinished(e: Event)
  {
    e.endTime.None? || e.endTime.value == 0.0
  }

  /** `_add_to_event_history`: append, then keep the last 1000. */
  function AddToEventHistory(history: seq<Event>, e: Event): (r: seq<Event>)
    ensures |r| <= MaxEventHistory
    ensures |r| > 0 && r[|r| - 1] == e
    ensures |history| < MaxEventHistory ==> r == history + [e]
  {
    var h := history + [e];
    if |h| > MaxEventHistory then h[|h| - MaxEventHistory..] else h
  }

  datatype Completion = Completion(event: Event, history: seq<Event>)

  /** `TrackingEvent.complete`: the end time and duration are set only when the
      event is unfinished; status and metadata always change; the event is
      recorded in the history. */
  function Complete(e: Event, status: string, additional: map<string, string>, now: real, history: seq<Event>): (r: Completion)
    ensures Unfinished(e) ==> r.event.endTime == Some(now) && r.event.duration == Some(now - e.startTime)
    ensures !Unfinished(e) ==> r.event.endTime == e.endTime && r.event.duration == e.duration
    ensures r.event.status == status
    ensures r.event.metadata.Keys == e.metadata.Keys + additional.Keys
    ensures forall k :: k in additional ==> r.event.metadata[k] == additional[k]
    ensures forall k :: k in e.metadata && k !in additional ==> r.event.metadata[k] == e.metadata[k]
    ensures r.event.startTime == e.startTime && r.event.timestamp == e.timestamp
    ensures r.history == AddToEventHistory(history, r.event)
  {
    var timed := if Unfinished(e) then e.(endTime := Some(now), duration := Some(now - e.startTime)) else e;
    var done := timed.(status := status, metadata := e.metadata + additional);
    Completion(done, AddToEventHistory(history, done))
  }

  /** Completing a finished event again leaves its timing untouched. */
  lemma CompleteTwiceKeepsTiming(e: Event, s1: string, s2: string, m1: map<string, string>, m2: map<string, string>,
                                 t1: real, t2: real, history: seq<Event>)
    requires t1 != 0.0
    ensures var first := Complete(e, s1, m1, t1, history);
      var second := Complete(first.event, s2, m2, t2, first.history);
      second.event.endTime == first.event.endTime && second.event.duration == first.event.duration
  {
  }

  function AddAll(history: seq<Event>, events: seq<Event>): seq<Event>
  {
    if |events| == 0 then history
    else AddToEventHistory(AddAll(history, events[..|events| - 1]), events[|events| - 1])
  }

  /** The history always holds the last 1000 events ever recorded, oldest first. */
  lemma {:induction false} HistoryKeepsRecent(history: seq<Event>, events: seq<Event>)
    requires |history| <= MaxEventHistory
    ensures AddAll(history, events) == LastN(history + events, MaxEventHistory)
  {
    if |events| == 0 {
      assert history + events == history;
    } else {
      var init := events[..|events| - 1];
      var x := events[|events| - 1];
      HistoryKeepsRecent(history, init);
      LastNAppend(history + init, x, MaxEventHistory);
      assert events == init + [x];
      Regroup(history + events, history + init, history, init, [x]);
    }
  }

  // ---------------------------------------------------------------------------
  // Querying the history
  // ---------------------------------------------------------------------------

  /** Newest first: timestamps never increase along the sequence. */
  ghost predicate NewestFirst(s: seq<Event>)
  {
    forall i, j :: 0 <= i < j < |s| ==> s[i].timestamp >= s[j].timestamp
  }

  /** Place `e` before the first event that is not newer than it. */
  function Insert(e: Event, s: seq<Event>): (r: seq<Event>)
    requires NewestFirst(s)
    ensures NewestFirst(r)
    ensures multiset(r) == multiset(s) + multiset{e}
    ensures |r| == |s| + 1 && (r[0] == e || (|s| > 0 && r[0] == s[0]))
  {
    if |s| == 0 then [e]
    else if s[0].timestamp <= e.timestamp then
      ConsNewestFirst(e, s);
      [e] + s
    else
      var rest := Insert(e, s[1..]);
      assert s == [s[0]] + s[1..];
      assert rest[0].timestamp <= s[0].timestamp;
      ConsNewestFirst(s[0], rest);
      [s[0]] + rest
  }

  /** An event no older than the head of a newest-first sequence may go in front. */
  lemma ConsNewestFirst(x: Event, s: seq<Event>)
    requires NewestFirst(s) && (|s| == 0 || s[0].timestamp <= x.timestamp)
    ensures NewestFirst([x] + s)
  {
    var r := [x] + s;
    forall i, j | 0 <= i < j < |r|
      ensures r[i].timestamp >= r[j].timestamp
    {
      if i > 0 {
        assert r[i] == s[i - 1] && r[j] == s[j - 1];
      } else {
        assert r[j] == s[j - 1];
      }
    }
  }

  /** `sorted(events, key=timestamp, reverse=True)`. */
  function SortNewestFirst(s: seq<Event>): (r: seq<Event>)
    ensures NewestFirst(r)
    ensures multiset(r) == multiset(s)
  {
    if |s| == 0 then []
    else
      assert s == [s[0]] + s[1..];
      Insert(s[0], SortNewestFirst(s[1..]))
  }

  /** A filter argument is applied only when it is truthy: given and non-empty. */
  predicate Matches(filter: Option<string>, field: string)
  {
    filter.None? || |filter.value| == 0 || field == filter.value
  }

  /** The two list comprehensions of `get_event_history`. */
  function Filtered(history: seq<Event>, eventType: Option<string>, status: Option<string>): (r: seq<Event>)
    ensures forall i :: 0 <= i < |r| ==> r[i] in history && Matches(eventType, r[i].eventType) && Matches(status, r[i].status)
    ensures forall e :: e in history && Matches(eventType, e.eventType) && Matches(status, e.status) ==> e in r
  {
    var byType := if eventType.Some? && |eventType.value| > 0 then Filter(history, (e: Event) => e.eventType == eventType.value) else history;
    if status.Some? && |status.value| > 0 then Filter(byType, (e: Event) => e.status == status.value) else byType
  }

  /** No event left out of `r` is newer than an event kept in it. */
  ghost predicate KeepsNewest(r: seq<Event>, all: seq<Event>)
  {
    forall e, i :: e in multiset(all) - multiset(r) && 0 <= i < |r| ==> e.timestamp <= r[i].timestamp
  }

  /** `get_event_history(event_type, limit, status)`: the `limit` newest matching
      events (Python's slice, so a negative limit drops that many of the oldest),
      newest first. */
  function GetEventHistory(history: seq<Event>, eventType: Option<string>, limit: int, status: Option<string>): (r: seq<Event>)
    ensures forall i :: 0 <= i < |r| ==> r[i] in history && Matches(eventType, r[i].eventType) && Matches(status, r[i].status)
    ensures NewestFirst(r)
    ensures multiset(r) <= multiset(Filtered(history, eventType, status))
    ensures KeepsNewest(r, Filtered(history, eventType, status))
    ensures var n := |Filtered(history, eventType, status)|;
      |r| == if limit >= 0 then (if limit <= n then limit else n) else (if n + limit >= 0 then n + limit else 0)
  {
    var byStatus := Filtered(history, eventType, status);
    var sorted := SortNewestFirst(byStatus);
    var r := PyPrefix(sorted, limit);
    PrefixOfSorted(byStatus, sorted, r);
    assert |sorted| == |byStatus| by {
      assert |multiset(sorted)| == |multiset(byStatus)|;
    }
    r
  }

  /** A prefix of a newest-first permutation of `s` is newest first, draws only
      on `s`, and leaves out nothing newer than what it keeps. */
  lemma PrefixOfSorted(s: seq<Event>, sorted: seq<Event>, r: seq<Event>)
    requires NewestFirst(sorted) && multiset(sorted) == multiset(s)
    requires |r| <= |sorted| && r == sorted[..|r|]
    ensures NewestFirst(r)
    ensures forall i :: 0 <= i < |r| ==> r[i] in s
    ensures multiset(r) <= multiset(s)
    ensures KeepsNewest(r, s)
  {
    forall i | 0 <= i < |r|
      ensures r[i] in s
    {
      assert r[i] == sorted[i];
      assert sorted[i] in multiset(sorted);
    }
    var rest := sorted[|r|..];
    assert sorted == r + rest;
    assert multiset(s) == multiset(r) + multiset(rest);
    forall e, i | e in multiset(s) - multiset(r) && 0 <= i < |r|
      ensures e.timestamp <= r[i].timestamp
    {
      assert e in multiset(rest);
      var j :| 0 <= j < |rest| && rest[j] == e;
      assert sorted[|r| + j] == e && sorted[i] == r[i];
    }
  }

  /** With a limit of at least the history's size, every matching event is returned. */
  lemma GetEventHistoryComplete(history: seq<Event>, eventType: Option<string>, limit: int, status: Option<string>, e: Event)
    requires limit >= |history|
    requires e in history && Matches(eventType, e.eventType) && Matches(status, e.status)
    ensures e in GetEventHistory(history, eventType, limit, status)
  {
    var byStatus := Filtered(history, eventType, status);
    var sorted := SortNewestFirst(byStatus);
    assert e in multiset(sorted);
    assert |sorted| == |byStatus| by {
      assert |multiset(sorted)| == |multiset(byStatus)|;
    }
  }

  // ---------------------------------------------------------------------------
  // Active users
  // ---------------------------------------------------------------------------

  function IncrementActiveUsers(count: int): (r: int)
    ensures r == count + 1
  {
    count + 1
  }

  /** `decrement_active_users`: decrement only a positive gauge. */
  function DecrementActiveUsers(count: int): (r: int)
    ensures count > 0 ==> r == count - 1 && r >= 0
    ensures count <= 0 ==> r == count
  {
    if count > 0 then count - 1 else count
  }

  datatype GaugeCall = Increment | Decrement

  function ApplyAll(count: int, calls: seq<GaugeCall>): int
  {
    if |calls| == 0 then count
    else
      var c := ApplyAll(count, calls[..|calls| - 1]);
      if calls[|calls| - 1].Increment? then IncrementActiveUsers(c) else DecrementActiveUsers(c)
  }

  /** From a non-negative count, no series of increments and decrements goes below zero. */
  lemma {:induction false} ActiveUsersNeverNegative(count: int, calls: seq<GaugeCall>)
    requires count >= 0
    ensures ApplyAll(count, calls) >= 0
  {
    if |calls| > 0 {
      ActiveUsersNeverNegative(count, calls[..|calls| - 1]);
    }
  }
}

=== FILE: validation.dfy ===
/** The request validators (backend/utils/validation.py). Python values
    reaching them are modelled by `PyValue`; a raised ValidationError is its
    message, and `None` means validation passed. */
module Validation {
  import opened Common

  datatype PyValue = PyList(items: seq<PyValue>) | PyStr(s: string) | PyOther

  /** `str.isspace` for one character: the characters `str.strip()` removes. */
  predicate IsSpace(c: char)
  {
    c == ' ' || '\t' <= c <= '\r' || '\U{1c}' <= c <= '\U{1f}' || c == '\U{85}' || c == '\U{a0}'
    || c == '\U{1680}' || '\U{2000}' <= c <= '\U{200a}' || c == '\U{2028}' || c == '\U{2029}'
    || c == '\U{202f}' || c == '\U{205f}' || c == '\U{3000}'
  }

  function StripLeft(s: string): (r: string)
    ensures |r| <= |s| && r == s[|s| - |r|..]
    ensures |r| > 0 ==> !IsSpace(r[0])
    ensures forall i :: 0 <= i < |s| - |r| ==> IsSpace(s[i])
  {
    if |s| == 0 || !IsSpace(s[0]) then s else StripLeft(s[1..])
  }

  function StripRight(s: string): (r: string)
    ensures |r| <= |s| && r == s[..|r|]
    ensures |r| > 0 ==> !IsSpace(r[|r| - 1])
    ensures forall i :: |r| <= i < |s| ==> IsSpace(s[i])
  {
    if |s| == 0 || !IsSpace(s[|s| - 1]) then s else StripRight(s[..|s| - 1])
  }

  /** `str.strip()`. */
  function Strip(s: string): (r: string)
    ensures |r| <= |s|
  {
    StripRight(StripLeft(s))
  }

  /** Every character is whitespace. */
  predicate Blank(s: string)
  {
    forall i :: 0 <= i < |s| ==> IsSpace(s[i])
  }

  /** `symbol.strip()` is falsy exactly when the symbol is all whitespace. */
  lemma StripEmptyIffBlank(s: string)
    ensures |Strip(s)| == 0 <==> Blank(s)
  {
    if |Strip(s)| == 0 {
      StripEmptyIsBlank(s);
    } else {
      StripNonEmptyNotBlank(s);
    }
  }

  lemma StripEmptyIsBlank(s: string)
    requires |Strip(s)| == 0
    ensures Blank(s)
  {
    var l := StripLeft(s);
    assert Blank(l);
    assert |l| == 0;
  }

  lemma StripNonEmptyNotBlank(s: string)
    requires |Strip(s)| > 0
    ensures !Blank(s)
  {
    var l := StripLeft(s);
    assert |l| > 0 && !IsSpace(l[0]);
    assert s[|s| - |l|] == l[0];
  }

  /** A symbol `validate_symbols` accepts on its own. */
  predicate Acceptable(v: PyValue)
  {
    v.PyStr? && |Strip(v.s)| > 0
  }

  /** `validate_symbols`. */
  function ValidateSymbols(symbols: seq<PyValue>): (error: Option<string>)
    ensures error.None? <==> (forall i :: 0 <= i < |symbols| ==> Acceptable(symbols[i])) && NoDuplicates(symbols)
    ensures error == Some("All symbols must be non-empty strings") <==> exists i :: 0 <= i < |symbols| && !Acceptable(symbols[i])
  {
    if exists i :: 0 <= i < |symbols| && !Acceptable(symbols[i]) then Some("All symbols must be non-empty strings")
    else if !NoDuplicates(symbols) then Some("Symbols must be unique")
    else None
  }

  /** A symbol made only of whitespace is refused. */
  lemma BlankSymbolRejected(symbols: seq<PyValue>, i: int)
    requires 0 <= i < |symbols| && symbols[i].PyStr?
    requires Blank(symbols[i].s)
    ensures ValidateSymbols(symbols) == Some("All symbols must be non-empty strings")
  {
    StripEmptyIffBlank(symbols[i].s);
  }

  /** `validate_input(min_symbols, max_symbols)` applied to a call with
      positional `args` and keyword `kwargs`: the symbols are the second
      positional argument, else the `symbols` keyword. */
  function ValidateInput(minSymbols: int, maxSymbols: int, args: seq<PyValue>, kwargs: map<string, PyValue>): (error: Option<string>)
    ensures error.None? <==> SymbolsArg(args, kwargs).Some? && SymbolsArg(args, kwargs).value.PyList?
                             && minSymbols <= |SymbolsArg(args, kwargs).value.items| <= maxSymbols
    ensures error == Some("Symbols must be a list") <==> !(SymbolsArg(args, kwargs).Some? && SymbolsArg(args, kwargs).value.PyList?)
  {
    match SymbolsArg(args, kwargs)
    case Some(PyList(items)) =>
      if |items| < minSymbols then Some("At least " + IntToString(minSymbols) + " symbols required")
      else if |items| > maxSymbols then Some("Maximum " + IntToString(maxSymbols) + " symbols allowed")
      else None
    case _ => Some("Symbols must be a list")
  }

  /** `args[1] if len(args) > 1 else kwargs.get("symbols")`. */
  function SymbolsArg(args: seq<PyValue>, kwargs: map<string, PyValue>): (v: Option<PyValue>)
    ensures |args| > 1 ==> v == Some(args[1])
    ensures |args| <= 1 ==> (v.Some? <==> "symbols" in kwargs)
  {
    if |args| > 1 then Some(args[1])
    else if "symbols" in kwargs then Some(kwargs["symbols"])
    else None
  }

  /** A positional symbol list shadows the keyword: the keyword is then not
      looked at. */
  lemma PositionalWins(minSymbols: int, maxSymbols: int, args: seq<PyValue>, kw1: map<string, PyValue>, kw2: map<string, PyValue>)
    requires |args| > 1
    ensures ValidateInput(minSymbols, maxSymbols, args, kw1) == ValidateInput(minSymbols, maxSymbols, args, kw2)
  {
  }
}

=== FILE: valuation_screen.dfy ===
/** `screen_quantitative` (backend/agents/valuation/utils.py): a metric
    screened against its peers, by percentile rank or by z-score. The
    standard deviation is an input, zero exactly when the sample variance is;
    rounding of the reported numbers is not modelled. */
module ValuationScreen {
  import opened Common

  /** `VALUATION_MODE`, `PCT_LOWER`, `PCT_UPPER` and the four z bands. */
  datatype ScreenSettings = ScreenSettings(
    valuationMode: string,
    pctLower: real, pctUpper: real,
    zLowerStrong: real, zLowerMild: real, zUpperMild: real, zUpperStrong: real)

  datatype Screen = Screen(verdict: string, confidence: real, mean: Option<real>, zScore: Option<real>)

  function NoData(): Screen { Screen("NO_DATA", 0.0, None, None) }

  // ---------------------------------------------------------------------------
  // Sorting and ranks
  // ---------------------------------------------------------------------------

  predicate Sorted(s: seq<real>)
  {
    forall i, j :: 0 <= i < j < |s| ==> s[i] <= s[j]
  }

  /** The number of elements strictly below `v`. */
  function CountBelow(s: seq<real>, v: real): (n: nat)
    ensures n <= |s|
  {
    if |s| == 0 then 0 else (if s[0] < v then 1 else 0) + CountBelow(s[1..], v)
  }

  function Insert(x: real, s: seq<real>): (r: seq<real>)
    requires Sorted(s)
    ensures Sorted(r) && multiset(r) == multiset(s) + multiset{x}
    ensures |r| == |s| + 1 && (r[0] == x || (|s| > 0 && r[0] == s[0]))
  {
    if |s| == 0 || x <= s[0] then [x] + s
    else
      assert s == [s[0]] + s[1..];
      [s[0]] + Insert(x, s[1..])
  }

  /** Python's `sorted` on floats. */
  function Sort(s: seq<real>): (r: seq<real>)
    ensures Sorted(r) && multiset(r) == multiset(s)
  {
    if |s| == 0 then []
    else
      assert s == [s[0]] + s[1..];
      Insert(s[0], Sort(s[1..]))
  }

  lemma {:induction false} InsertCountBelow(x: real, s: seq<real>, v: real)
    requires Sorted(s)
    ensures CountBelow(Insert(x, s), v) == CountBelow(s, v) + (if x < v then 1 else 0)
  {
    if |s| > 0 && x > s[0] {
      InsertCountBelow(x, s[1..], v);
      assert Insert(x, s)[1..] == Insert(x, s[1..]);
    }
  }

  /** Sorting does not change how many elements lie below `v`. */
  lemma {:induction false} SortCountBelow(s: seq<real>, v: real)
    ensures CountBelow(Sort(s), v) == CountBelow(s, v)
  {
    if |s| > 0 {
      SortCountBelow(s[1..], v);
      InsertCountBelow(s[0], Sort(s[1..]), v);
    }
  }

  lemma {:induction false} CountBelowAppend(s: seq<real>, x: real, v: real)
    ensures CountBelow(s + [x], v) == CountBelow(s, v) + (if x < v then 1 else 0)
  {
    if |s| > 0 {
      assert (s + [x])[1..] == s[1..] + [x];
      CountBelowAppend(s[1..], x, v);
    }
  }

  /** `list.index`: the first position holding `v`. */
  function IndexOf(s: seq<real>, v: real): (i: nat)
    requires v in s
    ensures i < |s| && s[i] == v && forall k :: 0 <= k < i ==> s[k] != v
  {
    if s[0] == v then 0 else 1 + IndexOf(s[1..], v)
  }

  /** In a sorted list the first `v` sits after exactly the elements below it. */
  lemma {:induction false} IndexOfSorted(s: seq<real>, v: real)
    requires Sorted(s) && v in s
    ensures IndexOf(s, v) == CountBelow(s, v)
  {
    if s[0] != v {
      assert s[0] < v by {
        var j :| 0 <= j < |s| && s[j] == v;
        assert s[0] <= s[j];
      }
      IndexOfSorted(s[1..], v);
    } else {
      AllBelowNone(s, v);
    }
  }

  lemma {:induction false} AllBelowNone(s: seq<real>, v: real)
    requires Sorted(s) && |s| > 0 && s[0] == v
    ensures CountBelow(s, v) == 0
  {
    if |s| > 1 {
      assert s[1..][0] == s[1];
      AllAtLeast(s[1..], v);
    }
  }

  lemma {:induction false} AllAtLeast(s: seq<real>, v: real)
    requires forall i :: 0 <= i < |s| ==> s[i] >= v
    ensures CountBelow(s, v) == 0
  {
    if |s| > 0 {
      AllAtLeast(s[1..], v);
    }
  }

  lemma RatioBelowOne(i: nat, n: nat)
    requires i < n
    ensures 0.0 <= (i as real) / (n as real) < 1.0
  {
  }

  /** `sorted(peers + [value]).index(value) / len(...)`. */
  function PercentileRank(value: real, peers: seq<real>): (rank: real)
    requires |peers| > 0
    ensures rank == (CountBelow(peers, value) as real) / ((|peers| + 1) as real)
    ensures 0.0 <= rank < 1.0
  {
    var all := peers + [value];
    var arr := Sort(all);
    assert value in multiset(all);
    assert |arr| == |all| by {
      assert |multiset(arr)| == |multiset(all)|;
    }
    IndexOfSorted(arr, value);
    SortCountBelow(all, value);
    CountBelowAppend(peers, value, value);
    var i := IndexOf(arr, value);
    assert i == CountBelow(peers, value);
    RatioBelowOne(i, |arr|);
    (i as real) / (|arr| as real)
  }

  // ---------------------------------------------------------------------------
  // z-score
  // ---------------------------------------------------------------------------

  function SquaredDeviations(s: seq<real>, mu: real): (r: seq<real>)
    ensures |r| == |s| && forall i :: 0 <= i < |s| ==> r[i] == (s[i] - mu) * (s[i] - mu)
  {
    if |s| == 0 then [] else SquaredDeviations(s[..|s| - 1], mu) + [(s[|s| - 1] - mu) * (s[|s| - 1] - mu)]
  }

  /** `statistics.variance`, and 0 for fewer than two peers (where the source
      uses a standard deviation of 0.0). */
  function SampleVariance(s: seq<real>): (v: real)
    ensures v >= 0.0
  {
    if |s| <= 1 then 0.0
    else
      var sq := SquaredDeviations(s, Mean(s));
      SumNonNegative(sq);
      Sum(sq) / ((|s| - 1) as real)
  }

  /** `sigma` is the standard deviation of the peers: the non-negative square
      root of the sample variance, so zero exactly when the variance is. */
  predicate StdDev(sigma: real, peers: seq<real>)
  {
    sigma >= 0.0 && sigma * sigma == SampleVariance(peers) && (sigma == 0.0 <==> SampleVariance(peers) == 0.0)
  }

  /** The z-score band. */
  function ZBand(z: real, cfg: ScreenSettings): (verdict: string)
    ensures verdict == "STRONG_UNDERVALUE" <==> z <= cfg.zLowerStrong
    ensures verdict == "STRONG_OVERVALUE" <==> z > cfg.zLowerStrong && z > cfg.zLowerMild && z >= cfg.zUpperMild && z >= cfg.zUpperStrong
    ensures verdict == "UNDERVALUE" <==> cfg.zLowerStrong < z <= cfg.zLowerMild
    ensures verdict == "FAIR_VALUE" <==> cfg.zLowerStrong < z && cfg.zLowerMild < z < cfg.zUpperMild
    ensures verdict == "OVERVALUE" <==> cfg.zLowerStrong < z && cfg.zLowerMild < z && cfg.zUpperMild <= z < cfg.zUpperStrong
  {
    if z <= cfg.zLowerStrong then "STRONG_UNDERVALUE"
    else if z <= cfg.zLowerMild then "UNDERVALUE"
    else if z < cfg.zUpperMild then "FAIR_VALUE"
    else if z < cfg.zUpperStrong then "OVERVALUE"
    else "STRONG_OVERVALUE"
  }

  // ---------------------------------------------------------------------------
  // The screen
  // ---------------------------------------------------------------------------

  /** `screen_quantitative(value, peers)`; `sigma` is `statistics.stdev(peers)`. */
  function ScreenQuantitative(value: Option<real>, peers: seq<real>, sigma: real, cfg: ScreenSettings): (r: Screen)
    requires StdDev(sigma, peers)
    ensures value.None? || |peers| == 0 ==> r == NoData()
    ensures value.Some? && |peers| > 0 && Lower(cfg.valuationMode) == "percentile" ==>
              var rank := (CountBelow(peers, value.value) as real) / ((|peers| + 1) as real);
              r.confidence == Abs(rank - 0.5) * 200.0 && r.mean.None? && r.zScore.None?
              && (r.verdict == "UNDERVALUE" <==> rank <= cfg.pctLower)
              && (r.verdict == "OVERVALUE" <==> rank > cfg.pctLower && rank >= cfg.pctUpper)
              && (r.verdict == "FAIR_VALUE" <==> cfg.pctLower < rank < cfg.pctUpper)
    ensures value.Some? && |peers| > 0 && Lower(cfg.valuationMode) != "percentile" ==>
              r.mean == Some(Mean(peers)) && r.zScore.Some? && r.verdict == ZBand(r.zScore.value, cfg)
              && r.confidence == Min(Abs(r.zScore.value) * 50.0, 100.0)
              && (sigma == 0.0 ==> r.zScore.value == 0.0)
              && (sigma != 0.0 ==> r.zScore.value * sigma == value.value - Mean(peers))
    ensures 0.0 <= r.confidence <= 100.0
  {
    if value.None? || |peers| == 0 then NoData()
    else if Lower(cfg.valuationMode) == "percentile" then
      var rank := PercentileRank(value.value, peers);
      var verdict := if rank <= cfg.pctLower then "UNDERVALUE" else if rank >= cfg.pctUpper then "OVERVALUE" else "FAIR_VALUE";
      Screen(verdict, Abs(rank - 0.5) * 2.0 * 100.0, None, None)
    else
      var mu := Mean(peers);
      var z := if sigma != 0.0 then (value.value - mu) / sigma else 0.0;
      Screen(ZBand(z, cfg), Min(Abs(z) * 50.0, 100.0), Some(mu), Some(z))
  }

  /** Peers that all agree have no spread: the z-score is 0 and, with bands
      straddling 0, the verdict is fair value with no confidence. */
  lemma {:induction false} IdenticalPeersAreFair(value: real, peers: seq<real>, sigma: real, cfg: ScreenSettings)
    requires |peers| > 0 && forall i :: 0 <= i < |peers| ==> peers[i] == peers[0]
    requires StdDev(sigma, peers)
    requires Lower(cfg.valuationMode) != "percentile"
    requires cfg.zLowerStrong < 0.0 && cfg.zLowerMild < 0.0 < cfg.zUpperMild
    ensures ScreenQuantitative(Some(value), peers, sigma, cfg).verdict == "FAIR_VALUE"
    ensures ScreenQuantitative(Some(value), peers, sigma, cfg).confidence == 0.0
  {
    if |peers| > 1 {
      MeanBounds(peers, peers[0], peers[0]);
      var mu := Mean(peers);
      assert mu == peers[0];
      var sq := SquaredDeviations(peers, mu);
      assert forall i :: 0 <= i < |sq| ==> sq[i] == 0.0;
      SumBounds(sq, 0.0, 0.0);
      assert Sum(sq) == 0.0;
      assert SampleVariance(peers) == 0.0;
    }

  }

  /** The cheapest of the peers, screened against them, ranks at the bottom. */
  lemma {:induction false} BelowAllPeersRanksZero(value: real, peers: seq<real>)
    requires |peers| > 0 && forall i :: 0 <= i < |peers| ==> value <= peers[i]
    ensures PercentileRank(value, peers) == 0.0
  {
    AllAtLeast(peers, value);
  }
}
